=== FILE: README.md ===
# MergeAddressesAndBuildings: the conflation engine in Dafny

MergeAddressesAndBuildings is an OpenStreetMap import tool. It takes address
points and building footprints from outside sources, clips them to a boundary
relation, and conflates them with the existing OSM data: addresses go into the
buildings that contain them, duplicate buildings and addresses are dropped, and
overlapping address points are spread apart. What is left is cut into a grid
of task sections. This project models the in-memory engine that does this work
and proves what each step promises.

## What is modelled

| file | module | models |
|---|---|---|
| wrappers.dfy | Wrappers | `Option` and `Result`. A thrown exception becomes an `Err` value. |
| osm_type.dfy | OSMType | Nodes, ways and relations, the bounding-box record with its empty sentinel, the tag keys the merge reads and writes, and the centre of a way or relation. |
| spatial_utilities.dfy | SpatialUtilities | The bounding-box algebra: union with a box or a point, intersection and containment tests. The distance formula is the `DistanceFn` parameter type. |
| osm_dataset.dfy | Datasets | `OSMDataset`. Id-keyed maps of nodes, ways and relations, add/remove/combine, and the bbox and linkage queries. |
| buckets.dfy | BucketIndex | The bucket grid: cell sizes, the row and column of a point, the bucket lists of a box. |
| clip_boundary.dfy | ClipBoundaries | Builds the boundary ring from a relation's ways by walking shared end nodes, and the inside test by winding number (inside when it is not zero). |
| crossing_segments.dfy | CrossingSegments | Segment intersection: slope-intercept lines, the parallel case, the range check. |
| merge_index.dfy | MergeIndex | How buildings and addresses are placed into bucket cells. |
| merge_passes.dfy | MergePasses | Each merge pass as a function on values, with what it keeps and what it removes. |
| merge.dfy | Merging | The `Merge` class. Its fields are updated pass by pass, and each method is proved against the matching function in `MergePasses`. |
| duplicate_address.dfy | DuplicateAddresses | Removal of address nodes that share the same number, street and unit key. |
| node_spreader.dfy | NodeSpreading | Grouping of address nodes at one position, and spreading them out along a bearing. |
| trim_osm_data.dfy | Trimming | Removal of orphan nodes and of data that was never edited. |
| task_sections.dfy | TaskSections | The cells of a way, how ways are linked through shared nodes, and how a way is placed into its section. |
| tasking_interface.dfy | Tasking | `TaskingInterface.WriteTasks`: splits a dataset into one section per grid cell. |
| read_ms_buildings.dfy | MSBuildings | Turns Microsoft building features into nodes and ways inside the clip boundary. |

### Data model

- **Datasets.** A dataset is a class holding three maps, from id to node, way
  and relation.
  - An order sequence beside each map stands for the .NET `Dictionary`
    enumeration order that the program depends on.
  - Adding an entity appends its id to the order, and removing one filters it out.
- **Sharing.** The program shares node objects between ways by reference.
  Here a way holds node ids and a relation holds way ids. A change to a node in
  the map is therefore seen by every way that refers to it.
- **Numbers.** Coordinates are `real`. The `(int)` casts in the bucket and
  section arithmetic are truncation toward zero (`Trunc`), not Dafny's
  Euclidean division.
- **Parameters.** These computations are parameters of the operations that use
  them, and nothing numeric is proved about them:
  - great-circle distance (`ArcFn`, `DistanceFn`);
  - moving a point by a distance and bearing (`MoveFn`);
  - number formatting (`FormatFn`, `MSBuildings.Format`);
  - the boundary test of the building reader (`MSBuildings.Inside`).

### What the merge compares

- **Duplicate buildings.** A new building is a duplicate when its bounding box
  intersects the box of an existing way or relation in a searched bucket
  (`MergeAddressesAndBuildings/Merge.cs:257`). The duplicate is removed and
  the existing geometry is left as it is.
- **Duplicate addresses in the merge.** A new address is a duplicate of an
  existing object when both carry `addr:housenumber` and `addr:street` and
  both values are equal, compared exactly and case-sensitively
  (`MergeAddressesAndBuildings/Merge.cs:300-315`). The unit is not compared.

### Where the code and its documentation differ

In each case below the model follows the code.

- **`CombineDatasets`.** Its doc comment (`OSMDataset.cs:238-239`) says there
  is no duplicate check. The code throws when an id is already present
  (`OSMDataset.cs:253-272`), and the model returns an error there.
- **Parallel segments.** The intersection test applies the start-point overlap
  check to parallel segments on distinct lines too, not only to segments on one
  line. This is recorded under Findings.

## Model

| member | source | states |
|---|---|---|
| OSMType.EmptyBBox | MergeAddressesAndBuildings/OSMType.cs:50-57 | a new box has 999 as both minima and -999 as both maxima, so it is inverted and contains no point |
| OSMType.NewNode | MergeAddressesAndBuildings/OSMType.cs:84-89 | sets exactly the id, lat and lon; tags and attributes start empty and the node is not used |
| OSMType.NewWay | MergeAddressesAndBuildings/OSMType.cs:112-116 | a new way has an empty node list, a fresh (inverted) box, and empty tags and attributes |
| OSMType.NewRelation | MergeAddressesAndBuildings/OSMType.cs:133-137 | a new relation has no linked ways, no members, and empty tags and attributes |
| OSMType.Way.SetCenter | MergeAddressesAndBuildings/OSMType.cs:118-122 | changes only lat and lon, each equidistant from its box's min and max; for a proper box the centre lies in the closed box |
| OSMType.Relation.SetCenter | MergeAddressesAndBuildings/OSMType.cs:139-143 | the same for a relation: only lat and lon change, to the box midpoint, which lies in a proper box |
| OSMType.LocatedAtSymmetric | MergeAddressesAndBuildings/OSMType.cs:98-102 | `LocatedAt` (both axes within 1e-9) is symmetric |
| OSMType.LocatedAtReflexive | MergeAddressesAndBuildings/OSMType.cs:98-102 | every position is located at itself |
| SpatialUtilities.BboxUnion | MergeAddressesAndBuildings/SpatialUtilities.cs:88-99 | the union covers both boxes, and each bound is one of the two operands' bounds |
| SpatialUtilities.BboxUnionPoint | MergeAddressesAndBuildings/SpatialUtilities.cs:107-117 | the union covers the box and contains the point, and each bound is the box's bound or the point's coordinate |
| SpatialUtilities.BboxUnionCommutes | MergeAddressesAndBuildings/SpatialUtilities.cs:88-99 | box union is commutative |
| SpatialUtilities.BboxUnionWithEmpty | MergeAddressesAndBuildings/SpatialUtilities.cs:88-99 | a fresh box is a unit of union for any box with coordinates within plus or minus 999 |
| SpatialUtilities.BBoxIntersectsSymmetric | MergeAddressesAndBuildings/SpatialUtilities.cs:69-79 | the intersection test is symmetric |
| SpatialUtilities.BBoxIntersectsIffCommonPoint | MergeAddressesAndBuildings/SpatialUtilities.cs:69-79 | for proper boxes the test holds iff some point lies in both closed boxes, so touching boxes intersect |
| SpatialUtilities.BBoxContainsHalfOpen | MergeAddressesAndBuildings/SpatialUtilities.cs:121-131 | points on the max edges are never contained; the min corner is contained iff the box has positive extent on both axes; containment implies closed containment |
| SpatialUtilities.IsBetweenIffStrictlyBetween | MergeAddressesAndBuildings/SpatialUtilities.cs:159-162 | `IsBetween(x, a, b)` holds iff x lies strictly between a and b, in either order |
| SpatialUtilities.Positions | MergeAddressesAndBuildings/SpatialUtilities.cs:60 | the positions of a way's nodes, one per listed id, in list order |
| SpatialUtilities.SetBboxFor | MergeAddressesAndBuildings/SpatialUtilities.cs:58-67 | the loop leaves the way unchanged except for its box, which is the old box grown over each node position in order |
| SpatialUtilities.ExtendAllCovers | MergeAddressesAndBuildings/SpatialUtilities.cs:58-67 | the grown box covers the starting box and every node position |
| SpatialUtilities.ExtendAllTight | MergeAddressesAndBuildings/SpatialUtilities.cs:58-67 | every bound of the grown box is the starting bound or some node's coordinate |
| SpatialUtilities.SetBboxForCovers | MergeAddressesAndBuildings/SpatialUtilities.cs:58-67 | after `SetBboxFor` every node of the way lies in its closed box, and the box only grew from its previous value |
| Datasets.PresentRefs | MergeAddressesAndBuildings/OSMDataset.cs:179-186 | every id in a way's node list names a node of the dataset |
| Datasets.PresentRefsMembers | MergeAddressesAndBuildings/OSMDataset.cs:179-186 | an id is in the linked node list exactly when it is one of the way's refs and a known node |
| Datasets.PresentRefsAppend | MergeAddressesAndBuildings/OSMDataset.cs:179-186 | skipping unknown refs keeps the order of the rest: it distributes over concatenation of ref lists |
| Datasets.PresentRefsAllKnown | MergeAddressesAndBuildings/OSMDataset.cs:179-186 | when every ref names a known node the node list is the ref list itself |
| Datasets.PresentWays | MergeAddressesAndBuildings/OSMDataset.cs:115-121 | every way a relation links is a way of the dataset |
| Datasets.PresentWaysMembers | MergeAddressesAndBuildings/OSMDataset.cs:103-123 | a relation links way x exactly when x is known and some member has type "way" and ref x |
| Datasets.WaysBoxCovers | MergeAddressesAndBuildings/OSMDataset.cs:138-143 | the relation box covers the box of every way it links |
| Datasets.LinkRelationBox | MergeAddressesAndBuildings/OSMDataset.cs:138-144 | a relation read from XML links only known ways and its box covers each of their boxes |
| Datasets.LinkWayCovers | MergeAddressesAndBuildings/OSMDataset.cs:176-199 | a way read from XML holds only known nodes and its box contains each of them |
| Datasets.ClearNodeFlags | MergeAddressesAndBuildings/OSMDataset.cs:67-70 | same node ids; every node equals its old value with IsUsed false |
| Datasets.ClearWayFlags | MergeAddressesAndBuildings/OSMDataset.cs:71-74 | same way ids; every way equals its old value with IsUsed false |
| Datasets.LinkMembers | MergeAddressesAndBuildings/OSMDataset.cs:103-123 | every member is kept in order, and the linked ways are exactly the known "way" members in order |
| Datasets.UnionWayBoxes | MergeAddressesAndBuildings/OSMDataset.cs:138-143 | the loop's box is the union, from the sentinel box, of the linked ways' boxes |
| Datasets.OSMDataset.constructor | MergeAddressesAndBuildings/OSMDataset.cs:20-25 | a new dataset has three empty dictionaries (and empty enumeration orders) |
| Datasets.OSMDataset.FromParts | MergeAddressesAndBuildings/OSMDataset.cs:278-281 | the new dataset holds exactly the given dictionaries and orders |
| Datasets.OSMDataset.AddNode | MergeAddressesAndBuildings/OSMDataset.cs:214 | succeeds iff the id is new; on success the node is stored under its id and appended to the enumeration order; on a duplicate nothing changes; ways and relations are untouched |
| Datasets.OSMDataset.AddWay | MergeAddressesAndBuildings/OSMDataset.cs:200 | succeeds iff the id is new; on success the way is stored and appended to the order; on a duplicate nothing changes |
| Datasets.OSMDataset.AddRelation | MergeAddressesAndBuildings/OSMDataset.cs:145 | succeeds iff the id is new; on success the relation is stored and appended to the order; on a duplicate nothing changes |
| Datasets.OSMDataset.RemoveNode | MergeAddressesAndBuildings/TrimOSMData.cs:32-35 | removes the id from the node dictionary and its order (no-op when absent); nothing else changes |
| Datasets.OSMDataset.RemoveWay | MergeAddressesAndBuildings/TrimOSMData.cs:88-91 | removes the id from the way dictionary and its order (no-op when absent); nothing else changes |
| Datasets.OSMDataset.RemoveRelation | MergeAddressesAndBuildings/TrimOSMData.cs:83-86 | removes the id from the relation dictionary and its order (no-op when absent); nothing else changes |
| Datasets.OSMDataset.UpdateNode | MergeAddressesAndBuildings/NodeSpreader.cs:69-71 | the shared node object is updated in place: only that node's entry changes and the orders stay |
| Datasets.OSMDataset.UpdateWay | MergeAddressesAndBuildings/Merge.cs:342 | the shared way object is updated in place: only that way's entry changes and the orders stay |
| Datasets.OSMDataset.UpdateRelation | MergeAddressesAndBuildings/Merge.cs:342 | the shared relation object is updated in place: only that relation's entry changes |
| Datasets.OSMDataset.SetNodeUsed | MergeAddressesAndBuildings/TrimOSMData.cs:21 | sets IsUsed on exactly one node; everything else is unchanged |
| Datasets.OSMDataset.SetWayUsed | MergeAddressesAndBuildings/TrimOSMData.cs:53 | sets IsUsed on exactly one way; everything else is unchanged |
| Datasets.OSMDataset.SetWays | MergeAddressesAndBuildings/ClipBoundary.cs:119 | way objects are changed in place, so the way dictionary keeps its ids and each way its key; nodes, relations and orders are unchanged |
| Datasets.OSMDataset.ResetUsedFlag | MergeAddressesAndBuildings/OSMDataset.cs:65-75 | every node and every way keeps its id and all fields but has IsUsed false; relations and orders unchanged |
| Datasets.OSMDataset.HandleNodeRead | MergeAddressesAndBuildings/OSMDataset.cs:207-235 | succeeds iff the id is new; the stored node has the parsed id, position, attributes and tags and its id joins the end of the node order; a duplicate is the DuplicateNode error and changes nothing; ways, relations and their orders stay |
| Datasets.OSMDataset.HandleWayRead | MergeAddressesAndBuildings/OSMDataset.cs:162-202 | succeeds iff the id is new; the stored way keeps the known refs in order, its box grows over them, it sits at the box centre, and its id joins the end of the way order; a duplicate is the DuplicateWay error and changes nothing; a linked dataset stays linked |
| Datasets.OSMDataset.HandleRelationRead | MergeAddressesAndBuildings/OSMDataset.cs:86-146 | succeeds iff the id is new; all members are kept, known way members are linked, the box is the union of their boxes, and its id joins the end of the relation order; a duplicate is the DuplicateRelation error and changes nothing; a linked dataset stays linked |
| Datasets.TryAddAll | MergeAddressesAndBuildings/OSMDataset.cs:251-258 | succeeds iff no key of the added dictionary is already present; the result is the disjoint union with orders concatenated; on failure the reported id is in both |
| Datasets.AddDataset | MergeAddressesAndBuildings/OSMDataset.cs:249-275 | adding the i-th dataset's entities of one kind fails only when two datasets share an id, and the reported id is in dataset i and in an earlier one; otherwise the accumulator is the union of the first i+1 |
| Datasets.AddTables | MergeAddressesAndBuildings/OSMDataset.cs:249-275 | one pass of the outer loop adds all three kinds of the i-th dataset, failing only on an id shared by two datasets |
| Datasets.CombineTables | MergeAddressesAndBuildings/OSMDataset.cs:243-284 | succeeds iff no node, way or relation id is held by two datasets, and an error names an id of its kind that two of the datasets hold; the result is the union of the dictionaries with their orders concatenated |
| Datasets.CombineDatasets | MergeAddressesAndBuildings/OSMDataset.cs:243-284 | a fresh dataset; succeeds iff no id is shared across datasets, and an error names an id two of them hold; holds exactly the union of all inputs' dictionaries |
| Datasets.UnionAllPick | MergeAddressesAndBuildings/OSMDataset.cs:245-283 | when no id is held twice, each input entity sits unchanged in the combined dictionary |
| BucketIndex.Trunc | MergeAddressesAndBuildings/Buckets.cs:115-116 | C#'s `(int)` cast: the integer part toward zero, so within 1 below a non-negative value and within 1 above a negative one |
| BucketIndex.AddBuffer | MergeAddressesAndBuildings/Buckets.cs:97-104 | each edge moves out by exactly 0.001 degrees, so the result covers the input and a proper box stays proper |
| BucketIndex.BoundaryBoxProper | MergeAddressesAndBuildings/Buckets.cs:32-36 | the union of the boundary boxes is proper as soon as one boundary way has a proper box |
| BucketIndex.Buckets.constructor | MergeAddressesAndBuildings/Buckets.cs:29-41 | the outer box is the buffered union of the boundary boxes and covers it; the cell counts are the truncated width and height over the cell size; the grid is valid |
| BucketIndex.Buckets.GetBBox | MergeAddressesAndBuildings/Buckets.cs:50-58 | cell (x, y) is one cell span high and wide, offset from the outer box's minimum corner by x and y spans |
| BucketIndex.Buckets.CellsShareEdges | MergeAddressesAndBuildings/Buckets.cs:50-58 | neighbouring cells share their edges, so the grid has no gaps or overlaps |
| BucketIndex.Buckets.CellsSpanOuterBox | MergeAddressesAndBuildings/Buckets.cs:50-58 | cell (0, 0) starts at the outer box's minimum corner and the last cell ends at its maximum corner |
| BucketIndex.Buckets.ReturnBucket | MergeAddressesAndBuildings/Buckets.cs:113-128 | indices never exceed N-1 (clamped above only); an index is non-negative exactly when the offset exceeds minus one cell span, since truncation maps (-1, 0) to 0 |
| BucketIndex.Buckets.PositionInItsCell | MergeAddressesAndBuildings/Buckets.cs:113-128 | a position at or above the minimum corner, not beyond the last cell, falls in a valid cell whose half-open box contains it |
| BucketIndex.Buckets.ClampOnlyOnMaxEdge | MergeAddressesAndBuildings/Buckets.cs:113-128 | for a position strictly inside the outer box the raw cell index is already in range, so clamping never moves it |
| BucketIndex.Buckets.ReturnBucketList | MergeAddressesAndBuildings/Buckets.cs:138-162 | the returned pairs are the neighbourhood of the position's cell, in the loops' column-then-row order |
| BucketIndex.NeighbourhoodIsSearched | MergeAddressesAndBuildings/Buckets.cs:146-158 | at most nine cells, exactly those within one step on both axes that lie in columns 1..N-1 and rows 1..N-1 (column and row 0 are skipped) |
| BucketIndex.BucketSign | MergeAddressesAndBuildings/Buckets.cs:115-116 | a truncated cell index is non-negative exactly when the offset exceeds minus one span |
| BucketIndex.TruncStep | MergeAddressesAndBuildings/Buckets.cs:115-116 | for a non-negative offset the cell index k satisfies k spans <= offset < k+1 spans |
| BucketIndex.TruncBelow | MergeAddressesAndBuildings/Buckets.cs:84-85 | an offset below the total extent gives an index below the cell count |
| ClipBoundaries.Reversed | MergeAddressesAndBuildings/ClipBoundary.cs:119 | `List.Reverse`: same length, element k is element n-1-k of the input |
| ClipBoundaries.RemoveAt | MergeAddressesAndBuildings/ClipBoundary.cs:97 | `List.Remove` of one entry: one shorter, entries before j kept, entries after j shifted down by one |
| ClipBoundaries.Scan | MergeAddressesAndBuildings/ClipBoundary.cs:102-128 | on success, the first way from position j that starts or else ends at the ring's end, reversed exactly when it does not start there, with every earlier way non-empty and not connecting; Gap exactly when no way connects; otherwise the first empty way met, whose node list cannot be indexed |
| ClipBoundaries.Connect | MergeAddressesAndBuildings/ClipBoundary.cs:91-99 | the first pass takes way 0; later passes take the way the scan finds; the chosen index is in range |
| ClipBoundaries.WalkFails | MergeAddressesAndBuildings/ClipBoundary.cs:125-128 | a pass that finds no connecting way ends the walk with that exception and nothing appended |
| ClipBoundaries.WalkTaken | MergeAddressesAndBuildings/ClipBoundary.cs:49-60 | a pass that takes a way appends its positions in walk order (reversed when joined by its last node), writes the reversal back, and continues from its last node; an empty way ends the walk |
| ClipBoundaries.OuterRefs | MergeAddressesAndBuildings/ClipBoundary.cs:27-34 | succeeds iff no ref repeats among the "way"/"outer" members; the key set is exactly those refs; a repeat is a DuplicateOuterMember error |
| ClipBoundaries.CollectOuterWays | MergeAddressesAndBuildings/ClipBoundary.cs:27-34 | the loop's dictionary keys, or its duplicate-key exception, agree with OuterRefs |
| ClipBoundaries.Keep | MergeAddressesAndBuildings/ClipBoundary.cs:39-46 | the kept ids are exactly the linked ways that are outer members, in order, never more than there were |
| ClipBoundaries.SelectOuterWays | MergeAddressesAndBuildings/ClipBoundary.cs:37-46 | the working list is the outer ways in the relation's linked order and the box is the union of their boxes |
| ClipBoundaries.WalkRing | MergeAddressesAndBuildings/ClipBoundary.cs:49-60 | the loop's ring, way store and exception are those of the walk over the working list |
| ClipBoundaries.FindConnectingNodeList | MergeAddressesAndBuildings/ClipBoundary.cs:87-133 | returns the connecting way's id, its node list in walk order and the working list without it; reverses that way's list in the store when joined by its last node; a gap or an empty way is the exception |
| ClipBoundaries.DuplicateStaysError | MergeAddressesAndBuildings/ClipBoundary.cs:32 | once a prefix of the members repeats an outer ref, the whole member list fails with that same error |
| ClipBoundaries.ClipBoundary.FromWay | MergeAddressesAndBuildings/ClipBoundary.cs:67-77 | the ring is the way's node positions in order and the box is the way's box |
| ClipBoundaries.ClipBoundary.FromRelations | MergeAddressesAndBuildings/ClipBoundary.cs:13-64 | more than one relation is an error; no relation gives an empty ring; otherwise the ring is the walk over the outer ways, the box their union, and the dataset keeps the reversals even when the walk fails; nodes, relations and orders are unchanged |
| ClipBoundaries.ClipBoundary.WnPnPoly | MergeAddressesAndBuildings/ClipBoundary.cs:266-293 | the loop computes the winding number of the ring about the point, summing edges ring[i] -> ring[i+1] with no closing edge |
| ClipBoundaries.ClipBoundary.IsInBoundary | MergeAddressesAndBuildings/ClipBoundary.cs:234-237 | inside exactly when the winding number is non-zero |
| ClipBoundaries.Crossing | MergeAddressesAndBuildings/ClipBoundary.cs:279-290 | each edge contributes -1, 0 or +1 |
| ClipBoundaries.OnlyReversedTrans | MergeAddressesAndBuildings/ClipBoundary.cs:119 | two rounds of reversals compose to a round of reversals |
| ClipBoundaries.WalkOnlyReverses | MergeAddressesAndBuildings/ClipBoundary.cs:119 | the walk changes the way store only by reversing node lists: same ids, every other field unchanged |
| ClipBoundaries.PassOnlyReverses | MergeAddressesAndBuildings/ClipBoundary.cs:119 | a pass that takes one way, and the rest of the walk after it, only reverses node lists |
| ClipBoundaries.OneReversal | MergeAddressesAndBuildings/ClipBoundary.cs:119 | replacing one way's node list by itself or its reverse is a reversal of the store |
| ClipBoundaries.RelationBoundaryOnlyReverses | MergeAddressesAndBuildings/ClipBoundary.cs:13-64 | the relation constructor changes the way store only by reversing node lists |
| ClipBoundaries.IsLeftAntisymmetric | MergeAddressesAndBuildings/ClipBoundary.cs:251-255 | swapping the line's points negates isLeft, and a point at either end gives 0 |
| ClipBoundaries.CrossingReversed | MergeAddressesAndBuildings/ClipBoundary.cs:279-290 | an edge walked backwards contributes the opposite crossing |
| ClipBoundaries.WindingSnoc | MergeAddressesAndBuildings/ClipBoundary.cs:273-291 | appending a vertex adds the crossing of the new last edge |
| ClipBoundaries.WindingReversed | MergeAddressesAndBuildings/ClipBoundary.cs:273-291 | reversing the ring negates the winding number, so containment does not depend on the direction in which ways were chained |
| ClipBoundaries.WindingNorthOfRing | MergeAddressesAndBuildings/ClipBoundary.cs:279-290 | a point on or north of every vertex has winding number 0 |
| ClipBoundaries.TestPointInside | UnitTests/TestClipBoundary.cs:56-77 | the test building's inside address point has winding number -1, so it is in the boundary |
| ClipBoundaries.TestPointOutside | UnitTests/TestClipBoundary.cs:73-78 | the test's outside address point is not in the boundary |
| MergeIndex.ArrIndexInRange | MergeAddressesAndBuildings/Merge.cs:402-405 | a cell inside the grid has a row-major number inside the bucket array |
| MergeIndex.ArrIndexInjective | MergeAddressesAndBuildings/Merge.cs:402-405 | distinct cells of a grid NHorizontal wide have distinct numbers |
| MergeIndex.CellOf | MergeAddressesAndBuildings/Merge.cs:434-438 | an entity's bucket number is below the array size (ReturnBucket clamps from above only); it is non-negative when both indices are, negative south of the grid, and a position west of the grid wraps to the far end of the row below |
| MergeIndex.NumberBounds | MergeAddressesAndBuildings/Merge.cs:402-405 | the arithmetic behind CellOf's bounds: below nh*nv, negative for a negative row, and a negative column within one row width wraps into the previous row |
| MergeIndex.Bucket | MergeAddressesAndBuildings/Merge.cs:434-438 | a bucket never holds more entities than were divided |
| MergeIndex.FirstMisfitAt | MergeAddressesAndBuildings/Merge.cs:434-438 | when entities before i fit and entity i does not, its (negative) number is the one reported by the index exception |
| MergeIndex.Index | MergeAddressesAndBuildings/Merge.cs:408-432 | the bucket array has one bucket per cell, NHorizontal * NVertical in all |
| MergeIndex.DivideIntoBuckets | MergeAddressesAndBuildings/Merge.cs:408-439 | succeeds iff every centre's bucket number is non-negative; the result is a fresh array equal to the index, each entity appended in order to the bucket of its centre; otherwise the first misfit's number is the IndexOutOfRange error |
| MergeIndex.BucketMembers | MergeAddressesAndBuildings/Merge.cs:434-438 | an entity is in bucket k exactly when it is one of the divided entities and its centre is numbered k |
| MergeIndex.EachEntityInOneBucket | MergeAddressesAndBuildings/Merge.cs:408-438 | when every number fits, each entity sits in exactly one bucket, the one of its own centre |
| MergeIndex.AllInRange | MergeAddressesAndBuildings/Merge.cs:98 | every number of a searched cell lies inside the bucket array |
| MergeIndex.SearchCells | MergeAddressesAndBuildings/Merge.cs:95-99 | at most nine bucket numbers, all inside the array, so a search never indexes outside it |
| MergeIndex.SearchCellsAreNeighbours | MergeAddressesAndBuildings/Merge.cs:95-99 | a number is searched exactly when it is the number of a searched cell around the centre cell |
| MergeIndex.SearchCellsOfLists | MergeAddressesAndBuildings/Merge.cs:95-98 | the lists ReturnBucketList yields number, in order, exactly the searched cells |
| MergePasses.Footprints | MergeAddressesAndBuildings/Merge.cs:235-242 | one footprint per existing way and then per existing relation, in dictionary order |
| MergePasses.OverlapInSnoc | MergeAddressesAndBuildings/Merge.cs:255-261 | the new buildings a bucket overlaps grow by the next entry exactly when its box meets the existing building's box |
| MergePasses.OverlapInCellsIff | MergeAddressesAndBuildings/Merge.cs:247-265 | around one existing building, a new building is removed exactly when its centre's bucket is searched and its box meets the existing box |
| MergePasses.DuplicateBuildingRemovedIff | MergeAddressesAndBuildings/Merge.cs:231-265 | over the whole pass, a new building is removed exactly when some existing way or relation duplicates it |
| MergePasses.TaggedObjects | MergeAddressesAndBuildings/Merge.cs:274-285 | the duplicate-address pass visits every existing node, then every way, then every relation |
| MergePasses.RemoveFirst | MergeAddressesAndBuildings/Merge.cs:327 | `List.Remove`: never lengthens the bucket |
| MergePasses.MatchingMembers | MergeAddressesAndBuildings/Merge.cs:309-322 | a node matches exactly when it is in the bucket and has the same house number and street (the unit is not compared) |
| MergePasses.RemoveFirstUnique | MergeAddressesAndBuildings/Merge.cs:327 | on a bucket of distinct nodes, `List.Remove` drops exactly the entry with that id and keeps the ids distinct |
| MergePasses.RemoveEachUnique | MergeAddressesAndBuildings/Merge.cs:325-328 | removing each matched node drops exactly the entries with their ids |
| MergePasses.DropCellEffect | MergeAddressesAndBuildings/Merge.cs:306-329 | in a searched bucket, a node leaves the bucket and the new addresses exactly when it has the object's house number and street; other buckets are untouched |
| MergePasses.BucketUnique | MergeAddressesAndBuildings/Merge.cs:421-432 | a bucket built from nodes with distinct ids holds each node once |
| MergePasses.IndexDistinct | MergeAddressesAndBuildings/Merge.cs:421-432 | the buckets `DivideNewAddressesIntoBuckets` builds over a well-formed dataset hold no node twice, the fact that `MergePasses.Sound` and `Merging.Merge.Indexed` carry through every later pass |
| MergePasses.RemoveFirstKeepsDistinct | MergeAddressesAndBuildings/Merge.cs:214 | removing the attached node from its bucket keeps every bucket free of repeated nodes |
| MergePasses.DropCellDistinct | MergeAddressesAndBuildings/Merge.cs:325-328 | removing the matches of one bucket keeps every bucket free of repeated nodes |
| MergePasses.DropCellsDistinct | MergeAddressesAndBuildings/Merge.cs:303-330 | the same over all buckets searched around one object |
| MergePasses.DropCellsKeeps | MergeAddressesAndBuildings/Merge.cs:303-330 | over the searched buckets `cells` of one object, a node leaves bucket k exactly when k is among `cells` and the node has the object's house number and street |
| MergePasses.CellMatchesStep | MergeAddressesAndBuildings/Merge.cs:303-330 | the matches of the first searched bucket together with those the later buckets still hold are all the matches |
| MergePasses.DropCellsAddresses | MergeAddressesAndBuildings/Merge.cs:303-330 | exactly the matching nodes of the searched buckets leave the new addresses |
| MergePasses.DropDuplicatesOfKeeps | MergeAddressesAndBuildings/Merge.cs:297-331 | `CheckForDuplicateAddress(o)`: a node leaves bucket k exactly when o has a house number and a street, k is searched around o, and the node has the same two tags |
| MergePasses.DropDuplicatesOfAddresses | MergeAddressesAndBuildings/Merge.cs:297-331 | `CheckForDuplicateAddress(o)`: exactly the nodes o duplicates in their buckets leave the new addresses, and no bucket comes to hold a node twice |
| MergePasses.DropAllDuplicatesKeeps | MergeAddressesAndBuildings/Merge.cs:270-289 | over all existing objects, a node leaves bucket k exactly when some object duplicates it there |
| MergePasses.DuplicatedIdsStep | MergeAddressesAndBuildings/Merge.cs:270-289 | the first object's duplicates together with those the later objects find in what is left are all the duplicates |
| MergePasses.DropAllDuplicatesAddresses | MergeAddressesAndBuildings/Merge.cs:270-289 | over all existing objects, exactly the nodes some object duplicates in their buckets leave the new addresses, and no bucket comes to hold a node twice |
| MergePasses.IndexedNodeIsOwn | MergeAddressesAndBuildings/Merge.cs:421-432 | a node in a bucket of the address index is the dataset's node under its id, in the bucket of its own position |
| MergePasses.IndexedDuplicate | MergeAddressesAndBuildings/Merge.cs:270-331 | over the address index, an id is duplicated exactly when some object duplicates its node in the node's own bucket |
| MergePasses.NewAddressSurvivesIff | MergeAddressesAndBuildings/Merge.cs:270-331 | a new address survives `RemoveNewDuplicateAddresses` exactly when no existing node, way or relation with a house number and a street has the same two tags and searches the address's own bucket; it stays in that bucket exactly when it survives |
| MergePasses.IncompleteAddressIgnored | MergeAddressesAndBuildings/Merge.cs:300 | an existing object lacking a house number or a street removes nothing |
| MergePasses.MergeTags | MergeAddressesAndBuildings/Merge.cs:204-212 | every address tag whose key the building lacks is added, no existing value is overwritten, and no other key appears |
| MergePasses.MarkEdited | MergeAddressesAndBuildings/Merge.cs:340-346 | fails exactly when "action" is already present (Dictionary.Add throws); otherwise adds action=modify and keeps every other attribute |
| MergePasses.AttachNodeEffect | MergeAddressesAndBuildings/Merge.cs:199-223 | fails exactly when the building gained a tag, has a positive id and already has "action"; otherwise it carries the merged tags, is marked modify exactly when it gained a tag and has a positive id, the node leaves the new addresses and its bucket, and nothing else changes |
| MergePasses.AttachWithoutActionSucceeds | MergeAddressesAndBuildings/Merge.cs:199-223 | attaching to a building without "action" always succeeds |
| MergePasses.Accepted | MergeAddressesAndBuildings/Merge.cs:101-110 | every accepted candidate is a candidate the probe accepts |
| MergePasses.Entries | MergeAddressesAndBuildings/Merge.cs:101 | an adapter, no more: the buckets flattened to one entry per element, tagged with the bucket number |
| MergePasses.AcceptedAppend | MergeAddressesAndBuildings/Merge.cs:96-112 | filtering distributes over the concatenation of candidate lists |
| MergePasses.ScanBucketCounts | MergeAddressesAndBuildings/Merge.cs:101-110 | the loop over one bucket adds the number of accepted entries to the count and keeps the last of them |
| MergePasses.ScanCellsCounts | MergeAddressesAndBuildings/Merge.cs:96-112 | the nested search loops count the accepted candidates in all searched buckets and keep the last one |
| MergePasses.CandidatesMembers | MergeAddressesAndBuildings/Merge.cs:96-112 | every candidate comes from a searched bucket and is an element of it |
| MergePasses.Matches | MergeAddressesAndBuildings/Merge.cs:96-119 | every match is accepted by the probe and is an element of the bucket it is reported in |
| MergePasses.ScanBucketInside | MergeAddressesAndBuildings/Merge.cs:173-186 | the interior loop over one bucket changes only the way store, and only by reversing node lists |
| MergePasses.ScanCellsInside | MergeAddressesAndBuildings/Merge.cs:168-188 | the interior search changes only the way store, and only by reversing node lists |
| MergePasses.ScanBucketInsideSane | MergeAddressesAndBuildings/Merge.cs:173-186 | a counted match always has a last match, and it is an element of its bucket |
| MergePasses.ScanCellsInsideSane | MergeAddressesAndBuildings/Merge.cs:168-188 | over all searched buckets a counted match always has a last match in its bucket |
| MergePasses.Contains | MergeAddressesAndBuildings/Merge.cs:350-377 | a way's test uses its own ring and leaves the store alone; a relation's may only reverse ways, and a relation whose boundary construction throws does not contain the node |
| MergePasses.ReversedKeepsFit | MergeAddressesAndBuildings/ClipBoundary.cs:119 | reversing node lists keeps the dataset well formed and linked |
| MergePasses.InteriorSearch | MergeAddressesAndBuildings/Merge.cs:164-188 | the tally's last match is in the bucket array, the dataset stays well formed and linked, and only the way store changes, by reversals |
| MergePasses.InteriorStepOnWay | MergeAddressesAndBuildings/Merge.cs:160-197 | on a way, the interior step attaches the single address of the searched buckets inside the half-open box and inside the ring, and does nothing otherwise or when the way already has a house number |
| MergePasses.ScanBucketInsideOnWay | MergeAddressesAndBuildings/Merge.cs:173-186 | on a way, the interior loop over a bucket is the plain count with the probe "inside the box and the ring" |
| MergePasses.ScanCellsInsideOnWay | MergeAddressesAndBuildings/Merge.cs:168-188 | on a way, the interior search is the plain count with the probe "inside the box and the ring" |
| MergePasses.RewriteSound | MergeAddressesAndBuildings/Merge.cs:209 | new tags and attributes keep the dataset well formed and linked and change nothing else about it |
| MergePasses.RewriteTwice | MergeAddressesAndBuildings/Merge.cs:209 | a second rewrite of the same building replaces the first |
| MergePasses.AttachNodeSound | MergeAddressesAndBuildings/Merge.cs:199-223 | a successful attach keeps the state sound (buckets still free of repeated nodes), keeps the buildings' shape and only removes new addresses |
| MergePasses.InteriorStepSound | MergeAddressesAndBuildings/Merge.cs:160-197 | a successful interior step keeps the state sound and only removes new addresses |
| MergePasses.NearbyStepSound | MergeAddressesAndBuildings/Merge.cs:83-121 | the nearby step keeps the state sound and only removes new addresses |
| MergePasses.Targets | MergeAddressesAndBuildings/Merge.cs:143-150 | the attach passes visit every way and then every relation, each of which is in the dataset |
| MergePasses.HoldsInSameShape | MergeAddressesAndBuildings/Merge.cs:143-150 | every target stays a building of a dataset of the same shape |
| MergePasses.InteriorPass | MergeAddressesAndBuildings/Merge.cs:141-152 | a completed pass keeps the state sound and only removes new addresses |
| MergePasses.InteriorPassAt | MergeAddressesAndBuildings/Merge.cs:141-152 | a failing step ends the pass with its error; a succeeding one continues the pass from the next target |
| MergePasses.InteriorTrackStep | MergeAddressesAndBuildings/Merge.cs:141-152 | one interior step moves the loop's tracking invariant forward, or yields the pass's error |
| MergePasses.InteriorTrackDone | MergeAddressesAndBuildings/Merge.cs:141-152 | at the end of the targets the pass result is the state reached |
| MergePasses.NearbyPassSound | MergeAddressesAndBuildings/Merge.cs:64-75 | the nearby pass keeps the state sound and only removes new addresses |
| MergePasses.NearbyPassAt | MergeAddressesAndBuildings/Merge.cs:64-75 | the pass from target i is the step at i followed by the pass from i+1 |
| MergePasses.NearbyTrackStep | MergeAddressesAndBuildings/Merge.cs:64-75 | one nearby step moves the loop's tracking invariant forward |
| MergePasses.NearbyTrackDone | MergeAddressesAndBuildings/Merge.cs:64-75 | at the end of the targets the pass result is the state reached |
| MergePasses.DropCellSound | MergeAddressesAndBuildings/Merge.cs:317 | dropping matched nodes keeps the new-address dataset well formed |
| MergePasses.DropAllDuplicatesSound | MergeAddressesAndBuildings/Merge.cs:270-289 | the duplicate-address pass keeps the new-address dataset well formed |
| MergePasses.DropCellsSound | MergeAddressesAndBuildings/Merge.cs:303-330 | one object's removals keep the new-address dataset well formed |
| MergePasses.WithoutWaysSound | MergeAddressesAndBuildings/Merge.cs:259 | removing ways that no relation lists keeps a linked dataset well formed and linked |
| MergePasses.KeptIffListsNone | MergeAddressesAndBuildings/Merge.cs:259 | a relation of a linked dataset keeps all its ways after a removal exactly when it lists none of the removed ways |
| MergePasses.RemoveDuplicateBuildings | MergeAddressesAndBuildings/Merge.cs:231-265 | the surviving new buildings are a sub-dictionary of the original ones, well formed, linked, with the same nodes and the same relations; a RemovedWayListed error names a new relation that lists a removed duplicate |
| MergePasses.RemoveDuplicateBuildingsOkIff | MergeAddressesAndBuildings/Merge.cs:231-265 | the duplicate check completes exactly when every new building fits the grid and no new relation lists a building it removes |
| MergePasses.NewBuildingSurvivesIff | MergeAddressesAndBuildings/Merge.cs:231-265 | a new building survives exactly when no existing way or relation duplicates it |
| MergePasses.InteriorAddresses | MergeAddressesAndBuildings/Merge.cs:129-136 | the interior passes over existing data and then new buildings keep the stage sound and only remove addresses |
| MergePasses.NearbyAddresses | MergeAddressesAndBuildings/Merge.cs:52-59 | the nearby passes keep the stage sound and only remove addresses |
| MergePasses.AddressStage | MergeAddressesAndBuildings/Merge.cs:45-46 | the addresses left after the duplicate-address pass are a sub-dictionary of the new addresses, with the buckets sound |
| MergePasses.AddressMergeSound | MergeAddressesAndBuildings/Merge.cs:45-49 | a completed address half leaves every dataset well formed and linked, both building datasets keep their ids, orders and nodes, and new addresses only leave |
| MergePasses.MergeKeepsShape | MergeAddressesAndBuildings/Merge.cs:41-50 | a completed merge leaves datasets it could run on again, the existing data keeps its ids, orders and nodes, and every new relation stays |
| MergePasses.MergeOnlyRemoves | MergeAddressesAndBuildings/Merge.cs:41-50 | new buildings and new addresses only leave the merge, unchanged |
| MergePasses.DropAllDuplicatesShrinks | MergeAddressesAndBuildings/Merge.cs:270-289 | the duplicate-address pass only removes new addresses, unchanged |
| MergePasses.DropCellsShrinks | MergeAddressesAndBuildings/Merge.cs:303-330 | one object's removals only remove new addresses |
| Merging.TransferTags | MergeAddressesAndBuildings/Merge.cs:203-212 | the loop's tags are MergeTags of building and address tags, and "added" holds exactly when some address key was missing |
| Merging.BuildingContainsNode | MergeAddressesAndBuildings/Merge.cs:350-377 | the containment answer and the way store it leaves are those of Contains |
| Merging.Merge.constructor | MergeAddressesAndBuildings/Merge.cs:32-39 | the merge holds the given grid and the three distinct datasets |
| Merging.Merge.Retag | MergeAddressesAndBuildings/Merge.cs:209 | the building's tags and attributes are rewritten in place; the dataset stays well formed and linked |
| Merging.Merge.AttachNode | MergeAddressesAndBuildings/Merge.cs:199-223 | the datasets and bucket array end as MergePasses.AttachNode computes from the state before, or with its error |
| Merging.Merge.ScanInsideBucket | MergeAddressesAndBuildings/Merge.cs:173-186 | the loop over one bucket gives the tally and way store of ScanBucketInside |
| Merging.Merge.ScanInsideCells | MergeAddressesAndBuildings/Merge.cs:167-188 | the search loops give the tally and way store of ScanCellsInside |
| Merging.Merge.AttachInteriorAddressTo | MergeAddressesAndBuildings/Merge.cs:160-197 | the datasets and buckets end as InteriorStep computes, or with its error |
| Merging.Merge.ScanBucketFor | MergeAddressesAndBuildings/Merge.cs:101-110 | the loop over one bucket gives the tally of ScanBucket |
| Merging.Merge.ScanCellsFor | MergeAddressesAndBuildings/Merge.cs:95-112 | the search loops give the tally of ScanCells |
| Merging.Merge.AttachNearbyAddressTo | MergeAddressesAndBuildings/Merge.cs:83-121 | the datasets and buckets end as NearbyStep computes |
| Merging.Merge.InteriorTurn | MergeAddressesAndBuildings/Merge.cs:143-150 | one turn of the interior loop keeps it on track to the pass's result, or ends it with the pass's error |
| Merging.Merge.AttachInteriorAddressesTo | MergeAddressesAndBuildings/Merge.cs:141-152 | the datasets and buckets end as InteriorPass over every way then every relation computes, or with its error |
| Merging.Merge.AttachInteriorAddresses | MergeAddressesAndBuildings/Merge.cs:129-136 | existing data, new buildings and addresses end as InteriorAddresses computes |
| Merging.Merge.NearbyTurn | MergeAddressesAndBuildings/Merge.cs:66-73 | one turn of the nearby loop keeps it on track to the pass's result |
| Merging.Merge.AttachNearbyAddressesTo | MergeAddressesAndBuildings/Merge.cs:64-75 | the datasets and buckets end as NearbyPass over every way then every relation computes |
| Merging.Merge.AttachNearbyAddresses | MergeAddressesAndBuildings/Merge.cs:52-59 | existing data, new buildings and addresses end as NearbyAddresses computes |
| Merging.Merge.DivideNewBuildingsIntoBuckets | MergeAddressesAndBuildings/Merge.cs:408-419 | the building bucket array is the index of the new buildings in enumeration order, or the index exception |
| Merging.Merge.RemoveOverlapsIn | MergeAddressesAndBuildings/Merge.cs:253-263 | exactly the new buildings in the bucket whose box meets the existing box are removed |
| Merging.Merge.CheckOverlappedBuilding | MergeAddressesAndBuildings/Merge.cs:247-265 | the new buildings are those left after removing the overlaps in every searched bucket |
| Merging.Merge.CheckDuplicateBuilding | MergeAddressesAndBuildings/Merge.cs:231-245 | the new buildings end as RemoveDuplicateBuildings computes, or with its error; the address buckets are untouched |
| Merging.Merge.DivideNewAddressesIntoBuckets | MergeAddressesAndBuildings/Merge.cs:421-432 | the address bucket array is the index of the new addresses in enumeration order, or the index exception |
| Merging.Merge.RemoveMatching | MergeAddressesAndBuildings/Merge.cs:308-322 | the removal list is the matching nodes in bucket order, and exactly those leave the new addresses |
| Merging.Merge.RemoveFromBucket | MergeAddressesAndBuildings/Merge.cs:325-328 | only bucket k changes, by `List.Remove` of each listed node in order |
| Merging.Merge.DropDuplicatesIn | MergeAddressesAndBuildings/Merge.cs:306-329 | the addresses and buckets end as DropCell computes |
| Merging.Merge.CheckForDuplicateAddress | MergeAddressesAndBuildings/Merge.cs:297-331 | the addresses and buckets end as DropDuplicatesOf computes |
| Merging.Merge.RemoveNewDuplicateAddresses | MergeAddressesAndBuildings/Merge.cs:270-289 | the addresses and buckets end as DropAllDuplicates over every existing node, way and relation computes |
| Merging.Merge.PrepareAddresses | MergeAddressesAndBuildings/Merge.cs:45-46 | the address stage ends as AddressStage computes, or with its error |
| Merging.Merge.AttachAddresses | MergeAddressesAndBuildings/Merge.cs:48-49 | the interior and then nearby passes end as InteriorAddresses and NearbyAddresses compute |
| Merging.Merge.MergeAddresses | MergeAddressesAndBuildings/Merge.cs:45-49 | after the duplicate check, the three datasets end as AddressMerge computes, or with its first exception |
| Merging.Merge.PerformMerge | MergeAddressesAndBuildings/Merge.cs:41-50 | the three datasets end as MergeSpec computes, or with the first exception |
| CrossingSegments.Segment.SupportingLine | MergeAddressesAndBuildings/CrossingSegments.cs:167-181 | the line is vertical exactly when the end points share a longitude, and it passes through both end points |
| CrossingSegments.Segment.SolveForX | MergeAddressesAndBuildings/CrossingSegments.cs:101-128 | off a horizontal line the answer exists and lies on the line at the given latitude; on a horizontal line it is only 0 or NaN |
| CrossingSegments.Segment.SolveForY | MergeAddressesAndBuildings/CrossingSegments.cs:132-158 | off a vertical line the answer exists and lies on the line at the given longitude; on a vertical line it is only 0 or NaN |
| CrossingSegments.Candidate | MergeAddressesAndBuildings/CrossingSegments.cs:34-61 | for lines that are not parallel the computed point exists and lies on both lines (no NaN branch is reached) |
| CrossingSegments.IntersectionAsWritten | MergeAddressesAndBuildings/CrossingSegments.cs:11-70 | for parallel lines of any slope, a point is reported exactly when the start points pass the overlap test, and it is the first start point |
| CrossingSegments.Intersection | MergeAddressesAndBuildings/CrossingSegments.cs:11-77 | a reported point lies on both lines within both longitude ranges; parallel segments give a point exactly when they lie on one line and overlap at the start points, and it is the first start point |
| CrossingSegments.NonParallelMeetOnce | MergeAddressesAndBuildings/CrossingSegments.cs:34-61 | two lines that are not parallel share at most one point, so the computed point is the only candidate |
| CrossingSegments.NonParallelIntersection | MergeAddressesAndBuildings/CrossingSegments.cs:34-68 | for non-parallel segments, p is reported exactly when p is on both lines and within both longitude ranges |
| CrossingSegments.AsWrittenAgrees | MergeAddressesAndBuildings/CrossingSegments.cs:19-32 | the corrected and the as-written answers agree except on parallel segments on two distinct lines, where the corrected one reports nothing |
| CrossingSegments.ContainsIffCross | MergeAddressesAndBuildings/CrossingSegments.cs:167-181 | a point is on the slope/intercept line of two distinct points exactly when their cross product with it is zero |
| CrossingSegments.ParallelIffCross | MergeAddressesAndBuildings/CrossingSegments.cs:19-20 | the slope-equality test for parallel segments holds exactly when the direction cross product is zero |
| CrossingSegments.ParallelSegments | MergeAddressesAndBuildings/CrossingSegments.cs:19-32 | segments with parallel directions give the first start point when the second starts on the first one's line and the start points overlap, and nothing otherwise |
| CrossingSegments.CrossingSegmentsMeet | MergeAddressesAndBuildings/CrossingSegments.cs:34-68 | crossing directions give exactly the point on both lines, when its longitude is within both segments |
| CrossingSegments.SegmentsMeetAt | MergeAddressesAndBuildings/CrossingSegments.cs:63-67 | when the lines meet at p within both longitude ranges, p is the answer |
| CrossingSegments.SegmentsMissAt | MergeAddressesAndBuildings/CrossingSegments.cs:63-68 | when the lines meet at p outside one longitude range, there is no answer |
| CrossingSegments.AsWrittenReportsDisjointParallels | MergeAddressesAndBuildings/CrossingSegments.cs:19-32 | two distinct parallel lines of slope 1 whose segments start at the same longitude are reported as crossing at a point off the second line; the corrected version gives nothing |
| CrossingSegments.CollinearStartsMeet | MergeAddressesAndBuildings/CrossingSegments.cs:19-32 | two sloped segments on one line that share their start point meet there, in both the as-written and the corrected version |
| CrossingSegments.ParallelHorizontalsGiveNothing | UnitTests/TestCrossingSegments.cs:14-19 | parallel horizontal segments give no point |
| CrossingSegments.ParallelVerticalsGiveNothing | UnitTests/TestCrossingSegments.cs:21-26 | parallel vertical segments on different longitudes give no point |
| CrossingSegments.SeparateVerticalsGiveNothing | UnitTests/TestCrossingSegments.cs:28-33 | vertical segments on one longitude that do not overlap give no point |
| CrossingSegments.OverlappingVerticalsMeet | UnitTests/TestCrossingSegments.cs:35-40 | overlapping vertical segments on one longitude give a point |
| CrossingSegments.ParallelDiagonalsGiveNothing | UnitTests/TestCrossingSegments.cs:42-47 | parallel sloped segments give no point |
| CrossingSegments.CrossingHorizontalMeets | UnitTests/TestCrossingSegments.cs:49-55 | a horizontal segment crossed by a diagonal gives (lat 1, lon 3) |
| CrossingSegments.HorizontalOutOfRangeGivesNothing | UnitTests/TestCrossingSegments.cs:57-62 | a horizontal segment whose line meets the diagonal beyond its longitudes gives no point |
| CrossingSegments.CrossingVerticalMeets | UnitTests/TestCrossingSegments.cs:64-70 | a vertical segment crossed by a diagonal gives (lat 1, lon 3) |
| CrossingSegments.VerticalOutOfRangeGivesNothing | UnitTests/TestCrossingSegments.cs:72-77 | a vertical segment whose line meets the diagonal beyond its longitudes gives no point |
| CrossingSegments.CrossingDiagonalsMeet | UnitTests/TestCrossingSegments.cs:79-85 | two crossing diagonals give (lat 2, lon 4) |
| CrossingSegments.DiagonalOutOfRangeGivesNothing | UnitTests/TestCrossingSegments.cs:87-92 | diagonals whose lines meet beyond one segment's longitudes give no point |
| DuplicateAddresses.HashKey | MergeAddressesAndBuildings/DuplicateAddress.cs:40-45 | the key is built exactly when the node has house number and street, and is then `housenumber\|street\|unit` (unit "" when absent); otherwise the error names the first tag read that is missing |
| DuplicateAddresses.KeyInjective | MergeAddressesAndBuildings/DuplicateAddress.cs:45 | when house number and street hold no "\|", two nodes share a key exactly when they share house number, street and unit |
| DuplicateAddresses.FirstWith | MergeAddressesAndBuildings/DuplicateAddress.cs:46-64 | the position returned holds the key and no earlier node does (or no node does) |
| DuplicateAddresses.FirstWithSnoc | MergeAddressesAndBuildings/DuplicateAddress.cs:59-64 | appending a node leaves the first holder of an already seen key unchanged, and makes the new node the first holder of a new key |
| DuplicateAddresses.DuplicatesPrefix | MergeAddressesAndBuildings/DuplicateAddress.cs:37-65 | whether node i is a duplicate depends only on the nodes up to i |
| DuplicateAddresses.ScanAllFails | MergeAddressesAndBuildings/DuplicateAddress.cs:37-45 | the scan fails exactly when some node lacks house number or street, with the error of the first such node |
| DuplicateAddresses.SeenStep | MergeAddressesAndBuildings/DuplicateAddress.cs:46-58 | for a key already seen, the inner loop marks the node exactly when it is less than a metre from the first node with that key |
| DuplicateAddresses.ScanAllComputes | MergeAddressesAndBuildings/DuplicateAddress.cs:29-65 | over nodes that all have the key tags, the dictionary holds the first node of each key and the remove list is exactly the duplicates, in order |
| DuplicateAddresses.DuplicateAtInit | MergeAddressesAndBuildings/DuplicateAddress.cs:37-65 | appending a node does not change whether an earlier node is a duplicate |
| DuplicateAddresses.FirstNeverDuplicate | MergeAddressesAndBuildings/DuplicateAddress.cs:59-64 | the first node of every key is never removed |
| DuplicateAddresses.LastIdFresh | MergeAddressesAndBuildings/DuplicateAddress.cs:37 | with distinct ids, the last node's id is new to the nodes before it |
| DuplicateAddresses.DuplicatesCount | MergeAddressesAndBuildings/DuplicateAddress.cs:56 | over nodes with distinct ids, every node is marked at most once, so the marked ids are as many as the marks and are ids of the dataset |
| DuplicateAddresses.DuplicatesSnocIds | MergeAddressesAndBuildings/DuplicateAddress.cs:37-65 | the marked ids grow by the last node's id exactly when it is a duplicate |
| DuplicateAddresses.DuplicateIds | MergeAddressesAndBuildings/DuplicateAddress.cs:56 | over nodes with distinct ids, node i's id is marked exactly when node i is a duplicate |
| DuplicateAddresses.NodesDistinct | MergeAddressesAndBuildings/DuplicateAddress.cs:37 | the nodes of a well-formed dataset, in enumeration order, have distinct ids covering the node table |
| DuplicateAddresses.DuplicateSurvivesIff | MergeAddressesAndBuildings/DuplicateAddress.cs:67-73 | a node survives the removal exactly when it is not a duplicate |
| DuplicateAddresses.DuplicateCountIsRemoved | MergeAddressesAndBuildings/DuplicateAddress.cs:75 | the count returned equals the number of nodes the removal takes out of the dataset |
| DuplicateAddresses.ScanErrorSticks | MergeAddressesAndBuildings/DuplicateAddress.cs:37-45 | once the scan of a prefix has thrown, every longer scan throws the same error |
| DuplicateAddresses.DuplicateAddress.constructor | MergeAddressesAndBuildings/DuplicateAddress.cs:20-23 | the remover works on the given dataset |
| DuplicateAddresses.DuplicateAddress.RemoveDuplicateAddresses | MergeAddressesAndBuildings/DuplicateAddress.cs:29-76 | on success the count is the length of the scan's remove list and exactly those ids leave the dataset; on a missing tag the dataset is untouched and the error is the scan's |
| DuplicateAddresses.DuplicateAddress.RemoveNodes | MergeAddressesAndBuildings/DuplicateAddress.cs:67-73 | the dataset afterwards is the one before without the listed ids, and stays well formed |
| DuplicateAddresses.DuplicateAddress.ScanNodes | MergeAddressesAndBuildings/DuplicateAddress.cs:37-65 | the dictionary loop computes exactly ScanAll over the nodes |
| NodeSpreading.AddressKey | MergeAddressesAndBuildings/NodeSpreader.cs:112-122 | the key exists exactly when the node has a house number; without one the error names the node |
| NodeSpreading.AddressKeyInjective | MergeAddressesAndBuildings/NodeSpreader.cs:106-122 | when house numbers hold no "\|", two nodes share a key exactly when they share house number and unit |
| NodeSpreading.BeforeIrreflexive | MergeAddressesAndBuildings/NodeSpreader.cs:13 | no key sorts before itself in the sorted list's order |
| NodeSpreading.BeforeTotal | MergeAddressesAndBuildings/NodeSpreader.cs:13 | of two different keys exactly one sorts first, and equal keys are unordered |
| NodeSpreading.BeforeTransitive | MergeAddressesAndBuildings/NodeSpreader.cs:13 | the key order is transitive |
| NodeSpreading.SortedCons | MergeAddressesAndBuildings/NodeSpreader.cs:94 | a key below every key of a sorted list can go in front and the list stays sorted |
| NodeSpreading.SortedTail | MergeAddressesAndBuildings/NodeSpreader.cs:94 | the rest of a sorted list is sorted and still lacks a key the list lacks |
| NodeSpreading.InsertFront | MergeAddressesAndBuildings/NodeSpreader.cs:94 | a key below the first of a sorted list is below all of it, so it goes in front |
| NodeSpreading.InsertBehind | MergeAddressesAndBuildings/NodeSpreader.cs:94 | a key above the first entry goes into the rest, and the first entry stays first |
| NodeSpreading.Insert | MergeAddressesAndBuildings/NodeSpreader.cs:94 | `SortedList.Add` of a new key keeps the list strictly sorted and adds exactly that entry |
| NodeSpreading.SortedKeysDistinct | MergeAddressesAndBuildings/NodeSpreader.cs:13 | a sorted group names each key once |
| NodeSpreading.EntriesUpdate | MergeAddressesAndBuildings/NodeSpreader.cs:94 | adding an entry to one group adds exactly that entry to all the groups' entries |
| NodeSpreading.EntriesSnoc | MergeAddressesAndBuildings/NodeSpreader.cs:100-102 | adding a group adds exactly its entries |
| NodeSpreading.GroupFor | MergeAddressesAndBuildings/NodeSpreader.cs:90-97 | the group chosen is the first one whose first member is within half the separation distance, or none |
| NodeSpreading.Place | MergeAddressesAndBuildings/NodeSpreader.cs:87-103 | a successful placement leaves every group sorted, non-empty and keyed by its nodes' tags |
| NodeSpreading.PlaceJoinsOneGroup | MergeAddressesAndBuildings/NodeSpreader.cs:87-103 | a node joins exactly the first group it is near, which gains exactly its entry, or else a new group at the end; it fails without a house number or when its key is already in that group |
| NodeSpreading.GroupAllEntries | MergeAddressesAndBuildings/NodeSpreader.cs:34-37 | when the grouping succeeds every listed node had a house number and the groups gained exactly one entry per listed node |
| NodeSpreading.NextSlot | MergeAddressesAndBuildings/NodeSpreader.cs:73-83 | the cursor goes down one step within a column and to the top of the next column after every fifth node, so node k sits at column k / 5, row k % 5 |
| NodeSpreading.Relocate | MergeAddressesAndBuildings/NodeSpreader.cs:68-72 | the moved node is at the new position with the same id, tags and flag |
| NodeSpreading.RelocateAttrs | MergeAddressesAndBuildings/NodeSpreader.cs:70-72 | the moved node's "lat" and "lon" attributes hold the formatted new position and its other attributes stay |
| NodeSpreading.SpreadFirst | MergeAddressesAndBuildings/NodeSpreader.cs:66-84 | moving nodes neither adds nor removes a node |
| NodeSpreading.SpreadFirstKeepsTags | MergeAddressesAndBuildings/NodeSpreader.cs:66-84 | moving nodes changes neither their ids nor their tags |
| NodeSpreading.SpreadFirstUntouched | MergeAddressesAndBuildings/NodeSpreader.cs:66-84 | a node not among those moved so far is as it was |
| NodeSpreading.SpreadFirstMoved | MergeAddressesAndBuildings/NodeSpreader.cs:66-84 | with each node in the group once, each node moved so far sits at its own slot |
| NodeSpreading.SpreadGroupEffect | MergeAddressesAndBuildings/NodeSpreader.cs:51-85 | a group of fewer than two is left alone; otherwise node i in key order sits at slot i below the top-left corner, keeps its tags, and no node outside the group moves |
| NodeSpreading.GroupNodesDistinct | MergeAddressesAndBuildings/NodeSpreader.cs:13 | in a well-formed group the keys differ and so do the nodes |
| NodeSpreading.SpreadAll | MergeAddressesAndBuildings/NodeSpreader.cs:40-43 | spreading all groups neither adds nor removes a node |
| NodeSpreading.SpreadAllKeepsTags | MergeAddressesAndBuildings/NodeSpreader.cs:40-43 | spreading changes no node's id or tags |
| NodeSpreading.GroupAllOk | MergeAddressesAndBuildings/NodeSpreader.cs:34-37 | a successful grouping leaves well-formed groups |
| NodeSpreading.GroupsOkPresent | MergeAddressesAndBuildings/NodeSpreader.cs:40-43 | every node of a well-formed group is in the dictionary |
| NodeSpreading.GroupsOkRetagged | MergeAddressesAndBuildings/NodeSpreader.cs:40-43 | moving nodes keeps their tags, so the groups stay well formed |
| NodeSpreading.NodeSpreader.constructor | MergeAddressesAndBuildings/NodeSpreader.cs:23-28 | the spreader holds the given address nodes and no group |
| NodeSpreading.NodeSpreader.SpreadNodes | MergeAddressesAndBuildings/NodeSpreader.cs:31-45 | on success the groups and the node positions are those of Spread; on failure no node moves; ways, relations and the node order never change |
| NodeSpreading.NodeSpreader.GroupNodes | MergeAddressesAndBuildings/NodeSpreader.cs:34-37 | the groups end as GroupAll computes, or with its error |
| NodeSpreading.NodeSpreader.SpreadGroups | MergeAddressesAndBuildings/NodeSpreader.cs:40-43 | the nodes end as SpreadAll computes; nothing else in the dataset changes |
| NodeSpreading.NodeSpreader.PlaceNodeInGroup | MergeAddressesAndBuildings/NodeSpreader.cs:87-103 | the groups end as Place computes, or with its error |
| NodeSpreading.NodeSpreader.SpreadNodeGroup | MergeAddressesAndBuildings/NodeSpreader.cs:51-85 | the nodes end as SpreadGroup computes; nothing else in the dataset changes |
| NodeSpreading.NodeSpreader.LayOut | MergeAddressesAndBuildings/NodeSpreader.cs:64-84 | the loop moves every node of the group to its slot, as SpreadFirst over the whole group |
| Trimming.ListSetSnoc | MergeAddressesAndBuildings/TrimOSMData.cs:29 | appending an id to a list adds exactly that id to its set |
| Trimming.SiftStep | MergeAddressesAndBuildings/TrimOSMData.cs:27-30 | one turn of a collecting loop keeps the list equal to the kept ids seen so far |
| Trimming.RefsOfMember | MergeAddressesAndBuildings/TrimOSMData.cs:17-23 | a node is flagged by the way loop exactly when some listed way the dataset holds lists it |
| Trimming.RefsOfAll | MergeAddressesAndBuildings/TrimOSMData.cs:17-23 | over every way of the dataset, the nodes flagged are exactly those some way references |
| Trimming.MembersOfMember | MergeAddressesAndBuildings/TrimOSMData.cs:47-55 | a way is flagged by the relation loop exactly when some listed relation the dataset holds lists it |
| Trimming.MembersOfAll | MergeAddressesAndBuildings/TrimOSMData.cs:47-55 | over all the relations enumerated, the ways flagged are exactly those some relation lists |
| Trimming.MarkNodes | MergeAddressesAndBuildings/TrimOSMData.cs:21 | setting node flags neither adds nor removes a node |
| Trimming.MarkWays | MergeAddressesAndBuildings/TrimOSMData.cs:53 | setting way flags neither adds nor removes a way |
| Trimming.MarkNodesTwice | MergeAddressesAndBuildings/TrimOSMData.cs:67-70 | flagging nodes in two rounds flags the union, in either order, and flagging none changes nothing |
| Trimming.MarkWaysTwice | MergeAddressesAndBuildings/TrimOSMData.cs:51-54 | flagging ways in two rounds flags the union, and flagging none changes nothing |
| Trimming.MarkedValid | MergeAddressesAndBuildings/TrimOSMData.cs:17-23 | a flagged dataset still stores each entity under its own id |
| Trimming.OrphanSurvival | MergeAddressesAndBuildings/TrimOSMData.cs:14-36 | a node is kept exactly when a way references it or its flag was already set; a kept node leaves flagged; ways and relations are not touched |
| Trimming.OrphansKeepLinks | MergeAddressesAndBuildings/TrimOSMData.cs:14-36 | the orphan pass keeps the dataset well formed, and every node a way lists stays when it was there before |
| Trimming.RelationSurvival | MergeAddressesAndBuildings/TrimOSMData.cs:47-60 | a relation is kept exactly when it was edited, and is kept unchanged |
| Trimming.WaySurvival | MergeAddressesAndBuildings/TrimOSMData.cs:44-91 | a way is kept exactly when an edited relation lists it, it was edited, or its flag was already set; it leaves flagged exactly when an edited relation lists it |
| Trimming.NodeSurvival | MergeAddressesAndBuildings/TrimOSMData.cs:62-96 | a node is kept exactly when a kept way lists it, it was edited, or its flag was already set |
| Trimming.UneditedKeepsLinks | MergeAddressesAndBuildings/TrimOSMData.cs:44-97 | the pass keeps the dataset well formed, and every way a kept relation lists and every node a kept way lists stays |
| Trimming.FlagNodes | MergeAddressesAndBuildings/TrimOSMData.cs:19-22 | the dataset afterwards is the one before with exactly the listed nodes flagged |
| Trimming.FlagWays | MergeAddressesAndBuildings/TrimOSMData.cs:51-54 | the dataset afterwards is the one before with exactly the listed ways flagged |
| Trimming.CollectUnused | MergeAddressesAndBuildings/TrimOSMData.cs:25-30 | the list holds exactly the ids of the nodes whose flag is clear |
| Trimming.CollectDropped | MergeAddressesAndBuildings/TrimOSMData.cs:77-81 | the list holds exactly the ids of the nodes neither flagged nor edited |
| Trimming.RemoveNodeIds | MergeAddressesAndBuildings/TrimOSMData.cs:32-35 | the dataset afterwards is the one before without the listed nodes |
| Trimming.RemoveWayIds | MergeAddressesAndBuildings/TrimOSMData.cs:88-91 | the dataset afterwards is the one before without the listed ways |
| Trimming.RemoveRelationIds | MergeAddressesAndBuildings/TrimOSMData.cs:83-86 | the dataset afterwards is the one before without the listed relations |
| Trimming.FlagWayNodes | MergeAddressesAndBuildings/TrimOSMData.cs:17-23 | exactly the nodes referenced by some way get flagged, and nothing else changes |
| Trimming.RemoveOrphanNodes | MergeAddressesAndBuildings/TrimOSMData.cs:14-36 | the dataset afterwards is WithoutOrphans of the one before |
| Trimming.FlagRelationWays | MergeAddressesAndBuildings/TrimOSMData.cs:46-60 | the ways of edited relations get flagged, and the list returned holds exactly the unedited relations |
| Trimming.FlagKeptWayNodes | MergeAddressesAndBuildings/TrimOSMData.cs:62-75 | the nodes of flagged or edited ways get flagged, and the list returned holds exactly the other ways |
| Trimming.RemoveUneditedData | MergeAddressesAndBuildings/TrimOSMData.cs:44-97 | the dataset afterwards is WithoutUnedited of the one before |
| TaskSections.GetXYInverts | MergeAddressesAndBuildings/TaskingInterface.cs:222-235 | `GetXY` recovers column and row from the number `GetSectionData` gives any cell of the grid's rows |
| TaskSections.CellOfGetXY | MergeAddressesAndBuildings/TaskingInterface.cs:222-235 | numbering back what `GetXY` decodes gives the cell, and a non-negative cell has its row in range |
| TaskSections.CellInRange | MergeAddressesAndBuildings/TaskingInterface.cs:232-233 | every cell of the grid numbers into the section array |
| TaskSections.CellBelowEnd | MergeAddressesAndBuildings/TaskingInterface.cs:232 | a cell at or before the last column and row numbers below the array's length |
| TaskSections.CellBelowGridAliases | MergeAddressesAndBuildings/TaskingInterface.cs:232 | a row of -1 in column x is numbered as the top row of column x - 1 |
| TaskSections.LinkNodesEffect | MergeAddressesAndBuildings/TaskingInterface.cs:92-99 | one way's pass fails exactly on a node without a list, naming it; otherwise it keeps the keys and appends the way once under each of its nodes that lacked it |
| TaskSections.LinkWaysEffect | MergeAddressesAndBuildings/TaskingInterface.cs:90-100 | the pass over the ways succeeds exactly when every way's nodes are in the dataset, and then lists under each node exactly the ways containing it, each once |
| TaskSections.LinkNodesFailed | MergeAddressesAndBuildings/TaskingInterface.cs:94 | a way's pass that threw at a node stays failed with the same error |
| TaskSections.LinkWaysFailed | MergeAddressesAndBuildings/TaskingInterface.cs:90-100 | once the pass over the ways threw, the rest of the loop does not run |
| TaskSections.LinkedIndexes | MergeAddressesAndBuildings/TaskingInterface.cs:80-101 | over the whole dataset, `InitializeConnectedWays` succeeds exactly when every way's nodes are present, throwing on a missing node of some way, and otherwise indexes every way under its nodes without repeats |
| TaskSections.EmptyLists | MergeAddressesAndBuildings/TaskingInterface.cs:83-88 | the first loop builds NoLinks of the nodes |
| TaskSections.LinkWayNodes | MergeAddressesAndBuildings/TaskingInterface.cs:92-99 | the inner loop computes LinkNodes for the way |
| TaskSections.LinkAllWays | MergeAddressesAndBuildings/TaskingInterface.cs:90-100 | the outer loop computes LinkWays over the ways in enumeration order |
| TaskSections.PlacedUpdate | MergeAddressesAndBuildings/TaskingInterface.cs:233 | replacing one slot of the section array changes the placed ids by exactly what that slot gained |
| TaskSections.FlaggedMonotone | MergeAddressesAndBuildings/TaskingInterface.cs:194-200 | setting flags only grows the used nodes and ways, and only shrinks the ways still to place |
| TaskSections.IndexesFlagged | MergeAddressesAndBuildings/TaskingInterface.cs:194-200 | setting flags keeps `connectedWays` an index of the dataset |
| TaskSections.GrewTrans | MergeAddressesAndBuildings/TaskingInterface.cs:189-214 | two placement steps into one section compose into one |
| TaskSections.ClosedTrans | MergeAddressesAndBuildings/TaskingInterface.cs:202-208 | "every way through a newly flagged node is flagged" composes across steps |
| TaskSections.StepRefl | MergeAddressesAndBuildings/TaskingInterface.cs:191 | a `SaveWayTo` that finds its way used is a placement step that changes nothing |
| TaskSections.StepTrans | MergeAddressesAndBuildings/TaskingInterface.cs:195-210 | placement steps into one cell compose, as the recursive calls do |
| TaskSections.PlacedReplace | MergeAddressesAndBuildings/TaskingInterface.cs:233 | changing only one slot changes the placed ids by what that slot gained |
| TaskSections.UsedSplit | MergeAddressesAndBuildings/TaskingInterface.cs:194-200 | the ids flagged at the end are those flagged at the start plus those flagged since |
| TaskSections.GrewTracks | MergeAddressesAndBuildings/TaskingInterface.cs:189-214 | growing one section keeps every flagged node and way placed exactly once and leaves the placed relations alone |
| TaskSections.KeptTrans | MergeAddressesAndBuildings/TaskingInterface.cs:233 | allocated sections stay allocated across steps |
| TaskSections.OneSlotKept | MergeAddressesAndBuildings/TaskingInterface.cs:233 | replacing one slot by a section at least as far along keeps the array |
| TaskSections.KeptInCell | MergeAddressesAndBuildings/TaskingInterface.cs:43 | a relation filed in a section stays there |
| TaskSections.AllocKeeps | MergeAddressesAndBuildings/TaskingInterface.cs:233 | allocating an empty section in a free slot places nothing |
| TaskSections.RelationAdded | MergeAddressesAndBuildings/TaskingInterface.cs:43 | appending a relation to a section places it there once more, and changes no node or way |
| TaskSections.PlacedNone | MergeAddressesAndBuildings/TaskingInterface.cs:34 | a fresh section array places nothing |
| TaskSections.MovedTrans | MergeAddressesAndBuildings/TaskingInterface.cs:39-73 | the placement loops' "only flags set, sections kept" composes across turns |
| TaskSections.FiledMoved | MergeAddressesAndBuildings/TaskingInterface.cs:39-73 | a filed relation stays filed through later placement steps |
| TaskSections.AllFiledMoved | MergeAddressesAndBuildings/TaskingInterface.cs:39-73 | all the relations filed so far stay filed through later placement steps |
| TaskSections.FiledOnce | MergeAddressesAndBuildings/TaskingInterface.cs:39-50 | with every relation filed, each relation is held exactly once, in the section of its centre's cell |
| TaskSections.ClearedFacts | MergeAddressesAndBuildings/TaskingInterface.cs:32 | after the reset nothing is used, and positions and members are as before |
| TaskSections.MembersPresentMoved | MergeAddressesAndBuildings/TaskingInterface.cs:39-73 | setting flags keeps every way a relation lists present |
| TaskSections.FiledStep | MergeAddressesAndBuildings/TaskingInterface.cs:39-50 | filing the next relation of the enumeration extends the filed prefix by one |
| TaskSections.FiledAll | MergeAddressesAndBuildings/TaskingInterface.cs:39-50 | the whole enumeration filed means each relation is filed and the sections hold exactly the enumeration |
| TaskSections.RelationOutside | MergeAddressesAndBuildings/TaskingInterface.cs:41-43 | a relation whose cell numbers below zero puts the dataset outside the grid |
| TaskSections.WayOutside | MergeAddressesAndBuildings/TaskingInterface.cs:57-58 | a way whose cell numbers below zero puts the dataset outside the grid |
| TaskSections.NodeOutside | MergeAddressesAndBuildings/TaskingInterface.cs:68-69 | a node whose cell numbers below zero puts the dataset outside the grid |
| TaskSections.FlaggedSamePositions | MergeAddressesAndBuildings/TaskingInterface.cs:39-73 | setting flags moves nothing |
| TaskSections.InGridSame | MergeAddressesAndBuildings/TaskingInterface.cs:41-68 | whether everything lies inside the grid depends on positions only |
| TaskSections.FlaggedValid | MergeAddressesAndBuildings/TaskingInterface.cs:39-73 | setting flags keeps the dataset well formed |
| TaskSections.AllNodesFlagged | MergeAddressesAndBuildings/TaskingInterface.cs:64-73 | after the reset, once every node is flagged each node is its original with the flag set |
| TaskSections.AllWaysFlagged | MergeAddressesAndBuildings/TaskingInterface.cs:53-61 | after the reset, once every way is flagged each way is its original with the flag set |
| TaskSections.CellAt | MergeAddressesAndBuildings/TaskingInterface.cs:41-42 | the cell a position is filed under numbers below the array's length (it can be negative below or left of the grid) |
| Tasking.SinceTrans | MergeAddressesAndBuildings/TaskingInterface.cs:39-73 | "only flags set and sections kept" composes across the placement loops |
| Tasking.SinceKept | MergeAddressesAndBuildings/TaskingInterface.cs:233 | allocating sections and nothing else counts as such a move |
| Tasking.AllFiledSince | MergeAddressesAndBuildings/TaskingInterface.cs:39-73 | relations filed at one state stay filed at every later one |
| Tasking.InGridSince | MergeAddressesAndBuildings/TaskingInterface.cs:39-73 | whether everything lies inside the grid does not change while placing |
| Tasking.TaskingInterface.constructor | MergeAddressesAndBuildings/TaskingInterface.cs:12-21 | a new partitioner holds no section and no index |
| Tasking.TaskingInterface.AddWayTo | MergeAddressesAndBuildings/TaskingInterface.cs:193-194 | the way is flagged and appended to the section, and nothing else changes |
| Tasking.TaskingInterface.AddNodeTo | MergeAddressesAndBuildings/TaskingInterface.cs:199-200 | the node is flagged and appended to the section, and no other slot changes |
| Tasking.TaskingInterface.SaveWayTo | MergeAddressesAndBuildings/TaskingInterface.cs:189-214 | afterwards the way is flagged; when it was unused all its nodes are flagged; the section gained exactly what got flagged, and every way through a newly flagged node is flagged |
| Tasking.TaskingInterface.SaveNodes | MergeAddressesAndBuildings/TaskingInterface.cs:195-210 | every node of the list ends flagged, as one placement step into the section |
| Tasking.TaskingInterface.SaveNode | MergeAddressesAndBuildings/TaskingInterface.cs:197-209 | the node ends flagged and every way through it is saved into the same section |
| Tasking.TaskingInterface.SaveConnected | MergeAddressesAndBuildings/TaskingInterface.cs:202-208 | every way of the list ends flagged, as one placement step into the section |
| Tasking.TaskingInterface.GetSectionData | MergeAddressesAndBuildings/TaskingInterface.cs:230-235 | the cell is x * NVertical + y; an index outside the array throws and changes nothing; otherwise the slot is allocated empty on first use and kept afterwards |
| Tasking.TaskingInterface.InitializeConnectedWays | MergeAddressesAndBuildings/TaskingInterface.cs:80-101 | it succeeds exactly when every way's nodes are in the dataset, and then indexes under each node the ways through it, each once; otherwise it names a way and its missing node |
| Tasking.TaskingInterface.PlaceRelation | MergeAddressesAndBuildings/TaskingInterface.cs:39-50 | the relation is filed once more in the section of its centre's cell with all its ways flagged, or the cell is outside the array and no relation is placed |
| Tasking.TaskingInterface.FileRelation | MergeAddressesAndBuildings/TaskingInterface.cs:43-49 | the relation is appended once and filed with its ways |
| Tasking.TaskingInterface.PlaceWay | MergeAddressesAndBuildings/TaskingInterface.cs:53-61 | a used way is skipped; an unused one goes into its centre's cell and ends flagged, or the cell is outside the array and nothing changes |
| Tasking.TaskingInterface.PlaceNode | MergeAddressesAndBuildings/TaskingInterface.cs:64-73 | a used node is skipped; an unused one goes into its cell and ends flagged, or the cell is outside the array and nothing changes |
| Tasking.TaskingInterface.RelationStep | MergeAddressesAndBuildings/TaskingInterface.cs:39-50 | one turn of the relation loop extends the filed prefix by one, or stops at a relation outside the array |
| Tasking.TaskingInterface.PlaceRelations | MergeAddressesAndBuildings/TaskingInterface.cs:39-50 | the relation loop files every relation in enumeration order, or stops at the first relation whose cell is outside the array |
| Tasking.TaskingInterface.WayStep | MergeAddressesAndBuildings/TaskingInterface.cs:53-61 | one turn of the way loop places the next way, or stops at a way outside the array |
| Tasking.TaskingInterface.PlaceWays | MergeAddressesAndBuildings/TaskingInterface.cs:53-61 | the way loop places every way in order, or stops at the first unused way whose cell is outside the array |
| Tasking.TaskingInterface.NodeStep | MergeAddressesAndBuildings/TaskingInterface.cs:64-73 | one turn of the node loop places the next node, or stops at a node outside the array |
| Tasking.TaskingInterface.PlaceNodes | MergeAddressesAndBuildings/TaskingInterface.cs:64-73 | the node loop places every node in order, or stops at the first unused node whose cell is outside the array |
| Tasking.TaskingInterface.RelationPhase | MergeAddressesAndBuildings/TaskingInterface.cs:39-50 | from an empty array every relation is filed exactly once, or some relation lies outside the grid |
| Tasking.TaskingInterface.WayPhase | MergeAddressesAndBuildings/TaskingInterface.cs:53-61 | afterwards every way is flagged, or a way to place lies outside the grid |
| Tasking.TaskingInterface.NodePhase | MergeAddressesAndBuildings/TaskingInterface.cs:64-73 | afterwards every node is flagged, or a node to place lies outside the grid |
| Tasking.TaskingInterface.PlaceAll | MergeAddressesAndBuildings/TaskingInterface.cs:39-73 | the three loops flag every node and way and file every relation once, or some entity lies outside the grid |
| Tasking.TaskingInterface.WriteTasks | MergeAddressesAndBuildings/TaskingInterface.cs:30-73 | on success every node and every way is placed in exactly one section and every relation exactly once in the section of its centre's cell, all flags end set and nothing else changes; it throws exactly when a way names a missing node, or when some entity lies outside the grid |
| MSBuildings.Coords | MergeAddressesAndBuildings/ReadMSBuildings.cs:46-47 | an adapter, no more: each position is renamed to a coordinate, second number as latitude and first as longitude |
| MSBuildings.WithAttributes | MergeAddressesAndBuildings/ReadMSBuildings.cs:48-51 | a read node carries exactly the attributes id, lat, lon and visible="true", and keeps its id, position, tags and flag |
| MSBuildings.Build | MergeAddressesAndBuildings/ReadMSBuildings.cs:40-61 | the node list has one entry per position, and a non-empty one starts with the first node id issued |
| MSBuildings.BuildSnoc | MergeAddressesAndBuildings/ReadMSBuildings.cs:44-59 | one more position creates a node under the next id, appended unless `DuplicateNode` finds it near the first node, which is then appended again |
| MSBuildings.BuildAllIn | MergeAddressesAndBuildings/ReadMSBuildings.cs:44-59 | every listed node is one of the nodes created, each under its own id, one of the ids issued to the positions |
| MSBuildings.BuildIds | MergeAddressesAndBuildings/ReadMSBuildings.cs:44-59 | position k is node `first - k` when it is not near the first node and the first node otherwise; the first node sits at the first position |
| MSBuildings.BuildShape | MergeAddressesAndBuildings/ReadMSBuildings.cs:52-59 | a closing position that repeats the first reuses the first node, and no other node appears twice in the list |
| MSBuildings.AddNodes | MergeAddressesAndBuildings/ReadMSBuildings.cs:72-76 | adding a way's nodes touches neither ways nor relations nor their orders |
| MSBuildings.AddNodesNodes | MergeAddressesAndBuildings/ReadMSBuildings.cs:72-76 | afterwards every listed node is present, the dataset's own nodes are untouched and every other node is a listed one with its attributes |
| MSBuildings.AddNodesValid | MergeAddressesAndBuildings/ReadMSBuildings.cs:72-76 | adding the nodes keeps the dataset well formed |
| MSBuildings.Building | MergeAddressesAndBuildings/ReadMSBuildings.cs:37-66 | the way read has the given id and the node list built, and is not yet used |
| MSBuildings.BuildingCovers | MergeAddressesAndBuildings/ReadMSBuildings.cs:62-66 | the way carries building=yes, its id and visible="true", and its box holds every one of its nodes |
| MSBuildings.ReadFromNext | MergeAddressesAndBuildings/ReadMSBuildings.cs:33-80 | reading the features from i reads feature i, then the rest from the dataset that step leaves |
| MSBuildings.AddWayValid | MergeAddressesAndBuildings/ReadMSBuildings.cs:71 | adding a way under a fresh id keeps the dataset well formed |
| MSBuildings.StepFit | MergeAddressesAndBuildings/ReadMSBuildings.cs:35-79 | reading one feature keeps the dataset well formed, linked and without relations, with both id counters moved past the ids it issued |
| MSBuildings.ReadFromFit | MergeAddressesAndBuildings/ReadMSBuildings.cs:33-80 | reading any number of features keeps that, with the counters moved down by the features and the positions read |
| MSBuildings.StepNoStray | MergeAddressesAndBuildings/ReadMSBuildings.cs:69-77 | reading one feature adds nodes only together with the kept way that lists them, so a dataset whose every node lies on one of its ways stays so |
| MSBuildings.ReadFromNoStray | MergeAddressesAndBuildings/ReadMSBuildings.cs:33-80 | reading any number of features keeps every node on one of the dataset's ways: the nodes of a feature outside the boundary are never added |
| MSBuildings.ReadSound | MergeAddressesAndBuildings/ReadMSBuildings.cs:12-85 | the dataset read is well formed and linked, holds no relation, holds no node that none of its ways lists, and uses way ids and node ids downward from -2000000, one way id per feature and one node id per position |
| MSBuildings.GrowsTrans | MergeAddressesAndBuildings/ReadMSBuildings.cs:33-80 | "only adds below the counters, leaves the rest" composes across features |
| MSBuildings.StepIds | MergeAddressesAndBuildings/ReadMSBuildings.cs:35-79 | reading one feature adds at most its own way and nodes below the node counter, and changes nothing else |
| MSBuildings.StepWays | MergeAddressesAndBuildings/ReadMSBuildings.cs:38-71 | reading a feature adds no way above the next way id |
| MSBuildings.ReadFromIds | MergeAddressesAndBuildings/ReadMSBuildings.cs:33-80 | reading only adds ways and nodes at or below the counters and leaves the earlier ones alone |
| MSBuildings.StepKeeps | MergeAddressesAndBuildings/ReadMSBuildings.cs:40-77 | reading a feature succeeds only when it is readable and non-empty; its way is kept exactly when its first position is inside, and is then the way read from the feature |
| MSBuildings.KeepsFirst | MergeAddressesAndBuildings/ReadMSBuildings.cs:69-77 | the first feature's way is kept exactly when its first position is inside, and later features leave it as read |
| MSBuildings.ReadFromKeeps | MergeAddressesAndBuildings/ReadMSBuildings.cs:33-80 | the i-th feature becomes way `wayId - i`, kept exactly when its first position is inside, numbered from the node ids left after the earlier features |
| MSBuildings.ReadKeeps | MergeAddressesAndBuildings/ReadMSBuildings.cs:18-80 | from an empty dataset, feature i becomes way -2000000 - i, kept exactly when its first position is inside the boundary, and kept as read |
| MSBuildings.FlatIndex | MergeAddressesAndBuildings/ReadMSBuildings.cs:40-42 | position k of ring r is the position the two loops reach after the earlier rings |
| MSBuildings.PositionSnoc | MergeAddressesAndBuildings/ReadMSBuildings.cs:42-60 | reading one more position extends the node list exactly as Build does for one more coordinate |
| MSBuildings.ReadPosition | MergeAddressesAndBuildings/ReadMSBuildings.cs:44-59 | the node list and nodes afterwards are Build of the positions read so far, and the id counter moved down by one |
| MSBuildings.ReadRing | MergeAddressesAndBuildings/ReadMSBuildings.cs:42-60 | a ring read fully extends the node list as Build does; a position without two numbers is reported by index |
| MSBuildings.BuildNodeList | MergeAddressesAndBuildings/ReadMSBuildings.cs:40-61 | a readable feature gives Build of its positions with the counter moved down by their number; otherwise the read fails |
| MSBuildings.AddWayNodes | MergeAddressesAndBuildings/ReadMSBuildings.cs:72-76 | the dataset afterwards is AddNodes of the one before |
| MSBuildings.ReadFeature | MergeAddressesAndBuildings/ReadMSBuildings.cs:35-79 | the dataset afterwards is Step of the one before, or the read fails with Step's error |
| MSBuildings.ReadNext | MergeAddressesAndBuildings/ReadMSBuildings.cs:33-80 | one turn of the reading loop leaves a dataset from which the rest reads as the whole did from the old one |
| MSBuildings.ReadAll | MergeAddressesAndBuildings/ReadMSBuildings.cs:16-84 | the dataset returned is Read of the features, well formed, linked, without relations and with every node on a way, or the read's error |
| MSBuildings.ReadGeoJSON | MergeAddressesAndBuildings/ReadMSBuildings.cs:12-85 | the clip boundary is built from the boundary dataset's relations; a boundary error is returned as such; otherwise the result is a fresh dataset equal to Read of the features inside that boundary, well formed, linked, without relations and with every node on a way |

## Left out

- **Fetching and writing.** `Fetch.cs`, `WriteOSM.cs` and `WriteGZ.cs` are not
  part of this model. They are network and file I/O.
- **Parsing.** The XML reader loop of `ReadOSMDocument` and the GeoJSON stream
  parsing are file I/O. The model starts from the parsed entities. For the
  building reader, each feature is its list of rings of positions.
- **`Program.cs`.** It is not part of this model: command line, file names,
  and the order of the top-level calls.
  - It calls a three-argument `Buckets` constructor (`Program.cs:166`) that
    is not part of this model.
  - The two-argument constructor in `Buckets.cs` is modelled.
- **Task files.** These write the task and section files, so they are file
  output and are not modelled:
  - `TaskingInterface.WriteTaskGeoJSON`, `CreateTask` and
    `WriteFileSection(s)`;
  - the other writing code in `TaskingInterface.cs:240-426`.
- **Trigonometry.** These are parameters and nothing numeric is proved about
  them:
  - the bodies of `Distance`, `GreatCircleDistance` and `DegreeToRadians`;
  - all of `Coordinate.cs`;
  - `MoveByToward`, which `SpatialUtilities.cs` does not contain.
- **Unused geometry.** `BBox.Area`, `IsInBoundary0`, `IsInBoundary1` and
  `IsInPolygon` are not modelled. The engine does not call them.
- **Console output.** The `actionCount` counters and the `Console` messages do
  not change any data.
- **Floating point.** IEEE behaviour is not modelled, and coordinates are exact
  reals:
  - NaN and infinities;
  - rounding;
  - the exact text of `double.ToString` (formatting is a parameter).
- **Integers.** The 32-bit and 64-bit width of `int` and `long` ids and counters
  is not modelled, so overflow is not either. Integers are unbounded.
- **String order.** The `SortedList` in `NodeSpreader` uses the culture's
  string order. The model uses ordinal (code-point) order.
- **Aliasing.** The program keeps objects in its lists by reference. The model
  keeps copies or ids, so aliasing between the lists is not captured.
- Merging.Merge: the source reuses one `indexBuckets` field, first for the
  building index and then for the address index. The model keeps
  `buildingIndex` and `addressIndex` apart. Each pass reads the same contents
  as in the source.
- MSBuildings.ReadGeoJSON: a feature with no geometry or no properties (a null
  in the JSON) is not modelled. When an exception is thrown part-way, the
  model returns an error and does not return the partly built dataset.
- MergePasses.RemoveDuplicateBuildings, Merging.Merge.CheckDuplicateBuilding,
  MergePasses.MergeSpec and Merging.Merge.PerformMerge: when a new relation
  lists a new way that the duplicate check removes, the source goes on with the
  removed way object, which the relation still holds by reference. Here a
  relation holds way ids and a way exists only in its dataset's map, so the
  model stops with the `RemovedWayListed` error instead. New buildings read
  from building files have no relations, so this case only arises for an
  .osm file of new buildings.
- Tasking.TaskingInterface.WriteTasks: requires every way that a relation lists
  to be present in the dataset. The source would also save a way object that is
  missing from `osmWays`, and that case is not modelled.

## Findings

| source | as written | input that shows it | evidently intended | confidence | as-written member | corrected member |
|---|---|---|---|---|---|---|
| MergeAddressesAndBuildings/CrossingSegments.cs:19-32 | when the two supporting lines are parallel, the segments are reported to meet at the first start point if the two start points have the same longitude, whatever the slope | (lat, lon) segments (0,0)-(2,2) and (1,0)-(5,4): distinct parallel lines of slope 1 with no point in common, reported as meeting at (0,0) | the start-point overlap applies only when the two segments lie on one line: the comment on that branch speaks of overlap, which distinct parallel lines cannot have | medium, not executed | CrossingSegments.IntersectionAsWritten (shown by CrossingSegments.AsWrittenReportsDisjointParallels) | CrossingSegments.Intersection |

=== FILE: buckets.dfy ===
/**
 * The grid bucket index: the buffered outer box of the boundary is cut into
 * NHorizontal x NVertical cells of roughly `boxSize` metres; a position maps
 * to its cell, clamped on the upper side only, and a lookup returns the cell
 * with its neighbours, skipping row and column 0.
 */
module BucketIndex {
  import opened OSMType
  import opened SpatialUtilities

  /** C#'s `(int)` cast of a double: truncation toward zero. */
  function Trunc(v: real): (n: int)
    ensures v >= 0.0 ==> n as real <= v < n as real + 1.0
    ensures v < 0.0 ==> n as real - 1.0 < v <= n as real
  {
    if v >= 0.0 then v.Floor else -((-v).Floor)
  }

  /** The union of the boundary ways' boxes, in enumeration order, from the sentinel box. */
  function BoundaryBox(boundary: seq<Way>): BBox
  {
    if boundary == [] then EmptyBBox()
    else BboxUnion(boundary[|boundary| - 1].bbox, BoundaryBox(boundary[..|boundary| - 1]))
  }

  /** `AddBuffer`: widens the box by 0.001 degrees on every side. */
  function AddBuffer(b: BBox): (r: BBox)
    ensures r.minLat == b.minLat - 0.001 && r.maxLat == b.maxLat + 0.001
    ensures r.minLon == b.minLon - 0.001 && r.maxLon == b.maxLon + 0.001
    ensures r.Covers(b) && (b.IsProper() ==> r.minLat < r.maxLat && r.minLon < r.maxLon)
  {
    BBox(b.minLat - 0.001, b.maxLat + 0.001, b.minLon - 0.001, b.maxLon + 0.001)
  }

  /** The buffered outer box the constructor computes. */
  function OuterBox(boundary: seq<Way>): BBox
  {
    AddBuffer(BoundaryBox(boundary))
  }

  /** Cell counts of `CalculateSplit`: the east-west and north-south extents over `boxSize`, truncated. */
  function SplitCounts(outer: BBox, boxSize: real, distance: DistanceFn): (int, int)
    requires boxSize > 0.0
  {
    (Trunc(distance(outer.minLat, outer.minLat, outer.minLon, outer.maxLon) / boxSize),
     Trunc(distance(outer.minLat, outer.maxLat, outer.minLon, outer.minLon) / boxSize))
  }

  /** The boundary and cell size give a grid with at least one cell on each axis. */
  predicate Splittable(boundary: seq<Way>, boxSize: real, distance: DistanceFn)
  {
    boxSize > 0.0 &&
    (exists k | 0 <= k < |boundary| :: boundary[k].bbox.IsProper()) &&
    SplitCounts(OuterBox(boundary), boxSize, distance).0 >= 1 &&
    SplitCounts(OuterBox(boundary), boxSize, distance).1 >= 1
  }

  lemma {:induction false} BoundaryBoxProper(boundary: seq<Way>)
    requires exists k | 0 <= k < |boundary| :: boundary[k].bbox.IsProper()
    ensures BoundaryBox(boundary).IsProper()
  {
    var n := |boundary| - 1;
    var init := boundary[..n];
    if !boundary[n].bbox.IsProper() {
      var k :| 0 <= k < |boundary| && boundary[k].bbox.IsProper();
      assert init[k] == boundary[k];
      BoundaryBoxProper(init);
    }
  }

  /** A neighbour of a cell: within one step on both axes, and inside rows/columns 1 .. N-1. */
  predicate Searched(x: int, y: int, cx: int, cy: int, nh: int, nv: int)
  {
    cx - 1 <= x <= cx + 1 && cy - 1 <= y <= cy + 1 && 0 < x < nh && 0 < y < nv
  }

  /** The searched cells of column x with rows cy - 1 up to (excluding) yEnd, in row order. */
  function ColumnPrefix(x: int, yEnd: int, cx: int, cy: int, nh: int, nv: int): seq<(int, int)>
    decreases yEnd - (cy - 1)
  {
    if yEnd <= cy - 1 then []
    else ColumnPrefix(x, yEnd - 1, cx, cy, nh, nv) +
         (if Searched(x, yEnd - 1, cx, cy, nh, nv) then [(x, yEnd - 1)] else [])
  }

  /** The searched cells of columns cx - 1 up to (excluding) xEnd, column by column. */
  function ColumnsBefore(xEnd: int, cx: int, cy: int, nh: int, nv: int): seq<(int, int)>
    decreases xEnd - (cx - 1)
  {
    if xEnd <= cx - 1 then []
    else ColumnsBefore(xEnd - 1, cx, cy, nh, nv) + ColumnPrefix(xEnd - 1, cy + 2, cx, cy, nh, nv)
  }

  /** The searched neighbourhood of (cx, cy), in the lookup's loop order. */
  function Neighbourhood(cx: int, cy: int, nh: int, nv: int): seq<(int, int)>
  {
    ColumnsBefore(cx + 2, cx, cy, nh, nv)
  }

  lemma {:induction false} ColumnPrefixMembers(x: int, yEnd: int, cx: int, cy: int, nh: int, nv: int)
    decreases yEnd - (cy - 1)
    ensures |ColumnPrefix(x, yEnd, cx, cy, nh, nv)| <= if yEnd <= cy - 1 then 0 else yEnd - (cy - 1)
    ensures forall p :: p in ColumnPrefix(x, yEnd, cx, cy, nh, nv) <==>
                        p.0 == x && p.1 < yEnd && Searched(p.0, p.1, cx, cy, nh, nv)
  {
    if yEnd > cy - 1 {
      ColumnPrefixMembers(x, yEnd - 1, cx, cy, nh, nv);
    }
  }

  lemma {:induction false} ColumnsBeforeMembers(xEnd: int, cx: int, cy: int, nh: int, nv: int)
    decreases xEnd - (cx - 1)
    ensures |ColumnsBefore(xEnd, cx, cy, nh, nv)| <= if xEnd <= cx - 1 then 0 else 3 * (xEnd - (cx - 1))
    ensures forall p :: p in ColumnsBefore(xEnd, cx, cy, nh, nv) <==>
                        p.0 < xEnd && Searched(p.0, p.1, cx, cy, nh, nv)
  {
    if xEnd > cx - 1 {
      ColumnsBeforeMembers(xEnd - 1, cx, cy, nh, nv);
      ColumnPrefixMembers(xEnd - 1, cy + 2, cx, cy, nh, nv);
    }
  }

  /**
   * The lookup visits at most nine cells, and exactly the cells within one
   * step of the centre that lie in columns 1 .. nh-1 and rows 1 .. nv-1.
   */
  lemma NeighbourhoodIsSearched(cx: int, cy: int, nh: int, nv: int)
    ensures |Neighbourhood(cx, cy, nh, nv)| <= 9
    ensures forall p :: p in Neighbourhood(cx, cy, nh, nv) <==> Searched(p.0, p.1, cx, cy, nh, nv)
    ensures forall p | p in Neighbourhood(cx, cy, nh, nv) :: 0 < p.0 < nh && 0 < p.1 < nv
  {
    ColumnsBeforeMembers(cx + 2, cx, cy, nh, nv);
  }

  function Zip(xs: seq<int>, ys: seq<int>): (r: seq<(int, int)>)
    requires |xs| == |ys|
    ensures |r| == |xs| && forall k | 0 <= k < |xs| :: r[k] == (xs[k], ys[k])
  {
    seq(|xs|, k requires 0 <= k < |xs| => (xs[k], ys[k]))
  }

  class Buckets {
    /** The fields are assigned once, by the constructor. */
    const outerBbox: BBox
    const NVertical: int
    const NHorizontal: int
    const bucketLat: real
    const bucketLon: real

    /** At least one cell per axis, and cell spans that tile the outer box. */
    ghost predicate Valid()
    {
      NHorizontal >= 1 && NVertical >= 1 &&
      outerBbox.minLat < outerBbox.maxLat && outerBbox.minLon < outerBbox.maxLon &&
      bucketLat == (outerBbox.maxLat - outerBbox.minLat) / NVertical as real &&
      bucketLon == (outerBbox.maxLon - outerBbox.minLon) / NHorizontal as real
    }

    /**
     * `Buckets(outerBoundary, boxSize)`: the union of the boundary ways' boxes,
     * buffered, split by `CalculateSplit` into cells about `boxSize` metres
     * wide, measured with the flat-earth `distance`.
     */
    constructor (boundary: seq<Way>, boxSize: real, distance: DistanceFn)
      requires Splittable(boundary, boxSize, distance)
      ensures Valid()
      ensures outerBbox == OuterBox(boundary) && outerBbox.Covers(BoundaryBox(boundary))
      ensures (NHorizontal, NVertical) == SplitCounts(outerBbox, boxSize, distance)
    {
      var bbox := EmptyBBox();
      var i := 0;
      while i < |boundary|
        invariant 0 <= i <= |boundary|
        invariant bbox == BoundaryBox(boundary[..i])
      {
        assert boundary[..i + 1][..i] == boundary[..i];
        bbox := BboxUnion(boundary[i].bbox, bbox);
        i := i + 1;
      }
      assert boundary[..i] == boundary;
      BoundaryBoxProper(boundary);
      bbox := AddBuffer(bbox);
      outerBbox := bbox;
      // CalculateSplit
      var counts := SplitCounts(bbox, boxSize, distance);
      NHorizontal, NVertical := counts.0, counts.1;
      bucketLat := (bbox.maxLat - bbox.minLat) / counts.1 as real;
      bucketLon := (bbox.maxLon - bbox.minLon) / counts.0 as real;
    }

    /** `GetBBox(x, y)`: the box of cell (x, y), counted from the outer box's minimum corner. */
    function GetBBox(x: int, y: int): (b: BBox)
      requires Valid()
      ensures b.maxLat - b.minLat == bucketLat && b.maxLon - b.minLon == bucketLon
    {
      var minLat := outerBbox.minLat + y as real * bucketLat;
      var minLon := outerBbox.minLon + x as real * bucketLon;
      BBox(minLat, minLat + bucketLat, minLon, minLon + bucketLon)
    }

    /** The cell index of a position before clamping. */
    function RawBucket(lat: real, lon: real): (int, int)
      requires Valid()
    {
      (Trunc((lon - outerBbox.minLon) / bucketLon), Trunc((lat - outerBbox.minLat) / bucketLat))
    }

    /** `ReturnBucket(lat, lon)`: the cell holding the position, clamped from above only. */
    function ReturnBucket(lat: real, lon: real): (c: (int, int))
      requires Valid()
      ensures c.0 <= NHorizontal - 1 && c.1 <= NVertical - 1
      ensures c.0 >= 0 <==> lon - outerBbox.minLon > -bucketLon
      ensures c.1 >= 0 <==> lat - outerBbox.minLat > -bucketLat
    {
      var raw := RawBucket(lat, lon);
      BucketSign(lon - outerBbox.minLon, bucketLon);
      BucketSign(lat - outerBbox.minLat, bucketLat);
      (if raw.0 >= NHorizontal then NHorizontal - 1 else raw.0,
       if raw.1 >= NVertical then NVertical - 1 else raw.1)
    }

    /** Neighbouring cells share their edges: the grid has no gaps and no overlaps. */
    lemma CellsShareEdges(x: int, y: int)
      requires Valid()
      ensures GetBBox(x, y).maxLon == GetBBox(x + 1, y).minLon
      ensures GetBBox(x, y).maxLat == GetBBox(x, y + 1).minLat
      ensures GetBBox(x, y).minLat == GetBBox(x + 1, y).minLat && GetBBox(x, y).minLon == GetBBox(x, y + 1).minLon
    {
      assert (x + 1) as real * bucketLon == x as real * bucketLon + bucketLon;
      assert (y + 1) as real * bucketLat == y as real * bucketLat + bucketLat;
    }

    /** Cell (0, 0) starts at the outer minimum and the last cell ends at the outer maximum. */
    lemma CellsSpanOuterBox()
      requires Valid()
      ensures GetBBox(0, 0).minLat == outerBbox.minLat && GetBBox(0, 0).minLon == outerBbox.minLon
      ensures GetBBox(NHorizontal - 1, NVertical - 1).maxLat == outerBbox.maxLat
      ensures GetBBox(NHorizontal - 1, NVertical - 1).maxLon == outerBbox.maxLon
    {
      var nh, nv := NHorizontal as real, NVertical as real;
      assert (nv - 1.0) * bucketLat + bucketLat == nv * bucketLat;
      assert (nh - 1.0) * bucketLon + bucketLon == nh * bucketLon;
      assert nv * bucketLat == outerBbox.maxLat - outerBbox.minLat;
      assert nh * bucketLon == outerBbox.maxLon - outerBbox.minLon;
    }

    /**
     * A position at or above the outer minimum whose cell was not clamped
     * lies in that cell's box, under half-open containment.
     */
    lemma PositionInItsCell(lat: real, lon: real)
      requires Valid()
      requires lat >= outerBbox.minLat && lon >= outerBbox.minLon
      requires RawBucket(lat, lon).0 < NHorizontal && RawBucket(lat, lon).1 < NVertical
      ensures 0 <= ReturnBucket(lat, lon).0 < NHorizontal && 0 <= ReturnBucket(lat, lon).1 < NVertical
      ensures BBoxContains(GetBBox(ReturnBucket(lat, lon).0, ReturnBucket(lat, lon).1), Coord(lat, lon))
    {
      var c := ReturnBucket(lat, lon);
      assert c == RawBucket(lat, lon);
      TruncStep(lon - outerBbox.minLon, bucketLon);
      TruncStep(lat - outerBbox.minLat, bucketLat);
    }

    /** Inside the closed outer box, a cell index is clamped only on the maximum edge itself. */
    lemma ClampOnlyOnMaxEdge(lat: real, lon: real)
      requires Valid()
      requires outerBbox.minLat <= lat < outerBbox.maxLat && outerBbox.minLon <= lon < outerBbox.maxLon
      ensures RawBucket(lat, lon).0 < NHorizontal && RawBucket(lat, lon).1 < NVertical
    {
      TruncBelow(lon - outerBbox.minLon, outerBbox.maxLon - outerBbox.minLon, NHorizontal);
      TruncBelow(lat - outerBbox.minLat, outerBbox.maxLat - outerBbox.minLat, NVertical);
    }

    /**
     * `ReturnBucketList(lat, lon)`: the cell of the position and its eight
     * neighbours, column by column, keeping only 0 < x < NHorizontal and
     * 0 < y < NVertical.
     */
    method ReturnBucketList(lat: real, lon: real) returns (xList: seq<int>, yList: seq<int>)
      requires Valid()
      ensures |xList| == |yList|
      ensures Zip(xList, yList) == Neighbourhood(ReturnBucket(lat, lon).0, ReturnBucket(lat, lon).1,
                                                 NHorizontal, NVertical)
    {
      var c := ReturnBucket(lat, lon);
      var x, y := c.0, c.1;
      xList, yList := [], [];
      var xSurround := x - 1;
      while xSurround <= x + 1
        invariant x - 1 <= xSurround <= x + 2
        invariant |xList| == |yList|
        invariant Zip(xList, yList) == ColumnsBefore(xSurround, x, y, NHorizontal, NVertical)
      {
        var ySurround := y - 1;
        while ySurround <= y + 1
          invariant y - 1 <= ySurround <= y + 2
          invariant |xList| == |yList|
          invariant Zip(xList, yList) == ColumnsBefore(xSurround, x, y, NHorizontal, NVertical) +
                                         ColumnPrefix(xSurround, ySurround, x, y, NHorizontal, NVertical)
        {
          if xSurround > 0 && xSurround < NHorizontal && ySurround > 0 && ySurround < NVertical {
            xList, yList := xList + [xSurround], yList + [ySurround];
          }
          ySurround := ySurround + 1;
        }
        xSurround := xSurround + 1;
      }
    }
  }

  /** The sign of a truncated quotient: non-negative exactly when the quotient exceeds -1. */
  lemma BucketSign(d: real, span: real)
    requires span > 0.0
    ensures Trunc(d / span) >= 0 <==> d > -span
  {
    var q := d / span;
    assert d == q * span;
    if q <= -1.0 {
      assert q * span <= -1.0 * span;
    } else if q < 0.0 {
      assert q * span > -1.0 * span;
    }
  }

  /** For d >= 0, the truncated cell index k satisfies k * span <= d < (k + 1) * span. */
  lemma TruncStep(d: real, span: real)
    requires d >= 0.0 && span > 0.0
    ensures Trunc(d / span) >= 0
    ensures Trunc(d / span) as real * span <= d < Trunc(d / span) as real * span + span
  {
    var q := d / span;
    var k := Trunc(q) as real;
    assert d == q * span;
    assert 0.0 <= q - k < 1.0;
    var lo, gap := q - k, k + 1.0 - q;
    assert lo * span >= 0.0 && gap * span > 0.0;
    assert lo * span == d - k * span;
    assert gap * span == k * span + span - d;
    assert d < k * span + span;
    assert k == Trunc(d / span) as real;
  }

  /** 0 <= d < total splits into fewer than n cells of span total / n. */
  lemma TruncBelow(d: real, total: real, n: int)
    requires 0.0 <= d < total && n >= 1
    ensures Trunc(d / (total / n as real)) < n
  {
    var span := total / n as real;
    assert span > 0.0;
    var q := d / span;
    assert q * span == d;
    assert (n as real) * span == total;
    if q >= n as real {
      assert q * span >= (n as real) * span;
    }
  }
}

=== FILE: clip_boundary.dfy ===
/**
 * The clip boundary: a closed ring of coordinates and its box, built either
 * from one way or from the outer ways of the single boundary relation, and
 * the winding-number point-in-polygon test over that ring.
 *
 * Walking the relation chains its outer ways end to end. A way that joins
 * the ring by its last node is reversed, and the reversal is written back to
 * the dataset, as the program reverses the shared node list in place.
 */
module ClipBoundaries {
  import opened Wrappers
  import opened OSMType
  import opened SpatialUtilities
  import opened Datasets

  /** The exceptions of the relation constructor. */
  datatype RingError =
    | TooManyRelations        // more than one boundary relation
    | DuplicateOuterMember(ref: int)  // `outerWays.Add` of a ref already listed
    | Gap(relationId: int)    // no remaining way connects to the ring's end
    | EmptyWay(wayId: int)    // a way without nodes, indexed at position 0 or Count - 1

  /** `SamePosition`: both coordinates agree to within 1e-10 degrees. */
  predicate SamePosition(a: Coord, b: Coord)
  {
    Abs(a.lat - b.lat) < 0.0000000001 && Abs(a.lon - b.lon) < 0.0000000001
  }

  /** Every way's nodes are present in the node store. */
  predicate NodesPresent(ways: map<int, Way>, nodes: map<int, Node>)
  {
    forall id | id in ways :: AllIn(ways[id].nodeList, nodes)
  }

  /** `List.Reverse`. */
  function Reversed<T>(s: seq<T>): (r: seq<T>)
    ensures |r| == |s| && forall k | 0 <= k < |s| :: r[k] == s[|s| - 1 - k]
  {
    if s == [] then [] else Reversed(s[1..]) + [s[0]]
  }

  lemma ReversedTwice<T>(s: seq<T>)
    ensures Reversed(Reversed(s)) == s
  {
  }

  lemma ReversedAllIn<T>(s: seq<int>, m: map<int, T>)
    requires AllIn(s, m)
    ensures AllIn(Reversed(s), m)
  {
  }

  /** `List.Remove` of the element at index j. */
  function RemoveAt(s: seq<int>, j: nat): (r: seq<int>)
    requires j < |s|
    ensures |r| == |s| - 1
    ensures forall k | 0 <= k < |r| :: r[k] == if k < j then s[k] else s[k + 1]
  {
    s[..j] + s[j + 1..]
  }

  /** The way's first node is at p. */
  predicate StartsAt(w: Way, nodes: map<int, Node>, p: Coord)
  {
    w.nodeList != [] && w.nodeList[0] in nodes && SamePosition(nodes[w.nodeList[0]].Position(), p)
  }

  /** The way's last node is at p. */
  predicate EndsAt(w: Way, nodes: map<int, Node>, p: Coord)
  {
    w.nodeList != [] && w.nodeList[|w.nodeList| - 1] in nodes &&
    SamePosition(nodes[w.nodeList[|w.nodeList| - 1]].Position(), p)
  }

  /**
   * The search loop of `FindConnectingNodeList` from position j: the first
   * way in list order that starts or else ends at `last`, and whether it must
   * be reversed; a way without nodes met on the way is an error, and so is
   * reaching the end of the list.
   */
  function Scan(relId: int, last: Coord, working: seq<int>, j: nat,
                ways: map<int, Way>, nodes: map<int, Node>): (r: Result<(nat, bool), RingError>)
    requires j <= |working| && AllIn(working, ways) && NodesPresent(ways, nodes)
    decreases |working| - j
    ensures r.Ok? ==>
      var i := r.value.0;
      j <= i < |working| &&
      (StartsAt(ways[working[i]], nodes, last) || EndsAt(ways[working[i]], nodes, last)) &&
      (r.value.1 <==> !StartsAt(ways[working[i]], nodes, last)) &&
      forall k | j <= k < i :: ways[working[k]].nodeList != [] &&
        !StartsAt(ways[working[k]], nodes, last) && !EndsAt(ways[working[k]], nodes, last)
    ensures r == Err(Gap(relId)) <==>
      forall k | j <= k < |working| :: ways[working[k]].nodeList != [] &&
        !StartsAt(ways[working[k]], nodes, last) && !EndsAt(ways[working[k]], nodes, last)
    ensures r.Err? && r.error != Gap(relId) ==>
      exists i | j <= i < |working| :: r.error == EmptyWay(working[i]) && ways[working[i]].nodeList == [] &&
        forall k | j <= k < i :: ways[working[k]].nodeList != [] &&
          !StartsAt(ways[working[k]], nodes, last) && !EndsAt(ways[working[k]], nodes, last)
  {
    if j == |working| then Err(Gap(relId))
    else
      var w := ways[working[j]];
      if w.nodeList == [] then Err(EmptyWay(working[j]))
      else if StartsAt(w, nodes, last) then Ok((j, false))
      else if EndsAt(w, nodes, last) then Ok((j, true))
      else Scan(relId, last, working, j + 1, ways, nodes)
  }

  /**
   * One `FindConnectingNodeList` call: on the first pass (no ring end yet)
   * the first way, unreversed; afterwards the result of the scan.
   */
  function Connect(relId: int, last: Option<Coord>, working: seq<int>,
                   ways: map<int, Way>, nodes: map<int, Node>): (r: Result<(nat, bool), RingError>)
    requires working != [] && AllIn(working, ways) && NodesPresent(ways, nodes)
    ensures r.Ok? ==> r.value.0 < |working|
  {
    if last.None? then Ok((0, false)) else Scan(relId, last.value, working, 0, ways, nodes)
  }

  /** The ring built so far, the way store as it was left, and the exception if one was thrown. */
  datatype Walked = Walked(coords: seq<Coord>, ways: map<int, Way>, error: Option<RingError>)

  /**
   * The walk loop of the relation constructor: each pass takes one way out of
   * the working list, appends its positions in walk order, and continues
   * from its last node.
   */
  function Walk(relId: int, last: Option<Coord>, working: seq<int>,
                ways: map<int, Way>, nodes: map<int, Node>): (r: Walked)
    requires AllIn(working, ways) && NodesPresent(ways, nodes)
    decreases |working|
  {
    if working == [] then Walked([], ways, None)
    else match Connect(relId, last, working, ways, nodes)
      case Err(e) => Walked([], ways, Some(e))
      case Ok((j, rev)) =>
        var id := working[j];
        var list := if rev then Reversed(ways[id].nodeList) else ways[id].nodeList;
        ReversedAllIn(ways[id].nodeList, nodes);
        var ways' := ways[id := ways[id].(nodeList := list)];
        var pts := Positions(list, nodes);
        if list == [] then Walked(pts, ways', Some(EmptyWay(id)))
        else
          var rest := Walk(relId, Some(pts[|pts| - 1]), RemoveAt(working, j), ways', nodes);
          Walked(pts + rest.coords, rest.ways, rest.error)
  }

  /** A pass that finds no connecting way ends the walk with that exception. */
  lemma WalkFails(relId: int, last: Option<Coord>, working: seq<int>, ways: map<int, Way>, nodes: map<int, Node>)
    requires working != [] && AllIn(working, ways) && NodesPresent(ways, nodes)
    requires Connect(relId, last, working, ways, nodes).Err?
    ensures Walk(relId, last, working, ways, nodes) == Walked([], ways, Some(Connect(relId, last, working, ways, nodes).error))
  {
  }

  /** A pass that takes way working[j], unfolded: its positions, then the rest of the walk. */
  lemma WalkTaken(relId: int, last: Option<Coord>, working: seq<int>, ways: map<int, Way>, nodes: map<int, Node>,
                  j: nat, rev: bool)
    requires working != [] && AllIn(working, ways) && NodesPresent(ways, nodes)
    requires Connect(relId, last, working, ways, nodes) == Ok((j, rev))
    ensures var id := working[j];
      var list := if rev then Reversed(ways[id].nodeList) else ways[id].nodeList;
      var ways' := ways[id := ways[id].(nodeList := list)];
      var pts := Positions(list, nodes);
      AllIn(list, nodes) && NodesPresent(ways', nodes) && AllIn(RemoveAt(working, j), ways') &&
      (list == [] ==> Walk(relId, last, working, ways, nodes) == Walked(pts, ways', Some(EmptyWay(id)))) &&
      (list != [] ==>
        var rest := Walk(relId, Some(pts[|pts| - 1]), RemoveAt(working, j), ways', nodes);
        Walk(relId, last, working, ways, nodes) == Walked(pts + rest.coords, rest.ways, rest.error))
  {
    var id := working[j];
    assert id in ways;
    var list := if rev then Reversed(ways[id].nodeList) else ways[id].nodeList;
    ReversedAllIn(ways[id].nodeList, nodes);
    assert AllIn(list, nodes);
    var ways' := ways[id := ways[id].(nodeList := list)];
    assert ways'.Keys == ways.Keys;
    assert NodesPresent(ways', nodes);
  }

  /** The member is a "way" member with role "outer". */
  predicate IsOuterWay(m: Member)
  {
    m.memberType == "way" && m.role == "outer"
  }

  /**
   * The key set of `outerWays`: the refs of the outer way members, or the
   * first repeated ref, at which `Dictionary.Add` throws.
   */
  function OuterRefs(members: seq<Member>): (r: Result<set<int>, RingError>)
    ensures r.Ok? <==> forall i, j | 0 <= i < j < |members| && IsOuterWay(members[i]) && IsOuterWay(members[j]) ::
                         members[i].ref != members[j].ref
    ensures r.Ok? ==> forall x :: x in r.value <==> exists k | 0 <= k < |members| :: IsOuterWay(members[k]) && members[k].ref == x
    ensures r.Err? ==> r.error.DuplicateOuterMember?
  {
    if members == [] then Ok({})
    else
      var init, m := members[..|members| - 1], members[|members| - 1];
      assert forall k | 0 <= k < |init| :: init[k] == members[k];
      match OuterRefs(init)
      case Err(e) => Err(e)
      case Ok(s) =>
        if !IsOuterWay(m) then Ok(s)
        else if m.ref in s then Err(DuplicateOuterMember(m.ref))
        else Ok(s + {m.ref})
  }

  /** The ids of `ids` that are in `keep`, in order. */
  function Keep(ids: seq<int>, keep: set<int>): (r: seq<int>)
    ensures forall x :: x in r <==> x in ids && x in keep
    ensures |r| <= |ids|
  {
    if ids == [] then []
    else Keep(ids[..|ids| - 1], keep) + (if ids[|ids| - 1] in keep then [ids[|ids| - 1]] else [])
  }

  lemma {:induction false} KeepAllIn<T>(ids: seq<int>, keep: set<int>, m: map<int, T>)
    requires AllIn(ids, m)
    ensures AllIn(Keep(ids, keep), m)
  {
    if ids != [] {
      var init := ids[..|ids| - 1];
      assert AllIn(init, m) by { forall k | 0 <= k < |init| ensures init[k] in m { assert init[k] == ids[k]; } }
      KeepAllIn(init, keep, m);
    }
  }

  /** A boundary (ring and box), or the exception, and the way store as the constructor left it. */
  datatype Outcome = Outcome(result: Result<(seq<Coord>, BBox), RingError>, ways: map<int, Way>)

  /**
   * The relation constructor over the relation dictionary: more than one
   * relation is an error; none gives an empty ring and box; one relation
   * gives the walk over its outer ways, in the order of its linked ways,
   * and the union of their boxes.
   */
  function RelationBoundary(order: seq<int>, relations: map<int, Relation>,
                            ways: map<int, Way>, nodes: map<int, Node>): (o: Outcome)
    requires AllIn(order, relations)
    requires forall id | id in relations :: AllIn(relations[id].ways, ways)
    requires NodesPresent(ways, nodes)
  {
    if |order| > 1 then Outcome(Err(TooManyRelations), ways)
    else if order == [] then Outcome(Ok(([], EmptyBBox())), ways)
    else
      var key := order[0];
      assert key in relations;
      var rel := relations[key];
      assert AllIn(rel.ways, ways);
      match OuterRefs(rel.members)
      case Err(e) => Outcome(Err(e), ways)
      case Ok(outer) =>
        var working := Keep(rel.ways, outer);
        KeepAllIn(rel.ways, outer, ways);
        var w := Walk(rel.id, None, working, ways, nodes);
        Outcome(if w.error.None? then Ok((w.coords, WaysBox(working, ways))) else Err(w.error.value), w.ways)
  }

  // ------------------------------------------------------------- winding number

  /** `isLeft`: the cross product of p0->p1 and p0->p2; positive when p2 is left of the line. */
  function IsLeft(p0: Coord, p1: Coord, p2: Coord): real
  {
    (p1.lon - p0.lon) * (p2.lat - p0.lat) - (p2.lon - p0.lon) * (p1.lat - p0.lat)
  }

  /** The contribution of edge a->b to the winding number about p. */
  function Crossing(a: Coord, b: Coord, p: Coord): (c: int)
    ensures -1 <= c <= 1
  {
    if a.lat <= p.lat then
      (if b.lat > p.lat && IsLeft(a, b, p) > 0.0 then 1 else 0)
    else
      (if b.lat <= p.lat && IsLeft(a, b, p) < 0.0 then -1 else 0)
  }

  /** The winding number: the crossings of the edges ring[i] -> ring[i + 1], with no closing edge added. */
  function Winding(ring: seq<Coord>, p: Coord): int
  {
    if |ring| < 2 then 0 else Crossing(ring[0], ring[1], p) + Winding(ring[1..], p)
  }

  /** `IsInBoundary` as a property of a ring. */
  predicate InRing(ring: seq<Coord>, p: Coord)
  {
    Winding(ring, p) != 0
  }

  class ClipBoundary {
    var boundaryCoordinates: seq<Coord>
    var boundaryBbox: BBox

    /** `ClipBoundary(OSMWay)`: the way's node positions, in order, and the way's box. */
    constructor FromWay(w: Way, nodes: map<int, Node>)
      requires AllIn(w.nodeList, nodes)
      ensures boundaryBbox == w.bbox && boundaryCoordinates == Positions(w.nodeList, nodes)
    {
      boundaryBbox := w.bbox;
      var coords: seq<Coord> := [];
      var i := 0;
      while i < |w.nodeList|
        invariant 0 <= i <= |w.nodeList|
        invariant coords == Positions(w.nodeList, nodes)[..i]
      {
        var n := nodes[w.nodeList[i]];
        coords := coords + [Coord(n.lat, n.lon)];
        i := i + 1;
      }
      boundaryCoordinates := coords;
    }

    /** A boundary with the given ring and box, as the relation constructor leaves it. */
    constructor Of(coords: seq<Coord>, box: BBox)
      ensures boundaryCoordinates == coords && boundaryBbox == box
    {
      boundaryCoordinates, boundaryBbox := coords, box;
    }

    /**
     * `ClipBoundary(relations)`: the ring of the single boundary relation in
     * the dataset; the ways it reverses stay reversed in the dataset, also
     * when an exception ends the walk.
     */
    static method FromRelations(ds: OSMDataset) returns (r: Result<ClipBoundary, RingError>)
      requires ds.Valid() && ds.Linked()
      modifies ds
      ensures ds.Valid() && ds.Linked()
      ensures var o := RelationBoundary(old(ds.relationOrder), old(ds.osmRelations), old(ds.osmWays), old(ds.osmNodes));
        ds.osmWays == o.ways &&
        (r.Ok? <==> o.result.Ok?) &&
        (r.Ok? ==> fresh(r.value) && r.value.boundaryCoordinates == o.result.value.0 &&
                   r.value.boundaryBbox == o.result.value.1) &&
        (r.Err? ==> r.error == o.result.error)
      ensures ds.osmNodes == old(ds.osmNodes) && ds.osmRelations == old(ds.osmRelations)
      ensures ds.nodeOrder == old(ds.nodeOrder) && ds.wayOrder == old(ds.wayOrder) &&
              ds.relationOrder == old(ds.relationOrder)
    {
      if |ds.relationOrder| > 1 {
        return Err(TooManyRelations);
      }
      if ds.relationOrder == [] {
        var cb := new ClipBoundary.Of([], EmptyBBox());
        return Ok(cb);
      }
      var key := ds.relationOrder[0];
      assert key in ds.osmRelations;
      var rel := ds.osmRelations[key];
      assert AllIn(rel.ways, ds.osmWays);
      var outer := CollectOuterWays(rel.members);
      if outer.Err? {
        return Err(outer.error);
      }
      var working, box := SelectOuterWays(rel.ways, outer.value, ds.osmWays);
      var coords, ways, err := WalkRing(rel.id, working, ds.osmWays, ds.osmNodes);
      WalkOnlyReverses(rel.id, None, working, ds.osmWays, ds.osmNodes);
      ds.SetWays(ways);
      if err.Some? {
        return Err(err.value);
      }
      var cb := new ClipBoundary.Of(coords, box);
      return Ok(cb);
    }

    /** `wn_PnPoly`: the winding number of the ring about p. */
    method WnPnPoly(p: Coord) returns (wn: int)
      ensures wn == Winding(boundaryCoordinates, p)
    {
      var ring := boundaryCoordinates;
      wn := 0;
      var i := 0;
      while i < |ring| - 1
        invariant 0 <= i <= if |ring| == 0 then 0 else |ring| - 1
        invariant wn + Winding(ring[i..], p) == Winding(ring, p)
      {
        var next := ring[i + 1];
        assert ring[i..][1..] == ring[i + 1..];
        if ring[i].lat <= p.lat {
          if next.lat > p.lat {
            if IsLeft(ring[i], next, p) > 0.0 {
              wn := wn + 1;
            }
          }
        } else {
          if next.lat <= p.lat {
            if IsLeft(ring[i], next, p) < 0.0 {
              wn := wn - 1;
            }
          }
        }
        i := i + 1;
      }
    }

    /** `IsInBoundary`: the winding number is nonzero. */
    method IsInBoundary(p: Coord) returns (inside: bool)
      ensures inside <==> InRing(boundaryCoordinates, p)
    {
      var wn := WnPnPoly(p);
      inside := wn != 0;
    }
  }

  /**
   * The second loop of the relation constructor: the outer ways in the order
   * of the relation's linked ways, and the union of their boxes.
   */
  method SelectOuterWays(relWays: seq<int>, outer: set<int>, ways: map<int, Way>)
    returns (working: seq<int>, box: BBox)
    requires AllIn(relWays, ways)
    ensures working == Keep(relWays, outer) && AllIn(working, ways)
    ensures box == WaysBox(working, ways)
  {
    working, box := [], EmptyBBox();
    var i := 0;
    while i < |relWays|
      invariant 0 <= i <= |relWays|
      invariant working == Keep(relWays[..i], outer) && AllIn(working, ways)
      invariant box == WaysBox(working, ways)
    {
      KeepStep(relWays, i, outer, ways);
      if relWays[i] in outer {
        box := BboxUnion(box, ways[relWays[i]].bbox);
        working := working + [relWays[i]];
      }
      i := i + 1;
    }
    assert relWays[..i] == relWays;
  }

  /** `Keep` and the box of the kept ways, one more way along. */
  lemma KeepStep(relWays: seq<int>, i: nat, outer: set<int>, ways: map<int, Way>)
    requires i < |relWays| && AllIn(relWays, ways)
    ensures AllIn(relWays[..i], ways) && AllIn(Keep(relWays[..i], outer), ways)
    ensures var kept := Keep(relWays[..i], outer);
      Keep(relWays[..i + 1], outer) == (if relWays[i] in outer then kept + [relWays[i]] else kept) &&
      (relWays[i] in outer ==>
         WaysBox(kept + [relWays[i]], ways) == BboxUnion(WaysBox(kept, ways), ways[relWays[i]].bbox))
  {
    assert relWays[..i + 1][..i] == relWays[..i];
    KeepAllIn(relWays[..i], outer, ways);
    var kept := Keep(relWays[..i], outer);
    assert (kept + [relWays[i]])[..|kept|] == kept;
  }

  /**
   * The walk loop of the relation constructor: calls `FindConnectingNodeList`
   * until the working list is empty, appending each returned node list's
   * positions, or stops at the first exception. `ways` is the way store,
   * carrying the reversals made so far.
   */
  method WalkRing(relId: int, working0: seq<int>, ways0: map<int, Way>, nodes: map<int, Node>)
    returns (coords: seq<Coord>, ways: map<int, Way>, err: Option<RingError>)
    requires AllIn(working0, ways0) && NodesPresent(ways0, nodes)
    ensures Walked(coords, ways, err) == Walk(relId, None, working0, ways0, nodes)
  {
    ghost var walked := Walk(relId, None, working0, ways0, nodes);
    var working := working0;
    ways := ways0;
    coords := [];
    var last: Option<Coord> := None;
    while working != []
      invariant AllIn(working, ways) && NodesPresent(ways, nodes)
      invariant var w := Walk(relId, last, working, ways, nodes);
        walked == Walked(coords + w.coords, w.ways, w.error)
      decreases |working|
    {
      var step, ways' := FindConnectingNodeList(relId, last, working, ways, nodes);
      if step.Err? {
        WalkStops(relId, last, working, ways, nodes, coords, walked);
        return coords, ways, Some(step.error);
      }
      ghost var c := Connect(relId, last, working, ways, nodes).value;
      WalkAdvances(relId, last, working, ways, nodes, coords, walked, c.0, c.1);
      var (id, list, rest) := step.value;
      var pts := Positions(list, nodes);
      ways := ways';
      if list == [] {
        return coords + pts, ways, Some(EmptyWay(id));
      }
      coords := coords + pts;
      last := Some(pts[|pts| - 1]);
      working := rest;
    }
    assert coords + [] == coords;
    err := None;
  }

  /** The loop invariant of `WalkRing` when a pass throws: the walk so far is the whole walk. */
  lemma WalkStops(relId: int, last: Option<Coord>, working: seq<int>, ways: map<int, Way>, nodes: map<int, Node>,
                  coords: seq<Coord>, walked: Walked)
    requires working != [] && AllIn(working, ways) && NodesPresent(ways, nodes)
    requires Connect(relId, last, working, ways, nodes).Err?
    requires var w := Walk(relId, last, working, ways, nodes); walked == Walked(coords + w.coords, w.ways, w.error)
    ensures walked == Walked(coords, ways, Some(Connect(relId, last, working, ways, nodes).error))
  {
    WalkFails(relId, last, working, ways, nodes);
    assert coords + [] == coords;
  }

  /**
   * The loop invariant of `WalkRing` carried over one pass that takes way
   * working[j]: its positions move from the rest of the walk to the ring.
   */
  lemma WalkAdvances(relId: int, last: Option<Coord>, working: seq<int>, ways: map<int, Way>, nodes: map<int, Node>,
                     coords: seq<Coord>, walked: Walked, j: nat, rev: bool)
    requires working != [] && AllIn(working, ways) && NodesPresent(ways, nodes)
    requires Connect(relId, last, working, ways, nodes) == Ok((j, rev))
    requires var w := Walk(relId, last, working, ways, nodes); walked == Walked(coords + w.coords, w.ways, w.error)
    ensures var id := working[j];
      var list := if rev then Reversed(ways[id].nodeList) else ways[id].nodeList;
      var ways' := ways[id := ways[id].(nodeList := list)];
      var pts := Positions(list, nodes);
      AllIn(RemoveAt(working, j), ways') && NodesPresent(ways', nodes) &&
      (list == [] ==> walked == Walked(coords + pts, ways', Some(EmptyWay(id)))) &&
      (list != [] ==>
        var w := Walk(relId, Some(pts[|pts| - 1]), RemoveAt(working, j), ways', nodes);
        walked == Walked((coords + pts) + w.coords, w.ways, w.error))
  {
    WalkTaken(relId, last, working, ways, nodes, j, rev);
    var id := working[j];
    var list := if rev then Reversed(ways[id].nodeList) else ways[id].nodeList;
    var ways' := ways[id := ways[id].(nodeList := list)];
    var pts := Positions(list, nodes);
    if list != [] {
      ShiftCoords(coords, pts, walked, Walk(relId, last, working, ways, nodes),
                  Walk(relId, Some(pts[|pts| - 1]), RemoveAt(working, j), ways', nodes));
    }
  }

  /** Moving a pass's positions from the rest of the walk to the ring built so far. */
  lemma ShiftCoords(coords: seq<Coord>, pts: seq<Coord>, walked: Walked, whole: Walked, rest: Walked)
    requires whole == Walked(pts + rest.coords, rest.ways, rest.error)
    requires walked == Walked(coords + whole.coords, whole.ways, whole.error)
    ensures walked == Walked((coords + pts) + rest.coords, rest.ways, rest.error)
  {
    assert coords + (pts + rest.coords) == (coords + pts) + rest.coords;
  }

  /** The first loop of the relation constructor, filling `outerWays`. */
  method CollectOuterWays(members: seq<Member>) returns (r: Result<set<int>, RingError>)
    ensures r == OuterRefs(members)
  {
    var outer: set<int> := {};
    var i := 0;
    while i < |members|
      invariant 0 <= i <= |members|
      invariant OuterRefs(members[..i]) == Ok(outer)
    {
      assert members[..i + 1][..i] == members[..i];
      var m := members[i];
      if m.memberType == "way" && m.role == "outer" {
        if m.ref in outer {
          assert OuterRefs(members[..i + 1]) == Err(DuplicateOuterMember(m.ref));
          assert OuterRefs(members[..i + 1]).Err?;
          r := Err(DuplicateOuterMember(m.ref));
          DuplicateStaysError(members, i + 1);
          return;
        }
        outer := outer + {m.ref};
      }
      i := i + 1;
    }
    assert members[..i] == members;
    r := Ok(outer);
  }

  /** Once a prefix of the members repeats an outer ref, the whole list fails with that error. */
  lemma {:induction false} DuplicateStaysError(members: seq<Member>, n: nat)
    requires n <= |members| && OuterRefs(members[..n]).Err?
    ensures OuterRefs(members) == OuterRefs(members[..n])
    decreases |members| - n
  {
    if n < |members| {
      assert members[..n + 1][..n] == members[..n];
      assert OuterRefs(members[..n + 1]) == OuterRefs(members[..n]);
      DuplicateStaysError(members, n + 1);
    } else {
      assert members[..n] == members;
    }
  }

  /**
   * `FindConnectingNodeList`: takes the connecting way out of the working
   * list and returns its id and node list in walk order; a way joined by its
   * last node is reversed in the way store.
   */
  method FindConnectingNodeList(relId: int, last: Option<Coord>, working: seq<int>,
                                ways: map<int, Way>, nodes: map<int, Node>)
    returns (r: Result<(int, seq<int>, seq<int>), RingError>, ways': map<int, Way>)
    requires working != [] && AllIn(working, ways) && NodesPresent(ways, nodes)
    ensures match Connect(relId, last, working, ways, nodes)
      case Err(e) => r == Err(e) && ways' == ways
      case Ok((j, rev)) =>
        var id := working[j];
        var list := if rev then Reversed(ways[id].nodeList) else ways[id].nodeList;
        r == Ok((id, list, RemoveAt(working, j))) &&
        ways' == ways[id := ways[id].(nodeList := list)]
  {
    ways' := ways;
    if last.None? {
      var id := working[0];
      assert RemoveAt(working, 0) == working[1..];
      assert ways[id := ways[id]] == ways;
      return Ok((id, ways[id].nodeList, working[1..])), ways';
    }
    var j := 0;
    while j < |working|
      invariant 0 <= j <= |working|
      invariant Scan(relId, last.value, working, j, ways, nodes) == Scan(relId, last.value, working, 0, ways, nodes)
    {
      var id := working[j];
      var w := ways[id];
      if |w.nodeList| == 0 {
        return Err(EmptyWay(id)), ways';
      }
      // forward order
      var testNode := nodes[w.nodeList[0]];
      if SamePosition(Coord(testNode.lat, testNode.lon), last.value) {
        assert RemoveAt(working, j) == working[..j] + working[j + 1..];
        assert ways[id := ways[id]] == ways;
        return Ok((id, w.nodeList, working[..j] + working[j + 1..])), ways';
      }
      // reverse order
      testNode := nodes[w.nodeList[|w.nodeList| - 1]];
      if SamePosition(Coord(testNode.lat, testNode.lon), last.value) {
        var list := Reversed(w.nodeList);
        ways' := ways[id := w.(nodeList := list)];
        return Ok((id, list, working[..j] + working[j + 1..])), ways';
      }
      j := j + 1;
    }
    return Err(Gap(relId)), ways';
  }

  // ---------------------------------------------------------------- lemmas

  /**
   * `after` holds the same ways as `before` under the same ids, each with its
   * original or its reversed node list and otherwise unchanged.
   */
  predicate OnlyReversed(before: map<int, Way>, after: map<int, Way>, nodes: map<int, Node>)
  {
    after.Keys == before.Keys && NodesPresent(after, nodes) &&
    forall id | id in before ::
      after[id] == before[id].(nodeList := after[id].nodeList) &&
      (after[id].nodeList == before[id].nodeList || after[id].nodeList == Reversed(before[id].nodeList))
  }

  lemma OnlyReversedTrans(a: map<int, Way>, b: map<int, Way>, c: map<int, Way>, nodes: map<int, Node>)
    requires OnlyReversed(a, b, nodes) && OnlyReversed(b, c, nodes)
    ensures OnlyReversed(a, c, nodes)
  {
    forall id | id in a
      ensures c[id].nodeList == a[id].nodeList || c[id].nodeList == Reversed(a[id].nodeList)
    {
      ReversedTwice(a[id].nodeList);
    }
  }

  /**
   * The walk changes the way store only by reversing node lists: the same
   * ways under the same ids, each with its original or its reversed list.
   */
  lemma {:induction false} WalkOnlyReverses(relId: int, last: Option<Coord>, working: seq<int>,
                                            ways: map<int, Way>, nodes: map<int, Node>)
    requires AllIn(working, ways) && NodesPresent(ways, nodes)
    decreases |working|, 1
    ensures OnlyReversed(ways, Walk(relId, last, working, ways, nodes).ways, nodes)
  {
    if working != [] {
      match Connect(relId, last, working, ways, nodes)
      case Err(e) =>
      case Ok((j, rev)) =>
        PassOnlyReverses(relId, last, working, ways, nodes, j, rev);
    }
  }

  /** The relation constructor changes the way store only by reversing node lists. */
  lemma RelationBoundaryOnlyReverses(order: seq<int>, relations: map<int, Relation>,
                                     ways: map<int, Way>, nodes: map<int, Node>)
    requires AllIn(order, relations)
    requires forall id | id in relations :: AllIn(relations[id].ways, ways)
    requires NodesPresent(ways, nodes)
    ensures OnlyReversed(ways, RelationBoundary(order, relations, ways, nodes).ways, nodes)
  {
    if |order| == 1 {
      var key := order[0];
      assert key in relations;
      var rel := relations[key];
      match OuterRefs(rel.members)
      case Err(_) =>
      case Ok(outer) =>
        KeepAllIn(rel.ways, outer, ways);
        WalkOnlyReverses(rel.id, None, Keep(rel.ways, outer), ways, nodes);
    }
  }

  /** One pass that takes way working[j], and the rest of the walk after it. */
  lemma {:induction false} PassOnlyReverses(relId: int, last: Option<Coord>, working: seq<int>,
                                            ways: map<int, Way>, nodes: map<int, Node>, j: nat, rev: bool)
    requires working != [] && AllIn(working, ways) && NodesPresent(ways, nodes)
    requires Connect(relId, last, working, ways, nodes) == Ok((j, rev))
    decreases |working|, 0
    ensures OnlyReversed(ways, Walk(relId, last, working, ways, nodes).ways, nodes)
  {
    WalkTaken(relId, last, working, ways, nodes, j, rev);
    var id := working[j];
    var list := if rev then Reversed(ways[id].nodeList) else ways[id].nodeList;
    var ways' := ways[id := ways[id].(nodeList := list)];
    var pts := Positions(list, nodes);
    OneReversal(ways, id, list, nodes);
    if list != [] {
      WalkOnlyReverses(relId, Some(pts[|pts| - 1]), RemoveAt(working, j), ways', nodes);
      OnlyReversedTrans(ways, ways', Walk(relId, Some(pts[|pts| - 1]), RemoveAt(working, j), ways', nodes).ways, nodes);
    }
  }

  /** Replacing one way's node list by itself or its reverse is a reversal of the store. */
  lemma OneReversal(ways: map<int, Way>, id: int, list: seq<int>, nodes: map<int, Node>)
    requires id in ways && NodesPresent(ways, nodes)
    requires list == ways[id].nodeList || list == Reversed(ways[id].nodeList)
    ensures OnlyReversed(ways, ways[id := ways[id].(nodeList := list)], nodes)
  {
    ReversedAllIn(ways[id].nodeList, nodes);
  }

  /** Swapping the line's points negates `isLeft`; a point on either end gives 0. */
  lemma IsLeftAntisymmetric(p0: Coord, p1: Coord, p2: Coord)
    ensures IsLeft(p1, p0, p2) == -IsLeft(p0, p1, p2)
    ensures IsLeft(p0, p1, p0) == 0.0 && IsLeft(p0, p1, p1) == 0.0
  {
  }

  /** An edge walked backwards crosses the other way. */
  lemma CrossingReversed(a: Coord, b: Coord, p: Coord)
    ensures Crossing(b, a, p) == -Crossing(a, b, p)
  {
    IsLeftAntisymmetric(a, b, p);
  }

  /** Appending a vertex adds the crossing of the new last edge. */
  lemma {:induction false} WindingSnoc(ring: seq<Coord>, v: Coord, p: Coord)
    requires |ring| >= 1
    ensures Winding(ring + [v], p) == Winding(ring, p) + Crossing(ring[|ring| - 1], v, p)
  {
    if |ring| >= 2 {
      assert (ring + [v])[1..] == ring[1..] + [v];
      WindingSnoc(ring[1..], v, p);
    }
  }

  /**
   * Reversing the ring negates the winding number, so the containment test
   * does not depend on the direction in which the ways were chained.
   */
  lemma {:induction false} WindingReversed(ring: seq<Coord>, p: Coord)
    ensures Winding(Reversed(ring), p) == -Winding(ring, p)
    ensures InRing(Reversed(ring), p) <==> InRing(ring, p)
  {
    if |ring| >= 2 {
      var t := ring[1..];
      WindingReversed(t, p);
      assert Reversed(ring) == Reversed(t) + [ring[0]];
      WindingSnoc(Reversed(t), ring[0], p);
      CrossingReversed(ring[0], t[0], p);
    } else if |ring| == 1 {
      assert Reversed(ring) == ring;
    }
  }

  /**
   * The outline of the point-in-polygon test: a building of 14 vertices,
   * closed by repeating the first.
   */
  predicate IsTestBuilding(ring: seq<Coord>)
  {
    |ring| == 15 &&
    ring[0] == Coord(34.817149338, -82.395971866) &&
    ring[1] == Coord(34.817172161, -82.395940894) &&
    ring[2] == Coord(34.817182649, -82.395952257) &&
    ring[3] == Coord(34.817224386, -82.395895622) &&
    ring[4] == Coord(34.817216279, -82.395886838) &&
    ring[5] == Coord(34.817239728, -82.395855019) &&
    ring[6] == Coord(34.817207421, -82.395820014) &&
    ring[7] == Coord(34.817218187, -82.395805403) &&
    ring[8] == Coord(34.817194331, -82.395779555) &&
    ring[9] == Coord(34.817163758, -82.395821042) &&
    ring[10] == Coord(34.817146943, -82.395802822) &&
    ring[11] == Coord(34.817112753, -82.395849217) &&
    ring[12] == Coord(34.817124608, -82.395862062) &&
    ring[13] == Coord(34.817090595, -82.395908217) &&
    ring[14] == Coord(34.817149338, -82.395971866)
  }

  /** A point on or north of every vertex has winding number 0. */
  lemma {:induction false} WindingNorthOfRing(ring: seq<Coord>, p: Coord)
    requires forall k | 0 <= k < |ring| :: ring[k].lat <= p.lat
    ensures Winding(ring, p) == 0
  {
    if |ring| >= 2 {
      WindingNorthOfRing(ring[1..], p);
    }
  }

  /**
   * The address point inside the building has winding number -1 (the
   * outline runs clockwise), so it is in the boundary.
   */
  lemma TestPointInside(ring: seq<Coord>)
    requires IsTestBuilding(ring)
    ensures Winding(ring, Coord(34.817178598, -82.395867437)) == -1
    ensures InRing(ring, Coord(34.817178598, -82.395867437))
  {
    var p := Coord(34.817178598, -82.395867437);
    assert Winding(ring[14..], p) == 0;
    assert ring[13..][1..] == ring[14..];
    assert Winding(ring[13..], p) == 0;
    assert ring[12..][1..] == ring[13..];
    assert Winding(ring[12..], p) == 0;
    assert ring[11..][1..] == ring[12..];
    assert Winding(ring[11..], p) == 0;
    assert ring[10..][1..] == ring[11..];
    assert Winding(ring[10..], p) == 0;
    assert ring[9..][1..] == ring[10..];
    assert Winding(ring[9..], p) == 0;
    assert ring[8..][1..] == ring[9..];
    assert Winding(ring[8..], p) == -1;
    assert ring[7..][1..] == ring[8..];
    assert Winding(ring[7..], p) == -1;
    assert ring[6..][1..] == ring[7..];
    assert Winding(ring[6..], p) == -1;
    assert ring[5..][1..] == ring[6..];
    assert Winding(ring[5..], p) == -1;
    assert ring[4..][1..] == ring[5..];
    assert Winding(ring[4..], p) == -1;
    assert ring[3..][1..] == ring[4..];
    assert Winding(ring[3..], p) == -1;
    assert ring[2..][1..] == ring[3..];
    assert Winding(ring[2..], p) == -1;
    assert ring[1..][1..] == ring[2..];
    assert Winding(ring[1..], p) == -1;
    assert ring[0..][1..] == ring[1..];
    assert Winding(ring[0..], p) == -1;
    assert ring[0..] == ring;
  }

  /** The address point north of the building is not in the boundary. */
  lemma TestPointOutside(ring: seq<Coord>)
    requires IsTestBuilding(ring)
    ensures !InRing(ring, Coord(34.8172953, -82.3957537))
  {
    WindingNorthOfRing(ring, Coord(34.8172953, -82.3957537));
  }
}

=== FILE: crossing_segments.dfy ===
/**
 * The crossing point of two short segments, computed on a flat plane with
 * latitude as the vertical axis and longitude as the horizontal one.
 *
 * The program marks a vertical segment by a NaN slope; here that is the
 * `Vertical` case of `Line`. A `SolveForX`/`SolveForY` result of NaN is
 * `None`. Every comparison is exact, as the program's `==` on doubles is.
 */
module CrossingSegments {
  import opened Wrappers
  import opened OSMType

  /** The line through a segment: vertical at a longitude, or `lat == slope * lon + intercept`. */
  datatype Line = Vertical(lon: real) | Sloped(slope: real, intercept: real)
  {
    predicate Contains(p: Coord)
    {
      match this
      case Vertical(x) => p.lon == x
      case Sloped(m, b) => p.lat == m * p.lon + b
    }

    predicate IsHorizontal() { Sloped? && slope == 0.0 }
  }

  /** The program's test for parallel lines: equal slopes, or both slopes NaN. */
  predicate Parallel(l1: Line, l2: Line)
  {
    (l1.Vertical? && l2.Vertical?) || (l1.Sloped? && l2.Sloped? && l1.slope == l2.slope)
  }

  /** `Math.Min(a.Lon, b.Lon) <= lon <= Math.Max(a.Lon, b.Lon)`. */
  predicate WithinLon(lon: real, a: Coord, b: Coord)
  {
    (if a.lon < b.lon then a.lon else b.lon) <= lon <= (if a.lon < b.lon then b.lon else a.lon)
  }

  datatype Segment = Segment(point1: Coord, point2: Coord)
  {
    /** `CalculateSlopeIntercept`: vertical exactly when the end points share a longitude. */
    function SupportingLine(): (l: Line)
      ensures l.Vertical? <==> point1.lon == point2.lon
      ensures l.Contains(point1) && l.Contains(point2)
    {
      if point1.lon == point2.lon then Vertical(point1.lon)
      else
        var m := (point1.lat - point2.lat) / (point1.lon - point2.lon);
        assert m * (point1.lon - point2.lon) == point1.lat - point2.lat;
        assert m * point2.lon + (point1.lat - m * point1.lon) == point2.lat;
        Sloped(m, point1.lat - m * point1.lon)
    }

    /**
     * `SolveForX(y)`: the longitude at which the line reaches latitude `y`.
     * On a horizontal line the program compares `y` with the end points'
     * longitudes and answers 0 or NaN.
     */
    function SolveForX(y: real): (x: Option<real>)
      ensures !SupportingLine().IsHorizontal() ==> x.Some? && SupportingLine().Contains(Coord(y, x.value))
      ensures SupportingLine().IsHorizontal() ==> x == None || x == Some(0.0)
    {
      match SupportingLine()
      case Sloped(m, b) =>
        if m == 0.0 then (if y == point1.lon || y == point2.lon then Some(0.0) else None)
        else Some((y - b) / m)
      case Vertical(_) => Some(point1.lon)
    }

    /**
     * `SolveForY(x)`: the latitude of the line at longitude `x`. On a
     * vertical line the program answers 0 at the end points' longitude and
     * NaN elsewhere.
     */
    function SolveForY(x: real): (y: Option<real>)
      ensures SupportingLine().Sloped? ==> y.Some? && SupportingLine().Contains(Coord(y.value, x))
      ensures SupportingLine().Vertical? ==> y == None || y == Some(0.0)
    {
      match SupportingLine()
      case Sloped(m, b) => if m == 0.0 then Some(point1.lat) else Some(m * x + b)
      case Vertical(_) => if x == point1.lon || x == point2.lon then Some(0.0) else None
    }
  }

  /**
   * The meeting point the constructor computes for two non-parallel lines,
   * case by case. It never reaches the NaN branches of `SolveForX` and
   * `SolveForY`, and the point lies on both lines.
   */
  function Candidate(s1: Segment, s2: Segment): (r: Option<Coord>)
    requires !Parallel(s1.SupportingLine(), s2.SupportingLine())
    ensures r.Some? && s1.SupportingLine().Contains(r.value) && s2.SupportingLine().Contains(r.value)
  {
    var l1, l2 := s1.SupportingLine(), s2.SupportingLine();
    if l1.Vertical? then
      (match s2.SolveForY(s1.point1.lon) case Some(lat) => Some(Coord(lat, s1.point1.lon)) case None => None)
    else if l2.Vertical? then
      (match s1.SolveForY(s2.point1.lon) case Some(lat) => Some(Coord(lat, s2.point1.lon)) case None => None)
    else if l1.slope == 0.0 then
      (match s2.SolveForX(s1.point1.lat) case Some(lon) => Some(Coord(s1.point1.lat, lon)) case None => None)
    else if l2.slope == 0.0 then
      (match s1.SolveForX(s2.point1.lat) case Some(lon) => Some(Coord(s2.point1.lat, lon)) case None => None)
    else
      var lon := (l1.intercept - l2.intercept) / (l2.slope - l1.slope);
      assert (l2.slope - l1.slope) * lon == l1.intercept - l2.intercept;
      assert l1.slope * lon + l1.intercept == l2.slope * lon + l2.intercept;
      (match s1.SolveForY(lon) case Some(lat) => Some(Coord(lat, lon)) case None => None)
  }

  /** The overlap test the constructor applies to parallel segments, on the start points. */
  predicate StartsOverlap(s1a: Coord, s1b: Coord, s2a: Coord, s2b: Coord)
  {
    s1a.lon == s2a.lon &&
    ((s1a.lat >= s2a.lat && s1a.lat <= s2b.lat) || (s2a.lat >= s1a.lat && s2a.lat <= s1b.lat))
  }

  /**
   * The constructor as written: parallel segments of ANY slope that pass
   * the start-point overlap test yield `seg1_a`, even when their lines are
   * distinct.
   */
  function IntersectionAsWritten(s1a: Coord, s1b: Coord, s2a: Coord, s2b: Coord): (r: Option<Coord>)
    ensures Parallel(Segment(s1a, s1b).SupportingLine(), Segment(s2a, s2b).SupportingLine()) ==>
            (r.Some? <==> StartsOverlap(s1a, s1b, s2a, s2b)) && (r.Some? ==> r.value == s1a)
  {
    var s1, s2 := Segment(s1a, s1b), Segment(s2a, s2b);
    if Parallel(s1.SupportingLine(), s2.SupportingLine()) then
      (if StartsOverlap(s1a, s1b, s2a, s2b) then Some(s1a) else None)
    else
      var p := Candidate(s1, s2).value;
      if WithinLon(p.lon, s1a, s1b) && WithinLon(p.lon, s2a, s2b) then Some(p) else None
  }

  /**
   * `CrossingSegments(seg1_a, seg1_b, seg2_a, seg2_b).IntersectionPoint`,
   * with the start-point overlap test applied only when the two segments
   * lie on one line (vertical or not). A returned point lies on both
   * supporting lines and within both segments' closed longitude ranges;
   * its latitude is not range-checked.
   */
  function Intersection(s1a: Coord, s1b: Coord, s2a: Coord, s2b: Coord): (r: Option<Coord>)
    ensures r.Some? ==> Segment(s1a, s1b).SupportingLine().Contains(r.value) &&
                        Segment(s2a, s2b).SupportingLine().Contains(r.value)
    ensures r.Some? ==> WithinLon(r.value.lon, s1a, s1b) && WithinLon(r.value.lon, s2a, s2b)
    ensures Parallel(Segment(s1a, s1b).SupportingLine(), Segment(s2a, s2b).SupportingLine()) ==>
            (r.Some? <==> Segment(s1a, s1b).SupportingLine() == Segment(s2a, s2b).SupportingLine() &&
                          StartsOverlap(s1a, s1b, s2a, s2b)) &&
            (r.Some? ==> r.value == s1a)
  {
    var s1, s2 := Segment(s1a, s1b), Segment(s2a, s2b);
    if Parallel(s1.SupportingLine(), s2.SupportingLine()) then
      (if s1.SupportingLine() == s2.SupportingLine() && StartsOverlap(s1a, s1b, s2a, s2b) then Some(s1a) else None)
    else
      var p := Candidate(s1, s2).value;
      if WithinLon(p.lon, s1a, s1b) && WithinLon(p.lon, s2a, s2b) then Some(p) else None
  }

  // ---------------------------------------------------------------- lemmas

  /** Two lines that are not parallel share at most one point. */
  lemma NonParallelMeetOnce(l1: Line, l2: Line, p: Coord, q: Coord)
    requires !Parallel(l1, l2)
    requires l1.Contains(p) && l2.Contains(p) && l1.Contains(q) && l2.Contains(q)
    ensures p == q
  {
    if l1.Sloped? && l2.Sloped? {
      var d := l1.slope - l2.slope;
      assert d * p.lon == l2.intercept - l1.intercept;
      assert d * q.lon == l2.intercept - l1.intercept;
      assert d * (p.lon - q.lon) == 0.0;
      assert p.lon == q.lon;
    }
  }

  /**
   * For segments that are not parallel the answer is exact: a point is
   * returned iff it lies on both lines within both longitude ranges.
   */
  lemma NonParallelIntersection(s1a: Coord, s1b: Coord, s2a: Coord, s2b: Coord, p: Coord)
    requires !Parallel(Segment(s1a, s1b).SupportingLine(), Segment(s2a, s2b).SupportingLine())
    ensures Intersection(s1a, s1b, s2a, s2b) == Some(p) <==>
            Segment(s1a, s1b).SupportingLine().Contains(p) && Segment(s2a, s2b).SupportingLine().Contains(p) &&
            WithinLon(p.lon, s1a, s1b) && WithinLon(p.lon, s2a, s2b)
  {
    var s1, s2 := Segment(s1a, s1b), Segment(s2a, s2b);
    var c := Candidate(s1, s2).value;
    if s1.SupportingLine().Contains(p) && s2.SupportingLine().Contains(p) {
      NonParallelMeetOnce(s1.SupportingLine(), s2.SupportingLine(), p, c);
    }
  }

  /**
   * The fix changes only the answer for parallel segments on two distinct
   * lines, where the corrected constructor reports nothing.
   */
  lemma AsWrittenAgrees(s1a: Coord, s1b: Coord, s2a: Coord, s2b: Coord)
    ensures !Parallel(Segment(s1a, s1b).SupportingLine(), Segment(s2a, s2b).SupportingLine()) ||
            Segment(s1a, s1b).SupportingLine() == Segment(s2a, s2b).SupportingLine() ==>
            IntersectionAsWritten(s1a, s1b, s2a, s2b) == Intersection(s1a, s1b, s2a, s2b)
    ensures Parallel(Segment(s1a, s1b).SupportingLine(), Segment(s2a, s2b).SupportingLine()) &&
            Segment(s1a, s1b).SupportingLine() != Segment(s2a, s2b).SupportingLine() ==>
            Intersection(s1a, s1b, s2a, s2b) == None
  {
  }

  /**
   * Twice the signed area of the triangle a, b, p: zero exactly when p is
   * on the line through a and b. No division, no special case.
   */
  function Cross(a: Coord, b: Coord, p: Coord): real
  {
    (b.lon - a.lon) * (p.lat - a.lat) - (b.lat - a.lat) * (p.lon - a.lon)
  }

  /** The cross product of the two segments' directions: zero exactly when they are parallel. */
  function DirectionCross(s1a: Coord, s1b: Coord, s2a: Coord, s2b: Coord): real
  {
    (s1b.lon - s1a.lon) * (s2b.lat - s2a.lat) - (s1b.lat - s1a.lat) * (s2b.lon - s2a.lon)
  }

  /** For a segment of two distinct points, the slope/intercept line agrees with the cross-product test. */
  lemma ContainsIffCross(a: Coord, b: Coord, p: Coord)
    requires a != b
    ensures Segment(a, b).SupportingLine().Contains(p) <==> Cross(a, b, p) == 0.0
  {
    var l := Segment(a, b).SupportingLine();
    if a.lon != b.lon {
      var d := b.lon - a.lon;
      assert l.slope * d == b.lat - a.lat;
      assert l.Contains(p) <==> p.lat - a.lat == l.slope * (p.lon - a.lon);
      var e := (p.lat - a.lat) - l.slope * (p.lon - a.lon);
      assert Cross(a, b, p) == d * e;
      assert d * e == 0.0 <==> e == 0.0;
    }
  }

  /** The program's slope comparison is the cross-product test for parallel directions. */
  lemma ParallelIffCross(s1a: Coord, s1b: Coord, s2a: Coord, s2b: Coord)
    requires s1a != s1b && s2a != s2b
    ensures Parallel(Segment(s1a, s1b).SupportingLine(), Segment(s2a, s2b).SupportingLine()) <==>
            DirectionCross(s1a, s1b, s2a, s2b) == 0.0
  {
    var l1, l2 := Segment(s1a, s1b).SupportingLine(), Segment(s2a, s2b).SupportingLine();
    var dlon1, dlat1 := s1b.lon - s1a.lon, s1b.lat - s1a.lat;
    var dlon2, dlat2 := s2b.lon - s2a.lon, s2b.lat - s2a.lat;
    if l1.Vertical? && l2.Sloped? {
      assert dlon1 == 0.0 && dlat1 != 0.0 && dlon2 != 0.0;
      assert DirectionCross(s1a, s1b, s2a, s2b) == -(dlat1 * dlon2);
      assert dlat1 * dlon2 != 0.0;
    } else if l1.Sloped? && l2.Vertical? {
      assert dlon2 == 0.0 && dlat2 != 0.0 && dlon1 != 0.0;
      assert DirectionCross(s1a, s1b, s2a, s2b) == dlon1 * dlat2;
      assert dlon1 * dlat2 != 0.0;
    } else if l1.Sloped? && l2.Sloped? {
      assert l1.slope * dlon1 == dlat1 && l2.slope * dlon2 == dlat2;
      assert DirectionCross(s1a, s1b, s2a, s2b) == dlon1 * dlon2 * (l2.slope - l1.slope);
      assert dlon1 * dlon2 != 0.0;
    }
  }

  /**
   * Parallel segments, stated without slopes: the first start point when the
   * second segment starts on the first one's line and the start points
   * overlap, nothing otherwise.
   */
  lemma ParallelSegments(s1a: Coord, s1b: Coord, s2a: Coord, s2b: Coord)
    requires s1a != s1b && s2a != s2b && DirectionCross(s1a, s1b, s2a, s2b) == 0.0
    ensures Intersection(s1a, s1b, s2a, s2b) ==
            if Cross(s1a, s1b, s2a) == 0.0 && StartsOverlap(s1a, s1b, s2a, s2b) then Some(s1a) else None
  {
    var l1, l2 := Segment(s1a, s1b).SupportingLine(), Segment(s2a, s2b).SupportingLine();
    ParallelIffCross(s1a, s1b, s2a, s2b);
    ContainsIffCross(s1a, s1b, s2a);
    if l1.Contains(s2a) {
      if l1.Sloped? {
        assert l2.intercept == s2a.lat - l2.slope * s2a.lon;
      }
      assert l1 == l2;
    }
  }

  /**
   * Crossing directions, stated without slopes: exactly the point on both
   * lines, when its longitude is within both segments.
   */
  lemma CrossingSegmentsMeet(s1a: Coord, s1b: Coord, s2a: Coord, s2b: Coord, p: Coord)
    requires s1a != s1b && s2a != s2b && DirectionCross(s1a, s1b, s2a, s2b) != 0.0
    ensures Intersection(s1a, s1b, s2a, s2b) == Some(p) <==>
            Cross(s1a, s1b, p) == 0.0 && Cross(s2a, s2b, p) == 0.0 &&
            WithinLon(p.lon, s1a, s1b) && WithinLon(p.lon, s2a, s2b)
  {
    ParallelIffCross(s1a, s1b, s2a, s2b);
    ContainsIffCross(s1a, s1b, p);
    ContainsIffCross(s2a, s2b, p);
    NonParallelIntersection(s1a, s1b, s2a, s2b, p);
  }

  /** The lines cross at `p`, within both segments' longitudes: `p` is the answer. */
  lemma SegmentsMeetAt(s1a: Coord, s1b: Coord, s2a: Coord, s2b: Coord, p: Coord)
    requires s1a != s1b && s2a != s2b && DirectionCross(s1a, s1b, s2a, s2b) != 0.0
    requires Cross(s1a, s1b, p) == 0.0 && Cross(s2a, s2b, p) == 0.0
    requires WithinLon(p.lon, s1a, s1b) && WithinLon(p.lon, s2a, s2b)
    ensures Intersection(s1a, s1b, s2a, s2b) == Some(p)
  {
    CrossingSegmentsMeet(s1a, s1b, s2a, s2b, p);
  }

  /** The lines cross at `p`, outside one segment's longitudes: there is no answer. */
  lemma SegmentsMissAt(s1a: Coord, s1b: Coord, s2a: Coord, s2b: Coord, p: Coord)
    requires s1a != s1b && s2a != s2b && DirectionCross(s1a, s1b, s2a, s2b) != 0.0
    requires Cross(s1a, s1b, p) == 0.0 && Cross(s2a, s2b, p) == 0.0
    requires !(WithinLon(p.lon, s1a, s1b) && WithinLon(p.lon, s2a, s2b))
    ensures Intersection(s1a, s1b, s2a, s2b) == None
  {
    var r := Intersection(s1a, s1b, s2a, s2b);
    if r.Some? {
      var q := r.value;
      ParallelIffCross(s1a, s1b, s2a, s2b);
      ContainsIffCross(s1a, s1b, p);
      ContainsIffCross(s2a, s2b, p);
      NonParallelMeetOnce(Segment(s1a, s1b).SupportingLine(), Segment(s2a, s2b).SupportingLine(), p, q);
      assert false;
    }
  }

  /**
   * Two distinct parallel lines of slope 1 whose segments start at the same
   * longitude: the constructor as written reports the first start point,
   * which is not on the second line.
   */
  lemma AsWrittenReportsDisjointParallels()
    ensures IntersectionAsWritten(Coord(0.0, 0.0), Coord(2.0, 2.0), Coord(1.0, 0.0), Coord(5.0, 4.0)) == Some(Coord(0.0, 0.0))
    ensures !Segment(Coord(1.0, 0.0), Coord(5.0, 4.0)).SupportingLine().Contains(Coord(0.0, 0.0))
    ensures Intersection(Coord(0.0, 0.0), Coord(2.0, 2.0), Coord(1.0, 0.0), Coord(5.0, 4.0)) == None
  {
    ParallelIffCross(Coord(0.0, 0.0), Coord(2.0, 2.0), Coord(1.0, 0.0), Coord(5.0, 4.0));
    ContainsIffCross(Coord(1.0, 0.0), Coord(5.0, 4.0), Coord(0.0, 0.0));
  }

  /**
   * Two sloped segments on one line that share their start point: both the
   * constructor as written and the corrected one report that point.
   */
  lemma CollinearStartsMeet()
    ensures IntersectionAsWritten(Coord(0.0, 0.0), Coord(2.0, 2.0), Coord(0.0, 0.0), Coord(1.0, 1.0)) == Some(Coord(0.0, 0.0))
    ensures Intersection(Coord(0.0, 0.0), Coord(2.0, 2.0), Coord(0.0, 0.0), Coord(1.0, 1.0)) == Some(Coord(0.0, 0.0))
  {
    ParallelIffCross(Coord(0.0, 0.0), Coord(2.0, 2.0), Coord(0.0, 0.0), Coord(1.0, 1.0));
    ParallelSegments(Coord(0.0, 0.0), Coord(2.0, 2.0), Coord(0.0, 0.0), Coord(1.0, 1.0));
  }

  // The cases of the unit test, each segment end written as Coord(lat, lon).

  lemma ParallelHorizontalsGiveNothing()
    ensures Intersection(Coord(1.0, 1.0), Coord(1.0, 5.0), Coord(3.0, 2.0), Coord(3.0, 6.0)) == None
  {
    ParallelSegments(Coord(1.0, 1.0), Coord(1.0, 5.0), Coord(3.0, 2.0), Coord(3.0, 6.0));
  }

  lemma ParallelVerticalsGiveNothing()
    ensures Intersection(Coord(1.0, 1.0), Coord(5.0, 1.0), Coord(2.0, 3.0), Coord(7.0, 3.0)) == None
  {
    ParallelSegments(Coord(1.0, 1.0), Coord(5.0, 1.0), Coord(2.0, 3.0), Coord(7.0, 3.0));
  }

  lemma SeparateVerticalsGiveNothing()
    ensures Intersection(Coord(1.0, 1.0), Coord(5.0, 1.0), Coord(6.0, 1.0), Coord(8.0, 1.0)) == None
  {
    ParallelSegments(Coord(1.0, 1.0), Coord(5.0, 1.0), Coord(6.0, 1.0), Coord(8.0, 1.0));
  }

  lemma OverlappingVerticalsMeet()
    ensures Intersection(Coord(1.0, 1.0), Coord(5.0, 1.0), Coord(3.0, 1.0), Coord(8.0, 1.0)) == Some(Coord(1.0, 1.0))
  {
    ParallelSegments(Coord(1.0, 1.0), Coord(5.0, 1.0), Coord(3.0, 1.0), Coord(8.0, 1.0));
  }

  lemma ParallelDiagonalsGiveNothing()
    ensures Intersection(Coord(3.0, 1.0), Coord(5.0, 3.0), Coord(2.0, 3.0), Coord(4.0, 5.0)) == None
  {
    ParallelSegments(Coord(3.0, 1.0), Coord(5.0, 3.0), Coord(2.0, 3.0), Coord(4.0, 5.0));
  }

  lemma CrossingHorizontalMeets()
    ensures Intersection(Coord(1.0, 1.0), Coord(1.0, 5.0), Coord(2.0, 4.0), Coord(0.0, 2.0)) == Some(Coord(1.0, 3.0))
  {
    SegmentsMeetAt(Coord(1.0, 1.0), Coord(1.0, 5.0), Coord(2.0, 4.0), Coord(0.0, 2.0), Coord(1.0, 3.0));
  }

  lemma CrossingVerticalMeets()
    ensures Intersection(Coord(0.0, 3.0), Coord(5.0, 3.0), Coord(2.0, 4.0), Coord(0.0, 2.0)) == Some(Coord(1.0, 3.0))
  {
    SegmentsMeetAt(Coord(0.0, 3.0), Coord(5.0, 3.0), Coord(2.0, 4.0), Coord(0.0, 2.0), Coord(1.0, 3.0));
  }

  lemma CrossingDiagonalsMeet()
    ensures Intersection(Coord(1.0, 3.0), Coord(3.0, 5.0), Coord(3.0, 3.0), Coord(1.0, 5.0)) == Some(Coord(2.0, 4.0))
  {
    SegmentsMeetAt(Coord(1.0, 3.0), Coord(3.0, 5.0), Coord(3.0, 3.0), Coord(1.0, 5.0), Coord(2.0, 4.0));
  }

  /** The lines cross at (1, 3), beyond the second segment's longitudes. */
  lemma HorizontalOutOfRangeGivesNothing()
    ensures Intersection(Coord(1.0, 1.0), Coord(1.0, 5.0), Coord(12.0, 14.0), Coord(10.0, 12.0)) == None
  {
    SegmentsMissAt(Coord(1.0, 1.0), Coord(1.0, 5.0), Coord(12.0, 14.0), Coord(10.0, 12.0), Coord(1.0, 3.0));
  }

  /** The lines cross at (9, 11), beyond the second segment's longitudes. */
  lemma VerticalOutOfRangeGivesNothing()
    ensures Intersection(Coord(11.0, 11.0), Coord(15.0, 11.0), Coord(2.0, 4.0), Coord(0.0, 2.0)) == None
  {
    SegmentsMissAt(Coord(11.0, 11.0), Coord(15.0, 11.0), Coord(2.0, 4.0), Coord(0.0, 2.0), Coord(9.0, 11.0));
  }

  /** The lines cross at (2.5, 4.5), beyond the second segment's longitudes. */
  lemma DiagonalOutOfRangeGivesNothing()
    ensures Intersection(Coord(1.0, 3.0), Coord(3.0, 5.0), Coord(7.0, 0.0), Coord(5.0, 2.0)) == None
  {
    SegmentsMissAt(Coord(1.0, 3.0), Coord(3.0, 5.0), Coord(7.0, 0.0), Coord(5.0, 2.0), Coord(2.5, 4.5));
  }
}

=== FILE: duplicate_address.dfy ===
/**
 * Removal of repeated address points from the new address dataset: a node
 * whose house number, street and unit were already seen, and which lies
 * less than a metre from the first node seen with them, is removed.
 *
 * The great-circle distance in metres is a parameter (`ArcFn`); nothing
 * numeric is assumed about it.
 */
module DuplicateAddresses {
  import opened Wrappers
  import opened OSMType
  import opened Datasets

  /** `MaxDistanceForDuplicate`, in metres. */
  const MaxDistanceForDuplicate: real := 1.0

  /** The tag a node lacks when its dictionary key cannot be built. */
  datatype KeyError = MissingTag(nodeId: int, key: string)

  /** A node with the two tags the key needs. */
  predicate Keyed(n: Node)
  {
    HouseNumber in n.tags && Street in n.tags
  }

  /** The unit, or "" when the node has none. */
  function UnitOf(tags: map<string, string>): string
  {
    if Unit in tags then tags[Unit] else ""
  }

  /** The dictionary key `housenumber|street|unit`. */
  function KeyOf(n: Node): string
    requires Keyed(n)
  {
    n.tags[HouseNumber] + "|" + n.tags[Street] + "|" + UnitOf(n.tags)
  }

  /** Building the key reads the house number first, then the street; a missing one throws. */
  function HashKey(n: Node): (r: Result<string, KeyError>)
    ensures r.Ok? <==> Keyed(n)
    ensures r.Ok? ==> r.value == KeyOf(n)
    ensures r.Err? ==> r.error == MissingTag(n.id, if HouseNumber !in n.tags then HouseNumber else Street)
  {
    if HouseNumber !in n.tags then Err(MissingTag(n.id, HouseNumber))
    else if Street !in n.tags then Err(MissingTag(n.id, Street))
    else Ok(KeyOf(n))
  }

  /** In `a + "|" + r` with no "|" in `a`, the first "|" sits right after `a`. */
  lemma BarPosition(a: string, r: string)
    requires '|' !in a
    ensures (a + "|" + r)[|a|] == '|'
    ensures forall k | 0 <= k < |a| :: (a + "|" + r)[k] != '|'
  {
    forall k | 0 <= k < |a| ensures (a + "|" + r)[k] != '|' {
      assert (a + "|" + r)[k] == a[k];
    }
  }

  lemma SplitAtBar(a: string, r: string, a': string, r': string)
    requires '|' !in a && '|' !in a' && a + "|" + r == a' + "|" + r'
    ensures a == a' && r == r'
  {
    var s := a + "|" + r;
    BarPosition(a, r);
    BarPosition(a', r');
    assert |a| == |a'|;
    assert a == s[..|a|] && a' == (a' + "|" + r')[..|a'|];
    assert r == s[|a| + 1..] && r' == (a' + "|" + r')[|a'| + 1..];
  }

  /**
   * When neither the house number nor the street contains "|", two nodes
   * share a key exactly when they share house number, street and unit.
   */
  lemma KeyInjective(n: Node, m: Node)
    requires Keyed(n) && Keyed(m)
    requires '|' !in n.tags[HouseNumber] && '|' !in n.tags[Street]
    requires '|' !in m.tags[HouseNumber] && '|' !in m.tags[Street]
    ensures KeyOf(n) == KeyOf(m) <==>
            n.tags[HouseNumber] == m.tags[HouseNumber] && n.tags[Street] == m.tags[Street] &&
            UnitOf(n.tags) == UnitOf(m.tags)
  {
    if KeyOf(n) == KeyOf(m) {
      var hn, st, un := n.tags[HouseNumber], n.tags[Street], UnitOf(n.tags);
      var hm, sm, um := m.tags[HouseNumber], m.tags[Street], UnitOf(m.tags);
      assert KeyOf(n) == hn + "|" + (st + "|" + un);
      assert KeyOf(m) == hm + "|" + (sm + "|" + um);
      SplitAtBar(hn, st + "|" + un, hm, sm + "|" + um);
      SplitAtBar(st, un, sm, um);
    }
  }

  // ---------------------------------------------------------------- the scan

  /** The dictionary from key to listed nodes, and the nodes marked for removal. */
  datatype Scan = Scan(hash: map<string, seq<Node>>, removeList: seq<Node>)

  /** The inner loop: `n` once for every listed node less than a metre from it. */
  function Close(list: seq<Node>, n: Node, arc: ArcFn): seq<Node>
  {
    if list == [] then []
    else
      var last := list[|list| - 1];
      Close(list[..|list| - 1], n, arc) +
      (if arc(last.Position(), n.Position()) < MaxDistanceForDuplicate then [n] else [])
  }

  /** One node of the outer loop. */
  function Visit(sc: Scan, n: Node, arc: ArcFn): Result<Scan, KeyError>
  {
    match HashKey(n)
    case Err(e) => Err(e)
    case Ok(key) =>
      if key in sc.hash then Ok(sc.(removeList := sc.removeList + Close(sc.hash[key], n, arc)))
      else Ok(sc.(hash := sc.hash[key := [n]]))
  }

  /** The outer loop over the nodes in enumeration order; the first missing tag ends it. */
  function ScanAll(ns: seq<Node>, arc: ArcFn): Result<Scan, KeyError>
  {
    if ns == [] then Ok(Scan(map[], []))
    else
      match ScanAll(ns[..|ns| - 1], arc)
      case Err(e) => Err(e)
      case Ok(sc) => Visit(sc, ns[|ns| - 1], arc)
  }

  // ------------------------------------------------- the reference definition

  predicate AllKeyed(ns: seq<Node>)
  {
    forall i | 0 <= i < |ns| :: Keyed(ns[i])
  }

  /** The position of the first node with key `key`, or |ns| when there is none. */
  function FirstWith(ns: seq<Node>, key: string): (i: nat)
    requires AllKeyed(ns)
    ensures i <= |ns| && (i < |ns| ==> KeyOf(ns[i]) == key)
    ensures forall j | 0 <= j < i :: KeyOf(ns[j]) != key
  {
    if ns == [] then 0
    else if KeyOf(ns[0]) == key then 0
    else
      var i := FirstWith(ns[1..], key);
      assert forall j | 1 <= j < i + 1 :: ns[j] == ns[1..][j - 1];
      1 + i
  }

  /**
   * Node `i` is a duplicate: an earlier node has its key, and the first
   * node with that key is less than a metre away.
   */
  predicate DuplicateAt(ns: seq<Node>, arc: ArcFn, i: int)
    requires AllKeyed(ns) && 0 <= i < |ns|
  {
    var f := FirstWith(ns, KeyOf(ns[i]));
    f < i && arc(ns[f].Position(), ns[i].Position()) < MaxDistanceForDuplicate
  }

  /** The duplicates among `ns`, in order. */
  function Duplicates(ns: seq<Node>, arc: ArcFn): seq<Node>
    requires AllKeyed(ns)
  {
    if ns == [] then []
    else
      Duplicates(ns[..|ns| - 1], arc) + (if DuplicateAt(ns, arc, |ns| - 1) then [ns[|ns| - 1]] else [])
  }

  /** The dictionary lists, for each key seen, exactly the first node with it. */
  ghost predicate HashHoldsFirsts(ns: seq<Node>, hash: map<string, seq<Node>>)
    requires AllKeyed(ns)
  {
    (forall key :: key in hash <==> FirstWith(ns, key) < |ns|) &&
    (forall key | key in hash :: hash[key] == [ns[FirstWith(ns, key)]])
  }

  /** A key already seen keeps its first position when a node is appended. */
  lemma FirstWithSnoc(ns: seq<Node>, n: Node, key: string)
    requires AllKeyed(ns) && Keyed(n) && AllKeyed(ns + [n])
    ensures FirstWith(ns + [n], key) == if FirstWith(ns, key) < |ns| then FirstWith(ns, key)
                                        else if KeyOf(n) == key then |ns| else |ns| + 1
  {
    var s := ns + [n];
    var f, g := FirstWith(ns, key), FirstWith(s, key);
    assert forall j | 0 <= j < |ns| :: s[j] == ns[j];
    if f < |ns| {
      assert KeyOf(s[f]) == key;
    } else if KeyOf(n) == key {
      assert KeyOf(s[|ns|]) == key;
    }
  }

  lemma {:induction false} DuplicatesPrefix(ns: seq<Node>, arc: ArcFn, i: int)
    requires AllKeyed(ns) && 0 <= i < |ns|
    ensures AllKeyed(ns[..i + 1]) && (DuplicateAt(ns[..i + 1], arc, i) <==> DuplicateAt(ns, arc, i))
  {
    var p := ns[..i + 1];
    var key := KeyOf(ns[i]);
    assert p[i] == ns[i];
    assert forall j | 0 <= j <= i :: p[j] == ns[j];
  }

  /**
   * The dictionary scan fails exactly when some node lacks house number or
   * street, with the error of the first such node.
   */
  lemma {:induction false} ScanAllFails(ns: seq<Node>, arc: ArcFn)
    ensures ScanAll(ns, arc).Ok? <==> AllKeyed(ns)
    ensures ScanAll(ns, arc).Err? ==>
              exists i | 0 <= i < |ns| :: AllKeyed(ns[..i]) && !Keyed(ns[i]) &&
                                          ScanAll(ns, arc).error == HashKey(ns[i]).error
  {
    if ns != [] {
      var init, n := ns[..|ns| - 1], ns[|ns| - 1];
      ScanAllFails(init, arc);
      assert forall j | 0 <= j < |init| :: ns[j] == init[j];
      if ScanAll(init, arc).Err? {
        var i :| 0 <= i < |init| && AllKeyed(init[..i]) && !Keyed(init[i]) &&
                 ScanAll(init, arc).error == HashKey(init[i]).error;
        assert init[..i] == ns[..i];
      } else if !Keyed(n) {
        assert ns[..|ns| - 1] == init;
      }
    }
  }

  /** The dictionary step for a node whose key was seen: the node is marked exactly when it is a duplicate. */
  lemma SeenStep(init: seq<Node>, n: Node, arc: ArcFn, hash: map<string, seq<Node>>)
    requires AllKeyed(init + [n]) && AllKeyed(init) && Keyed(n) && HashHoldsFirsts(init, hash) && KeyOf(n) in hash
    ensures Close(hash[KeyOf(n)], n, arc) == if DuplicateAt(init + [n], arc, |init|) then [n] else []
  {
    var ns := init + [n];
    var key := KeyOf(n);
    var f := FirstWith(init, key);
    FirstWithSnoc(init, n, key);
    assert ns[|init|] == n && ns[f] == init[f];
    assert hash[key] == [init[f]];
    assert hash[key][..0] == [];
  }

  /**
   * Over nodes that all have house number and street, the dictionary scan
   * keeps the first node of each key and marks exactly the duplicates, in
   * order.
   */
  lemma {:induction false} ScanAllComputes(ns: seq<Node>, arc: ArcFn)
    requires AllKeyed(ns)
    ensures ScanAll(ns, arc).Ok?
    ensures HashHoldsFirsts(ns, ScanAll(ns, arc).value.hash)
    ensures ScanAll(ns, arc).value.removeList == Duplicates(ns, arc)
  {
    if ns != [] {
      var init, n := ns[..|ns| - 1], ns[|ns| - 1];
      assert ns == init + [n];
      assert AllKeyed(init) by {
        forall j | 0 <= j < |init| ensures Keyed(init[j]) { assert init[j] == ns[j]; }
      }
      ScanAllComputes(init, arc);
      var sc := ScanAll(init, arc).value;
      var key := KeyOf(n);
      DuplicatesPrefix(ns, arc, |ns| - 1);
      assert ns[..|ns|] == ns;
      var sc' := ScanAll(ns, arc).value;
      if key in sc.hash {
        SeenStep(init, n, arc, sc.hash);
        assert sc' == sc.(removeList := sc.removeList + Close(sc.hash[key], n, arc));
      } else {
        assert sc' == sc.(hash := sc.hash[key := [n]]);
        FirstWithSnoc(init, n, key);
        assert !DuplicateAt(ns, arc, |ns| - 1);
      }
      assert sc'.removeList == Duplicates(ns, arc);
      forall k ensures k in sc'.hash <==> FirstWith(ns, k) < |ns| {
        FirstWithSnoc(init, n, k);
      }
      forall k | k in sc'.hash ensures sc'.hash[k] == [ns[FirstWith(ns, k)]] {
        FirstWithSnoc(init, n, k);
        if FirstWith(init, k) < |init| { assert ns[FirstWith(init, k)] == init[FirstWith(init, k)]; }
      }
    }
  }

  /** Appending one node to a prefix does not change whether an earlier node is a duplicate. */
  lemma DuplicateAtInit(ns: seq<Node>, arc: ArcFn, i: int)
    requires AllKeyed(ns) && 0 <= i < |ns| - 1
    ensures AllKeyed(ns[..|ns| - 1])
    ensures DuplicateAt(ns[..|ns| - 1], arc, i) <==> DuplicateAt(ns, arc, i)
  {
    var init := ns[..|ns| - 1];
    DuplicatesPrefix(ns, arc, i);
    DuplicatesPrefix(init, arc, i);
    assert init[..i + 1] == ns[..i + 1];
  }

  /** The first node of every key is kept. */
  lemma FirstNeverDuplicate(ns: seq<Node>, arc: ArcFn, i: int)
    requires AllKeyed(ns) && 0 <= i < |ns| && FirstWith(ns, KeyOf(ns[i])) == i
    ensures !DuplicateAt(ns, arc, i)
  {
  }

  /** No two nodes of the sequence have the same id. */
  predicate DistinctIds(ns: seq<Node>)
  {
    forall i, j | 0 <= i < j < |ns| :: ns[i].id != ns[j].id
  }

  lemma IdsOfSnoc(ns: seq<Node>, n: Node)
    ensures IdsOf(ns + [n]) == IdsOf(ns) + {n.id}
  {
    assert forall m | m in ns + [n] :: m in ns || m == n;
  }

  lemma IdsOfSnocIf(ns: seq<Node>, n: Node, b: bool)
    ensures IdsOf(ns + (if b then [n] else [])) == IdsOf(ns) + (if b then {n.id} else {})
  {
    if b { IdsOfSnoc(ns, n); } else { assert ns + [] == ns; }
  }

  /** With distinct ids, the last node's id is new to the nodes before it. */
  lemma LastIdFresh(ns: seq<Node>)
    requires ns != [] && DistinctIds(ns)
    ensures DistinctIds(ns[..|ns| - 1])
    ensures ns[|ns| - 1].id !in IdsOf(ns[..|ns| - 1])
    ensures IdsOf(ns) == IdsOf(ns[..|ns| - 1]) + {ns[|ns| - 1].id}
  {
    var init, n := ns[..|ns| - 1], ns[|ns| - 1];
    assert ns == init + [n];
    IdsOfSnoc(init, n);
    forall m | m in init ensures m.id != n.id {
      var j :| 0 <= j < |init| && init[j] == m;
      assert ns[j] == m;
    }
  }

  /** Over nodes with distinct ids, the duplicates have distinct ids, one per node marked. */
  lemma {:induction false} DuplicatesCount(ns: seq<Node>, arc: ArcFn)
    requires AllKeyed(ns) && DistinctIds(ns)
    ensures |IdsOf(Duplicates(ns, arc))| == |Duplicates(ns, arc)|
    ensures IdsOf(Duplicates(ns, arc)) <= IdsOf(ns)
  {
    if ns != [] {
      var init, n := ns[..|ns| - 1], ns[|ns| - 1];
      LastIdFresh(ns);
      DuplicatesSnocIds(ns, arc);
      DuplicatesCount(init, arc);
      if !DuplicateAt(ns, arc, |ns| - 1) {
        assert Duplicates(ns, arc) == Duplicates(init, arc) + [];
      }
    }
  }

  /** The ids of the duplicates grow by the last node's id exactly when it is a duplicate. */
  lemma DuplicatesSnocIds(ns: seq<Node>, arc: ArcFn)
    requires AllKeyed(ns) && ns != []
    ensures AllKeyed(ns[..|ns| - 1])
    ensures IdsOf(Duplicates(ns, arc)) ==
            IdsOf(Duplicates(ns[..|ns| - 1], arc)) + (if DuplicateAt(ns, arc, |ns| - 1) then {ns[|ns| - 1].id} else {})
  {
    IdsOfSnocIf(Duplicates(ns[..|ns| - 1], arc), ns[|ns| - 1], DuplicateAt(ns, arc, |ns| - 1));
  }

  /**
   * Over nodes with distinct ids, the id of node `i` is among the ids of
   * the duplicates exactly when node `i` is a duplicate.
   */
  lemma {:induction false} DuplicateIds(ns: seq<Node>, arc: ArcFn, i: int)
    requires AllKeyed(ns) && DistinctIds(ns) && 0 <= i < |ns|
    ensures ns[i].id in IdsOf(Duplicates(ns, arc)) <==> DuplicateAt(ns, arc, i)
  {
    var init := ns[..|ns| - 1];
    LastIdFresh(ns);
    DuplicatesSnocIds(ns, arc);
    DuplicatesCount(init, arc);
    if i < |ns| - 1 {
      DuplicateIds(init, arc, i);
      DuplicateAtInit(ns, arc, i);
      assert init[i] == ns[i];
      assert ns[i].id != ns[|ns| - 1].id;
    }
  }

  /** The nodes of a well-formed dataset, in enumeration order, have distinct ids. */
  lemma NodesDistinct(t: Tables)
    requires t.Valid()
    ensures DistinctIds(InOrder(t.nodeOrder, t.nodes))
    ensures IdsOf(InOrder(t.nodeOrder, t.nodes)) == t.nodes.Keys
  {
    var ns := InOrder(t.nodeOrder, t.nodes);
    forall i, j | 0 <= i < j < |ns| ensures ns[i].id != ns[j].id {
      assert t.nodeOrder[i] != t.nodeOrder[j];
    }
    forall id | id in t.nodes ensures id in IdsOf(ns) {
      var i :| 0 <= i < |t.nodeOrder| && t.nodeOrder[i] == id;
      assert ns[i].id == id;
    }
  }

  /**
   * On a well-formed dataset whose nodes all have house number and street,
   * a node survives the removal exactly when it is not a duplicate.
   */
  lemma DuplicateSurvivesIff(t: Tables, arc: ArcFn, i: int)
    requires t.Valid() && AllKeyed(InOrder(t.nodeOrder, t.nodes)) && 0 <= i < |t.nodeOrder|
    ensures var ns := InOrder(t.nodeOrder, t.nodes);
      t.nodeOrder[i] in WithoutNodes(t, IdsOf(Duplicates(ns, arc))).nodes <==> !DuplicateAt(ns, arc, i)
  {
    var ns := InOrder(t.nodeOrder, t.nodes);
    NodesDistinct(t);
    DuplicateIds(ns, arc, i);
    assert ns[i].id == t.nodeOrder[i];
  }

  lemma MapMinusCard<V>(m: map<int, V>, ids: set<int>)
    requires ids <= m.Keys
    ensures |(m - ids).Keys| == |m.Keys| - |ids|
  {
    assert (m - ids).Keys == m.Keys - ids;
  }

  /** The count returned is the number of nodes the removal takes out. */
  lemma DuplicateCountIsRemoved(t: Tables, arc: ArcFn)
    requires t.Valid() && AllKeyed(InOrder(t.nodeOrder, t.nodes))
    ensures |t.nodes| - |WithoutNodes(t, IdsOf(Duplicates(InOrder(t.nodeOrder, t.nodes), arc))).nodes|
         == |Duplicates(InOrder(t.nodeOrder, t.nodes), arc)|
  {
    var ns := InOrder(t.nodeOrder, t.nodes);
    var ids := IdsOf(Duplicates(ns, arc));
    NodesDistinct(t);
    DuplicatesCount(ns, arc);
    MapMinusCard(t.nodes, ids);
    assert |t.nodes| == |t.nodes.Keys| && |t.nodes - ids| == |(t.nodes - ids).Keys|;
  }

  // ---------------------------------------------------------------- the class

  class DuplicateAddress {
    const addrPoints: OSMDataset

    constructor (addrPoints: OSMDataset)
      ensures this.addrPoints == addrPoints
    {
      this.addrPoints := addrPoints;
    }

    /**
     * `RemoveDuplicateAddresses`: the scan over the nodes, then the removal
     * of every marked node still present; returns the number marked.
     */
    method RemoveDuplicateAddresses(arc: ArcFn) returns (r: Result<int, KeyError>)
      requires addrPoints.Valid()
      modifies addrPoints
      ensures addrPoints.Valid()
      ensures var spec := ScanAll(InOrder(old(addrPoints.nodeOrder), old(addrPoints.osmNodes)), arc);
        (r.Ok? <==> spec.Ok?) &&
        (r.Ok? ==> r.value == |spec.value.removeList| &&
                   addrPoints.Snapshot() == WithoutNodes(old(addrPoints.Snapshot()), IdsOf(spec.value.removeList))) &&
        (r.Err? ==> r.error == spec.error && addrPoints.Snapshot() == old(addrPoints.Snapshot()))
    {
      var ns := InOrder(addrPoints.nodeOrder, addrPoints.osmNodes);
      var sc := ScanNodes(ns, arc);
      if sc.Err? {
        return Err(sc.error);
      }
      RemoveNodes(sc.value.removeList);
      r := Ok(|sc.value.removeList|);
    }

    /** The second loop: every listed node still present is removed. */
    method RemoveNodes(removeList: seq<Node>)
      requires addrPoints.Valid()
      modifies addrPoints
      ensures addrPoints.Valid()
      ensures addrPoints.Snapshot() == WithoutNodes(old(addrPoints.Snapshot()), IdsOf(removeList))
    {
      ghost var t0 := addrPoints.Snapshot();
      WithoutNodesNothing(t0);
      assert IdsOf(removeList[..0]) == {};
      var i := 0;
      while i < |removeList|
        invariant 0 <= i <= |removeList| && addrPoints.Valid()
        invariant addrPoints.Snapshot() == WithoutNodes(t0, IdsOf(removeList[..i]))
      {
        var id := removeList[i].id;
        ghost var before := addrPoints.Snapshot();
        if id in addrPoints.osmNodes {
          addrPoints.RemoveNode(id);
        } else {
          assert addrPoints.osmNodes - {id} == addrPoints.osmNodes;
          ExceptAbsent(addrPoints.nodeOrder, id);
        }
        RemovalStep(t0, removeList, i, before, addrPoints.Snapshot());
        i := i + 1;
      }
      assert removeList[..i] == removeList;
    }

    /** The removals of `RemoveNodes` carried over one listed node. */
    static lemma RemovalStep(t0: Tables, removeList: seq<Node>, i: nat, before: Tables, after: Tables)
      requires i < |removeList|
      requires before == WithoutNodes(t0, IdsOf(removeList[..i]))
      requires after == WithoutNodes(before, {removeList[i].id})
      ensures after == WithoutNodes(t0, IdsOf(removeList[..i + 1]))
    {
      assert IdsOf(removeList[..i + 1]) == IdsOf(removeList[..i]) + {removeList[i].id} by {
        assert removeList[..i + 1] == removeList[..i] + [removeList[i]];
      }
      WithoutNodesTwice(t0, IdsOf(removeList[..i]), {removeList[i].id});
    }

    /** The loop that fills the dictionary and the remove list. */
    method ScanNodes(ns: seq<Node>, arc: ArcFn) returns (r: Result<Scan, KeyError>)
      ensures r == ScanAll(ns, arc)
    {
      var hash: map<string, seq<Node>> := map[];
      var removeList: seq<Node> := [];
      var i := 0;
      while i < |ns|
        invariant 0 <= i <= |ns|
        invariant ScanAll(ns[..i], arc) == Ok(Scan(hash, removeList))
      {
        var node := ns[i];
        assert ns[..i + 1][..i] == ns[..i] && ns[..i + 1][i] == node;
        var key := HashKey(node);
        if key.Err? {
          ScanErrorSticks(ns, arc, i + 1);
          return Err(key.error);
        }
        if key.value in hash {
          var nodeList := hash[key.value];
          var j := 0;
          ghost var r0 := removeList;
          while j < |nodeList|
            invariant 0 <= j <= |nodeList|
            invariant removeList == r0 + Close(nodeList[..j], node, arc)
          {
            var testNode := nodeList[j];
            assert nodeList[..j + 1][..j] == nodeList[..j] && nodeList[..j + 1][j] == testNode;
            if arc(testNode.Position(), node.Position()) < MaxDistanceForDuplicate {
              removeList := removeList + [node];
            }
            j := j + 1;
          }
          assert nodeList[..j] == nodeList;
        } else {
          hash := hash[key.value := [node]];
        }
        i := i + 1;
      }
      assert ns[..i] == ns;
      r := Ok(Scan(hash, removeList));
    }
  }

  /** Once the scan of a prefix fails, the scan of every longer prefix fails the same way. */
  lemma {:induction false} ScanErrorSticks(ns: seq<Node>, arc: ArcFn, i: int)
    requires 0 <= i <= |ns| && ScanAll(ns[..i], arc).Err?
    ensures ScanAll(ns, arc) == ScanAll(ns[..i], arc)
    decreases |ns| - i
  {
    if i < |ns| {
      assert ns[..i + 1][..i] == ns[..i];
      ScanErrorSticks(ns, arc, i + 1);
    } else {
      assert ns[..i] == ns;
    }
  }
}

=== FILE: merge.dfy ===
/**
 * The merge itself: an object holding the grid, the three datasets and the
 * bucket array, whose passes change the datasets in place. Each method is
 * proved to leave exactly the state the value-level passes of
 * `MergePasses` compute from the state it started in.
 */
module Merging {
  import opened Wrappers
  import opened OSMType
  import opened SpatialUtilities
  import opened Datasets
  import opened BucketIndex
  import opened ClipBoundaries
  import opened MergeIndex
  import opened MergePasses

  /**
   * The tag loop of `AttachNode`: each address tag whose key the building
   * lacks is added, and whether any was added.
   */
  method TransferTags(building: map<string, string>, addr: map<string, string>)
    returns (tags: map<string, string>, added: bool)
    ensures tags == MergeTags(building, addr)
    ensures added <==> TagAdded(building, addr)
  {
    tags, added := building, false;
    var keys := addr.Keys;
    while keys != {}
      invariant keys <= addr.Keys
      invariant tags.Keys == building.Keys + (addr.Keys - keys)
      invariant forall k | k in building :: tags[k] == building[k]
      invariant forall k | k in addr.Keys - keys && k !in building :: tags[k] == addr[k]
      invariant added <==> exists k | k in addr.Keys - keys :: k !in building
      decreases keys
    {
      var k :| k in keys;
      if k !in tags {
        tags := tags[k := addr[k]];
        added := true;
      }
      keys := keys - {k};
    }
  }

  /**
   * `BuildingContainsNode`: a way's outline is the boundary of its nodes; a
   * relation's is built by the relation constructor over a dataset holding
   * only that relation, and a constructor that fails means "not contained".
   * Returns the way store as the constructor leaves it.
   */
  method BuildingContainsNode(t: Tables, g: Target, p: Coord) returns (inside: bool, ways: map<int, Way>)
    requires Fits(t, g)
    ensures (inside, ways) == Contains(t, g, p)
  {
    var id := g.id;
    if g.OnWay? {
      assert AllIn(t.ways[id].nodeList, t.nodes);
      var cb := new ClipBoundary.FromWay(t.ways[id], t.nodes);
      inside := cb.IsInBoundary(p);
      ways := t.ways;
    } else {
      var rel := t.relations[id];
      assert rel.id == id && AllIn(rel.ways, t.ways);
      var single := Tables(t.nodes, t.ways, map[id := rel], t.nodeOrder, t.wayOrder, [id]);
      var tmp := new OSMDataset.FromParts(single);
      var r := ClipBoundary.FromRelations(tmp);
      ways := tmp.osmWays;
      if r.Err? {
        inside := false;
      } else {
        inside := r.value.IsInBoundary(p);
      }
    }
  }

  class Merge {
    const buckets: Buckets
    const newAddresses: OSMDataset
    const newBuildings: OSMDataset
    const osmData: OSMDataset

    /** The bucket array of the new buildings, for the duplicate-building pass. */
    var buildingIndex: array<seq<Way>>
    /** The bucket array of the new addresses, for the passes after it. */
    var addressIndex: array<seq<Node>>

    /** Three distinct well-formed datasets, the buildings linked, over a valid grid. */
    ghost predicate Valid()
      reads this, newAddresses, newBuildings, osmData
    {
      buckets.Valid() &&
      newAddresses != newBuildings && newAddresses != osmData && newBuildings != osmData &&
      newAddresses.Valid() && newBuildings.Valid() && newBuildings.Linked() &&
      osmData.Valid() && osmData.Linked()
    }

    /** `Valid` without the links of the new relations, which the duplicate check may break. */
    ghost predicate Framed()
      reads this, newAddresses, newBuildings, osmData
    {
      buckets.Valid() &&
      newAddresses != newBuildings && newAddresses != osmData && newBuildings != osmData &&
      newAddresses.Valid() && newBuildings.Valid() && osmData.Valid() && osmData.Linked()
    }

    /** There is an address bucket per cell of the grid, and no bucket holds a node twice. */
    ghost predicate Indexed()
      reads this, addressIndex
    {
      addressIndex.Length == buckets.NHorizontal * buckets.NVertical && DistinctBuckets(addressIndex[..])
    }

    function Contents(): Inputs
      reads this, newAddresses, newBuildings, osmData
    {
      Inputs(newAddresses.Snapshot(), newBuildings.Snapshot(), osmData.Snapshot())
    }

    function AddressPool(): Pool
      reads this, newAddresses, addressIndex
    {
      Pool(newAddresses.Snapshot(), addressIndex[..])
    }

    /** A building dataset together with the new addresses and their buckets. */
    function State(ds: OSMDataset): Attach
      reads this, ds, newAddresses, addressIndex
    {
      Attach(ds.Snapshot(), AddressPool())
    }

    function Progress(): Stage
      reads this, newAddresses, newBuildings, osmData, addressIndex
    {
      Stage(osmData.Snapshot(), newBuildings.Snapshot(), AddressPool())
    }

    constructor (buckets: Buckets, newAddresses: OSMDataset, newBuildings: OSMDataset, osmData: OSMDataset)
      requires buckets.Valid()
      requires newAddresses != newBuildings && newAddresses != osmData && newBuildings != osmData
      requires newAddresses.Valid() && newBuildings.Valid() && newBuildings.Linked()
      requires osmData.Valid() && osmData.Linked()
      ensures Valid()
      ensures this.buckets == buckets && this.newAddresses == newAddresses
      ensures this.newBuildings == newBuildings && this.osmData == osmData
    {
      this.buckets := buckets;
      this.newAddresses := newAddresses;
      this.newBuildings := newBuildings;
      this.osmData := osmData;
      buildingIndex := new seq<Way>[0];
      addressIndex := new seq<Node>[0];
    }

    /** Writes new tags and attributes onto a building of `ds`. */
    method Retag(ds: OSMDataset, g: Target, tags: map<string, string>, attrs: map<string, string>)
      requires ds.Valid() && ds.Linked() && Holds(ds.Snapshot(), g)
      modifies ds
      ensures ds.Valid() && ds.Linked()
      ensures ds.Snapshot() == Rewrite(old(ds.Snapshot()), g, tags, attrs)
    {
      RewriteSound(ds.Snapshot(), g, tags, attrs);
      match g
      case OnWay(id) =>
        ds.UpdateWay(ds.osmWays[id].(tags := tags, attrs := attrs));
      case OnRelation(id) =>
        ds.UpdateRelation(ds.osmRelations[id].(tags := tags, attrs := attrs));
    }

    /**
     * `AttachNode`: the tags move to the building, the node leaves the new
     * addresses and its bucket, and a building that gained a tag and has a
     * positive id is marked edited, which fails when it has "action".
     */
    method AttachNode(ds: OSMDataset, g: Target, n: Node, k: int) returns (r: Result<(), MergeError>)
      requires Valid() && (ds == osmData || ds == newBuildings) && Holds(ds.Snapshot(), g)
      requires Indexed() && 0 <= k < addressIndex.Length
      modifies ds, newAddresses, addressIndex
      ensures Valid() && Indexed()
      ensures var spec := MergePasses.AttachNode(old(State(ds)), g, n, k);
        (r.Ok? <==> spec.Ok?) && (r.Ok? ==> State(ds) == spec.value) && (r.Err? ==> r.error == spec.error)
    {
      ghost var s0 := State(ds);
      var bld := View(ds.Snapshot(), g);
      var tags, added := TransferTags(bld.tags, n.tags);
      Retag(ds, g, tags, bld.attrs);
      newAddresses.RemoveNode(n.id);
      addressIndex[k] := RemoveFirst(addressIndex[k], n.id);
      RemoveFirstKeepsDistinct(s0.pool.index, k, n.id);
      ghost var pool := Pool(WithoutNodes(s0.pool.addresses, {n.id}), s0.pool.index[k := RemoveFirst(s0.pool.index[k], n.id)]);
      assert AddressPool() == pool;
      if added && bld.id > 0 {
        var attrs := MarkEdited(bld.id, bld.attrs);
        if attrs.Err? {
          return Err(attrs.error);
        }
        RewriteTwice(s0.buildings, g, tags, bld.attrs, attrs.value);
        Retag(ds, g, tags, attrs.value);
        assert State(ds) == Attach(Rewrite(s0.buildings, g, tags, attrs.value), pool);
      } else {
        assert State(ds) == Attach(Rewrite(s0.buildings, g, tags, bld.attrs), pool);
      }
      r := Ok(());
    }
  
    /** The loop of the interior search over bucket `k`: test each address against the outline. */
    method ScanInsideBucket(t: Tables, g: Target, box: BBox, k: int, acc: Tally) returns (acc': Tally, t': Tables)
      requires Fits(t, g) && 0 <= k < addressIndex.Length
      ensures (acc', t') == ScanBucketInside(t, g, box, addressIndex[..], k, 0, acc)
    {
      ghost var index := addressIndex[..];
      var bucket := addressIndex[k];
      acc', t' := acc, t;
      var j := 0;
      while j < |bucket|
        invariant 0 <= j <= |bucket| && bucket == index[k]
        invariant Fits(t', g) && t' == t.(ways := t'.ways) && OnlyReversed(t.ways, t'.ways, t.nodes)
        invariant ScanBucketInside(t', g, box, index, k, j, acc') == ScanBucketInside(t, g, box, index, k, 0, acc)
      {
        var n := bucket[j];
        if BBoxContains(box, n.Position()) {
          var inside, ways := BuildingContainsNode(t', g, n.Position());
          ReversedKeepsFit(t', g, ways);
          OnlyReversedTrans(t.ways, t'.ways, ways, t.nodes);
          t' := t'.(ways := ways);
          if inside {
            acc' := Tally(acc'.count + 1, Some((n, k)));
          }
        }
        j := j + 1;
      }
    }

    /** The loop of the interior search over the searched buckets. */
    method ScanInsideCells(t: Tables, g: Target, box: BBox, xList: seq<int>, yList: seq<int>, ghost cells: seq<int>)
      returns (acc: Tally, t': Tables)
      requires Fits(t, g) && |xList| == |yList| == |cells|
      requires forall i | 0 <= i < |cells| ::
                 cells[i] == ArrIndex(buckets.NHorizontal, xList[i], yList[i]) && 0 <= cells[i] < addressIndex.Length
      ensures (acc, t') == ScanCellsInside(t, g, box, addressIndex[..], cells, Tally(0, None))
    {
      ghost var index := addressIndex[..];
      acc, t' := Tally(0, None), t;
      var i := 0;
      while i < |xList|
        invariant 0 <= i <= |xList|
        invariant Fits(t', g) && t' == t.(ways := t'.ways) && OnlyReversed(t.ways, t'.ways, t.nodes)
        invariant ScanCellsInside(t', g, box, index, cells[i..], acc) == ScanCellsInside(t, g, box, index, cells, Tally(0, None))
      {
        var idx := ArrIndex(buckets.NHorizontal, xList[i], yList[i]);
        assert cells[i..][0] == idx && cells[i..][1..] == cells[i + 1..];
        ghost var before := t';
        acc, t' := ScanInsideBucket(t', g, box, idx, acc);
        ReversedKeepsFit(before, g, t'.ways);
        OnlyReversedTrans(t.ways, before.ways, t'.ways, t.nodes);
        i := i + 1;
      }
    }

    /**
     * `AttachInteriorhAddressTo`: a building without a house number gets
     * the one address inside its box and outline, if there is exactly one.
     */
    method AttachInteriorAddressTo(ds: OSMDataset, g: Target) returns (r: Result<(), MergeError>)
      requires Valid() && Indexed() && (ds == osmData || ds == newBuildings) && Holds(ds.Snapshot(), g)
      modifies ds, newAddresses, addressIndex
      ensures Valid()
      ensures var spec := InteriorStep(buckets, old(State(ds)), g);
        (r.Ok? <==> spec.Ok?) && (r.Ok? ==> State(ds) == spec.value) && (r.Err? ==> r.error == spec.error)
    {
      var t := ds.Snapshot();
      var bld := View(t, g);
      if HouseNumber in bld.tags {
        return Ok(());
      }
      var xList, yList := buckets.ReturnBucketList(bld.centre.lat, bld.centre.lon);
      ghost var cells := SearchCells(buckets, bld.centre);
      SearchCellsOfLists(buckets, bld.centre, xList, yList);
      var acc, t' := ScanInsideCells(t, g, bld.bbox, xList, yList, cells);
      assert (acc, t') == InteriorSearch(buckets, State(ds), g);
      ds.SetWays(t'.ways);
      assert ds.Snapshot() == t';
      if acc.count == 1 {
        r := AttachNode(ds, g, acc.last.value.0, acc.last.value.1);
      } else {
        r := Ok(());
      }
    }
  
    /** The loop of a search over bucket `k`: count the addresses the probe accepts, keep the last. */
    method ScanBucketFor(p: Probe, k: int, acc: Tally) returns (acc': Tally)
      requires 0 <= k < addressIndex.Length
      ensures acc' == ScanBucket(p, addressIndex[..], k, 0, acc)
    {
      ghost var index := addressIndex[..];
      var bucket := addressIndex[k];
      acc' := acc;
      var j := 0;
      while j < |bucket|
        invariant 0 <= j <= |bucket| && bucket == index[k]
        invariant ScanBucket(p, index, k, j, acc') == ScanBucket(p, index, k, 0, acc)
      {
        var n := bucket[j];
        if Accepts(p, n) {
          acc' := Tally(acc'.count + 1, Some((n, k)));
        }
        j := j + 1;
      }
    }

    /** The loop of a search over the searched buckets. */
    method ScanCellsFor(p: Probe, xList: seq<int>, yList: seq<int>, ghost cells: seq<int>) returns (acc: Tally)
      requires |xList| == |yList| == |cells|
      requires forall i | 0 <= i < |cells| ::
                 cells[i] == ArrIndex(buckets.NHorizontal, xList[i], yList[i]) && 0 <= cells[i] < addressIndex.Length
      ensures acc == ScanCells(p, addressIndex[..], cells, Tally(0, None))
    {
      ghost var index := addressIndex[..];
      acc := Tally(0, None);
      var i := 0;
      while i < |xList|
        invariant 0 <= i <= |xList|
        invariant ScanCells(p, index, cells[i..], acc) == ScanCells(p, index, cells, Tally(0, None))
      {
        var idx := ArrIndex(buckets.NHorizontal, xList[i], yList[i]);
        assert cells[i..][0] == idx && cells[i..][1..] == cells[i + 1..];
        acc := ScanBucketFor(p, idx, acc);
        i := i + 1;
      }
    }

    /**
     * `AttachNearbyhAddressTo`: a building without a house number and
     * without "action" gets the one address closer than the search radius,
     * if there is exactly one.
     */
    method AttachNearbyAddressTo(distance: DistanceFn, ds: OSMDataset, g: Target)
      requires Valid() && Indexed() && (ds == osmData || ds == newBuildings) && Holds(ds.Snapshot(), g)
      modifies ds, newAddresses, addressIndex
      ensures Valid() && Indexed()
      ensures State(ds) == NearbyStep(buckets, distance, old(State(ds)), g)
    {
      var bld := View(ds.Snapshot(), g);
      if HouseNumber in bld.tags || Action in bld.attrs {
        return;
      }
      var probe := Near(distance, bld.centre, SearchRadius(distance, bld));
      var xList, yList := buckets.ReturnBucketList(bld.centre.lat, bld.centre.lon);
      ghost var cells := SearchCells(buckets, bld.centre);
      SearchCellsOfLists(buckets, bld.centre, xList, yList);
      var acc := ScanCellsFor(probe, xList, yList, cells);
      ScanCellsCounts(probe, addressIndex[..], cells, Tally(0, None));
      ghost var q := Matches(buckets, probe, addressIndex[..], bld.centre);
      if acc.count == 1 {
        assert |q| == 1 && acc.last == Some(q[0]);
        AttachWithoutActionSucceeds(State(ds), g, q[0].0, q[0].1);
        var attached := AttachNode(ds, g, acc.last.value.0, acc.last.value.1);
      }
    }
  
    /** The interior pass over `gs` is on track at target `i` to end in `spec`. */
    ghost predicate InteriorAt(ds: OSMDataset, gs: seq<Target>, i: int, spec: Result<Attach, MergeError>)
      reads this, ds, newAddresses, newBuildings, osmData, addressIndex
    {
      Valid() && Indexed() && (ds == osmData || ds == newBuildings) && InteriorTrack(buckets, State(ds), gs, i, spec)
    }

    /** One turn of the loop of `AttachInteriorAddressesTo`. */
    method InteriorTurn(ds: OSMDataset, gs: seq<Target>, i: int, ghost spec: Result<Attach, MergeError>)
      returns (r: Result<(), MergeError>)
      requires InteriorAt(ds, gs, i, spec) && i < |gs|
      modifies ds, newAddresses, addressIndex
      ensures Valid()
      ensures r.Ok? ==> InteriorAt(ds, gs, i + 1, spec)
      ensures r.Err? ==> spec == Err(r.error)
    {
      InteriorTrackStep(buckets, State(ds), gs, i, spec);
      r := AttachInteriorAddressTo(ds, gs[i]);
    }

    /**
     * `AttachInteriorAddressesTo`: the interior search for every way, then
     * every relation, of `ds`; an exception ends the pass.
     */
    method AttachInteriorAddressesTo(ds: OSMDataset) returns (r: Result<(), MergeError>)
      requires Valid() && Indexed() && (ds == osmData || ds == newBuildings)
      modifies ds, newAddresses, addressIndex
      ensures Valid()
      ensures var spec := InteriorPass(buckets, old(State(ds)), Targets(old(ds.Snapshot())));
        (r.Ok? <==> spec.Ok?) && (r.Ok? ==> State(ds) == spec.value) && (r.Err? ==> r.error == spec.error)
    {
      var gs := Targets(ds.Snapshot());
      ghost var spec := InteriorPass(buckets, State(ds), gs);
      var i := 0;
      while i < |gs|
        invariant InteriorAt(ds, gs, i, spec)
      {
        r := InteriorTurn(ds, gs, i, spec);
        if r.Err? {
          return;
        }
        i := i + 1;
      }
      InteriorTrackDone(buckets, State(ds), gs, spec);
      r := Ok(());
    }

    /** `AttachInteriorAddresses`: the interior pass over the existing data, then over the new buildings. */
    method AttachInteriorAddresses() returns (r: Result<(), MergeError>)
      requires Valid() && Indexed()
      modifies osmData, newBuildings, newAddresses, addressIndex
      ensures Valid()
      ensures var spec := InteriorAddresses(buckets, old(Progress()));
        (r.Ok? <==> spec.Ok?) && (r.Ok? ==> Progress() == spec.value) && (r.Err? ==> r.error == spec.error)
    {
      r := AttachInteriorAddressesTo(osmData);
      if r.Ok? {
        r := AttachInteriorAddressesTo(newBuildings);
      }
    }

    /** The nearby pass over `gs` is on track at target `i` to end in `spec`. */
    ghost predicate NearbyAt(distance: DistanceFn, ds: OSMDataset, gs: seq<Target>, i: int, spec: Attach)
      reads this, ds, newAddresses, newBuildings, osmData, addressIndex
    {
      Valid() && Indexed() && (ds == osmData || ds == newBuildings) && NearbyTrack(buckets, distance, State(ds), gs, i, spec)
    }

    /** One turn of the loop of `AttachNearbyAddressesTo`. */
    method NearbyTurn(distance: DistanceFn, ds: OSMDataset, gs: seq<Target>, i: int, ghost spec: Attach)
      requires NearbyAt(distance, ds, gs, i, spec) && i < |gs|
      modifies ds, newAddresses, addressIndex
      ensures NearbyAt(distance, ds, gs, i + 1, spec)
    {
      NearbyTrackStep(buckets, distance, State(ds), gs, i, spec);
      AttachNearbyAddressTo(distance, ds, gs[i]);
    }

    /**
     * `AttachNearbyAddressesTo`: the nearby search for every way, then every
     * relation, of `ds`; an exception ends the pass.
     */
    method AttachNearbyAddressesTo(distance: DistanceFn, ds: OSMDataset)
      requires Valid() && Indexed() && (ds == osmData || ds == newBuildings)
      modifies ds, newAddresses, addressIndex
      ensures Valid() && Indexed()
      ensures State(ds) == NearbyPass(buckets, distance, old(State(ds)), Targets(old(ds.Snapshot())))
    {
      var gs := Targets(ds.Snapshot());
      ghost var spec := NearbyPass(buckets, distance, State(ds), gs);
      var i := 0;
      while i < |gs|
        invariant NearbyAt(distance, ds, gs, i, spec)
      {
        NearbyTurn(distance, ds, gs, i, spec);
        i := i + 1;
      }
      NearbyTrackDone(buckets, distance, State(ds), gs, spec);
    }

    /** `AttachNearbyAddresses`: the nearby pass over the existing data, then over the new buildings. */
    method AttachNearbyAddresses(distance: DistanceFn)
      requires Valid() && Indexed()
      modifies osmData, newBuildings, newAddresses, addressIndex
      ensures Valid() && Indexed()
      ensures Progress() == NearbyAddresses(buckets, distance, old(Progress()))
    {
      AttachNearbyAddressesTo(distance, osmData);
      AttachNearbyAddressesTo(distance, newBuildings);
    }

    // ------------------------------------------------------ duplicate buildings

    /** `DivideNewBuildingsIntoBuckets`: the new buildings, in enumeration order, into a fresh bucket array. */
    method DivideNewBuildingsIntoBuckets() returns (r: Result<(), MergeError>)
      requires Valid()
      modifies this
      ensures Valid() && addressIndex == old(addressIndex)
      ensures var vals := InOrder(newBuildings.wayOrder, newBuildings.osmWays);
        (r.Ok? <==> CellsFit(buckets, vals, WayCentre)) &&
        (r.Ok? ==> fresh(buildingIndex) && buildingIndex[..] == Index(buckets, vals, WayCentre)) &&
        (r.Err? ==> r.error == IndexOutOfRange(FirstMisfit(buckets, vals, WayCentre)))
    {
      var d := DivideIntoBuckets(buckets, InOrder(newBuildings.wayOrder, newBuildings.osmWays), WayCentre);
      if d.Err? {
        return Err(d.error);
      }
      buildingIndex := d.value;
      r := Ok(());
    }

    /** One searched bucket of `CheckOverlappedBuilding`: every new building in it whose box meets `box` is removed. */
    method RemoveOverlapsIn(k: int, box: BBox)
      requires Framed() && 0 <= k < buildingIndex.Length
      modifies newBuildings
      ensures Framed()
      ensures newBuildings.Snapshot() == WithoutWays(old(newBuildings.Snapshot()), OverlapIn(buildingIndex[k], box))
    {
      var bucket := buildingIndex[k];
      ghost var t0 := newBuildings.Snapshot();
      WithoutWaysNothing(t0);
      assert OverlapIn(bucket[..0], box) == {};
      var j := 0;
      while j < |bucket|
        invariant 0 <= j <= |bucket| && Framed()
        invariant newBuildings.Snapshot() == WithoutWays(t0, OverlapIn(bucket[..j], box))
      {
        var w := bucket[j];
        ghost var before := newBuildings.Snapshot();
        if BBoxIntersects(w.bbox, box) {
          newBuildings.RemoveWay(w.id);
          assert newBuildings.Snapshot() == WithoutWays(before, {w.id});
        }
        OverlapStep(t0, bucket, j, box, before, newBuildings.Snapshot());
        j := j + 1;
      }
      assert bucket[..j] == bucket;
    }

    /**
     * `CheckOverlappedBuilding`: every new building in a bucket searched
     * around the existing building whose box meets the existing building's
     * box is removed.
     */
    method CheckOverlappedBuilding(f: Footprint)
      requires Framed()
      requires buildingIndex.Length == buckets.NHorizontal * buckets.NVertical
      modifies newBuildings
      ensures Framed()
      ensures newBuildings.Snapshot() ==
              WithoutWays(old(newBuildings.Snapshot()), OverlapInCells(buildingIndex[..], SearchCells(buckets, f.centre), f.bbox))
    {
      var xList, yList := buckets.ReturnBucketList(f.centre.lat, f.centre.lon);
      ghost var cells := SearchCells(buckets, f.centre);
      SearchCellsOfLists(buckets, f.centre, xList, yList);
      ghost var index := buildingIndex[..];
      ghost var t0 := newBuildings.Snapshot();
      var i := 0;
      while i < |xList|
        invariant 0 <= i <= |xList| && Framed()
        invariant WithoutWays(newBuildings.Snapshot(), OverlapInCells(index, cells[i..], f.bbox)) ==
                  WithoutWays(t0, OverlapInCells(index, cells, f.bbox))
      {
        var idx := ArrIndex(buckets.NHorizontal, xList[i], yList[i]);
        assert cells[i..][0] == idx && cells[i..][1..] == cells[i + 1..];
        ghost var before := newBuildings.Snapshot();
        RemoveOverlapsIn(idx, f.bbox);
        WithoutWaysTwice(before, OverlapIn(index[idx], f.bbox), OverlapInCells(index, cells[i + 1..], f.bbox));
        i := i + 1;
      }
      assert cells[i..] == [];
      WithoutWaysNothing(newBuildings.Snapshot());
    }

    /**
     * `CheckDuplicateBuilding`: the new buildings are bucketed, then every
     * way and every relation of the existing data removes the new buildings
     * that overlap it; a new relation left listing a removed way is the
     * error.
     */
    method CheckDuplicateBuilding() returns (r: Result<(), MergeError>)
      requires Valid()
      modifies this, newBuildings
      ensures Framed() && addressIndex == old(addressIndex)
      ensures r.Ok? ==> Valid()
      ensures var spec := RemoveDuplicateBuildings(buckets, old(Contents()));
        (r.Ok? <==> spec.Ok?) && (r.Ok? ==> newBuildings.Snapshot() == spec.value) && (r.Err? ==> r.error == spec.error)
    {
      var d := DivideNewBuildingsIntoBuckets();
      if d.Err? {
        return Err(d.error);
      }
      var fs := Footprints(osmData.Snapshot());
      ghost var index := buildingIndex[..];
      ghost var t0 := newBuildings.Snapshot();
      var i := 0;
      while i < |fs|
        invariant 0 <= i <= |fs| && Framed()
        invariant buildingIndex[..] == index && |index| == buckets.NHorizontal * buckets.NVertical
        invariant addressIndex == old(addressIndex)
        invariant WithoutWays(newBuildings.Snapshot(), Overlapped(buckets, index, fs[i..])) ==
                  WithoutWays(t0, Overlapped(buckets, index, fs))
      {
        assert fs[i..][0] == fs[i] && fs[i..][1..] == fs[i + 1..];
        ghost var before := newBuildings.Snapshot();
        CheckOverlappedBuilding(fs[i]);
        WithoutWaysTwice(before, OverlapInCells(index, SearchCells(buckets, fs[i].centre), fs[i].bbox),
                         Overlapped(buckets, index, fs[i + 1..]));
        i := i + 1;
      }
      assert fs[i..] == [];
      WithoutWaysNothing(newBuildings.Snapshot());
      var u := FirstUnlinked(newBuildings.relationOrder, newBuildings.osmRelations, newBuildings.osmWays);
      RemoveDuplicateBuildingsEnd(buckets, old(Contents()), newBuildings.Snapshot());
      if u.Some? {
        return Err(RemovedWayListed(u.value));
      }
      r := Ok(());
    }

    // ------------------------------------------------------ duplicate addresses

    /** `DivideNewAddressesIntoBuckets`: the new addresses, in enumeration order, into a fresh bucket array. */
    method DivideNewAddressesIntoBuckets() returns (r: Result<(), MergeError>)
      requires Valid()
      modifies this
      ensures Valid()
      ensures var vals := InOrder(newAddresses.nodeOrder, newAddresses.osmNodes);
        (r.Ok? <==> CellsFit(buckets, vals, NodePosition)) &&
        (r.Ok? ==> fresh(addressIndex) && Indexed() && addressIndex[..] == Index(buckets, vals, NodePosition)) &&
        (r.Err? ==> r.error == IndexOutOfRange(FirstMisfit(buckets, vals, NodePosition)))
    {
      var d := DivideIntoBuckets(buckets, InOrder(newAddresses.nodeOrder, newAddresses.osmNodes), NodePosition);
      if d.Err? {
        return Err(d.error);
      }
      addressIndex := d.value;
      IndexDistinct(buckets, newAddresses.Snapshot());
      r := Ok(());
    }

    /**
     * The first loop over a searched bucket of `CheckForDuplicateAddress`:
     * each node with the same house number and street is removed from the
     * new addresses as it is met, and listed.
     */
    method RemoveMatching(bucket: seq<Node>, tags: map<string, string>) returns (removeList: seq<Node>)
      requires Valid() && HasStreetAddress(tags)
      modifies newAddresses
      ensures Valid()
      ensures removeList == Matching(bucket, tags)
      ensures newAddresses.Snapshot() == WithoutNodes(old(newAddresses.Snapshot()), IdsOf(removeList))
    {
      ghost var t0 := newAddresses.Snapshot();
      WithoutNodesNothing(t0);
      removeList := [];
      assert IdsOf(removeList) == {};
      var j := 0;
      while j < |bucket|
        invariant 0 <= j <= |bucket| && Valid()
        invariant removeList == Matching(bucket[..j], tags)
        invariant newAddresses.Snapshot() == WithoutNodes(t0, IdsOf(removeList))
      {
        var n := bucket[j];
        assert bucket[..j + 1][..j] == bucket[..j] && bucket[..j + 1][j] == n;
        if HouseNumber in n.tags && Street in n.tags &&
           n.tags[HouseNumber] == tags[HouseNumber] && n.tags[Street] == tags[Street] {
          ghost var before := newAddresses.Snapshot();
          WithoutNodesTwice(t0, IdsOf(removeList), {n.id});
          assert IdsOf(removeList + [n]) == IdsOf(removeList) + {n.id};
          newAddresses.RemoveNode(n.id);
          assert newAddresses.Snapshot() == WithoutNodes(before, {n.id});
          removeList := removeList + [n];
        }
        j := j + 1;
      }
      assert bucket[..j] == bucket;
    }

    /** The second loop: `List.Remove` of each listed node from bucket `k`, in order. */
    method RemoveFromBucket(k: int, removeList: seq<Node>)
      requires 0 <= k < addressIndex.Length
      modifies addressIndex
      ensures addressIndex[..] == old(addressIndex[..])[k := RemoveEach(old(addressIndex[k]), removeList)]
    {
      ghost var bucket := addressIndex[k];
      var m := 0;
      while m < |removeList|
        invariant 0 <= m <= |removeList|
        invariant addressIndex[..] == old(addressIndex[..])[k := RemoveEach(bucket, removeList[..m])]
      {
        assert removeList[..m + 1][..m] == removeList[..m];
        addressIndex[k] := RemoveFirst(addressIndex[k], removeList[m].id);
        m := m + 1;
      }
      assert removeList[..m] == removeList;
    }

    /** One searched bucket of `CheckForDuplicateAddress`: the matching nodes leave the new addresses, then the bucket. */
    method DropDuplicatesIn(k: int, tags: map<string, string>)
      requires Valid() && Indexed() && 0 <= k < addressIndex.Length && HasStreetAddress(tags)
      modifies newAddresses, addressIndex
      ensures Valid() && Indexed()
      ensures AddressPool() == DropCell(old(AddressPool()), k, tags)
    {
      DropCellDistinct(AddressPool(), k, tags);
      var removeList := RemoveMatching(addressIndex[k], tags);
      RemoveFromBucket(k, removeList);
    }

    /**
     * `CheckForDuplicateAddress`: an object with a house number and a
     * street removes the new addresses with the same two tags from every
     * bucket searched around it; any other object changes nothing.
     */
    method CheckForDuplicateAddress(o: Tagged)
      requires Valid() && Indexed()
      modifies newAddresses, addressIndex
      ensures Valid() && Indexed()
      ensures AddressPool() == DropDuplicatesOf(buckets, old(AddressPool()), o)
    {
      if HouseNumber !in o.tags || Street !in o.tags {
        return;
      }
      var xList, yList := buckets.ReturnBucketList(o.position.lat, o.position.lon);
      ghost var cells := SearchCells(buckets, o.position);
      SearchCellsOfLists(buckets, o.position, xList, yList);
      ghost var p0 := AddressPool();
      var i := 0;
      while i < |xList|
        invariant 0 <= i <= |xList| && Valid() && Indexed()
        invariant DropCells(AddressPool(), cells[i..], o.tags) == DropCells(p0, cells, o.tags)
      {
        var idx := ArrIndex(buckets.NHorizontal, xList[i], yList[i]);
        assert cells[i..][0] == idx && cells[i..][1..] == cells[i + 1..];
        DropDuplicatesIn(idx, o.tags);
        i := i + 1;
      }
      assert cells[i..] == [];
    }

    /** `RemoveNewDuplicateAddresses`: every node, then every way, then every relation of the existing data. */
    method RemoveNewDuplicateAddresses()
      requires Valid() && Indexed()
      modifies newAddresses, addressIndex
      ensures Valid() && Indexed()
      ensures AddressPool() == DropAllDuplicates(buckets, old(AddressPool()), TaggedObjects(osmData.Snapshot()))
    {
      var os := TaggedObjects(osmData.Snapshot());
      ghost var p0 := AddressPool();
      var i := 0;
      while i < |os|
        invariant 0 <= i <= |os| && Valid() && Indexed()
        invariant DropAllDuplicates(buckets, AddressPool(), os[i..]) == DropAllDuplicates(buckets, p0, os)
      {
        assert os[i..][0] == os[i] && os[i..][1..] == os[i + 1..];
        CheckForDuplicateAddress(os[i]);
        i := i + 1;
      }
      assert os[i..] == [];
    }

    // ------------------------------------------------------------ the merge

    /** The address half of `PerformMerge` before attaching: bucketing, then duplicate addresses. */
    method PrepareAddresses() returns (r: Result<(), MergeError>)
      requires Valid()
      modifies this, newAddresses
      ensures Valid() && (r.Ok? ==> Indexed() && fresh(addressIndex))
      ensures var spec := AddressStage(buckets, old(newAddresses.Snapshot()), osmData.Snapshot(), newBuildings.Snapshot());
        (r.Ok? <==> spec.Ok?) && (r.Ok? ==> Progress() == spec.value) && (r.Err? ==> r.error == spec.error)
    {
      r := DivideNewAddressesIntoBuckets();
      if r.Err? {
        return;
      }
      RemoveNewDuplicateAddresses();
    }

    /** The attaching half of `PerformMerge`: the interior pass, then the nearby pass. */
    method AttachAddresses(distance: DistanceFn) returns (r: Result<(), MergeError>)
      requires Valid() && Indexed()
      modifies osmData, newBuildings, newAddresses, addressIndex
      ensures var spec := InteriorAddresses(buckets, old(Progress()));
        (r.Ok? <==> spec.Ok?) && (r.Ok? ==> Progress() == NearbyAddresses(buckets, distance, spec.value)) &&
        (r.Err? ==> r.error == spec.error)
    {
      r := AttachInteriorAddresses();
      if r.Err? {
        return;
      }
      AttachNearbyAddresses(distance);
    }

    /** The address half of `PerformMerge`, once the duplicate check has completed. */
    method MergeAddresses(distance: DistanceFn) returns (r: Result<(), MergeError>)
      requires Valid()
      modifies this, newAddresses, newBuildings, osmData
      ensures var spec := AddressMerge(buckets, distance, old(newAddresses.Snapshot()), old(osmData.Snapshot()),
                                       old(newBuildings.Snapshot()));
        (r.Ok? <==> spec.Ok?) && (r.Ok? ==> Contents() == spec.value) && (r.Err? ==> r.error == spec.error)
    {
      r := PrepareAddresses();
      if r.Err? {
        return;
      }
      r := AttachAddresses(distance);
    }

    /**
     * `PerformMerge`: duplicate buildings, the address buckets, duplicate
     * addresses, then the interior and the nearby passes; the first
     * exception ends the merge.
     */
    method PerformMerge(distance: DistanceFn) returns (r: Result<(), MergeError>)
      requires Valid()
      modifies this, newAddresses, newBuildings, osmData
      ensures var spec := MergeSpec(buckets, distance, old(Contents()));
        (r.Ok? <==> spec.Ok?) && (r.Ok? ==> Contents() == spec.value) && (r.Err? ==> r.error == spec.error)
    {
      r := CheckDuplicateBuilding();
      if r.Err? {
        return;
      }
      r := MergeAddresses(distance);
    }
  }
}

=== FILE: merge_index.dfy ===
/**
 * The grid index of the merge passes: the row-major numbering of cells in
 * the single bucket array, the buckets a collection is divided into by the
 * cell of each entity's centre, and the cells searched around a position.
 */
module MergeIndex {
  import opened Wrappers
  import opened OSMType
  import opened Datasets
  import opened BucketIndex

  /** The exceptions the merge passes let escape. */
  datatype MergeError =
    | IndexOutOfRange(index: int)     // an entity's cell number falls outside the bucket array
    | ActionAlreadyPresent(id: int)   // `MarkEdited` on a building that already has "action"
    | RemovedWayListed(relationId: int)  // a new relation lists a new way the duplicate check removed

  /** `ArrIndex(x, y)`: the row-major number of cell (x, y). */
  function ArrIndex(nh: int, x: int, y: int): int
  {
    y * nh + x
  }

  lemma MulBelow(y: int, nh: int, nv: int)
    requires 0 < nh && y <= nv - 1
    ensures y * nh <= nv * nh - nh
  {
    assert (nv - 1 - y) * nh >= 0;
    assert (nv - 1 - y) * nh == nv * nh - nh - y * nh;
  }

  lemma GridNonEmpty(nh: int, nv: int)
    requires 1 <= nh && 1 <= nv
    ensures nh * nv >= 1
  {
    assert (nh - 1) * nv >= 0;
    assert nh * nv == (nh - 1) * nv + nv;
  }

  /** A cell inside the grid has a number inside the bucket array. */
  lemma ArrIndexInRange(nh: int, nv: int, x: int, y: int)
    requires 0 <= x < nh && 0 <= y < nv
    ensures 0 <= ArrIndex(nh, x, y) < nh * nv
  {
    MulBelow(y, nh, nv);
    assert y * nh >= 0;
  }

  /** Distinct cells of a grid `nh` wide have distinct numbers. */
  lemma ArrIndexInjective(nh: int, x1: int, y1: int, x2: int, y2: int)
    requires 0 <= x1 < nh && 0 <= x2 < nh
    ensures ArrIndex(nh, x1, y1) == ArrIndex(nh, x2, y2) <==> x1 == x2 && y1 == y2
  {
    if y1 < y2 {
      assert y1 * nh + nh <= y2 * nh by { MulBelow(y1, nh, y2); }
    } else if y2 < y1 {
      assert y2 * nh + nh <= y1 * nh by { MulBelow(y2, nh, y1); }
    }
  }

  /** The position of a way or relation as the passes use it: its centre. */
  function WayCentre(w: Way): Coord { Coord(w.lat, w.lon) }
  function NodePosition(n: Node): Coord { n.Position() }

  /**
   * The bucket number of a position: `ArrIndex` of its `ReturnBucket` cell.
   * Since `ReturnBucket` clamps only from above, the number is always below
   * the array size, but it is negative south of the grid, and a position
   * west of the grid wraps into the far end of the row below its own.
   */
  function CellOf(b: Buckets, p: Coord): (k: int)
    requires b.Valid()
    ensures k < b.NHorizontal * b.NVertical
    ensures var c := b.ReturnBucket(p.lat, p.lon);
      (c.0 >= 0 && c.1 >= 0 ==> k >= 0) && (c.1 < 0 ==> k < 0) &&
      (-b.NHorizontal <= c.0 < 0 && c.1 > 0 ==> k == ArrIndex(b.NHorizontal, c.0 + b.NHorizontal, c.1 - 1))
  {
    var c := b.ReturnBucket(p.lat, p.lon);
    NumberBounds(b.NHorizontal, b.NVertical, c.0, c.1);
    ArrIndex(b.NHorizontal, c.0, c.1)
  }

  lemma NumberBounds(nh: int, nv: int, x: int, y: int)
    requires 0 < nh && x <= nh - 1 && y <= nv - 1
    ensures ArrIndex(nh, x, y) < nh * nv
    ensures (x >= 0 && y >= 0 ==> ArrIndex(nh, x, y) >= 0) && (y < 0 ==> ArrIndex(nh, x, y) < 0)
    ensures -nh <= x < 0 && y > 0 ==> ArrIndex(nh, x, y) == ArrIndex(nh, x + nh, y - 1)
  {
    MulBelow(y, nh, nv);
    if y < 0 { MulBelow(y, nh, 0); }
    if y >= 0 { assert y * nh >= 0; }
    assert (y - 1) * nh == y * nh - nh;
  }

  /** The entities of `vals` whose centre has bucket number `k`, in their order. */
  function Bucket<T>(b: Buckets, vals: seq<T>, pos: T -> Coord, k: int): (r: seq<T>)
    requires b.Valid()
    ensures |r| <= |vals|
  {
    if vals == [] then []
    else
      var last := vals[|vals| - 1];
      Bucket(b, vals[..|vals| - 1], pos, k) + (if CellOf(b, pos(last)) == k then [last] else [])
  }

  /** No entity of `vals` has a negative bucket number. */
  predicate CellsFit<T>(b: Buckets, vals: seq<T>, pos: T -> Coord)
    requires b.Valid()
  {
    forall i | 0 <= i < |vals| :: CellOf(b, pos(vals[i])) >= 0
  }

  /** The bucket number the index exception reports: that of the first entity that does not fit. */
  function FirstMisfit<T>(b: Buckets, vals: seq<T>, pos: T -> Coord): int
    requires b.Valid()
  {
    if vals == [] then 0
    else if CellOf(b, pos(vals[0])) < 0 then CellOf(b, pos(vals[0]))
    else FirstMisfit(b, vals[1..], pos)
  }

  /** When the entities before `i` fit and entity `i` does not, its number is the one reported. */
  lemma {:induction false} FirstMisfitAt<T>(b: Buckets, vals: seq<T>, pos: T -> Coord, i: nat)
    requires b.Valid() && i < |vals| && CellsFit(b, vals[..i], pos) && CellOf(b, pos(vals[i])) < 0
    ensures FirstMisfit(b, vals, pos) == CellOf(b, pos(vals[i])) < 0
  {
    if i > 0 {
      assert vals[..i][0] == vals[0];
      var rest := vals[1..];
      var pre := rest[..i - 1];
      assert CellsFit(b, pre, pos) by {
        forall j | 0 <= j < |pre| ensures CellOf(b, pos(pre[j])) >= 0 {
          assert pre[j] == vals[..i][j + 1];
        }
      }
      assert rest[i - 1] == vals[i];
      FirstMisfitAt(b, rest, pos, i - 1);
    }
  }

  /** The bucket array over `vals`: one bucket per cell of the grid. */
  function Index<T>(b: Buckets, vals: seq<T>, pos: T -> Coord): (idx: seq<seq<T>>)
    requires b.Valid()
    ensures |idx| == b.NHorizontal * b.NVertical
  {
    GridNonEmpty(b.NHorizontal, b.NVertical);
    seq(b.NHorizontal * b.NVertical, k => Bucket(b, vals, pos, k))
  }

  /**
   * `DivideNewBuildingsIntoBuckets` / `DivideNewAddressesIntoBuckets` with
   * `AddToBucket`: a fresh array of NHorizontal * NVertical empty buckets,
   * then each entity, in order, appended to the bucket of its centre. A
   * bucket number outside the array is the index exception.
   */
  method DivideIntoBuckets<T>(b: Buckets, vals: seq<T>, pos: T -> Coord) returns (r: Result<array<seq<T>>, MergeError>)
    requires b.Valid()
    ensures r.Ok? <==> CellsFit(b, vals, pos)
    ensures r.Ok? ==> fresh(r.value) && r.value[..] == Index(b, vals, pos)
    ensures r.Err? ==> r.error == IndexOutOfRange(FirstMisfit(b, vals, pos))
  {
    GridNonEmpty(b.NHorizontal, b.NVertical);
    var a := new seq<T>[b.NHorizontal * b.NVertical](_ => []);
    var i := 0;
    while i < |vals|
      invariant 0 <= i <= |vals|
      invariant CellsFit(b, vals[..i], pos)
      invariant forall k | 0 <= k < a.Length :: a[k] == Bucket(b, vals[..i], pos, k)
    {
      var p := pos(vals[i]);
      var c := b.ReturnBucket(p.lat, p.lon);
      var idx := ArrIndex(b.NHorizontal, c.0, c.1);
      assert idx == CellOf(b, p);
      if idx < 0 || idx >= a.Length {
        FirstMisfitAt(b, vals, pos, i);
        return Err(IndexOutOfRange(idx));
      }
      assert vals[..i + 1][..i] == vals[..i];
      a[idx] := a[idx] + [vals[i]];
      i := i + 1;
    }
    assert vals[..i] == vals;
    assert a[..] == Index(b, vals, pos);
    r := Ok(a);
  }

  /** An entity is in bucket `k` exactly when it is one of `vals` and its centre is numbered `k`. */
  lemma {:induction false} BucketMembers<T>(b: Buckets, vals: seq<T>, pos: T -> Coord, k: int, v: T)
    requires b.Valid()
    ensures v in Bucket(b, vals, pos, k) <==> v in vals && CellOf(b, pos(v)) == k
    decreases |vals|
  {
    if vals != [] {
      var init := vals[..|vals| - 1];
      BucketMembers(b, init, pos, k, v);
      assert vals == init + [vals[|vals| - 1]];
    }
  }

  /** When every number fits, each entity sits in exactly one bucket: the one of its own centre. */
  lemma EachEntityInOneBucket<T>(b: Buckets, vals: seq<T>, pos: T -> Coord, v: T)
    requires b.Valid() && CellsFit(b, vals, pos) && v in vals
    ensures 0 <= CellOf(b, pos(v)) < |Index(b, vals, pos)|
    ensures forall k | 0 <= k < |Index(b, vals, pos)| :: v in Index(b, vals, pos)[k] <==> k == CellOf(b, pos(v))
  {
    forall k | 0 <= k < |Index(b, vals, pos)|
      ensures v in Index(b, vals, pos)[k] <==> k == CellOf(b, pos(v))
    {
      BucketMembers(b, vals, pos, k, v);
    }
  }

  /** Every bucket number of the cells `pairs` lies inside the bucket array. */
  lemma AllInRange(nh: int, nv: int, pairs: seq<(int, int)>)
    requires forall p | p in pairs :: 0 < p.0 < nh && 0 < p.1 < nv
    ensures forall i | 0 <= i < |pairs| :: 0 <= ArrIndex(nh, pairs[i].0, pairs[i].1) < nh * nv
  {
    forall i | 0 <= i < |pairs| ensures 0 <= ArrIndex(nh, pairs[i].0, pairs[i].1) < nh * nv {
      assert pairs[i] in pairs;
      ArrIndexInRange(nh, nv, pairs[i].0, pairs[i].1);
    }
  }

  /**
   * The bucket numbers `ReturnBucketList` yields around a position, in its
   * order. They all lie inside the array, so the search loops never index
   * outside it.
   */
  function SearchCells(b: Buckets, p: Coord): (cells: seq<int>)
    requires b.Valid()
    ensures |cells| <= 9
    ensures forall i | 0 <= i < |cells| :: 0 <= cells[i] < b.NHorizontal * b.NVertical
  {
    var c := b.ReturnBucket(p.lat, p.lon);
    var nb := Neighbourhood(c.0, c.1, b.NHorizontal, b.NVertical);
    NeighbourhoodIsSearched(c.0, c.1, b.NHorizontal, b.NVertical);
    AllInRange(b.NHorizontal, b.NVertical, nb);
    seq(|nb|, i requires 0 <= i < |nb| => ArrIndex(b.NHorizontal, nb[i].0, nb[i].1))
  }

  /** The searched numbers are those of the searched cells around the centre cell. */
  lemma SearchCellsAreNeighbours(b: Buckets, p: Coord, k: int)
    requires b.Valid()
    ensures var c := b.ReturnBucket(p.lat, p.lon);
      k in SearchCells(b, p) <==>
      exists x, y | Searched(x, y, c.0, c.1, b.NHorizontal, b.NVertical) :: k == ArrIndex(b.NHorizontal, x, y)
  {
    var c := b.ReturnBucket(p.lat, p.lon);
    var nb := Neighbourhood(c.0, c.1, b.NHorizontal, b.NVertical);
    NeighbourhoodIsSearched(c.0, c.1, b.NHorizontal, b.NVertical);
    var cells := SearchCells(b, p);
    if k in cells {
      var i :| 0 <= i < |cells| && cells[i] == k;
      assert nb[i] in nb;
    }
    if exists x, y | Searched(x, y, c.0, c.1, b.NHorizontal, b.NVertical) :: k == ArrIndex(b.NHorizontal, x, y) {
      var x, y :| Searched(x, y, c.0, c.1, b.NHorizontal, b.NVertical) && k == ArrIndex(b.NHorizontal, x, y);
      assert (x, y) in nb;
      var i :| 0 <= i < |nb| && nb[i] == (x, y);
      assert cells[i] == k;
    }
  }

  /** The lists `ReturnBucketList` yields number, in order, exactly the searched cells. */
  lemma SearchCellsOfLists(b: Buckets, p: Coord, xList: seq<int>, yList: seq<int>)
    requires b.Valid() && |xList| == |yList|
    requires Zip(xList, yList) == Neighbourhood(b.ReturnBucket(p.lat, p.lon).0, b.ReturnBucket(p.lat, p.lon).1,
                                                b.NHorizontal, b.NVertical)
    ensures |SearchCells(b, p)| == |xList|
    ensures forall i | 0 <= i < |xList| :: SearchCells(b, p)[i] == ArrIndex(b.NHorizontal, xList[i], yList[i])
  {
    var nb := Zip(xList, yList);
    forall i | 0 <= i < |xList| ensures SearchCells(b, p)[i] == ArrIndex(b.NHorizontal, xList[i], yList[i]) {
      assert nb[i] == (xList[i], yList[i]);
    }
  }
}

=== FILE: merge_passes.dfy ===
/**
 * The merge passes as functions on values: what one step of each pass does
 * to the building dataset it works on, to the new addresses and to their
 * bucket array, and the properties of those steps.
 *
 * A bucket holds the entities themselves (the program's lists hold the
 * objects, and nothing changes an indexed entity while it is indexed), and
 * `List.Remove(node)` is the removal of the first entry with the node's id.
 */
module MergePasses {
  import opened Wrappers
  import opened OSMType
  import opened SpatialUtilities
  import opened Datasets
  import opened BucketIndex
  import opened ClipBoundaries
  import opened MergeIndex


  // ------------------------------------------------------ duplicate buildings

  /** Where an existing building sits, and the box it covers. */
  datatype Footprint = Footprint(centre: Coord, bbox: BBox)

  /** The existing buildings `CheckDuplicateBuilding` visits: every way, then every relation. */
  function Footprints(t: Tables): (fs: seq<Footprint>)
    requires t.Valid()
    ensures |fs| == |t.wayOrder| + |t.relationOrder|
  {
    seq(|t.wayOrder|, i requires 0 <= i < |t.wayOrder| =>
          var w := t.ways[t.wayOrder[i]]; Footprint(WayCentre(w), w.bbox)) +
    seq(|t.relationOrder|, i requires 0 <= i < |t.relationOrder| =>
          var r := t.relations[t.relationOrder[i]]; Footprint(Coord(r.lat, r.lon), r.bbox))
  }

  /** The ids of the indexed buildings in `bucket` whose box meets `box`. */
  function OverlapIn(bucket: seq<Way>, box: BBox): set<int>
  {
    set w | w in bucket && BBoxIntersects(w.bbox, box) :: w.id
  }

  /** The overlaps of a bucket grow one entry at a time. */
  lemma OverlapInSnoc(bucket: seq<Way>, j: nat, box: BBox)
    requires j < |bucket|
    ensures OverlapIn(bucket[..j + 1], box) ==
            OverlapIn(bucket[..j], box) + (if BBoxIntersects(bucket[j].bbox, box) then {bucket[j].id} else {})
  {
    assert bucket[..j + 1] == bucket[..j] + [bucket[j]];
  }

  /** The removals of `RemoveOverlapsIn` carried over one bucket entry. */
  lemma OverlapStep(t0: Tables, bucket: seq<Way>, j: nat, box: BBox, before: Tables, after: Tables)
    requires j < |bucket|
    requires before == WithoutWays(t0, OverlapIn(bucket[..j], box))
    requires after == if BBoxIntersects(bucket[j].bbox, box) then WithoutWays(before, {bucket[j].id}) else before
    ensures after == WithoutWays(t0, OverlapIn(bucket[..j + 1], box))
  {
    OverlapInSnoc(bucket, j, box);
    if BBoxIntersects(bucket[j].bbox, box) {
      WithoutWaysTwice(t0, OverlapIn(bucket[..j], box), {bucket[j].id});
    } else {
      assert OverlapIn(bucket[..j + 1], box) == OverlapIn(bucket[..j], box);
    }
  }

  /** What `CheckOverlappedBuilding` removes: the overlaps in each searched bucket. */
  function OverlapInCells(index: seq<seq<Way>>, cells: seq<int>, box: BBox): set<int>
    requires forall i | 0 <= i < |cells| :: 0 <= cells[i] < |index|
  {
    if cells == [] then {} else OverlapIn(index[cells[0]], box) + OverlapInCells(index, cells[1..], box)
  }

  /** What `CheckDuplicateBuilding` removes: the overlaps around each existing building. */
  function Overlapped(b: Buckets, index: seq<seq<Way>>, fs: seq<Footprint>): set<int>
    requires b.Valid() && |index| == b.NHorizontal * b.NVertical
  {
    if fs == [] then {}
    else OverlapInCells(index, SearchCells(b, fs[0].centre), fs[0].bbox) + Overlapped(b, index, fs[1..])
  }

  /** New building `w` is a duplicate of existing building `f`: it is searched around `f` and the boxes meet. */
  predicate Duplicates(b: Buckets, w: Way, f: Footprint)
    requires b.Valid()
  {
    CellOf(b, WayCentre(w)) in SearchCells(b, f.centre) && BBoxIntersects(w.bbox, f.bbox)
  }

  lemma {:induction false} OverlapInCellsIff(b: Buckets, vals: seq<Way>, cells: seq<int>, box: BBox, id: int)
    requires b.Valid()
    requires forall i | 0 <= i < |cells| :: 0 <= cells[i] < b.NHorizontal * b.NVertical
    ensures id in OverlapInCells(Index(b, vals, WayCentre), cells, box) <==>
            exists w | w in vals :: w.id == id && CellOf(b, WayCentre(w)) in cells && BBoxIntersects(w.bbox, box)
  {
    var index := Index(b, vals, WayCentre);
    if cells != [] {
      OverlapInCellsIff(b, vals, cells[1..], box, id);
      if id in OverlapIn(index[cells[0]], box) {
        var w: Way :| w in index[cells[0]] && BBoxIntersects(w.bbox, box) && w.id == id;
        BucketMembers(b, vals, WayCentre, cells[0], w);
      }
      if exists w | w in vals :: w.id == id && CellOf(b, WayCentre(w)) in cells && BBoxIntersects(w.bbox, box) {
        var w :| w in vals && w.id == id && CellOf(b, WayCentre(w)) in cells && BBoxIntersects(w.bbox, box);
        if CellOf(b, WayCentre(w)) == cells[0] {
          BucketMembers(b, vals, WayCentre, cells[0], w);
        } else {
          assert CellOf(b, WayCentre(w)) in cells[1..];
        }
      }
    }
  }

  /**
   * Over the bucket array of the new buildings, a new building's id is
   * removed exactly when some existing building has it as a duplicate.
   */
  lemma {:induction false} DuplicateBuildingRemovedIff(b: Buckets, vals: seq<Way>, fs: seq<Footprint>, id: int)
    requires b.Valid()
    ensures id in Overlapped(b, Index(b, vals, WayCentre), fs) <==>
            exists i, w | 0 <= i < |fs| && w in vals :: w.id == id && Duplicates(b, w, fs[i])
  {
    if fs != [] {
      DuplicateBuildingRemovedIff(b, vals, fs[1..], id);
      OverlapInCellsIff(b, vals, SearchCells(b, fs[0].centre), fs[0].bbox, id);
      if exists i, w | 0 <= i < |fs| && w in vals :: w.id == id && Duplicates(b, w, fs[i]) {
        var i, w :| 0 <= i < |fs| && w in vals && w.id == id && Duplicates(b, w, fs[i]);
        if i > 0 { assert fs[1..][i - 1] == fs[i]; }
      }
      if exists i, w | 0 <= i < |fs[1..]| && w in vals :: w.id == id && Duplicates(b, w, fs[1..][i]) {
        var i, w :| 0 <= i < |fs[1..]| && w in vals && w.id == id && Duplicates(b, w, fs[1..][i]);
        assert fs[1..][i] == fs[i + 1];
      }
    }
  }

  // ------------------------------------------------------ duplicate addresses

  /** The new addresses and their bucket array. */
  datatype Pool = Pool(addresses: Tables, index: seq<seq<Node>>)

  /** An existing object as `CheckForDuplicateAddress` sees it. */
  datatype Tagged = Tagged(position: Coord, tags: map<string, string>)

  /** The objects `RemoveNewDuplicateAddresses` visits: every node, then every way, then every relation. */
  function TaggedObjects(t: Tables): (os: seq<Tagged>)
    requires t.Valid()
    ensures |os| == |t.nodeOrder| + |t.wayOrder| + |t.relationOrder|
  {
    seq(|t.nodeOrder|, i requires 0 <= i < |t.nodeOrder| =>
          var n := t.nodes[t.nodeOrder[i]]; Tagged(n.Position(), n.tags)) +
    seq(|t.wayOrder|, i requires 0 <= i < |t.wayOrder| =>
          var w := t.ways[t.wayOrder[i]]; Tagged(WayCentre(w), w.tags)) +
    seq(|t.relationOrder|, i requires 0 <= i < |t.relationOrder| =>
          var r := t.relations[t.relationOrder[i]]; Tagged(Coord(r.lat, r.lon), r.tags))
  }

  /** Both a house number and a street. */
  predicate HasStreetAddress(tags: map<string, string>)
  {
    HouseNumber in tags && Street in tags
  }

  /** The node has a house number and a street, both exactly those of `tags`; the unit is not compared. */
  predicate SameAddress(n: Node, tags: map<string, string>)
    requires HasStreetAddress(tags)
  {
    HasStreetAddress(n.tags) && n.tags[HouseNumber] == tags[HouseNumber] && n.tags[Street] == tags[Street]
  }

  /** The nodes of `bucket` with the same address as `tags`, in bucket order. */
  function Matching(bucket: seq<Node>, tags: map<string, string>): (r: seq<Node>)
    requires HasStreetAddress(tags)
  {
    if bucket == [] then []
    else
      var last := bucket[|bucket| - 1];
      Matching(bucket[..|bucket| - 1], tags) + (if SameAddress(last, tags) then [last] else [])
  }

  /** No two entries of the bucket are the same node. */
  predicate UniqueIds(bucket: seq<Node>)
  {
    forall i, j | 0 <= i < j < |bucket| :: bucket[i].id != bucket[j].id
  }

  /** `List.Remove(node)`: drops the first entry that is the node, if any. */
  function RemoveFirst(bucket: seq<Node>, id: int): (r: seq<Node>)
    ensures |r| <= |bucket|
  {
    if bucket == [] then []
    else if bucket[0].id == id then bucket[1..]
    else [bucket[0]] + RemoveFirst(bucket[1..], id)
  }

  /** `List.Remove` of each node of `rs`, in order. */
  function RemoveEach(bucket: seq<Node>, rs: seq<Node>): seq<Node>
  {
    if rs == [] then bucket else RemoveFirst(RemoveEach(bucket, rs[..|rs| - 1]), rs[|rs| - 1].id)
  }

  /** One searched bucket of `CheckForDuplicateAddress`: matching nodes leave the addresses, then the bucket. */
  function DropCell(p: Pool, k: int, tags: map<string, string>): Pool
    requires 0 <= k < |p.index| && HasStreetAddress(tags)
  {
    var ms := Matching(p.index[k], tags);
    Pool(WithoutNodes(p.addresses, IdsOf(ms)), p.index[k := RemoveEach(p.index[k], ms)])
  }

  function DropCells(p: Pool, cells: seq<int>, tags: map<string, string>): (r: Pool)
    requires forall i | 0 <= i < |cells| :: 0 <= cells[i] < |p.index|
    requires HasStreetAddress(tags)
    ensures |r.index| == |p.index|
    decreases |cells|
  {
    if cells == [] then p else DropCells(DropCell(p, cells[0], tags), cells[1..], tags)
  }

  /** `CheckForDuplicateAddress`: an object without house number or street changes nothing. */
  function DropDuplicatesOf(b: Buckets, p: Pool, o: Tagged): (r: Pool)
    requires b.Valid() && |p.index| == b.NHorizontal * b.NVertical
    ensures |r.index| == |p.index|
  {
    if !HasStreetAddress(o.tags) then p else DropCells(p, SearchCells(b, o.position), o.tags)
  }

  /** `RemoveNewDuplicateAddresses` over the objects in order. */
  function DropAllDuplicates(b: Buckets, p: Pool, os: seq<Tagged>): (r: Pool)
    requires b.Valid() && |p.index| == b.NHorizontal * b.NVertical
    ensures |r.index| == |p.index|
    decreases |os|
  {
    if os == [] then p else DropAllDuplicates(b, DropDuplicatesOf(b, p, os[0]), os[1..])
  }

  lemma {:induction false} MatchingMembers(bucket: seq<Node>, tags: map<string, string>, n: Node)
    requires HasStreetAddress(tags)
    ensures n in Matching(bucket, tags) <==> n in bucket && SameAddress(n, tags)
    decreases |bucket|
  {
    if bucket != [] {
      var init := bucket[..|bucket| - 1];
      MatchingMembers(init, tags, n);
      assert bucket == init + [bucket[|bucket| - 1]];
    }
  }

  /** On a bucket of distinct nodes, `List.Remove` drops exactly the entry with that id. */
  lemma {:induction false} RemoveFirstUnique(bucket: seq<Node>, id: int)
    requires UniqueIds(bucket)
    ensures forall n :: n in RemoveFirst(bucket, id) <==> n in bucket && n.id != id
    ensures UniqueIds(RemoveFirst(bucket, id))
    decreases |bucket|
  {
    if bucket != [] {
      var rest := bucket[1..];
      assert UniqueIds(rest) by {
        forall i, j | 0 <= i < j < |rest| ensures rest[i].id != rest[j].id {
          assert rest[i] == bucket[i + 1] && rest[j] == bucket[j + 1];
        }
      }
      assert forall n | n in rest :: n.id != bucket[0].id by {
        forall n | n in rest ensures n.id != bucket[0].id {
          var i :| 0 <= i < |rest| && rest[i] == n;
          assert n == bucket[i + 1];
        }
      }
      RemoveFirstUnique(rest, id);
      if bucket[0].id != id {
        var t := RemoveFirst(rest, id);
        var r := [bucket[0]] + t;
        forall i, j | 0 <= i < j < |r| ensures r[i].id != r[j].id {
          assert r[j] == t[j - 1] && r[j] in t;
          if i > 0 { assert r[i] == t[i - 1]; }
        }
      }
    }
  }

  /** On a bucket of distinct nodes, removing each of `rs` drops exactly the entries with their ids. */
  lemma {:induction false} RemoveEachUnique(bucket: seq<Node>, rs: seq<Node>)
    requires UniqueIds(bucket)
    ensures forall n :: n in RemoveEach(bucket, rs) <==> n in bucket && n.id !in IdsOf(rs)
    ensures UniqueIds(RemoveEach(bucket, rs))
    decreases |rs|
  {
    if rs != [] {
      var init := rs[..|rs| - 1];
      RemoveEachUnique(bucket, init);
      RemoveFirstUnique(RemoveEach(bucket, init), rs[|rs| - 1].id);
      assert rs == init + [rs[|rs| - 1]];
      assert IdsOf(rs) == IdsOf(init) + {rs[|rs| - 1].id};
    }
  }

  /**
   * One searched bucket: a node leaves the bucket exactly when it has the
   * object's house number and street, those nodes and no others leave the
   * new addresses, and the other buckets are untouched.
   */
  lemma DropCellEffect(p: Pool, k: int, tags: map<string, string>)
    requires 0 <= k < |p.index| && HasStreetAddress(tags) && UniqueIds(p.index[k])
    ensures forall n :: n in DropCell(p, k, tags).index[k] <==> n in p.index[k] && !SameAddress(n, tags)
    ensures UniqueIds(DropCell(p, k, tags).index[k])
    ensures DropCell(p, k, tags).addresses.nodes ==
            p.addresses.nodes - (set n | n in p.index[k] && SameAddress(n, tags) :: n.id)
    ensures forall j | 0 <= j < |p.index| && j != k :: DropCell(p, k, tags).index[j] == p.index[j]
  {
    var ms := Matching(p.index[k], tags);
    forall n ensures n in ms <==> n in p.index[k] && SameAddress(n, tags) {
      MatchingMembers(p.index[k], tags, n);
    }
    RemoveEachUnique(p.index[k], ms);
    forall n | n in p.index[k] ensures n.id in IdsOf(ms) <==> SameAddress(n, tags) {
      if n.id in IdsOf(ms) {
        var m :| m in ms && m.id == n.id;
        var i :| 0 <= i < |p.index[k]| && p.index[k][i] == n;
        var j :| 0 <= j < |p.index[k]| && p.index[k][j] == m;
        assert i == j;
      }
    }
    assert IdsOf(ms) == set n | n in p.index[k] && SameAddress(n, tags) :: n.id;
  }

  /** An existing object lacking a house number or a street removes nothing. */
  lemma IncompleteAddressIgnored(b: Buckets, p: Pool, o: Tagged)
    requires b.Valid() && |p.index| == b.NHorizontal * b.NVertical && !HasStreetAddress(o.tags)
    ensures DropDuplicatesOf(b, p, o) == p
  {
  }

  /** No bucket of the array holds the same node twice. */
  predicate DistinctBuckets(index: seq<seq<Node>>)
  {
    forall k | 0 <= k < |index| :: UniqueIds(index[k])
  }

  /**
   * `CheckForDuplicateAddress(o)` removes the node `n` of bucket `k`: the
   * object has a house number and a street, the bucket is one searched
   * around it, and the node has the same two tags.
   */
  ghost predicate DuplicateOf(b: Buckets, o: Tagged, k: int, n: Node)
    requires b.Valid()
  {
    HasStreetAddress(o.tags) && k in SearchCells(b, o.position) && SameAddress(n, o.tags)
  }

  /** The ids of the nodes of buckets `cells` with the house number and street of `tags`. */
  ghost function CellMatches(index: seq<seq<Node>>, cells: seq<int>, tags: map<string, string>): set<int>
    requires HasStreetAddress(tags)
  {
    set k, n | 0 <= k < |index| && k in cells && n in index[k] && SameAddress(n, tags) :: n.id
  }

  /** The ids of the indexed nodes that some object of `os` duplicates. */
  ghost function DuplicatedIds(b: Buckets, index: seq<seq<Node>>, os: seq<Tagged>): set<int>
    requires b.Valid()
  {
    set i, k, n | 0 <= i < |os| && 0 <= k < |index| && n in index[k] && DuplicateOf(b, os[i], k, n) :: n.id
  }

  /** A bucket of nodes with distinct ids holds each node once. */
  lemma {:induction false} BucketUnique(b: Buckets, vals: seq<Node>, k: int)
    requires b.Valid() && UniqueIds(vals)
    ensures UniqueIds(Bucket(b, vals, NodePosition, k))
    decreases |vals|
  {
    if vals != [] {
      var init := vals[..|vals| - 1];
      var last := vals[|vals| - 1];
      assert UniqueIds(init) by {
        forall i, j | 0 <= i < j < |init| ensures init[i].id != init[j].id {
          assert init[i] == vals[i] && init[j] == vals[j];
        }
      }
      BucketUnique(b, init, k);
      var bk := Bucket(b, init, NodePosition, k);
      forall m | m in bk ensures m.id != last.id {
        BucketMembers(b, init, NodePosition, k, m);
        var i :| 0 <= i < |init| && init[i] == m;
        assert vals[i] == m;
      }
      var r := bk + (if CellOf(b, NodePosition(last)) == k then [last] else []);
      forall i, j | 0 <= i < j < |r| ensures r[i].id != r[j].id {
        if j == |bk| {
          assert r[i] == bk[i] && r[j] == last;
        } else {
          assert r[i] == bk[i] && r[j] == bk[j];
        }
      }
    }
  }

  /** `DivideNewAddressesIntoBuckets` over a well-formed dataset puts no node twice in a bucket. */
  lemma IndexDistinct(b: Buckets, t: Tables)
    requires b.Valid() && t.Valid()
    ensures DistinctBuckets(Index(b, InOrder(t.nodeOrder, t.nodes), NodePosition))
  {
    var vals := InOrder(t.nodeOrder, t.nodes);
    forall i, j | 0 <= i < j < |vals| ensures vals[i].id != vals[j].id {
      assert t.nodeOrder[i] != t.nodeOrder[j];
      assert NodeId(t.nodes[t.nodeOrder[i]]) == t.nodeOrder[i];
      assert NodeId(t.nodes[t.nodeOrder[j]]) == t.nodeOrder[j];
    }
    forall k | 0 <= k < |Index(b, vals, NodePosition)| ensures UniqueIds(Index(b, vals, NodePosition)[k]) {
      BucketUnique(b, vals, k);
    }
  }

  /** Dropping the matches of one bucket keeps every bucket free of repeated nodes. */
  lemma DropCellDistinct(p: Pool, k: int, tags: map<string, string>)
    requires 0 <= k < |p.index| && HasStreetAddress(tags) && DistinctBuckets(p.index)
    ensures DistinctBuckets(DropCell(p, k, tags).index)
  {
    DropCellEffect(p, k, tags);
    forall j | 0 <= j < |p.index| ensures UniqueIds(DropCell(p, k, tags).index[j]) {
      if j != k {
        assert DropCell(p, k, tags).index[j] == p.index[j];
      }
    }
  }

  lemma {:induction false} DropCellsDistinct(p: Pool, cells: seq<int>, tags: map<string, string>)
    requires forall i | 0 <= i < |cells| :: 0 <= cells[i] < |p.index|
    requires HasStreetAddress(tags) && DistinctBuckets(p.index)
    ensures DistinctBuckets(DropCells(p, cells, tags).index)
    decreases |cells|
  {
    if cells != [] {
      DropCellDistinct(p, cells[0], tags);
      DropCellsDistinct(DropCell(p, cells[0], tags), cells[1..], tags);
    }
  }

  /** A node leaves bucket `k` over the searched buckets exactly when `k` is searched and the node matches. */
  lemma {:induction false} DropCellsKeeps(p: Pool, cells: seq<int>, tags: map<string, string>, k: int, n: Node)
    requires forall i | 0 <= i < |cells| :: 0 <= cells[i] < |p.index|
    requires HasStreetAddress(tags) && DistinctBuckets(p.index) && 0 <= k < |p.index|
    ensures n in DropCells(p, cells, tags).index[k] <==> n in p.index[k] && !(k in cells && SameAddress(n, tags))
    decreases |cells|
  {
    if cells != [] {
      var c, rest := cells[0], cells[1..];
      assert cells == [c] + rest;
      var p1 := DropCell(p, c, tags);
      DropCellEffect(p, c, tags);
      DropCellDistinct(p, c, tags);
      DropCellsKeeps(p1, rest, tags, k, n);
      if k != c {
        assert p1.index[k] == p.index[k];
      }
    }
  }

  /** Exactly the matching nodes of the searched buckets leave the new addresses. */
  lemma {:induction false} DropCellsAddresses(p: Pool, cells: seq<int>, tags: map<string, string>)
    requires forall i | 0 <= i < |cells| :: 0 <= cells[i] < |p.index|
    requires HasStreetAddress(tags) && DistinctBuckets(p.index)
    ensures DropCells(p, cells, tags).addresses.nodes == p.addresses.nodes - CellMatches(p.index, cells, tags)
    decreases |cells|
  {
    if cells == [] {
      assert CellMatches(p.index, cells, tags) == {};
    } else {
      var c, rest := cells[0], cells[1..];
      var p1 := DropCell(p, c, tags);
      DropCellEffect(p, c, tags);
      DropCellDistinct(p, c, tags);
      DropCellsAddresses(p1, rest, tags);
      CellMatchesStep(p, cells, tags);
      MinusUnion(p.addresses.nodes, set n | n in p.index[c] && SameAddress(n, tags) :: n.id, CellMatches(p1.index, rest, tags));
    }
  }

  /** The matches of the first searched bucket and those the later buckets still hold are all the matches. */
  lemma CellMatchesStep(p: Pool, cells: seq<int>, tags: map<string, string>)
    requires cells != [] && 0 <= cells[0] < |p.index| && HasStreetAddress(tags) && UniqueIds(p.index[cells[0]])
    ensures (set n | n in p.index[cells[0]] && SameAddress(n, tags) :: n.id) +
            CellMatches(DropCell(p, cells[0], tags).index, cells[1..], tags) == CellMatches(p.index, cells, tags)
  {
    var c, rest := cells[0], cells[1..];
    var p1 := DropCell(p, c, tags);
    DropCellEffect(p, c, tags);
    var m0 := set n | n in p.index[c] && SameAddress(n, tags) :: n.id;
    var m1 := CellMatches(p1.index, rest, tags);
    var m := CellMatches(p.index, cells, tags);
    assert cells == [c] + rest;
    forall id | id in m ensures id in m0 + m1 {
      var k, n :| 0 <= k < |p.index| && k in cells && n in p.index[k] && SameAddress(n, tags) && n.id == id;
      if k != c {
        assert n in p1.index[k] && k in rest;
      }
    }
    forall id | id in m1 ensures id in m {
      var k, n :| 0 <= k < |p1.index| && k in rest && n in p1.index[k] && SameAddress(n, tags) && n.id == id;
      assert n in p.index[k] && k in cells;
    }
  }

  lemma MinusUnion<T>(a: map<int, T>, x: set<int>, y: set<int>)
    ensures a - x - y == a - (x + y)
  {
  }

  /**
   * `CheckForDuplicateAddress(o)`: the node `n` leaves bucket `k` exactly
   * when `o` duplicates it there.
   */
  lemma DropDuplicatesOfKeeps(b: Buckets, p: Pool, o: Tagged, k: int, n: Node)
    requires b.Valid() && |p.index| == b.NHorizontal * b.NVertical && DistinctBuckets(p.index) && 0 <= k < |p.index|
    ensures n in DropDuplicatesOf(b, p, o).index[k] <==> n in p.index[k] && !DuplicateOf(b, o, k, n)
  {
    if HasStreetAddress(o.tags) {
      DropCellsKeeps(p, SearchCells(b, o.position), o.tags, k, n);
    }
  }

  /**
   * `CheckForDuplicateAddress(o)`: exactly the nodes `o` duplicates in their
   * buckets leave the new addresses, and no bucket comes to hold a node twice.
   */
  lemma DropDuplicatesOfAddresses(b: Buckets, p: Pool, o: Tagged)
    requires b.Valid() && |p.index| == b.NHorizontal * b.NVertical && DistinctBuckets(p.index)
    ensures DistinctBuckets(DropDuplicatesOf(b, p, o).index)
    ensures DropDuplicatesOf(b, p, o).addresses.nodes == p.addresses.nodes - DuplicatedIds(b, p.index, [o])
  {
    if HasStreetAddress(o.tags) {
      var cells := SearchCells(b, o.position);
      DropCellsDistinct(p, cells, o.tags);
      DropCellsAddresses(p, cells, o.tags);
      forall id | id in DuplicatedIds(b, p.index, [o]) ensures id in CellMatches(p.index, cells, o.tags) {
        var i, k, n :| 0 <= i < 1 && 0 <= k < |p.index| && n in p.index[k] && DuplicateOf(b, [o][i], k, n) && n.id == id;
      }
      forall id | id in CellMatches(p.index, cells, o.tags) ensures id in DuplicatedIds(b, p.index, [o]) {
        var k, n :| 0 <= k < |p.index| && k in cells && n in p.index[k] && SameAddress(n, o.tags) && n.id == id;
        assert DuplicateOf(b, [o][0], k, n);
      }
      assert DuplicatedIds(b, p.index, [o]) == CellMatches(p.index, cells, o.tags);
    } else {
      assert DuplicatedIds(b, p.index, [o]) == {};
    }
  }

  /**
   * `RemoveNewDuplicateAddresses` over the objects `os`: the node `n` leaves
   * bucket `k` exactly when some object of `os` duplicates it there.
   */
  lemma {:induction false} DropAllDuplicatesKeeps(b: Buckets, p: Pool, os: seq<Tagged>, k: int, n: Node)
    requires b.Valid() && |p.index| == b.NHorizontal * b.NVertical && DistinctBuckets(p.index) && 0 <= k < |p.index|
    ensures n in DropAllDuplicates(b, p, os).index[k] <==>
            n in p.index[k] && !exists i | 0 <= i < |os| :: DuplicateOf(b, os[i], k, n)
    decreases |os|
  {
    if os != [] {
      var p1 := DropDuplicatesOf(b, p, os[0]);
      var rest := os[1..];
      DropDuplicatesOfKeeps(b, p, os[0], k, n);
      DropDuplicatesOfAddresses(b, p, os[0]);
      DropAllDuplicatesKeeps(b, p1, rest, k, n);
      if exists i | 0 <= i < |os| :: DuplicateOf(b, os[i], k, n) {
        var i :| 0 <= i < |os| && DuplicateOf(b, os[i], k, n);
        if i > 0 {
          assert rest[i - 1] == os[i];
        }
      }
      if exists i | 0 <= i < |rest| :: DuplicateOf(b, rest[i], k, n) {
        var i :| 0 <= i < |rest| && DuplicateOf(b, rest[i], k, n);
        assert os[i + 1] == rest[i];
      }
    }
  }

  /**
   * `RemoveNewDuplicateAddresses` over the objects `os`: exactly the nodes
   * some object duplicates in their buckets leave the new addresses, and no
   * bucket comes to hold a node twice.
   */
  lemma {:induction false} DropAllDuplicatesAddresses(b: Buckets, p: Pool, os: seq<Tagged>)
    requires b.Valid() && |p.index| == b.NHorizontal * b.NVertical && DistinctBuckets(p.index)
    ensures DistinctBuckets(DropAllDuplicates(b, p, os).index)
    ensures DropAllDuplicates(b, p, os).addresses.nodes == p.addresses.nodes - DuplicatedIds(b, p.index, os)
    decreases |os|
  {
    if os == [] {
      assert DuplicatedIds(b, p.index, os) == {};
    } else {
      var p1 := DropDuplicatesOf(b, p, os[0]);
      var rest := os[1..];
      DropDuplicatesOfAddresses(b, p, os[0]);
      DropAllDuplicatesAddresses(b, p1, rest);
      DuplicatedIdsStep(b, p, os);
      MinusUnion(p.addresses.nodes, DuplicatedIds(b, p.index, [os[0]]), DuplicatedIds(b, p1.index, rest));
    }
  }

  /** The first object's duplicates and those the later objects find in what is left are all the duplicates. */
  lemma DuplicatedIdsStep(b: Buckets, p: Pool, os: seq<Tagged>)
    requires b.Valid() && |p.index| == b.NHorizontal * b.NVertical && DistinctBuckets(p.index) && os != []
    ensures DuplicatedIds(b, p.index, [os[0]]) + DuplicatedIds(b, DropDuplicatesOf(b, p, os[0]).index, os[1..]) ==
            DuplicatedIds(b, p.index, os)
  {
    var p1 := DropDuplicatesOf(b, p, os[0]);
    var rest := os[1..];
    var m0 := DuplicatedIds(b, p.index, [os[0]]);
    var m1 := DuplicatedIds(b, p1.index, rest);
    var m := DuplicatedIds(b, p.index, os);
    forall id | id in m ensures id in m0 + m1 {
      var i, k, n :| 0 <= i < |os| && 0 <= k < |p.index| && n in p.index[k] && DuplicateOf(b, os[i], k, n) && n.id == id;
      DropDuplicatesOfKeeps(b, p, os[0], k, n);
      if DuplicateOf(b, os[0], k, n) {
        assert DuplicateOf(b, [os[0]][0], k, n);
      } else {
        assert i > 0 && rest[i - 1] == os[i];
        assert n in p1.index[k];
      }
    }
    forall id | id in m0 ensures id in m {
      var i, k, n :| 0 <= i < 1 && 0 <= k < |p.index| && n in p.index[k] && DuplicateOf(b, [os[0]][i], k, n) && n.id == id;
      assert DuplicateOf(b, os[0], k, n);
    }
    forall id | id in m1 ensures id in m {
      var i, k, n :| 0 <= i < |rest| && 0 <= k < |p1.index| && n in p1.index[k] && DuplicateOf(b, rest[i], k, n) && n.id == id;
      DropDuplicatesOfKeeps(b, p, os[0], k, n);
      assert os[i + 1] == rest[i];
    }
  }

  /** A node in a bucket of a well-formed dataset's index is the dataset's node under its id, in its own bucket. */
  lemma IndexedNodeIsOwn(b: Buckets, t: Tables, k: int, m: Node)
    requires b.Valid() && t.Valid()
    requires 0 <= k < b.NHorizontal * b.NVertical && m in Index(b, InOrder(t.nodeOrder, t.nodes), NodePosition)[k]
    ensures m.id in t.nodes && m == t.nodes[m.id] && k == CellOf(b, NodePosition(m))
  {
    var vals := InOrder(t.nodeOrder, t.nodes);
    BucketMembers(b, vals, NodePosition, k, m);
    var j :| 0 <= j < |vals| && vals[j] == m;
    assert NodeId(t.nodes[t.nodeOrder[j]]) == t.nodeOrder[j];
  }

  /** Over the buckets of a well-formed dataset, an id is duplicated exactly when its node is, in its own bucket. */
  lemma IndexedDuplicate(b: Buckets, t: Tables, os: seq<Tagged>, id: int)
    requires b.Valid() && t.Valid() && id in t.nodes
    requires CellsFit(b, InOrder(t.nodeOrder, t.nodes), NodePosition)
    ensures var n := t.nodes[id];
      0 <= CellOf(b, NodePosition(n)) < b.NHorizontal * b.NVertical &&
      (id in DuplicatedIds(b, Index(b, InOrder(t.nodeOrder, t.nodes), NodePosition), os) <==>
       exists i | 0 <= i < |os| :: DuplicateOf(b, os[i], CellOf(b, NodePosition(n)), n))
  {
    var vals := InOrder(t.nodeOrder, t.nodes);
    var index := Index(b, vals, NodePosition);
    var n := t.nodes[id];
    var k := CellOf(b, NodePosition(n));
    var j :| 0 <= j < |t.nodeOrder| && t.nodeOrder[j] == id;
    assert vals[j] == n;
    EachEntityInOneBucket(b, vals, NodePosition, n);
    if id in DuplicatedIds(b, index, os) {
      var i, k', m :| 0 <= i < |os| && 0 <= k' < |index| && m in index[k'] && DuplicateOf(b, os[i], k', m) && m.id == id;
      IndexedNodeIsOwn(b, t, k', m);
    }
    if exists i | 0 <= i < |os| :: DuplicateOf(b, os[i], k, n) {
      var i :| 0 <= i < |os| && DuplicateOf(b, os[i], k, n);
      assert n in index[k];
      assert id in DuplicatedIds(b, index, os);
    }
  }

  /**
   * Over the buckets `DivideNewAddressesIntoBuckets` builds, a new address
   * survives `RemoveNewDuplicateAddresses` exactly when no existing node, way
   * or relation with a house number and a street has the same two tags and
   * searches the address's own bucket; it stays in that bucket exactly when
   * it survives.
   */
  lemma NewAddressSurvivesIff(b: Buckets, addresses: Tables, osmData: Tables, id: int)
    requires b.Valid() && addresses.Valid() && osmData.Valid() && id in addresses.nodes
    requires CellsFit(b, InOrder(addresses.nodeOrder, addresses.nodes), NodePosition)
    ensures var n := addresses.nodes[id];
      var os := TaggedObjects(osmData);
      var r := DropAllDuplicates(b, Pool(addresses, Index(b, InOrder(addresses.nodeOrder, addresses.nodes), NodePosition)), os);
      0 <= CellOf(b, NodePosition(n)) < |r.index| &&
      (id in r.addresses.nodes <==> !exists i | 0 <= i < |os| :: DuplicateOf(b, os[i], CellOf(b, NodePosition(n)), n)) &&
      (n in r.index[CellOf(b, NodePosition(n))] <==> id in r.addresses.nodes)
  {
    var vals := InOrder(addresses.nodeOrder, addresses.nodes);
    var os := TaggedObjects(osmData);
    var p0 := Pool(addresses, Index(b, vals, NodePosition));
    var n := addresses.nodes[id];
    IndexedDuplicate(b, addresses, os, id);
    var k := CellOf(b, NodePosition(n));
    var j :| 0 <= j < |addresses.nodeOrder| && addresses.nodeOrder[j] == id;
    assert vals[j] == n;
    EachEntityInOneBucket(b, vals, NodePosition, n);
    IndexDistinct(b, addresses);
    DropAllDuplicatesAddresses(b, p0, os);
    DropAllDuplicatesKeeps(b, p0, os, k, n);
  }

  // ------------------------------------------------------------- attaching

  /** A building of the dataset being worked on: a way or a relation, by id. */
  datatype Target = OnWay(id: int) | OnRelation(id: int)

  predicate Holds(t: Tables, g: Target)
  {
    match g
    case OnWay(id) => id in t.ways
    case OnRelation(id) => id in t.relations
  }

  /** The fields of a way or relation the attach passes read. */
  datatype Building = Building(id: int, centre: Coord, tags: map<string, string>,
                               attrs: map<string, string>, bbox: BBox)

  function View(t: Tables, g: Target): Building
    requires Holds(t, g)
  {
    match g
    case OnWay(id) =>
      var w := t.ways[id]; Building(w.id, WayCentre(w), w.tags, w.attrs, w.bbox)
    case OnRelation(id) =>
      var r := t.relations[id]; Building(r.id, Coord(r.lat, r.lon), r.tags, r.attrs, r.bbox)
  }

  /** The building with new tags and attributes, everything else as it was. */
  function Rewrite(t: Tables, g: Target, tags: map<string, string>, attrs: map<string, string>): Tables
    requires Holds(t, g)
  {
    match g
    case OnWay(id) => t.(ways := t.ways[id := t.ways[id].(tags := tags, attrs := attrs)])
    case OnRelation(id) => t.(relations := t.relations[id := t.relations[id].(tags := tags, attrs := attrs)])
  }

  /** The building dataset being worked on, with the new addresses and their buckets. */
  datatype Attach = Attach(buildings: Tables, pool: Pool)

  /** The datasets are well formed and linked, and there is a bucket per cell holding no node twice. */
  ghost predicate Sound(b: Buckets, s: Attach)
  {
    b.Valid() && s.buildings.Valid() && s.buildings.Linked() && s.pool.addresses.Valid() &&
    |s.pool.index| == b.NHorizontal * b.NVertical && DistinctBuckets(s.pool.index)
  }

  /** The same ids and enumeration orders, and the same nodes. */
  predicate SameShape(a: Tables, c: Tables)
  {
    a.ways.Keys == c.ways.Keys && a.relations.Keys == c.relations.Keys && a.nodes == c.nodes &&
    a.nodeOrder == c.nodeOrder && a.wayOrder == c.wayOrder && a.relationOrder == c.relationOrder
  }

  /**
   * The tag loop of `AttachNode`: every address tag whose key the building
   * lacks is added; no existing value is overwritten.
   */
  function MergeTags(building: map<string, string>, addr: map<string, string>): (r: map<string, string>)
    ensures r.Keys == building.Keys + addr.Keys
    ensures forall k | k in building :: r[k] == building[k]
    ensures forall k | k in addr && k !in building :: r[k] == addr[k]
  {
    map k | k in building.Keys + addr.Keys :: if k in building then building[k] else addr[k]
  }

  /** Some address tag key is missing from the building. */
  predicate TagAdded(building: map<string, string>, addr: map<string, string>)
  {
    exists k | k in addr :: k !in building
  }

  /**
   * `MarkEdited`: `InnerAttributes.Add("action", "modify")`, which throws
   * when the building already has an "action" attribute.
   */
  function MarkEdited(id: int, attrs: map<string, string>): (r: Result<map<string, string>, MergeError>)
    ensures r.Err? <==> Action in attrs
    ensures r.Err? ==> r.error == ActionAlreadyPresent(id)
    ensures r.Ok? ==> r.value.Keys == attrs.Keys + {Action} && r.value[Action] == "modify" &&
                      forall k | k in attrs :: r.value[k] == attrs[k]
  {
    if Action in attrs then Err(ActionAlreadyPresent(id)) else Ok(attrs[Action := "modify"])
  }

  /**
   * `AttachNode`: the address tags move to the building, the address node
   * leaves the new addresses and its bucket, and a building that gained a
   * tag and has a positive (existing) id is marked edited.
   */
  function AttachNode(s: Attach, g: Target, n: Node, k: int): Result<Attach, MergeError>
    requires Holds(s.buildings, g) && 0 <= k < |s.pool.index|
  {
    var bld := View(s.buildings, g);
    var tags := MergeTags(bld.tags, n.tags);
    var pool := Pool(WithoutNodes(s.pool.addresses, {n.id}), s.pool.index[k := RemoveFirst(s.pool.index[k], n.id)]);
    if TagAdded(bld.tags, n.tags) && bld.id > 0 then
      match MarkEdited(bld.id, bld.attrs)
      case Err(e) => Err(e)
      case Ok(attrs) => Ok(Attach(Rewrite(s.buildings, g, tags, attrs), pool))
    else
      Ok(Attach(Rewrite(s.buildings, g, tags, bld.attrs), pool))
  }

  /**
   * Attaching fails exactly when the building gained a tag, has a positive
   * id and already has "action". Otherwise the building carries the merged
   * tags, is marked "modify" exactly when it gained a tag and has a positive
   * id (when it had no "action" before), the node is gone from the new
   * addresses and, on a bucket of distinct nodes, from its bucket, and
   * nothing else changes.
   */
  lemma AttachNodeEffect(s: Attach, g: Target, n: Node, k: int)
    requires Holds(s.buildings, g) && 0 <= k < |s.pool.index| && UniqueIds(s.pool.index[k])
    ensures var bld := View(s.buildings, g);
      AttachNode(s, g, n, k).Err? <==> TagAdded(bld.tags, n.tags) && bld.id > 0 && Action in bld.attrs
    ensures var bld := View(s.buildings, g);
      AttachNode(s, g, n, k).Ok? ==>
        var a := AttachNode(s, g, n, k).value;
        Holds(a.buildings, g) && SameShape(s.buildings, a.buildings) &&
        View(a.buildings, g).tags == MergeTags(bld.tags, n.tags) &&
        (Action !in bld.attrs ==>
           (Action in View(a.buildings, g).attrs <==> TagAdded(bld.tags, n.tags) && bld.id > 0)) &&
        a.pool.addresses.nodes == s.pool.addresses.nodes - {n.id} &&
        (forall m :: m in a.pool.index[k] <==> m in s.pool.index[k] && m.id != n.id) &&
        (forall j | 0 <= j < |s.pool.index| && j != k :: a.pool.index[j] == s.pool.index[j])
  {
    RemoveFirstUnique(s.pool.index[k], n.id);
  }

  /** Attaching to a building that has no "action" yet always succeeds. */
  lemma AttachWithoutActionSucceeds(s: Attach, g: Target, n: Node, k: int)
    requires Holds(s.buildings, g) && 0 <= k < |s.pool.index| && Action !in View(s.buildings, g).attrs
    ensures AttachNode(s, g, n, k).Ok?
  {
  }

  // ------------------------------------------------------------- searching

  /** The test a search applies to each address in the searched buckets. */
  datatype Probe =
    | Near(distance: DistanceFn, centre: Coord, radius: real)   // the nearby pass
    | Inside(bbox: BBox, ring: seq<Coord>)                      // the interior pass on a way

  predicate Accepts(p: Probe, n: Node)
  {
    match p
    case Near(distance, c, radius) => distance(c.lat, n.lat, c.lon, n.lon) < radius
    case Inside(box, ring) => BBoxContains(box, n.Position()) && InRing(ring, n.Position())
  }

  /** Every address of the searched buckets, with its bucket number, in search order. */
  function Candidates(index: seq<seq<Node>>, cells: seq<int>): seq<(Node, int)>
    requires forall i | 0 <= i < |cells| :: 0 <= cells[i] < |index|
  {
    if cells == [] then []
    else Entries(index[cells[0]], cells[0]) + Candidates(index, cells[1..])
  }

  function Entries(bucket: seq<Node>, k: int): (es: seq<(Node, int)>)
    ensures |es| == |bucket| && forall i | 0 <= i < |bucket| :: es[i] == (bucket[i], k)
  {
    seq(|bucket|, i requires 0 <= i < |bucket| => (bucket[i], k))
  }

  /** The candidates the probe accepts, in order. */
  function Accepted(p: Probe, cs: seq<(Node, int)>): (r: seq<(Node, int)>)
    ensures forall e | e in r :: e in cs && Accepts(p, e.0)
  {
    if cs == [] then [] else (if Accepts(p, cs[0].0) then [cs[0]] else []) + Accepted(p, cs[1..])
  }

  /** The running count and last match of a search loop. */
  datatype Tally = Tally(count: nat, last: Option<(Node, int)>)

  /** The loop over one bucket, from entry `j` on. */
  function ScanBucket(p: Probe, index: seq<seq<Node>>, k: int, j: nat, acc: Tally): Tally
    requires 0 <= k < |index| && j <= |index[k]|
    decreases |index[k]| - j
  {
    if j == |index[k]| then acc
    else
      var n := index[k][j];
      ScanBucket(p, index, k, j + 1, if Accepts(p, n) then Tally(acc.count + 1, Some((n, k))) else acc)
  }

  /** The loop over the searched buckets. */
  function ScanCells(p: Probe, index: seq<seq<Node>>, cells: seq<int>, acc: Tally): Tally
    requires forall i | 0 <= i < |cells| :: 0 <= cells[i] < |index|
  {
    if cells == [] then acc else ScanCells(p, index, cells[1..], ScanBucket(p, index, cells[0], 0, acc))
  }

  /** A tally after the further matches `q`. */
  function Record(acc: Tally, q: seq<(Node, int)>): Tally
  {
    Tally(acc.count + |q|, if q == [] then acc.last else Some(q[|q| - 1]))
  }

  lemma {:induction false} AcceptedAppend(p: Probe, a: seq<(Node, int)>, c: seq<(Node, int)>)
    ensures Accepted(p, a + c) == Accepted(p, a) + Accepted(p, c)
  {
    if a != [] {
      AcceptedAppend(p, a[1..], c);
      var h := if Accepts(p, a[0].0) then [a[0]] else [];
      assert (a + c)[0] == a[0] && (a + c)[1..] == a[1..] + c;
      assert Accepted(p, a + c) == h + Accepted(p, a[1..] + c);
      assert Accepted(p, a) == h + Accepted(p, a[1..]);
    } else {
      assert a + c == c;
    }
  }

  lemma {:induction false} ScanBucketCounts(p: Probe, index: seq<seq<Node>>, k: int, j: nat, acc: Tally)
    requires 0 <= k < |index| && j <= |index[k]|
    ensures ScanBucket(p, index, k, j, acc) == Record(acc, Accepted(p, Entries(index[k][j..], k)))
    decreases |index[k]| - j
  {
    var es := Entries(index[k][j..], k);
    if j < |index[k]| {
      var n := index[k][j];
      var acc1 := if Accepts(p, n) then Tally(acc.count + 1, Some((n, k))) else acc;
      ScanBucketCounts(p, index, k, j + 1, acc1);
      assert es[0] == (n, k);
      assert es[1..] == Entries(index[k][j + 1..], k);
    }
  }

  /**
   * The search loops count the accepted candidates and keep the last of
   * them: a reference definition of what the nested loops compute.
   */
  lemma {:induction false} ScanCellsCounts(p: Probe, index: seq<seq<Node>>, cells: seq<int>, acc: Tally)
    requires forall i | 0 <= i < |cells| :: 0 <= cells[i] < |index|
    ensures ScanCells(p, index, cells, acc) == Record(acc, Accepted(p, Candidates(index, cells)))
  {
    if cells != [] {
      ScanBucketCounts(p, index, cells[0], 0, acc);
      assert index[cells[0]][0..] == index[cells[0]];
      var q0 := Accepted(p, Entries(index[cells[0]], cells[0]));
      ScanCellsCounts(p, index, cells[1..], Record(acc, q0));
      AcceptedAppend(p, Entries(index[cells[0]], cells[0]), Candidates(index, cells[1..]));
    }
  }

  lemma {:induction false} CandidatesMembers(index: seq<seq<Node>>, cells: seq<int>, e: (Node, int))
    requires forall i | 0 <= i < |cells| :: 0 <= cells[i] < |index|
    requires e in Candidates(index, cells)
    ensures e.1 in cells && 0 <= e.1 < |index| && e.0 in index[e.1]
  {
    if cells != [] {
      if e in Entries(index[cells[0]], cells[0]) {
        var i :| 0 <= i < |index[cells[0]]| && Entries(index[cells[0]], cells[0])[i] == e;
      } else {
        CandidatesMembers(index, cells[1..], e);
      }
    }
  }

  /** The accepted candidates around the building: a single one is attached. */
  function Matches(b: Buckets, p: Probe, index: seq<seq<Node>>, centre: Coord): (q: seq<(Node, int)>)
    requires b.Valid() && |index| == b.NHorizontal * b.NVertical
    ensures forall e | e in q :: Accepts(p, e.0) && 0 <= e.1 < |index| && e.0 in index[e.1]
  {
    var cells := SearchCells(b, centre);
    var q := Accepted(p, Candidates(index, cells));
    assert forall e | e in q :: e in Candidates(index, cells) && Accepts(p, e.0);
    forall e | e in q ensures 0 <= e.1 < |index| && e.0 in index[e.1] {
      CandidatesMembers(index, cells, e);
    }
    q
  }

  /** The search radius of the nearby pass: centre to the box's minimum corner, plus 5 metres. */
  function SearchRadius(distance: DistanceFn, bld: Building): real
  {
    distance(bld.centre.lat, bld.bbox.minLat, bld.centre.lon, bld.bbox.minLon) + 5.0
  }

  /**
   * `AttachNearbyhAddressTo`: a building without a house number and without
   * "action" gets the one address that is closer than the search radius,
   * when there is exactly one. Attaching cannot fail here, because a building
   * that already has "action" is skipped.
   */
  function NearbyStep(b: Buckets, distance: DistanceFn, s: Attach, g: Target): Attach
    requires Sound(b, s) && Holds(s.buildings, g)
  {
    var bld := View(s.buildings, g);
    if HouseNumber in bld.tags || Action in bld.attrs then s
    else
      var q := Matches(b, Near(distance, bld.centre, SearchRadius(distance, bld)), s.pool.index, bld.centre);
      if |q| == 1 then
        assert q[0] in q;
        AttachWithoutActionSucceeds(s, g, q[0].0, q[0].1);
        AttachNode(s, g, q[0].0, q[0].1).value
      else s
  }

  // ------------------------------------------------------ interior containment

  /** The building can be asked for its outline. */
  ghost predicate Fits(t: Tables, g: Target)
  {
    t.Valid() && t.Linked() && Holds(t, g)
  }

  lemma ReversedKeepsFit(t: Tables, g: Target, ways: map<int, Way>)
    requires Fits(t, g) && OnlyReversed(t.ways, ways, t.nodes)
    ensures Fits(t.(ways := ways), g)
  {
    var t' := t.(ways := ways);
    assert KeyedById(ways, WayId) by {
      forall id | id in ways ensures ways[id].id == id { assert ways[id].id == t.ways[id].id; }
    }
    forall id | id in t'.relations ensures AllIn(t'.relations[id].ways, ways) {
      assert AllIn(t.relations[id].ways, t.ways);
    }
  }

  /**
   * `BuildingContainsNode` and the way store it leaves: a way's ring is its
   * node positions; a relation's is built by the relation constructor over
   * a dictionary holding only that relation, which may reverse ways in
   * place, and a constructor that throws means "not contained".
   */
  function Contains(t: Tables, g: Target, p: Coord): (r: (bool, map<int, Way>))
    requires Fits(t, g)
    ensures OnlyReversed(t.ways, r.1, t.nodes)
    ensures g.OnWay? ==> r.1 == t.ways
    ensures g.OnRelation? && RelationBoundary([g.id], map[g.id := t.relations[g.id]], t.ways, t.nodes).result.Err?
            ==> !r.0
  {
    match g
    case OnWay(id) =>
      assert AllIn(t.ways[id].nodeList, t.nodes);
      (InRing(Positions(t.ways[id].nodeList, t.nodes), p), t.ways)
    case OnRelation(id) =>
      var rels := map[id := t.relations[id]];
      assert AllIn(t.relations[id].ways, t.ways);
      RelationBoundaryOnlyReverses([id], rels, t.ways, t.nodes);
      var o := RelationBoundary([id], rels, t.ways, t.nodes);
      (o.result.Ok? && InRing(o.result.value.0, p), o.ways)
  }

  /** The loop over one bucket of the interior pass, from entry `j` on; it may reverse ways. */
  function ScanBucketInside(t: Tables, g: Target, box: BBox, index: seq<seq<Node>>, k: int, j: nat, acc: Tally)
    : (r: (Tally, Tables))
    requires Fits(t, g) && 0 <= k < |index| && j <= |index[k]|
    ensures r.1 == t.(ways := r.1.ways) && OnlyReversed(t.ways, r.1.ways, t.nodes)
    decreases |index[k]| - j
  {
    if j == |index[k]| then (acc, t)
    else
      var n := index[k][j];
      if !BBoxContains(box, n.Position()) then ScanBucketInside(t, g, box, index, k, j + 1, acc)
      else
        var c := Contains(t, g, n.Position());
        ReversedKeepsFit(t, g, c.1);
        var t1 := t.(ways := c.1);
        var r := ScanBucketInside(t1, g, box, index, k, j + 1,
                                  if c.0 then Tally(acc.count + 1, Some((n, k))) else acc);
        OnlyReversedTrans(t.ways, c.1, r.1.ways, t.nodes);
        r
  }

  /** The loop over the searched buckets of the interior pass. */
  function ScanCellsInside(t: Tables, g: Target, box: BBox, index: seq<seq<Node>>, cells: seq<int>, acc: Tally)
    : (r: (Tally, Tables))
    requires Fits(t, g) && forall i | 0 <= i < |cells| :: 0 <= cells[i] < |index|
    ensures r.1 == t.(ways := r.1.ways) && OnlyReversed(t.ways, r.1.ways, t.nodes)
    decreases |cells|
  {
    if cells == [] then (acc, t)
    else
      var r0 := ScanBucketInside(t, g, box, index, cells[0], 0, acc);
      ReversedKeepsFit(t, g, r0.1.ways);
      var r := ScanCellsInside(r0.1, g, box, index, cells[1..], r0.0);
      OnlyReversedTrans(t.ways, r0.1.ways, r.1.ways, t.nodes);
      r
  }

  /** A tally whose last match, if any, is an entry of the bucket array. */
  predicate Sane(acc: Tally, index: seq<seq<Node>>)
  {
    (acc.count > 0 ==> acc.last.Some?) &&
    (acc.last.Some? ==> 0 <= acc.last.value.1 < |index| && acc.last.value.0 in index[acc.last.value.1])
  }

  /** One entry of the interior bucket loop that lies in the box, unfolded. */
  lemma ScanBucketInsideStep(t: Tables, g: Target, box: BBox, index: seq<seq<Node>>, k: int, j: nat, acc: Tally)
    requires Fits(t, g) && 0 <= k < |index| && j < |index[k]| && BBoxContains(box, index[k][j].Position())
    ensures var c := Contains(t, g, index[k][j].Position());
      Fits(t.(ways := c.1), g) &&
      ScanBucketInside(t, g, box, index, k, j, acc) ==
      ScanBucketInside(t.(ways := c.1), g, box, index, k, j + 1,
                       if c.0 then Tally(acc.count + 1, Some((index[k][j], k))) else acc)
  {
    ReversedKeepsFit(t, g, Contains(t, g, index[k][j].Position()).1);
  }

  lemma {:induction false} ScanBucketInsideSane(t: Tables, g: Target, box: BBox, index: seq<seq<Node>>,
                                                k: int, j: nat, acc: Tally)
    requires Fits(t, g) && 0 <= k < |index| && j <= |index[k]| && Sane(acc, index)
    ensures Sane(ScanBucketInside(t, g, box, index, k, j, acc).0, index)
    decreases |index[k]| - j
  {
    if j < |index[k]| {
      var n := index[k][j];
      if !BBoxContains(box, n.Position()) {
        ScanBucketInsideSane(t, g, box, index, k, j + 1, acc);
      } else {
        var c := Contains(t, g, n.Position());
        ScanBucketInsideStep(t, g, box, index, k, j, acc);
        var acc' := if c.0 then Tally(acc.count + 1, Some((n, k))) else acc;
        assert n in index[k];
        ScanBucketInsideSane(t.(ways := c.1), g, box, index, k, j + 1, acc');
      }
    }
  }

  lemma {:induction false} ScanCellsInsideSane(t: Tables, g: Target, box: BBox, index: seq<seq<Node>>,
                                               cells: seq<int>, acc: Tally)
    requires Fits(t, g) && forall i | 0 <= i < |cells| :: 0 <= cells[i] < |index|
    requires Sane(acc, index)
    ensures Sane(ScanCellsInside(t, g, box, index, cells, acc).0, index)
    decreases |cells|
  {
    if cells != [] {
      ScanBucketInsideSane(t, g, box, index, cells[0], 0, acc);
      var r0 := ScanBucketInside(t, g, box, index, cells[0], 0, acc);
      ReversedKeepsFit(t, g, r0.1.ways);
      ScanCellsInsideSane(r0.1, g, box, index, cells[1..], r0.0);
    }
  }

  /**
   * `AttachInteriorhAddressTo`: a building without a house number gets the
   * one address inside its half-open box and its outline, when there is
   * exactly one; the ways a relation's outline reversed stay reversed.
   */
  function InteriorStep(b: Buckets, s: Attach, g: Target): (r: Result<Attach, MergeError>)
    requires Sound(b, s) && Holds(s.buildings, g)
  {
    var bld := View(s.buildings, g);
    if HouseNumber in bld.tags then Ok(s)
    else
      var r := InteriorSearch(b, s, g);
      var s1 := Attach(r.1, s.pool);
      if r.0.count == 1 then AttachNode(s1, g, r.0.last.value.0, r.0.last.value.1) else Ok(s1)
  }

  /** The search loops of the interior step, with the way store they leave. */
  function InteriorSearch(b: Buckets, s: Attach, g: Target): (r: (Tally, Tables))
    requires Sound(b, s) && Holds(s.buildings, g)
    ensures Sane(r.0, s.pool.index) && Fits(r.1, g)
    ensures r.1 == s.buildings.(ways := r.1.ways) && OnlyReversed(s.buildings.ways, r.1.ways, s.buildings.nodes)
  {
    var bld := View(s.buildings, g);
    var cells := SearchCells(b, bld.centre);
    ScanCellsInsideSane(s.buildings, g, bld.bbox, s.pool.index, cells, Tally(0, None));
    ReversedKeepsFit(s.buildings, g, ScanCellsInside(s.buildings, g, bld.bbox, s.pool.index, cells, Tally(0, None)).1.ways);
    ScanCellsInside(s.buildings, g, bld.bbox, s.pool.index, cells, Tally(0, None))
  }

  /**
   * On a way, the interior step is the reference search: the addresses of
   * the searched buckets inside the way's half-open box and its ring, with
   * the one match attached when there is exactly one.
   */
  lemma InteriorStepOnWay(b: Buckets, s: Attach, id: int)
    requires Sound(b, s) && id in s.buildings.ways
    ensures var bld := View(s.buildings, OnWay(id));
      var ring := Positions(s.buildings.ways[id].nodeList, s.buildings.nodes);
      var q := Matches(b, Inside(bld.bbox, ring), s.pool.index, bld.centre);
      InteriorStep(b, s, OnWay(id)) ==
        if HouseNumber in bld.tags then Ok(s)
        else if |q| == 1 then AttachNode(s, OnWay(id), q[0].0, q[0].1)
        else Ok(s)
  {
    var g := OnWay(id);
    var bld := View(s.buildings, g);
    assert AllIn(s.buildings.ways[id].nodeList, s.buildings.nodes);
    var ring := Positions(s.buildings.ways[id].nodeList, s.buildings.nodes);
    var cells := SearchCells(b, bld.centre);
    ScanCellsInsideOnWay(s.buildings, id, bld.bbox, s.pool.index, cells, Tally(0, None));
    ScanCellsCounts(Inside(bld.bbox, ring), s.pool.index, cells, Tally(0, None));
  }

  lemma {:induction false} ScanBucketInsideOnWay(t: Tables, id: int, box: BBox, index: seq<seq<Node>>,
                                                 k: int, j: nat, acc: Tally)
    requires Fits(t, OnWay(id)) && 0 <= k < |index| && j <= |index[k]|
    ensures AllIn(t.ways[id].nodeList, t.nodes)
    ensures ScanBucketInside(t, OnWay(id), box, index, k, j, acc) ==
            (ScanBucket(Inside(box, Positions(t.ways[id].nodeList, t.nodes)), index, k, j, acc), t)
    decreases |index[k]| - j
  {
    assert AllIn(t.ways[id].nodeList, t.nodes);
    if j < |index[k]| {
      var n := index[k][j];
      var c := Contains(t, OnWay(id), n.Position());
      assert t.(ways := c.1) == t;
      ScanBucketInsideOnWay(t, id, box, index, k, j + 1,
                            if BBoxContains(box, n.Position()) && c.0 then Tally(acc.count + 1, Some((n, k))) else acc);
    }
  }

  lemma {:induction false} ScanCellsInsideOnWay(t: Tables, id: int, box: BBox, index: seq<seq<Node>>,
                                                cells: seq<int>, acc: Tally)
    requires Fits(t, OnWay(id)) && forall i | 0 <= i < |cells| :: 0 <= cells[i] < |index|
    ensures AllIn(t.ways[id].nodeList, t.nodes)
    ensures ScanCellsInside(t, OnWay(id), box, index, cells, acc) ==
            (ScanCells(Inside(box, Positions(t.ways[id].nodeList, t.nodes)), index, cells, acc), t)
    decreases |cells|
  {
    assert AllIn(t.ways[id].nodeList, t.nodes);
    if cells != [] {
      ScanBucketInsideOnWay(t, id, box, index, cells[0], 0, acc);
      var p := Inside(box, Positions(t.ways[id].nodeList, t.nodes));
      ScanCellsInsideOnWay(t, id, box, index, cells[1..], ScanBucket(p, index, cells[0], 0, acc));
    }
  }

  // ------------------------------------------------------------- soundness

  /** Every entry of `a` is an entry of `c`: entries only leave. */
  predicate Submap<T(==)>(a: map<int, T>, c: map<int, T>)
  {
    forall id | id in a :: id in c && a[id] == c[id]
  }

  /** The passes only remove new addresses, and keep the buildings' shape. */
  ghost predicate Progress(s: Attach, s': Attach)
  {
    SameShape(s.buildings, s'.buildings) && Submap(s'.pool.addresses.nodes, s.pool.addresses.nodes) &&
    |s'.pool.index| == |s.pool.index|
  }

  /** New tags and attributes keep a dataset well formed and linked, and change nothing else. */
  lemma RewriteSound(t: Tables, g: Target, tags: map<string, string>, attrs: map<string, string>)
    requires t.Valid() && t.Linked() && Holds(t, g)
    ensures var t' := Rewrite(t, g, tags, attrs);
      t'.Valid() && t'.Linked() && SameShape(t, t') && Holds(t', g) &&
      View(t', g) == View(t, g).(tags := tags, attrs := attrs)
  {
    var t' := Rewrite(t, g, tags, attrs);
    forall id | id in t'.relations ensures AllIn(t'.relations[id].ways, t'.ways) {
      assert AllIn(t.relations[id].ways, t.ways);
    }
    forall id | id in t'.ways ensures AllIn(t'.ways[id].nodeList, t'.nodes) {
      assert AllIn(t.ways[id].nodeList, t.nodes);
    }
  }

  /** A second rewrite of the same building replaces the first. */
  lemma RewriteTwice(t: Tables, g: Target, tags: map<string, string>, a1: map<string, string>, a2: map<string, string>)
    requires Holds(t, g)
    ensures Holds(Rewrite(t, g, tags, a1), g)
    ensures Rewrite(Rewrite(t, g, tags, a1), g, tags, a2) == Rewrite(t, g, tags, a2)
  {
  }

  lemma AttachNodeSound(b: Buckets, s: Attach, g: Target, n: Node, k: int)
    requires Sound(b, s) && Holds(s.buildings, g) && 0 <= k < |s.pool.index|
    ensures AttachNode(s, g, n, k).Ok? ==>
              Sound(b, AttachNode(s, g, n, k).value) && Progress(s, AttachNode(s, g, n, k).value)
  {
    var bld := View(s.buildings, g);
    RewriteSound(s.buildings, g, MergeTags(bld.tags, n.tags), bld.attrs);
    if Action !in bld.attrs {
      RewriteSound(s.buildings, g, MergeTags(bld.tags, n.tags), bld.attrs[Action := "modify"]);
    }
    WithoutNodesValid(s.pool.addresses, {n.id});
    RemoveFirstKeepsDistinct(s.pool.index, k, n.id);
  }

  /** `List.Remove` on one bucket keeps every bucket free of repeated nodes. */
  lemma RemoveFirstKeepsDistinct(index: seq<seq<Node>>, k: int, id: int)
    requires DistinctBuckets(index) && 0 <= k < |index|
    ensures DistinctBuckets(index[k := RemoveFirst(index[k], id)])
  {
    RemoveFirstUnique(index[k], id);
  }

  lemma InteriorStepSound(b: Buckets, s: Attach, g: Target)
    requires Sound(b, s) && Holds(s.buildings, g)
    ensures InteriorStep(b, s, g).Ok? ==>
              Sound(b, InteriorStep(b, s, g).value) && Progress(s, InteriorStep(b, s, g).value)
  {
    var bld := View(s.buildings, g);
    if HouseNumber !in bld.tags {
      var r := InteriorSearch(b, s, g);
      var s1 := Attach(r.1, s.pool);
      if r.0.count == 1 {
        AttachNodeSound(b, s1, g, r.0.last.value.0, r.0.last.value.1);
      }
    }
  }

  lemma NearbyStepSound(b: Buckets, distance: DistanceFn, s: Attach, g: Target)
    requires Sound(b, s) && Holds(s.buildings, g)
    ensures Sound(b, NearbyStep(b, distance, s, g)) && Progress(s, NearbyStep(b, distance, s, g))
  {
    var bld := View(s.buildings, g);
    if HouseNumber !in bld.tags && Action !in bld.attrs {
      var q := Matches(b, Near(distance, bld.centre, SearchRadius(distance, bld)), s.pool.index, bld.centre);
      if |q| == 1 {
        assert q[0] in q;
        AttachNodeSound(b, s, g, q[0].0, q[0].1);
      }
    }
  }

  // ---------------------------------------------------------------- passes

  /** The buildings an attach pass visits: every way, then every relation. */
  function Targets(t: Tables): (gs: seq<Target>)
    requires t.Valid()
    ensures |gs| == |t.wayOrder| + |t.relationOrder|
    ensures forall i | 0 <= i < |gs| :: Holds(t, gs[i])
  {
    var ws := seq(|t.wayOrder|, i requires 0 <= i < |t.wayOrder| => OnWay(t.wayOrder[i]));
    var rs := seq(|t.relationOrder|, i requires 0 <= i < |t.relationOrder| => OnRelation(t.relationOrder[i]));
    assert forall i | 0 <= i < |ws| :: Holds(t, ws[i]);
    assert forall i | 0 <= i < |rs| :: Holds(t, rs[i]);
    ws + rs
  }

  /** Every target is still a building of a dataset of the same shape. */
  lemma HoldsInSameShape(t: Tables, t': Tables, gs: seq<Target>)
    requires SameShape(t, t') && forall i | 0 <= i < |gs| :: Holds(t, gs[i])
    ensures forall i | 0 <= i < |gs| :: Holds(t', gs[i])
  {
  }

  /** `AttachInteriorAddressesTo`: the interior step over each target in order; the first error ends the pass. */
  function InteriorPass(b: Buckets, s: Attach, gs: seq<Target>): (r: Result<Attach, MergeError>)
    requires Sound(b, s) && forall i | 0 <= i < |gs| :: Holds(s.buildings, gs[i])
    ensures r.Ok? ==> Sound(b, r.value) && Progress(s, r.value)
    decreases |gs|
  {
    if gs == [] then Ok(s)
    else
      InteriorStepSound(b, s, gs[0]);
      match InteriorStep(b, s, gs[0])
      case Err(e) => Err(e)
      case Ok(s1) =>
        HoldsInSameShape(s.buildings, s1.buildings, gs[1..]);
        InteriorPass(b, s1, gs[1..])
  }

  /** A pass from target `i` on: a failing step ends it with that step's error. */
  lemma InteriorPassAt(b: Buckets, s: Attach, gs: seq<Target>, i: nat)
    requires Sound(b, s) && i < |gs| && forall j | 0 <= j < |gs| :: Holds(s.buildings, gs[j])
    ensures InteriorStep(b, s, gs[i]).Err? ==> InteriorPass(b, s, gs[i..]) == Err(InteriorStep(b, s, gs[i]).error)
    ensures InteriorStep(b, s, gs[i]).Ok? ==>
              var s1 := InteriorStep(b, s, gs[i]).value;
              Sound(b, s1) && Progress(s, s1) && (forall j | 0 <= j < |gs| :: Holds(s1.buildings, gs[j])) &&
              InteriorPass(b, s, gs[i..]) == InteriorPass(b, s1, gs[i + 1..])
  {
    assert gs[i..][0] == gs[i] && gs[i..][1..] == gs[i + 1..];
    InteriorStepSound(b, s, gs[i]);
  }

  /** The interior pass from target `i` on, from state `s`, gives `want`. */
  ghost predicate InteriorTrack(b: Buckets, s: Attach, gs: seq<Target>, i: int, want: Result<Attach, MergeError>)
  {
    0 <= i <= |gs| && Sound(b, s) && (forall j | 0 <= j < |gs| :: Holds(s.buildings, gs[j])) &&
    InteriorPass(b, s, gs[i..]) == want
  }

  /** A failing step at `i` is the pass's failure; a succeeding one moves the track to `i + 1`. */
  lemma InteriorTrackStep(b: Buckets, s: Attach, gs: seq<Target>, i: int, want: Result<Attach, MergeError>)
    requires InteriorTrack(b, s, gs, i, want) && i < |gs|
    ensures InteriorStep(b, s, gs[i]).Err? ==> want == Err(InteriorStep(b, s, gs[i]).error)
    ensures InteriorStep(b, s, gs[i]).Ok? ==> InteriorTrack(b, InteriorStep(b, s, gs[i]).value, gs, i + 1, want)
  {
    InteriorPassAt(b, s, gs, i);
  }

  /** At the end of the targets the pass has succeeded with the state reached. */
  lemma InteriorTrackDone(b: Buckets, s: Attach, gs: seq<Target>, want: Result<Attach, MergeError>)
    requires InteriorTrack(b, s, gs, |gs|, want)
    ensures want == Ok(s)
  {
    assert gs[|gs|..] == [];
  }

  /** `AttachNearbyAddressesTo`: the nearby step over each target in order. */
  function NearbyPass(b: Buckets, distance: DistanceFn, s: Attach, gs: seq<Target>): Attach
    requires Sound(b, s) && forall i | 0 <= i < |gs| :: Holds(s.buildings, gs[i])
    decreases |gs|
  {
    if gs == [] then s
    else
      var s1 := NearbyStep(b, distance, s, gs[0]);
      NearbyStepSound(b, distance, s, gs[0]);
      HoldsInSameShape(s.buildings, s1.buildings, gs[1..]);
      NearbyPass(b, distance, s1, gs[1..])
  }

  /** The nearby pass keeps the state sound and only consumes addresses. */
  lemma {:induction false} NearbyPassSound(b: Buckets, distance: DistanceFn, s: Attach, gs: seq<Target>)
    requires Sound(b, s) && forall i | 0 <= i < |gs| :: Holds(s.buildings, gs[i])
    ensures Sound(b, NearbyPass(b, distance, s, gs)) && Progress(s, NearbyPass(b, distance, s, gs))
    decreases |gs|
  {
    if gs != [] {
      var s1 := NearbyStep(b, distance, s, gs[0]);
      NearbyStepSound(b, distance, s, gs[0]);
      HoldsInSameShape(s.buildings, s1.buildings, gs[1..]);
      NearbyPassSound(b, distance, s1, gs[1..]);
      SubmapTrans(NearbyPass(b, distance, s1, gs[1..]).pool.addresses.nodes, s1.pool.addresses.nodes, s.pool.addresses.nodes);
    }
  }

  /** A pass from target `i` on is the step at `i` followed by the pass from `i + 1` on. */
  lemma NearbyPassAt(b: Buckets, distance: DistanceFn, s: Attach, gs: seq<Target>, i: nat)
    requires Sound(b, s) && i < |gs| && forall j | 0 <= j < |gs| :: Holds(s.buildings, gs[j])
    ensures var s1 := NearbyStep(b, distance, s, gs[i]);
            Sound(b, s1) && Progress(s, s1) && (forall j | 0 <= j < |gs| :: Holds(s1.buildings, gs[j])) &&
            NearbyPass(b, distance, s, gs[i..]) == NearbyPass(b, distance, s1, gs[i + 1..])
  {
    assert gs[i..][0] == gs[i] && gs[i..][1..] == gs[i + 1..];
    NearbyStepSound(b, distance, s, gs[i]);
    HoldsInSameShape(s.buildings, NearbyStep(b, distance, s, gs[i]).buildings, gs);
  }

  /** The nearby pass from target `i` on, from state `s`, gives `want`. */
  ghost predicate NearbyTrack(b: Buckets, distance: DistanceFn, s: Attach, gs: seq<Target>, i: int, want: Attach)
  {
    0 <= i <= |gs| && Sound(b, s) && (forall j | 0 <= j < |gs| :: Holds(s.buildings, gs[j])) &&
    NearbyPass(b, distance, s, gs[i..]) == want
  }

  /** The step at `i` moves the track to `i + 1`. */
  lemma NearbyTrackStep(b: Buckets, distance: DistanceFn, s: Attach, gs: seq<Target>, i: int, want: Attach)
    requires NearbyTrack(b, distance, s, gs, i, want) && i < |gs|
    ensures NearbyTrack(b, distance, NearbyStep(b, distance, s, gs[i]), gs, i + 1, want)
  {
    NearbyPassAt(b, distance, s, gs, i);
  }

  /** At the end of the targets the pass has reached its result. */
  lemma NearbyTrackDone(b: Buckets, distance: DistanceFn, s: Attach, gs: seq<Target>, want: Attach)
    requires NearbyTrack(b, distance, s, gs, |gs|, want)
    ensures want == s
  {
    assert gs[|gs|..] == [];
  }

  lemma DropCellSound(p: Pool, k: int, tags: map<string, string>)
    requires p.addresses.Valid() && 0 <= k < |p.index| && HasStreetAddress(tags)
    ensures DropCell(p, k, tags).addresses.Valid()
  {
    WithoutNodesValid(p.addresses, IdsOf(Matching(p.index[k], tags)));
  }

  lemma {:induction false} DropAllDuplicatesSound(b: Buckets, p: Pool, os: seq<Tagged>)
    requires b.Valid() && |p.index| == b.NHorizontal * b.NVertical && p.addresses.Valid()
    ensures DropAllDuplicates(b, p, os).addresses.Valid()
    decreases |os|
  {
    if os != [] {
      var p1 := DropDuplicatesOf(b, p, os[0]);
      if HasStreetAddress(os[0].tags) {
        DropCellsSound(p, SearchCells(b, os[0].position), os[0].tags);
      }
      DropAllDuplicatesSound(b, p1, os[1..]);
    }
  }

  lemma {:induction false} DropCellsSound(p: Pool, cells: seq<int>, tags: map<string, string>)
    requires p.addresses.Valid() && forall i | 0 <= i < |cells| :: 0 <= cells[i] < |p.index|
    requires HasStreetAddress(tags)
    ensures DropCells(p, cells, tags).addresses.Valid()
    decreases |cells|
  {
    if cells != [] {
      DropCellSound(p, cells[0], tags);
      DropCellsSound(DropCell(p, cells[0], tags), cells[1..], tags);
    }
  }

  // ---------------------------------------------------------- the whole merge

  /** The three datasets the merge reads and changes. */
  datatype Inputs = Inputs(newAddresses: Tables, newBuildings: Tables, osmData: Tables)

  /**
   * What the merge expects of its datasets: each well formed, and the
   * existing data and the new buildings linked.
   */
  ghost predicate Ready(b: Buckets, d: Inputs)
  {
    b.Valid() && d.newAddresses.Valid() &&
    d.newBuildings.Valid() && d.newBuildings.Linked() &&
    d.osmData.Valid() && d.osmData.Linked()
  }

  /** Removing ways that no relation lists keeps a linked dataset linked. */
  lemma WithoutWaysSound(t: Tables, ids: set<int>)
    requires t.Valid() && t.Linked()
    requires forall id | id in t.relations :: AllIn(t.relations[id].ways, t.ways - ids)
    ensures WithoutWays(t, ids).Valid() && WithoutWays(t, ids).Linked()
  {
    ExceptEnumerates(t.wayOrder, t.ways, ids);
    assert t.ways - ids == map k | k in t.ways && k !in ids :: t.ways[k];
  }

  /** The relation lists one of the ways `ids`. */
  predicate ListsAny(rel: Relation, ids: set<int>)
  {
    exists k | 0 <= k < |rel.ways| :: rel.ways[k] in ids
  }

  /** A relation of a linked dataset keeps all its ways exactly when it lists none of the removed ones. */
  lemma KeptIffListsNone(t: Tables, ids: set<int>, id: int)
    requires t.Linked() && id in t.relations
    ensures AllIn(t.relations[id].ways, t.ways - ids) <==> !ListsAny(t.relations[id], ids)
  {
    var ws := t.relations[id].ways;
    assert AllIn(ws, t.ways);
    if !AllIn(ws, t.ways - ids) {
      var k :| 0 <= k < |ws| && ws[k] !in t.ways - ids;
      assert ws[k] in ids;
    }
  }

  /** The new buildings the buildings of the existing data duplicate. */
  function DuplicateBuildings(b: Buckets, d: Inputs): set<int>
    requires Ready(b, d) && CellsFit(b, InOrder(d.newBuildings.wayOrder, d.newBuildings.ways), WayCentre)
  {
    Overlapped(b, Index(b, InOrder(d.newBuildings.wayOrder, d.newBuildings.ways), WayCentre), Footprints(d.osmData))
  }

  /**
   * `CheckDuplicateBuilding`: the new buildings are bucketed (an entity
   * outside the array is the index exception), then every new building a
   * building of the existing data duplicates is removed. A new relation
   * that lists a removed building is reported: the dictionaries here hold
   * a way only under its id, so the relation would be left pointing at a
   * way that is gone.
   */
  function RemoveDuplicateBuildings(b: Buckets, d: Inputs): (r: Result<Tables, MergeError>)
    requires Ready(b, d)
    ensures r.Ok? ==> r.value.Valid() && r.value.Linked() && r.value.relations == d.newBuildings.relations &&
                      r.value.nodes == d.newBuildings.nodes && Submap(r.value.ways, d.newBuildings.ways)
    ensures r.Err? && r.error.RemovedWayListed? ==>
              CellsFit(b, InOrder(d.newBuildings.wayOrder, d.newBuildings.ways), WayCentre) &&
              r.error.relationId in d.newBuildings.relations &&
              ListsAny(d.newBuildings.relations[r.error.relationId], DuplicateBuildings(b, d))
  {
    var nb := d.newBuildings;
    var vals := InOrder(nb.wayOrder, nb.ways);
    if !CellsFit(b, vals, WayCentre) then Err(IndexOutOfRange(FirstMisfit(b, vals, WayCentre)))
    else
      var dups := DuplicateBuildings(b, d);
      match FirstUnlinked(nb.relationOrder, nb.relations, nb.ways - dups)
      case Some(id) =>
        KeptIffListsNone(nb, dups, id);
        Err(RemovedWayListed(id))
      case None =>
        RelationsLinkedIff(nb, nb.ways - dups);
        WithoutWaysSound(nb, dups);
        Ok(WithoutWays(nb, dups))
  }

  /**
   * The last step of the duplicate check: with the duplicates removed, the
   * first new relation listing a removed way is the error, and with none
   * the dataset reached is the result.
   */
  lemma RemoveDuplicateBuildingsEnd(b: Buckets, d: Inputs, t: Tables)
    requires Ready(b, d) && CellsFit(b, InOrder(d.newBuildings.wayOrder, d.newBuildings.ways), WayCentre)
    requires t == WithoutWays(d.newBuildings, DuplicateBuildings(b, d))
    ensures FirstUnlinked(t.relationOrder, t.relations, t.ways).Some? ==>
              RemoveDuplicateBuildings(b, d) == Err(RemovedWayListed(FirstUnlinked(t.relationOrder, t.relations, t.ways).value))
    ensures FirstUnlinked(t.relationOrder, t.relations, t.ways).None? ==> RemoveDuplicateBuildings(b, d) == Ok(t)
  {
  }

  /**
   * The duplicate check completes exactly when every new building fits the
   * grid and no new relation lists a new building it removes.
   */
  lemma RemoveDuplicateBuildingsOkIff(b: Buckets, d: Inputs)
    requires Ready(b, d)
    ensures RemoveDuplicateBuildings(b, d).Ok? <==>
            CellsFit(b, InOrder(d.newBuildings.wayOrder, d.newBuildings.ways), WayCentre) &&
            forall id | id in d.newBuildings.relations :: !ListsAny(d.newBuildings.relations[id], DuplicateBuildings(b, d))
  {
    var nb := d.newBuildings;
    if CellsFit(b, InOrder(nb.wayOrder, nb.ways), WayCentre) {
      var dups := DuplicateBuildings(b, d);
      RelationsLinkedIff(nb, nb.ways - dups);
      forall id | id in nb.relations
        ensures AllIn(nb.relations[id].ways, nb.ways - dups) <==> !ListsAny(nb.relations[id], dups)
      {
        KeptIffListsNone(nb, dups, id);
      }
    }
  }

  /**
   * A new building survives the duplicate check exactly when no building
   * of the existing data duplicates it.
   */
  lemma NewBuildingSurvivesIff(b: Buckets, d: Inputs, id: int)
    requires Ready(b, d) && RemoveDuplicateBuildings(b, d).Ok? && id in d.newBuildings.ways
    ensures var w := d.newBuildings.ways[id];
      id in RemoveDuplicateBuildings(b, d).value.ways <==>
      forall i | 0 <= i < |Footprints(d.osmData)| :: !Duplicates(b, w, Footprints(d.osmData)[i])
  {
    var nb := d.newBuildings;
    var vals := InOrder(nb.wayOrder, nb.ways);
    var fs := Footprints(d.osmData);
    DuplicateBuildingRemovedIff(b, vals, fs, id);
    var w := nb.ways[id];
    assert id in nb.wayOrder;
    var j :| 0 <= j < |nb.wayOrder| && nb.wayOrder[j] == id;
    assert vals[j] == w;
    forall v | v in vals ensures v.id == id ==> v == w {
      var i :| 0 <= i < |vals| && vals[i] == v;
      assert nb.wayOrder[i] in nb.ways;
    }
  }

  /** The addresses after the duplicate-address and the attach passes, with the buildings they changed. */
  datatype Stage = Stage(osmData: Tables, newBuildings: Tables, pool: Pool)

  ghost predicate StageSound(b: Buckets, st: Stage)
  {
    Sound(b, Attach(st.osmData, st.pool)) && Sound(b, Attach(st.newBuildings, st.pool))
  }

  /** Only addresses left, and the buildings kept their shape. */
  ghost predicate StageProgress(st: Stage, st': Stage)
  {
    SameShape(st.osmData, st'.osmData) && SameShape(st.newBuildings, st'.newBuildings) &&
    Submap(st'.pool.addresses.nodes, st.pool.addresses.nodes)
  }

  /** `AttachInteriorAddresses`: the interior pass over the existing data, then over the new buildings. */
  function InteriorAddresses(b: Buckets, st: Stage): (r: Result<Stage, MergeError>)
    requires StageSound(b, st)
    ensures r.Ok? ==> StageSound(b, r.value) && StageProgress(st, r.value)
  {
    match InteriorPass(b, Attach(st.osmData, st.pool), Targets(st.osmData))
    case Err(e) => Err(e)
    case Ok(s1) =>
      match InteriorPass(b, Attach(st.newBuildings, s1.pool), Targets(st.newBuildings))
      case Err(e) => Err(e)
      case Ok(s2) => Ok(Stage(s1.buildings, s2.buildings, s2.pool))
  }

  /** `AttachNearbyAddresses`: the nearby pass over the existing data, then over the new buildings. */
  function NearbyAddresses(b: Buckets, distance: DistanceFn, st: Stage): (r: Stage)
    requires StageSound(b, st)
    ensures StageSound(b, r) && StageProgress(st, r)
  {
    var s1 := NearbyPass(b, distance, Attach(st.osmData, st.pool), Targets(st.osmData));
    NearbyPassSound(b, distance, Attach(st.osmData, st.pool), Targets(st.osmData));
    var s2 := NearbyPass(b, distance, Attach(st.newBuildings, s1.pool), Targets(st.newBuildings));
    NearbyPassSound(b, distance, Attach(st.newBuildings, s1.pool), Targets(st.newBuildings));
    Stage(s1.buildings, s2.buildings, s2.pool)
  }

  /**
   * `DivideNewAddressesIntoBuckets` and `RemoveNewDuplicateAddresses`: the
   * new addresses are bucketed (an entity outside the array is the index
   * exception), then the duplicates of every existing object are removed.
   */
  function AddressStage(b: Buckets, addresses: Tables, osmData: Tables, nb: Tables): (r: Result<Stage, MergeError>)
    requires b.Valid() && addresses.Valid() && osmData.Valid() && osmData.Linked() && nb.Valid() && nb.Linked()
    ensures r.Ok? ==> StageSound(b, r.value) && r.value.osmData == osmData && r.value.newBuildings == nb &&
                      Submap(r.value.pool.addresses.nodes, addresses.nodes)
  {
    var vals := InOrder(addresses.nodeOrder, addresses.nodes);
    if !CellsFit(b, vals, NodePosition) then Err(IndexOutOfRange(FirstMisfit(b, vals, NodePosition)))
    else
      var p0 := Pool(addresses, Index(b, vals, NodePosition));
      IndexDistinct(b, addresses);
      DropAllDuplicatesAddresses(b, p0, TaggedObjects(osmData));
      DropAllDuplicatesSound(b, p0, TaggedObjects(osmData));
      DropAllDuplicatesShrinks(b, p0, TaggedObjects(osmData));
      Ok(Stage(osmData, nb, DropAllDuplicates(b, p0, TaggedObjects(osmData))))
  }

  /**
   * The address half of `PerformMerge`, from the new buildings the
   * duplicate check left: the address buckets and the duplicate addresses,
   * then the interior and the nearby passes.
   */
  function AddressMerge(b: Buckets, distance: DistanceFn, addresses: Tables, osmData: Tables, nb: Tables)
    : Result<Inputs, MergeError>
    requires b.Valid() && addresses.Valid() && osmData.Valid() && osmData.Linked() && nb.Valid() && nb.Linked()
  {
    match AddressStage(b, addresses, osmData, nb)
    case Err(e) => Err(e)
    case Ok(st0) =>
      match InteriorAddresses(b, st0)
      case Err(e) => Err(e)
      case Ok(st1) =>
        var st2 := NearbyAddresses(b, distance, st1);
        Ok(Inputs(st2.pool.addresses, st2.newBuildings, st2.osmData))
  }

  /** `PerformMerge`: duplicate buildings, then the address half. */
  function MergeSpec(b: Buckets, distance: DistanceFn, d: Inputs): Result<Inputs, MergeError>
    requires Ready(b, d)
  {
    match RemoveDuplicateBuildings(b, d)
    case Err(e) => Err(e)
    case Ok(nb) => AddressMerge(b, distance, d.newAddresses, d.osmData, nb)
  }

  lemma SubmapTrans<T>(a: map<int, T>, c: map<int, T>, e: map<int, T>)
    requires Submap(a, c) && Submap(c, e)
    ensures Submap(a, e)
  {
  }

  /**
   * An address half that completes leaves every dataset well formed and
   * linked, keeps the shape of both building datasets, and only removes
   * new addresses.
   */
  lemma AddressMergeSound(b: Buckets, distance: DistanceFn, addresses: Tables, osmData: Tables, nb: Tables)
    requires b.Valid() && addresses.Valid() && osmData.Valid() && osmData.Linked() && nb.Valid() && nb.Linked()
    ensures var r := AddressMerge(b, distance, addresses, osmData, nb);
      r.Ok? ==>
        r.value.newAddresses.Valid() && r.value.newBuildings.Valid() && r.value.newBuildings.Linked() &&
        r.value.osmData.Valid() && r.value.osmData.Linked() &&
        SameShape(osmData, r.value.osmData) && SameShape(nb, r.value.newBuildings) &&
        Submap(r.value.newAddresses.nodes, addresses.nodes)
  {
    var st0 := AddressStage(b, addresses, osmData, nb);
    if st0.Ok? {
      var st1 := InteriorAddresses(b, st0.value);
      if st1.Ok? {
        var st2 := NearbyAddresses(b, distance, st1.value);
        var a0, a1, a2 := st0.value.pool.addresses.nodes, st1.value.pool.addresses.nodes, st2.pool.addresses.nodes;
        SubmapTrans(a2, a1, a0);
        SubmapTrans(a2, a0, addresses.nodes);
      }
    }
  }

  /**
   * A merge that completes leaves datasets it could run on again, the
   * existing data keeps its ids, its orders and its nodes, and the new
   * relations all stay.
   */
  lemma MergeKeepsShape(b: Buckets, distance: DistanceFn, d: Inputs)
    requires Ready(b, d)
    ensures MergeSpec(b, distance, d).Ok? ==>
              Ready(b, MergeSpec(b, distance, d).value) && SameShape(d.osmData, MergeSpec(b, distance, d).value.osmData) &&
              MergeSpec(b, distance, d).value.newBuildings.relations.Keys == d.newBuildings.relations.Keys
  {
    var nb := RemoveDuplicateBuildings(b, d);
    if nb.Ok? {
      assert MergeSpec(b, distance, d) == AddressMerge(b, distance, d.newAddresses, d.osmData, nb.value);
      AddressMergeSound(b, distance, d.newAddresses, d.osmData, nb.value);
    }
  }

  /** New buildings only leave the merge, and new addresses only leave it, unchanged. */
  lemma MergeOnlyRemoves(b: Buckets, distance: DistanceFn, d: Inputs)
    requires Ready(b, d)
    ensures MergeSpec(b, distance, d).Ok? ==>
              MergeSpec(b, distance, d).value.newBuildings.ways.Keys <= d.newBuildings.ways.Keys &&
              Submap(MergeSpec(b, distance, d).value.newAddresses.nodes, d.newAddresses.nodes)
  {
    var nb := RemoveDuplicateBuildings(b, d);
    if nb.Ok? {
      var m := AddressMerge(b, distance, d.newAddresses, d.osmData, nb.value);
      assert MergeSpec(b, distance, d) == m;
      AddressMergeSound(b, distance, d.newAddresses, d.osmData, nb.value);
      if m.Ok? {
        assert m.value.newBuildings.ways.Keys == nb.value.ways.Keys;
        assert nb.value.ways.Keys <= d.newBuildings.ways.Keys;
      }
    }
  }

  lemma {:induction false} DropAllDuplicatesShrinks(b: Buckets, p: Pool, os: seq<Tagged>)
    requires b.Valid() && |p.index| == b.NHorizontal * b.NVertical
    ensures Submap(DropAllDuplicates(b, p, os).addresses.nodes, p.addresses.nodes)
    decreases |os|
  {
    if os != [] {
      var p1 := DropDuplicatesOf(b, p, os[0]);
      if HasStreetAddress(os[0].tags) {
        DropCellsShrinks(p, SearchCells(b, os[0].position), os[0].tags);
      }
      DropAllDuplicatesShrinks(b, p1, os[1..]);
    }
  }

  lemma {:induction false} DropCellsShrinks(p: Pool, cells: seq<int>, tags: map<string, string>)
    requires forall i | 0 <= i < |cells| :: 0 <= cells[i] < |p.index|
    requires HasStreetAddress(tags)
    ensures Submap(DropCells(p, cells, tags).addresses.nodes, p.addresses.nodes)
    decreases |cells|
  {
    if cells != [] {
      DropCellsShrinks(DropCell(p, cells[0], tags), cells[1..], tags);
    }
  }
}

=== FILE: node_spreader.dfy ===
/**
 * Spreading of address points stacked at one place, so that an editor can
 * pick each of them. The nodes are first put into groups: a node joins the
 * first group whose first member (the one with the smallest key) lies
 * within half the separation distance, otherwise it starts a new group.
 * Each group of two or more is then laid out on a grid of five rows,
 * column after column, in key order.
 *
 * Nodes are shared objects in the program; here they live in the node
 * dictionary of an `OSMDataset` and are named by id, so a moved node is
 * seen by everything that refers to it. `MoveByToward` and the number
 * formatting are parameters.
 */
module NodeSpreading {
  import opened Wrappers
  import opened OSMType
  import opened Datasets
  import DuplicateAddresses

  /** The inner attributes that carry a node's position. */
  const LatAttr := "lat"
  const LonAttr := "lon"

  /** `separateDistance`, in metres. */
  const SeparateDistance: real := 1.0

  /** `maxRows`: the nodes of one grid column. */
  const MaxRows: nat := 5

  /** `SpatialUtilities.MoveByToward(from, metres, bearing in degrees)`. */
  type MoveFn = (Coord, real, real) -> Coord

  /** `double.ToString()`, which writes a coordinate into an attribute. */
  type FormatFn = real -> string

  /** A missing house number (`KeyNotFoundException`), or a key already in the group (`ArgumentException`). */
  datatype SpreadError = MissingHouseNumber(nodeId: int) | DuplicateKey(nodeId: int, key: string)

  // ---------------------------------------------------------------- the key

  /** `AddressKey`: house number and unit, "|" between; the unit is "" when absent. */
  function AddressKey(n: Node): (r: Result<string, SpreadError>)
    ensures r.Ok? <==> HouseNumber in n.tags
    ensures r.Err? ==> r.error == MissingHouseNumber(n.id)
  {
    if HouseNumber in n.tags then Ok(n.tags[HouseNumber] + "|" + DuplicateAddresses.UnitOf(n.tags))
    else Err(MissingHouseNumber(n.id))
  }

  /**
   * When the house numbers contain no "|", two nodes get the same key
   * exactly when they have the same house number and the same unit.
   */
  lemma AddressKeyInjective(n: Node, m: Node)
    requires HouseNumber in n.tags && HouseNumber in m.tags
    requires '|' !in n.tags[HouseNumber] && '|' !in m.tags[HouseNumber]
    ensures AddressKey(n) == AddressKey(m) <==>
            n.tags[HouseNumber] == m.tags[HouseNumber] &&
            DuplicateAddresses.UnitOf(n.tags) == DuplicateAddresses.UnitOf(m.tags)
  {
    if AddressKey(n) == AddressKey(m) {
      DuplicateAddresses.SplitAtBar(n.tags[HouseNumber], DuplicateAddresses.UnitOf(n.tags),
                                    m.tags[HouseNumber], DuplicateAddresses.UnitOf(m.tags));
    }
  }

  // ------------------------------------------------------- the key order

  /** `a` sorts before `b`: character by character, a proper prefix first. */
  predicate Before(a: string, b: string)
  {
    if a == [] then b != []
    else if b == [] then false
    else if a[0] != b[0] then a[0] < b[0]
    else Before(a[1..], b[1..])
  }

  lemma {:induction false} BeforeIrreflexive(a: string)
    ensures !Before(a, a)
  {
    if a != [] { BeforeIrreflexive(a[1..]); }
  }

  /** Of two different keys, one sorts before the other, and not both ways. */
  lemma {:induction false} BeforeTotal(a: string, b: string)
    ensures a != b <==> Before(a, b) || Before(b, a)
    ensures !(Before(a, b) && Before(b, a))
  {
    if a == [] || b == [] {
    } else if a[0] != b[0] {
    } else {
      BeforeTotal(a[1..], b[1..]);
      assert a == [a[0]] + a[1..] && b == [b[0]] + b[1..];
    }
  }

  lemma {:induction false} BeforeTransitive(a: string, b: string, c: string)
    requires Before(a, b) && Before(b, c)
    ensures Before(a, c)
  {
    if a != [] && a[0] == b[0] && b[0] == c[0] {
      BeforeTransitive(a[1..], b[1..], c[1..]);
    }
  }

  // ----------------------------------------------------------- the groups

  /** A `SortedList` entry: the address key and the node it names. */
  datatype Entry = Entry(key: string, id: int)

  /** Strictly ascending keys, as a `SortedList` keeps them. */
  predicate Sorted(g: seq<Entry>)
  {
    forall i, j | 0 <= i < j < |g| :: Before(g[i].key, g[j].key)
  }

  function Keys(g: seq<Entry>): set<string>
  {
    set e | e in g :: e.key
  }

  /** A sorted list stays sorted when an entry that sorts before all of it goes in front. */
  lemma SortedCons(e: Entry, g: seq<Entry>)
    requires Sorted(g) && forall x | x in g :: Before(e.key, x.key)
    ensures Sorted([e] + g)
  {
    var r := [e] + g;
    forall i, j | 0 <= i < j < |r| ensures Before(r[i].key, r[j].key) {
      assert r[j] == g[j - 1];
      if i > 0 { assert r[i] == g[i - 1]; }
    }
  }

  lemma SortedTail(g: seq<Entry>, key: string)
    requires Sorted(g) && g != [] && key !in Keys(g)
    ensures Sorted(g[1..]) && key !in Keys(g[1..])
  {
    forall x | x in g[1..] ensures x in g { }
  }

  /** A key before the first of a sorted list is before all of it. */
  lemma InsertFront(e: Entry, g: seq<Entry>)
    requires Sorted(g) && g != [] && Before(e.key, g[0].key)
    ensures Sorted([e] + g)
  {
    forall x | x in g ensures Before(e.key, x.key) {
      var j :| 0 <= j < |g| && g[j] == x;
      if j > 0 { BeforeTransitive(e.key, g[0].key, x.key); }
    }
    SortedCons(e, g);
  }

  /** A key after the first of a sorted list goes into the rest of it. */
  lemma InsertBehind(g: seq<Entry>, e: Entry, rest: seq<Entry>)
    requires Sorted(g) && g != [] && !Before(e.key, g[0].key) && e.key != g[0].key
    requires Sorted(rest) && multiset(rest) == multiset(g[1..]) + multiset{e}
    ensures Sorted([g[0]] + rest)
  {
    forall x | x in rest ensures Before(g[0].key, x.key) {
      assert x in multiset(rest);
      if x == e {
        BeforeTotal(e.key, g[0].key);
      } else {
        assert x in g[1..];
        var j :| 0 <= j < |g[1..]| && g[1..][j] == x;
        assert g[j + 1] == x;
      }
    }
    SortedCons(g[0], rest);
  }

  /** `SortedList.Add` of a key not yet present: the list stays sorted and gains exactly the entry. */
  function Insert(g: seq<Entry>, e: Entry): (r: seq<Entry>)
    requires Sorted(g) && e.key !in Keys(g)
    ensures Sorted(r)
    ensures multiset(r) == multiset(g) + multiset{e}
  {
    if g == [] then [e]
    else if Before(e.key, g[0].key) then
      InsertFront(e, g);
      [e] + g
    else
      SortedTail(g, e.key);
      assert g[0] in g;
      var rest := Insert(g[1..], e);
      InsertBehind(g, e, rest);
      assert g == [g[0]] + g[1..];
      [g[0]] + rest
  }

  /** A sorted group names each key once. */
  lemma SortedKeysDistinct(g: seq<Entry>, i: int, j: int)
    requires Sorted(g) && 0 <= i < |g| && 0 <= j < |g| && i != j
    ensures g[i].key != g[j].key
  {
    if i < j { BeforeIrreflexive(g[i].key); } else { BeforeIrreflexive(g[j].key); }
  }

  /**
   * Every group has a first member, keeps its keys sorted, and holds each
   * node under the key the node's tags give it.
   */
  predicate GroupsOk(groups: seq<seq<Entry>>, nodes: map<int, Node>)
  {
    forall i | 0 <= i < |groups| ::
      groups[i] != [] && Sorted(groups[i]) &&
      forall e | e in groups[i] :: e.id in nodes && AddressKey(nodes[e.id]) == Ok(e.key)
  }

  /** All the entries of all the groups. */
  function Entries(groups: seq<seq<Entry>>): multiset<Entry>
  {
    if groups == [] then multiset{} else Entries(groups[..|groups| - 1]) + multiset(groups[|groups| - 1])
  }

  lemma {:induction false} EntriesUpdate(groups: seq<seq<Entry>>, i: int, g: seq<Entry>, e: Entry)
    requires 0 <= i < |groups| && multiset(g) == multiset(groups[i]) + multiset{e}
    ensures Entries(groups[i := g]) == Entries(groups) + multiset{e}
  {
    var gs := groups[i := g];
    var n := |groups| - 1;
    assert gs[..n] == if i < n then groups[..n][i := g] else groups[..n];
    if i < n { EntriesUpdate(groups[..n], i, g, e); }
  }

  lemma EntriesSnoc(groups: seq<seq<Entry>>, g: seq<Entry>)
    ensures Entries(groups + [g]) == Entries(groups) + multiset(g)
  {
    assert (groups + [g])[..|groups|] == groups;
  }

  /** The first member of a group lies within half the separation distance of `p`. */
  predicate Near(g: seq<Entry>, nodes: map<int, Node>, p: Coord, arc: ArcFn)
    requires g != [] && g[0].id in nodes
  {
    arc(p, nodes[g[0].id].Position()) < SeparateDistance / 2.0
  }

  /** The first group at or after `i` that a node at `p` is near, or |groups| when there is none. */
  function GroupFor(groups: seq<seq<Entry>>, nodes: map<int, Node>, p: Coord, arc: ArcFn, i: nat): (k: nat)
    requires GroupsOk(groups, nodes) && i <= |groups|
    ensures i <= k <= |groups|
    ensures k < |groups| ==> Near(groups[k], nodes, p, arc)
    ensures forall j | i <= j < k :: !Near(groups[j], nodes, p, arc)
    decreases |groups| - i
  {
    assert i < |groups| ==> groups[i][0] in groups[i];
    if i == |groups| then i
    else if Near(groups[i], nodes, p, arc) then i
    else GroupFor(groups, nodes, p, arc, i + 1)
  }

  /** `PlaceNodeInGroup` for the node stored under `id`. */
  function Place(groups: seq<seq<Entry>>, nodes: map<int, Node>, id: int, arc: ArcFn): (r: Result<seq<seq<Entry>>, SpreadError>)
    requires GroupsOk(groups, nodes) && id in nodes
    ensures r.Ok? ==> GroupsOk(r.value, nodes)
  {
    var n := nodes[id];
    var k := GroupFor(groups, nodes, n.Position(), arc, 0);
    match AddressKey(n)
    case Err(e) => Err(e)
    case Ok(key) =>
      var e := Entry(key, id);
      if k < |groups| then
        if key in Keys(groups[k]) then Err(DuplicateKey(n.id, key))
        else
          var g := Insert(groups[k], e);
          assert forall x | x in g :: x in groups[k] || x == e by {
            forall x | x in g ensures x in groups[k] || x == e { assert x in multiset(g); }
          }
          Ok(groups[k := g])
      else Ok(groups + [[e]])
  }

  /**
   * A node joins exactly one group: the first one it is near, which gains
   * exactly its entry, or else a new group of its own at the end. It fails
   * when the node has no house number, or when its key is already in the
   * group it is near.
   */
  lemma PlaceJoinsOneGroup(groups: seq<seq<Entry>>, nodes: map<int, Node>, id: int, arc: ArcFn)
    requires GroupsOk(groups, nodes) && id in nodes
    ensures var r := Place(groups, nodes, id, arc);
      var k := GroupFor(groups, nodes, nodes[id].Position(), arc, 0);
      (HouseNumber !in nodes[id].tags ==> r == Err(MissingHouseNumber(nodes[id].id))) &&
      (HouseNumber in nodes[id].tags ==>
        var e := Entry(AddressKey(nodes[id]).value, id);
        (r.Ok? <==> k == |groups| || e.key !in Keys(groups[k])) &&
        (r.Err? ==> r.error == DuplicateKey(nodes[id].id, e.key)) &&
        (r.Ok? ==> Entries(r.value) == Entries(groups) + multiset{e} &&
                   (k < |groups| ==> |r.value| == |groups| && multiset(r.value[k]) == multiset(groups[k]) + multiset{e} &&
                                     forall j | 0 <= j < |groups| && j != k :: r.value[j] == groups[j]) &&
                   (k == |groups| ==> r.value == groups + [[e]])))
  {
    var k := GroupFor(groups, nodes, nodes[id].Position(), arc, 0);
    if HouseNumber in nodes[id].tags {
      var e := Entry(AddressKey(nodes[id]).value, id);
      if k < |groups| && e.key !in Keys(groups[k]) {
        EntriesUpdate(groups, k, Insert(groups[k], e), e);
      } else if k == |groups| {
        EntriesSnoc(groups, [e]);
        assert multiset([e]) == multiset{e};
      }
    }
  }

  /** `SpreadNodes`' first loop: the nodes placed in list order; the first failure ends it. */
  function GroupAll(groups: seq<seq<Entry>>, nodes: map<int, Node>, ids: seq<int>, arc: ArcFn): Result<seq<seq<Entry>>, SpreadError>
    requires GroupsOk(groups, nodes) && AllIn(ids, nodes)
    decreases |ids|
  {
    if ids == [] then Ok(groups)
    else
      match Place(groups, nodes, ids[0], arc)
      case Err(e) => Err(e)
      case Ok(gs) => GroupAll(gs, nodes, ids[1..], arc)
  }

  /** The entry a keyed node gets. */
  function EntryOf(nodes: map<int, Node>, id: int): Entry
    requires id in nodes && HouseNumber in nodes[id].tags
  {
    Entry(AddressKey(nodes[id]).value, id)
  }

  /** The entries the listed nodes get, when they all have a house number. */
  function EntriesOf(nodes: map<int, Node>, ids: seq<int>): multiset<Entry>
    requires AllIn(ids, nodes)
  {
    if ids == [] || HouseNumber !in nodes[ids[0]].tags then multiset{}
    else multiset{EntryOf(nodes, ids[0])} + EntriesOf(nodes, ids[1..])
  }

  /**
   * When the grouping succeeds, every listed node has a house number and
   * the groups gain exactly one entry per listed node.
   */
  lemma {:induction false} GroupAllEntries(groups: seq<seq<Entry>>, nodes: map<int, Node>, ids: seq<int>, arc: ArcFn)
    requires GroupsOk(groups, nodes) && AllIn(ids, nodes)
    decreases |ids|
    ensures var r := GroupAll(groups, nodes, ids, arc);
      r.Ok? ==> (forall i | 0 <= i < |ids| :: HouseNumber in nodes[ids[i]].tags) &&
                Entries(r.value) == Entries(groups) + EntriesOf(nodes, ids)
  {
    if ids != [] {
      PlaceJoinsOneGroup(groups, nodes, ids[0], arc);
      var p := Place(groups, nodes, ids[0], arc);
      if p.Ok? {
        GroupAllEntries(p.value, nodes, ids[1..], arc);
        if GroupAll(groups, nodes, ids, arc).Ok? {
          forall i | 0 <= i < |ids| ensures HouseNumber in nodes[ids[i]].tags {
            if i > 0 { assert ids[i] == ids[1..][i - 1]; }
          }
        }
      }
    }
  }

  // ----------------------------------------------------------- the layout

  /** The top-left corner: up by half the group's length, then left by half the number of full columns. */
  function TopLeft(first: Coord, count: nat, move: MoveFn): Coord
  {
    var up := move(first, count as real * SeparateDistance / 2.0, 0.0);
    move(up, (count / MaxRows) as real * SeparateDistance / 2.0, 270.0)
  }

  /** The top of column `c`: `c` steps east of the top-left corner. */
  function ColumnTop(top: Coord, c: nat, move: MoveFn): Coord
  {
    if c == 0 then top else move(ColumnTop(top, c - 1, move), SeparateDistance, 90.0)
  }

  /** `r` steps south of `p`. */
  function Down(p: Coord, r: nat, move: MoveFn): Coord
  {
    if r == 0 then p else move(Down(p, r - 1, move), SeparateDistance, 180.0)
  }

  /** The place of the `k`-th node of a group: column `k / 5`, row `k % 5`. */
  function Slot(top: Coord, k: nat, move: MoveFn): Coord
  {
    Down(ColumnTop(top, k / MaxRows, move), k % MaxRows, move)
  }

  /** The cursor's step: down the column, or to the top of the next column after the last row. */
  lemma NextSlot(top: Coord, count: nat, move: MoveFn)
    ensures (count + 1) % MaxRows == 0 ==>
              ColumnTop(top, (count + 1) / MaxRows, move) == move(ColumnTop(top, count / MaxRows, move), SeparateDistance, 90.0) &&
              Slot(top, count + 1, move) == ColumnTop(top, (count + 1) / MaxRows, move)
    ensures (count + 1) % MaxRows != 0 ==>
              (count + 1) / MaxRows == count / MaxRows &&
              Slot(top, count + 1, move) == move(Slot(top, count, move), SeparateDistance, 180.0)
  {
    if (count + 1) % MaxRows == 0 {
      assert (count + 1) / MaxRows == count / MaxRows + 1;
    } else {
      assert (count + 1) / MaxRows == count / MaxRows && (count + 1) % MaxRows == count % MaxRows + 1;
    }
  }

  /**
   * A node moved to `p`: its position and its "lat" and "lon" attributes
   * change; id, tags and the rest stay.
   */
  function Relocate(n: Node, p: Coord, fmt: FormatFn): (r: Node)
    ensures r.Position() == p
    ensures r.id == n.id && r.tags == n.tags && r.isUsed == n.isUsed
  {
    n.(lat := p.lat, lon := p.lon, attrs := n.attrs[LatAttr := fmt(p.lat)][LonAttr := fmt(p.lon)])
  }

  /** The moved node's "lat" and "lon" attributes hold its new position; its other attributes stay. */
  lemma RelocateAttrs(n: Node, p: Coord, fmt: FormatFn)
    ensures var r := Relocate(n, p, fmt);
      r.attrs.Keys == n.attrs.Keys + {LatAttr, LonAttr} &&
      r.attrs[LatAttr] == fmt(r.lat) && r.attrs[LonAttr] == fmt(r.lon) &&
      forall a | a in n.attrs && a != LatAttr && a != LonAttr :: r.attrs[a] == n.attrs[a]
  {
  }

  /** Every node of the group is in the dictionary. */
  predicate Present(g: seq<Entry>, nodes: map<int, Node>)
  {
    forall e | e in g :: e.id in nodes
  }

  /** The dictionary after the first `k` nodes of the group went to their slots, in order. */
  function SpreadFirst(nodes: map<int, Node>, g: seq<Entry>, top: Coord, k: nat, move: MoveFn, fmt: FormatFn): (r: map<int, Node>)
    requires Present(g, nodes) && k <= |g|
    ensures r.Keys == nodes.Keys
  {
    if k == 0 then nodes
    else
      var m := SpreadFirst(nodes, g, top, k - 1, move, fmt);
      var id := g[k - 1].id;
      assert g[k - 1] in g;
      m[id := Relocate(m[id], Slot(top, k - 1, move), fmt)]
  }

  /** Moving nodes changes neither their ids nor their tags. */
  lemma {:induction false} SpreadFirstKeepsTags(nodes: map<int, Node>, g: seq<Entry>, top: Coord, k: nat, move: MoveFn, fmt: FormatFn)
    requires Present(g, nodes) && k <= |g|
    ensures var r := SpreadFirst(nodes, g, top, k, move, fmt);
      forall id | id in nodes :: r[id].id == nodes[id].id && r[id].tags == nodes[id].tags
  {
    if k > 0 { SpreadFirstKeepsTags(nodes, g, top, k - 1, move, fmt); }
  }

  /** `SpreadNodeGroup`: a group of fewer than two is left as it is. */
  function SpreadGroup(nodes: map<int, Node>, g: seq<Entry>, move: MoveFn, fmt: FormatFn): (r: map<int, Node>)
    requires g != [] && Present(g, nodes)
  {
    assert g[0] in g;
    if |g| < 2 then nodes
    else SpreadFirst(nodes, g, TopLeft(nodes[g[0].id].Position(), |g|, move), |g|, move, fmt)
  }

  /** No two entries of the group name the same node. */
  predicate DistinctNodes(g: seq<Entry>)
  {
    forall i, j | 0 <= i < j < |g| :: g[i].id != g[j].id
  }

  /** A node not among the first `k` of the group is as it was. */
  lemma {:induction false} SpreadFirstUntouched(nodes: map<int, Node>, g: seq<Entry>, top: Coord, k: nat, move: MoveFn, fmt: FormatFn, id: int)
    requires Present(g, nodes) && k <= |g| && id in nodes
    requires forall i | 0 <= i < k :: g[i].id != id
    ensures SpreadFirst(nodes, g, top, k, move, fmt)[id] == nodes[id]
  {
    if k > 0 {
      SpreadFirstUntouched(nodes, g, top, k - 1, move, fmt, id);
    }
  }

  /** With each node in the group once, node `i` of the first `k` sits at its own slot. */
  lemma {:induction false} SpreadFirstMoved(nodes: map<int, Node>, g: seq<Entry>, top: Coord, k: nat, move: MoveFn, fmt: FormatFn, i: nat)
    requires Present(g, nodes) && i < k <= |g| && DistinctNodes(g)
    ensures g[i].id in nodes
    ensures SpreadFirst(nodes, g, top, k, move, fmt)[g[i].id] == Relocate(nodes[g[i].id], Slot(top, i, move), fmt)
  {
    assert g[i] in g;
    if i == k - 1 {
      SpreadFirstUntouched(nodes, g, top, k - 1, move, fmt, g[i].id);
    } else {
      SpreadFirstMoved(nodes, g, top, k - 1, move, fmt, i);
    }
  }

  /**
   * In a group of two or more, each node of a sorted group sits at the
   * slot of its rank in key order, and no node outside the group moves.
   */
  lemma SpreadGroupEffect(nodes: map<int, Node>, g: seq<Entry>, move: MoveFn, fmt: FormatFn)
    requires g != [] && Present(g, nodes) && DistinctNodes(g)
    ensures var r := SpreadGroup(nodes, g, move, fmt);
      (|g| < 2 ==> r == nodes) &&
      (|g| >= 2 ==>
        var top := TopLeft(nodes[g[0].id].Position(), |g|, move);
        (forall i | 0 <= i < |g| :: r[g[i].id].Position() == Slot(top, i, move) &&
                                    r[g[i].id].tags == nodes[g[i].id].tags) &&
        (forall id | id in nodes && (forall i | 0 <= i < |g| :: g[i].id != id) :: r[id] == nodes[id]))
  {
    assert g[0] in g;
    if |g| >= 2 {
      var top := TopLeft(nodes[g[0].id].Position(), |g|, move);
      forall i | 0 <= i < |g|
        ensures SpreadGroup(nodes, g, move, fmt)[g[i].id] == Relocate(nodes[g[i].id], Slot(top, i, move), fmt)
      {
        SpreadFirstMoved(nodes, g, top, |g|, move, fmt, i);
      }
      forall id | id in nodes && (forall i | 0 <= i < |g| :: g[i].id != id)
        ensures SpreadGroup(nodes, g, move, fmt)[id] == nodes[id]
      {
        SpreadFirstUntouched(nodes, g, top, |g|, move, fmt, id);
      }
    }
  }

  /** In a well-formed group the keys differ, and so do the nodes. */
  lemma GroupNodesDistinct(groups: seq<seq<Entry>>, nodes: map<int, Node>, k: int)
    requires GroupsOk(groups, nodes) && 0 <= k < |groups|
    ensures DistinctNodes(groups[k])
  {
    var g := groups[k];
    forall i, j | 0 <= i < j < |g| ensures g[i].id != g[j].id {
      assert g[i] in g && g[j] in g;
      SortedKeysDistinct(g, i, j);
    }
  }

  /** Every group's nodes are in the dictionary. */
  predicate AllPresent(groups: seq<seq<Entry>>, nodes: map<int, Node>)
  {
    forall i | 0 <= i < |groups| :: groups[i] != [] && Present(groups[i], nodes)
  }

  /** `SpreadNodes`' second loop: the groups spread in order. */
  function SpreadAll(nodes: map<int, Node>, groups: seq<seq<Entry>>, move: MoveFn, fmt: FormatFn): (r: map<int, Node>)
    requires AllPresent(groups, nodes)
    ensures r.Keys == nodes.Keys
    decreases |groups|
  {
    if groups == [] then nodes
    else
      var m := SpreadGroup(nodes, groups[0], move, fmt);
      assert groups[0][0] in groups[0];
      assert AllPresent(groups[1..], m) by {
        forall i | 0 <= i < |groups[1..]| ensures groups[1..][i] != [] && Present(groups[1..][i], m) {
          assert groups[1..][i] == groups[i + 1];
        }
      }
      SpreadAll(m, groups[1..], move, fmt)
  }

  /** Spreading changes no node's id or tags. */
  lemma {:induction false} SpreadAllKeepsTags(nodes: map<int, Node>, groups: seq<seq<Entry>>, move: MoveFn, fmt: FormatFn)
    requires AllPresent(groups, nodes)
    ensures var r := SpreadAll(nodes, groups, move, fmt);
      forall id | id in nodes :: r[id].id == nodes[id].id && r[id].tags == nodes[id].tags
    decreases |groups|
  {
    if groups != [] {
      var g := groups[0];
      assert g[0] in g;
      if |g| >= 2 {
        SpreadFirstKeepsTags(nodes, g, TopLeft(nodes[g[0].id].Position(), |g|, move), |g|, move, fmt);
      }
      var m := SpreadGroup(nodes, g, move, fmt);
      assert AllPresent(groups[1..], m) by {
        forall i | 0 <= i < |groups[1..]| ensures groups[1..][i] != [] && Present(groups[1..][i], m) {
          assert groups[1..][i] == groups[i + 1];
        }
      }
      SpreadAllKeepsTags(m, groups[1..], move, fmt);
    }
  }

  /** `SpreadNodes`: the grouping, then the layout of every group; a failed grouping moves no node. */
  function Spread(groups: seq<seq<Entry>>, nodes: map<int, Node>, ids: seq<int>, arc: ArcFn, move: MoveFn, fmt: FormatFn)
    : Result<(seq<seq<Entry>>, map<int, Node>), SpreadError>
    requires GroupsOk(groups, nodes) && AllIn(ids, nodes)
  {
    match GroupAll(groups, nodes, ids, arc)
    case Err(e) => Err(e)
    case Ok(gs) =>
      GroupAllOk(groups, nodes, ids, arc);
      Ok((gs, SpreadAll(nodes, gs, move, fmt)))
  }

  lemma {:induction false} GroupAllOk(groups: seq<seq<Entry>>, nodes: map<int, Node>, ids: seq<int>, arc: ArcFn)
    requires GroupsOk(groups, nodes) && AllIn(ids, nodes)
    ensures GroupAll(groups, nodes, ids, arc).Ok? ==> GroupsOk(GroupAll(groups, nodes, ids, arc).value, nodes)
    decreases |ids|
  {
    if ids != [] {
      var p := Place(groups, nodes, ids[0], arc);
      if p.Ok? { GroupAllOk(p.value, nodes, ids[1..], arc); }
    }
  }

  /** Groups that are well formed only need their nodes present to be spread. */
  lemma GroupsOkPresent(groups: seq<seq<Entry>>, nodes: map<int, Node>)
    requires GroupsOk(groups, nodes)
    ensures AllPresent(groups, nodes)
  {
  }

  /** Moving nodes keeps their tags, so the groups stay well formed. */
  lemma GroupsOkRetagged(groups: seq<seq<Entry>>, nodes: map<int, Node>, nodes': map<int, Node>)
    requires GroupsOk(groups, nodes) && nodes'.Keys == nodes.Keys
    requires forall id | id in nodes :: nodes'[id].id == nodes[id].id && nodes'[id].tags == nodes[id].tags
    ensures GroupsOk(groups, nodes')
  {
    forall i, e | 0 <= i < |groups| && e in groups[i] ensures AddressKey(nodes'[e.id]) == AddressKey(nodes[e.id]) { }
  }

  // ---------------------------------------------------------------- the class

  class NodeSpreader {
    /** The address nodes, by id, in list order. */
    const addressNodes: seq<int>
    /** Where the node objects live. */
    const store: OSMDataset
    var groups: seq<seq<Entry>>

    ghost predicate Valid()
      reads this, store
    {
      store.Valid() && AllIn(addressNodes, store.osmNodes) && GroupsOk(groups, store.osmNodes)
    }

    constructor (store: OSMDataset, addressNodes: seq<int>)
      requires store.Valid() && AllIn(addressNodes, store.osmNodes)
      ensures Valid()
      ensures this.store == store && this.addressNodes == addressNodes && groups == []
    {
      this.store := store;
      this.addressNodes := addressNodes;
      groups := [];
    }

    /** `SpreadNodes`. */
    method SpreadNodes(arc: ArcFn, move: MoveFn, fmt: FormatFn) returns (r: Result<(), SpreadError>)
      requires Valid()
      modifies this, store
      ensures Valid()
      ensures var spec := Spread(old(groups), old(store.osmNodes), addressNodes, arc, move, fmt);
        (r.Ok? <==> spec.Ok?) &&
        (r.Ok? ==> groups == spec.value.0 && store.osmNodes == spec.value.1) &&
        (r.Err? ==> r.error == spec.error && store.osmNodes == old(store.osmNodes))
      ensures store.nodeOrder == old(store.nodeOrder)
      ensures store.osmWays == old(store.osmWays) && store.osmRelations == old(store.osmRelations)
    {
      r := GroupNodes(arc);
      if r.Ok? {
        SpreadGroups(move, fmt);
      }
    }

    /** `SpreadNodes`' first loop. */
    method GroupNodes(arc: ArcFn) returns (r: Result<(), SpreadError>)
      requires Valid()
      modifies this
      ensures Valid()
      ensures var spec := GroupAll(old(groups), store.osmNodes, addressNodes, arc);
        (r.Ok? <==> spec.Ok?) && (r.Ok? ==> groups == spec.value) && (r.Err? ==> r.error == spec.error)
    {
      var i := 0;
      while i < |addressNodes|
        invariant 0 <= i <= |addressNodes| && Valid()
        invariant GroupAll(groups, store.osmNodes, addressNodes[i..], arc) == GroupAll(old(groups), store.osmNodes, addressNodes, arc)
      {
        assert addressNodes[i..][0] == addressNodes[i] && addressNodes[i..][1..] == addressNodes[i + 1..];
        var placed := PlaceNodeInGroup(addressNodes[i], arc);
        if placed.Err? {
          return Err(placed.error);
        }
        i := i + 1;
      }
      assert addressNodes[i..] == [];
      return Ok(());
    }

    /** `SpreadNodes`' second loop. */
    method SpreadGroups(move: MoveFn, fmt: FormatFn)
      requires Valid()
      modifies store
      ensures Valid()
      ensures store.osmNodes == SpreadAll(old(store.osmNodes), groups, move, fmt)
      ensures store.nodeOrder == old(store.nodeOrder)
      ensures store.osmWays == old(store.osmWays) && store.osmRelations == old(store.osmRelations)
    {
      var j := 0;
      while j < |groups|
        invariant 0 <= j <= |groups| && Valid()
        invariant SpreadAll(store.osmNodes, groups[j..], move, fmt) == SpreadAll(old(store.osmNodes), groups, move, fmt)
        invariant store.nodeOrder == old(store.nodeOrder)
        invariant store.osmWays == old(store.osmWays) && store.osmRelations == old(store.osmRelations)
      {
        assert groups[j..][0] == groups[j] && groups[j..][1..] == groups[j + 1..];
        SpreadNodeGroup(j, move, fmt);
        j := j + 1;
      }
      assert groups[j..] == [];
    }

    /** `PlaceNodeInGroup` for the node stored under `id`. */
    method PlaceNodeInGroup(id: int, arc: ArcFn) returns (r: Result<(), SpreadError>)
      requires Valid() && id in store.osmNodes
      modifies this
      ensures Valid()
      ensures var spec := Place(old(groups), store.osmNodes, id, arc);
        (r.Ok? <==> spec.Ok?) && (r.Ok? ==> groups == spec.value) && (r.Err? ==> r.error == spec.error)
    {
      var node := store.osmNodes[id];
      var k := 0;
      while k < |groups|
        invariant 0 <= k <= |groups|
        invariant GroupFor(groups, store.osmNodes, node.Position(), arc, k) == GroupFor(groups, store.osmNodes, node.Position(), arc, 0)
      {
        var group := groups[k];
        assert group[0] in group;
        if arc(node.Position(), store.osmNodes[group[0].id].Position()) < SeparateDistance / 2.0 {
          var key := AddressKey(node);
          if key.Err? {
            return Err(key.error);
          }
          assert GroupFor(groups, store.osmNodes, node.Position(), arc, k) == k;
          if key.value in Keys(group) {
            return Err(DuplicateKey(node.id, key.value));
          }
          groups := groups[k := Insert(group, Entry(key.value, id))];
          assert groups == Place(old(groups), store.osmNodes, id, arc).value;
          return Ok(());
        }
        k := k + 1;
      }
      var key := AddressKey(node);
      if key.Err? {
        return Err(key.error);
      }
      groups := groups + [[Entry(key.value, id)]];
      return Ok(());
    }

    /** `SpreadNodeGroup` for group `k`. */
    method SpreadNodeGroup(k: int, move: MoveFn, fmt: FormatFn)
      requires Valid() && 0 <= k < |groups|
      modifies store
      ensures Valid()
      ensures store.osmNodes == SpreadGroup(old(store.osmNodes), groups[k], move, fmt)
      ensures store.nodeOrder == old(store.nodeOrder)
      ensures store.osmWays == old(store.osmWays) && store.osmRelations == old(store.osmRelations)
    {
      var group := groups[k];
      assert group[0] in group;
      if |group| < 2 {
        return;
      }
      var nodes := store.osmNodes;
      var top := TopLeft(nodes[group[0].id].Position(), |group|, move);
      LayOut(group, top, move, fmt);
      SpreadFirstKeepsTags(nodes, group, top, |group|, move, fmt);
      GroupsOkRetagged(groups, nodes, store.osmNodes);
    }

    /** `SpreadNodeGroup`'s loop: a cursor down each column of five, then back to the top of the next. */
    method LayOut(group: seq<Entry>, top: Coord, move: MoveFn, fmt: FormatFn)
      requires store.Valid() && Present(group, store.osmNodes)
      modifies store
      ensures store.Valid()
      ensures store.osmNodes == SpreadFirst(old(store.osmNodes), group, top, |group|, move, fmt)
      ensures store.nodeOrder == old(store.nodeOrder)
      ensures store.osmWays == old(store.osmWays) && store.osmRelations == old(store.osmRelations)
    {
      var curLoc := top;
      var topRef := top;
      var count := 0;
      while count < |group|
        invariant 0 <= count <= |group| && store.Valid()
        invariant store.osmNodes == SpreadFirst(old(store.osmNodes), group, top, count, move, fmt)
        invariant curLoc == Slot(top, count, move) && topRef == ColumnTop(top, count / MaxRows, move)
        invariant store.nodeOrder == old(store.nodeOrder)
        invariant store.osmWays == old(store.osmWays) && store.osmRelations == old(store.osmRelations)
      {
        var e := group[count];
        assert e in group;
        store.UpdateNode(Relocate(store.osmNodes[e.id], curLoc, fmt));
        NextSlot(top, count, move);
        count := count + 1;
        if count % MaxRows == 0 {
          topRef := move(topRef, SeparateDistance, 90.0);
          curLoc := topRef;
        } else {
          curLoc := move(curLoc, SeparateDistance, 180.0);
        }
      }
    }
  }
}

=== FILE: osm_dataset.dfy ===
/**
 * An OSM dataset: three id-keyed dictionaries of nodes, ways and relations.
 *
 * Each dictionary is a map paired with the order in which the program's
 * dictionary enumerates it (insertion order, removals filtered out).
 * Adding a key that is present is an error, as `Dictionary.Add` throws.
 */
module Datasets {
  import opened Wrappers
  import opened OSMType
  import opened SpatialUtilities

  datatype DuplicateId = DuplicateNode(id: int) | DuplicateWay(id: int) | DuplicateRelation(id: int)

  predicate NoDup(s: seq<int>)
  {
    forall i, j | 0 <= i < j < |s| :: s[i] != s[j]
  }

  /** `order` lists every key of `m` exactly once. */
  predicate Enumerates<T>(order: seq<int>, m: map<int, T>)
  {
    NoDup(order) && AllIn(order, m) && forall id | id in m :: id in order
  }

  /** The elements of `s` not in `drop`, in order. */
  function Except(s: seq<int>, drop: set<int>): (r: seq<int>)
    ensures forall y :: y in r <==> y in s && y !in drop
    ensures |r| <= |s|
  {
    if s == [] then [] else (if s[0] in drop then [] else [s[0]]) + Except(s[1..], drop)
  }

  lemma {:induction false} ExceptNoDup(s: seq<int>, drop: set<int>)
    requires NoDup(s)
    ensures NoDup(Except(s, drop))
  {
    if s != [] {
      assert NoDup(s[1..]) by {
        forall i, j | 0 <= i < j < |s[1..]| ensures s[1..][i] != s[1..][j] {
          assert s[1..][i] == s[i + 1] && s[1..][j] == s[j + 1];
        }
      }
      ExceptNoDup(s[1..], drop);
      var t := Except(s[1..], drop);
      if s[0] !in drop {
        assert s[0] !in s[1..] by {
          forall k | 0 <= k < |s[1..]| ensures s[1..][k] != s[0] { assert s[1..][k] == s[k + 1]; }
        }
        assert s[0] !in t;
        var r := [s[0]] + t;
        forall i, j | 0 <= i < j < |r| ensures r[i] != r[j] {
          if i == 0 { assert r[j] == t[j - 1]; assert r[j] in t; }
          else { assert r[i] == t[i - 1] && r[j] == t[j - 1]; }
        }
      }
    }
  }

  lemma ExceptEnumerates<T>(order: seq<int>, m: map<int, T>, drop: set<int>)
    requires Enumerates(order, m)
    ensures Enumerates(Except(order, drop), map id | id in m && id !in drop :: m[id])
  {
    ExceptNoDup(order, drop);
    var r := Except(order, drop);
    forall k | 0 <= k < |r| ensures r[k] in m && r[k] !in drop {
      assert r[k] in r;
      var j :| 0 <= j < |order| && order[j] == r[k];
    }
  }

  /** Filtering twice is filtering once by both sets. */
  lemma {:induction false} ExceptTwice(s: seq<int>, a: set<int>, b: set<int>)
    ensures Except(Except(s, a), b) == Except(s, a + b)
  {
    if s != [] {
      var x, rest := s[0], s[1..];
      ExceptTwice(rest, a, b);
      var t := Except(rest, a);
      assert Except(s, a + b) == (if x in a + b then [] else [x]) + Except(rest, a + b);
      if x in a {
        assert Except(s, a) == t;
      } else {
        assert Except(s, a) == [x] + t;
        assert ([x] + t)[0] == x && ([x] + t)[1..] == t;
        assert Except([x] + t, b) == (if x in b then [] else [x]) + Except(t, b);
      }
    }
  }

  /** Dropping nothing keeps the order as it is. */
  lemma {:induction false} ExceptNothing(s: seq<int>)
    ensures Except(s, {}) == s
  {
    if s != [] {
      ExceptNothing(s[1..]);
    }
  }

  /** Dropping an id the order does not hold keeps the order as it is. */
  lemma {:induction false} ExceptAbsent(s: seq<int>, x: int)
    requires x !in s
    ensures Except(s, {x}) == s
  {
    if s != [] {
      assert s[0] != x && x !in s[1..];
      ExceptAbsent(s[1..], x);
    }
  }

  lemma AppendEnumerates<T>(order: seq<int>, m: map<int, T>, id: int, v: T)
    requires Enumerates(order, m) && id !in m
    ensures Enumerates(order + [id], m[id := v])
  {
    var r := order + [id];
    forall i, j | 0 <= i < j < |r| ensures r[i] != r[j] {
      if j == |order| { assert r[i] == order[i] && order[i] in m; }
    }
  }

  /** The entities of one kind that a dataset holds, keyed by their own ids. */
  predicate KeyedById<T>(m: map<int, T>, idOf: T -> int)
  {
    forall id | id in m :: idOf(m[id]) == id
  }

  function NodeId(n: Node): int { n.id }
  function WayId(w: Way): int { w.id }
  function RelationId(r: Relation): int { r.id }

  /** The refs of a way that name a known node, in their original order (skipping unknown refs). */
  function PresentRefs(refs: seq<int>, nodes: map<int, Node>): (r: seq<int>)
    ensures AllIn(r, nodes)
  {
    if refs == [] then []
    else PresentRefs(refs[..|refs| - 1], nodes) + (if refs[|refs| - 1] in nodes then [refs[|refs| - 1]] else [])
  }

  /** The way members of a relation that name a known way, in member order. */
  function PresentWays(members: seq<Member>, ways: map<int, Way>): (r: seq<int>)
    ensures AllIn(r, ways)
  {
    if members == [] then []
    else
      var m := members[|members| - 1];
      PresentWays(members[..|members| - 1], ways) +
      (if m.memberType == "way" && m.ref in ways then [m.ref] else [])
  }

  /** Union of the boxes of the listed ways, starting from the sentinel box. */
  function WaysBox(ids: seq<int>, ways: map<int, Way>): BBox
    requires AllIn(ids, ways)
  {
    if ids == [] then EmptyBBox() else BboxUnion(WaysBox(ids[..|ids| - 1], ways), ways[ids[|ids| - 1]].bbox)
  }

  /** The way `HandleWayRead` builds from a parsed `<way>` element. */
  function LinkWay(id: int, attrs: map<string, string>, refs: seq<int>, tags: map<string, string>,
                   nodes: map<int, Node>): Way
  {
    var w := NewWay(id).(attrs := attrs, tags := tags, nodeList := PresentRefs(refs, nodes));
    w.(bbox := ExtendAll(w.bbox, Positions(w.nodeList, nodes))).SetCenter()
  }

  /** The relation `HandlRelationRead` builds from a parsed `<relation>` element. */
  function LinkRelation(id: int, attrs: map<string, string>, members: seq<Member>, tags: map<string, string>,
                        ways: map<int, Way>): Relation
  {
    var ids := PresentWays(members, ways);
    NewRelation(id).(attrs := attrs, tags := tags, members := members, ways := ids,
                     bbox := WaysBox(ids, ways)).SetCenter()
  }

  /** The first loop of `ResetUsedFlag`, over the node dictionary in its order. */
  method ClearNodeFlags(nodes: map<int, Node>, order: seq<int>) returns (r: map<int, Node>)
    requires Enumerates(order, nodes)
    ensures r.Keys == nodes.Keys
    ensures forall id | id in r :: r[id] == nodes[id].(isUsed := false)
  {
    r := nodes;
    var i := 0;
    while i < |order|
      invariant 0 <= i <= |order| && r.Keys == nodes.Keys
      invariant forall id | id in r :: r[id] == if id in order[..i] then nodes[id].(isUsed := false) else nodes[id]
    {
      var id := order[i];
      r := r[id := r[id].(isUsed := false)];
      assert order[..i + 1] == order[..i] + [id];
      i := i + 1;
    }
    assert order[..i] == order;
  }

  /** The second loop of `ResetUsedFlag`, over the way dictionary in its order. */
  method ClearWayFlags(ways: map<int, Way>, order: seq<int>) returns (r: map<int, Way>)
    requires Enumerates(order, ways)
    ensures r.Keys == ways.Keys
    ensures forall id | id in r :: r[id] == ways[id].(isUsed := false)
  {
    r := ways;
    var i := 0;
    while i < |order|
      invariant 0 <= i <= |order| && r.Keys == ways.Keys
      invariant forall id | id in r :: r[id] == if id in order[..i] then ways[id].(isUsed := false) else ways[id]
    {
      var id := order[i];
      r := r[id := r[id].(isUsed := false)];
      assert order[..i + 1] == order[..i] + [id];
      i := i + 1;
    }
    assert order[..i] == order;
  }

  /**
   * The member loop of `HandlRelationRead`: every member is kept, and the
   * "way" members whose way is in the store are linked, in order.
   */
  method LinkMembers(members: seq<Member>, ways: map<int, Way>) returns (kept: seq<Member>, ids: seq<int>)
    ensures kept == members && ids == PresentWays(members, ways)
  {
    kept, ids := [], [];
    var i := 0;
    while i < |members|
      invariant 0 <= i <= |members|
      invariant kept == members[..i] && ids == PresentWays(members[..i], ways)
    {
      assert members[..i + 1][..i] == members[..i];
      var m := members[i];
      kept := kept + [m];
      if m.memberType == "way" && m.ref in ways {
        ids := ids + [m.ref];
      }
      i := i + 1;
    }
    assert members[..i] == members;
  }

  /** The box loop of `HandlRelationRead`: the union of the linked ways' boxes. */
  method UnionWayBoxes(ids: seq<int>, ways: map<int, Way>) returns (box: BBox)
    requires AllIn(ids, ways)
    ensures box == WaysBox(ids, ways)
  {
    box := EmptyBBox();
    var i := 0;
    while i < |ids|
      invariant 0 <= i <= |ids|
      invariant box == WaysBox(ids[..i], ways)
    {
      assert ids[..i + 1][..i] == ids[..i];
      box := BboxUnion(box, ways[ids[i]].bbox);
      i := i + 1;
    }
    assert ids[..i] == ids;
  }

  class OSMDataset {
    var osmNodes: map<int, Node>
    var osmWays: map<int, Way>
    var osmRelations: map<int, Relation>
    var nodeOrder: seq<int>
    var wayOrder: seq<int>
    var relationOrder: seq<int>

    /** Each order enumerates its dictionary, and every entity is stored under its own id. */
    ghost predicate Valid()
      reads this
    {
      Snapshot().Valid()
    }

    /** Every way's nodes and every relation's ways are present in the dataset. */
    ghost predicate Linked()
      reads this
    {
      (forall id | id in osmWays :: AllIn(osmWays[id].nodeList, osmNodes)) &&
      (forall id | id in osmRelations :: AllIn(osmRelations[id].ways, osmWays))
    }

    constructor ()
      ensures Valid() && Linked()
      ensures osmNodes == map[] && osmWays == map[] && osmRelations == map[]
      ensures nodeOrder == [] && wayOrder == [] && relationOrder == []
    {
      osmNodes, osmWays, osmRelations := map[], map[], map[];
      nodeOrder, wayOrder, relationOrder := [], [], [];
    }

    /** A dataset holding the given dictionaries. */
    function Snapshot(): Tables
      reads this
    {
      Tables(osmNodes, osmWays, osmRelations, nodeOrder, wayOrder, relationOrder)
    }

    constructor FromParts(t: Tables)
      requires t.Valid()
      ensures Valid()
      ensures osmNodes == t.nodes && osmWays == t.ways && osmRelations == t.relations
      ensures nodeOrder == t.nodeOrder && wayOrder == t.wayOrder && relationOrder == t.relationOrder
    {
      osmNodes, osmWays, osmRelations := t.nodes, t.ways, t.relations;
      nodeOrder, wayOrder, relationOrder := t.nodeOrder, t.wayOrder, t.relationOrder;
    }

    /** `osmNodes.Add(n.ID, n)`. */
    method AddNode(n: Node) returns (r: Result<(), DuplicateId>)
      requires Valid()
      modifies this
      ensures Valid()
      ensures r.Ok? <==> n.id !in old(osmNodes)
      ensures r.Err? ==> r.error == DuplicateNode(n.id) && osmNodes == old(osmNodes) && nodeOrder == old(nodeOrder)
      ensures r.Ok? ==> osmNodes == old(osmNodes)[n.id := n] && nodeOrder == old(nodeOrder) + [n.id]
      ensures osmWays == old(osmWays) && osmRelations == old(osmRelations)
      ensures wayOrder == old(wayOrder) && relationOrder == old(relationOrder)
    {
      if n.id in osmNodes {
        return Err(DuplicateNode(n.id));
      }
      AppendEnumerates(nodeOrder, osmNodes, n.id, n);
      osmNodes := osmNodes[n.id := n];
      nodeOrder := nodeOrder + [n.id];
      r := Ok(());
    }

    /** `osmWays.Add(w.ID, w)`. */
    method AddWay(w: Way) returns (r: Result<(), DuplicateId>)
      requires Valid()
      modifies this
      ensures Valid()
      ensures r.Ok? <==> w.id !in old(osmWays)
      ensures r.Err? ==> r.error == DuplicateWay(w.id) && osmWays == old(osmWays) && wayOrder == old(wayOrder)
      ensures r.Ok? ==> osmWays == old(osmWays)[w.id := w] && wayOrder == old(wayOrder) + [w.id]
      ensures osmNodes == old(osmNodes) && osmRelations == old(osmRelations)
      ensures nodeOrder == old(nodeOrder) && relationOrder == old(relationOrder)
    {
      if w.id in osmWays {
        return Err(DuplicateWay(w.id));
      }
      AppendEnumerates(wayOrder, osmWays, w.id, w);
      osmWays := osmWays[w.id := w];
      wayOrder := wayOrder + [w.id];
      r := Ok(());
    }

    /** `osmRelations.Add(rel.ID, rel)`. */
    method AddRelation(rel: Relation) returns (r: Result<(), DuplicateId>)
      requires Valid()
      modifies this
      ensures Valid()
      ensures r.Ok? <==> rel.id !in old(osmRelations)
      ensures r.Err? ==> r.error == DuplicateRelation(rel.id) && osmRelations == old(osmRelations)
      ensures r.Err? ==> relationOrder == old(relationOrder)
      ensures r.Ok? ==> osmRelations == old(osmRelations)[rel.id := rel]
      ensures r.Ok? ==> relationOrder == old(relationOrder) + [rel.id]
      ensures osmNodes == old(osmNodes) && osmWays == old(osmWays)
      ensures nodeOrder == old(nodeOrder) && wayOrder == old(wayOrder)
    {
      if rel.id in osmRelations {
        return Err(DuplicateRelation(rel.id));
      }
      AppendEnumerates(relationOrder, osmRelations, rel.id, rel);
      osmRelations := osmRelations[rel.id := rel];
      relationOrder := relationOrder + [rel.id];
      r := Ok(());
    }

    /** `osmNodes.Remove(id)`; nothing happens when the id is absent. */
    method RemoveNode(id: int)
      requires Valid()
      modifies this
      ensures Valid()
      ensures osmNodes == old(osmNodes) - {id} && nodeOrder == Except(old(nodeOrder), {id})
      ensures osmWays == old(osmWays) && osmRelations == old(osmRelations)
      ensures wayOrder == old(wayOrder) && relationOrder == old(relationOrder)
    {
      ExceptEnumerates(nodeOrder, osmNodes, {id});
      assert osmNodes - {id} == map k | k in osmNodes && k !in {id} :: osmNodes[k];
      osmNodes := osmNodes - {id};
      nodeOrder := Except(nodeOrder, {id});
    }

    /** `osmWays.Remove(id)`; nothing happens when the id is absent. */
    method RemoveWay(id: int)
      requires Valid()
      modifies this
      ensures Valid()
      ensures osmWays == old(osmWays) - {id} && wayOrder == Except(old(wayOrder), {id})
      ensures osmNodes == old(osmNodes) && osmRelations == old(osmRelations)
      ensures nodeOrder == old(nodeOrder) && relationOrder == old(relationOrder)
    {
      ExceptEnumerates(wayOrder, osmWays, {id});
      assert osmWays - {id} == map k | k in osmWays && k !in {id} :: osmWays[k];
      osmWays := osmWays - {id};
      wayOrder := Except(wayOrder, {id});
    }

    /** `osmRelations.Remove(id)`; nothing happens when the id is absent. */
    method RemoveRelation(id: int)
      requires Valid()
      modifies this
      ensures Valid()
      ensures osmRelations == old(osmRelations) - {id} && relationOrder == Except(old(relationOrder), {id})
      ensures osmNodes == old(osmNodes) && osmWays == old(osmWays)
      ensures nodeOrder == old(nodeOrder) && wayOrder == old(wayOrder)
    {
      ExceptEnumerates(relationOrder, osmRelations, {id});
      assert osmRelations - {id} == map k | k in osmRelations && k !in {id} :: osmRelations[k];
      osmRelations := osmRelations - {id};
      relationOrder := Except(relationOrder, {id});
    }

    /** Assigns fields of a node held by the dataset (the object is shared, so its key stays). */
    method UpdateNode(n: Node)
      requires Valid() && n.id in osmNodes
      modifies this
      ensures Valid()
      ensures osmNodes == old(osmNodes)[n.id := n]
      ensures osmWays == old(osmWays) && osmRelations == old(osmRelations)
      ensures nodeOrder == old(nodeOrder) && wayOrder == old(wayOrder) && relationOrder == old(relationOrder)
    {
      osmNodes := osmNodes[n.id := n];
    }

    /** Assigns fields of a way held by the dataset (the object is shared, so its key stays). */
    method UpdateWay(w: Way)
      requires Valid() && w.id in osmWays
      modifies this
      ensures Valid()
      ensures osmWays == old(osmWays)[w.id := w]
      ensures osmNodes == old(osmNodes) && osmRelations == old(osmRelations)
      ensures nodeOrder == old(nodeOrder) && wayOrder == old(wayOrder) && relationOrder == old(relationOrder)
    {
      osmWays := osmWays[w.id := w];
    }

    /** `node.IsUsed = true` for a node the dataset holds. */
    method SetNodeUsed(id: int)
      requires id in osmNodes
      modifies this
      ensures osmNodes == old(osmNodes)[id := old(osmNodes)[id].(isUsed := true)]
      ensures osmWays == old(osmWays) && osmRelations == old(osmRelations)
      ensures nodeOrder == old(nodeOrder) && wayOrder == old(wayOrder) && relationOrder == old(relationOrder)
    {
      osmNodes := osmNodes[id := osmNodes[id].(isUsed := true)];
    }

    /** `way.IsUsed = true` for a way the dataset holds. */
    method SetWayUsed(id: int)
      requires id in osmWays
      modifies this
      ensures osmWays == old(osmWays)[id := old(osmWays)[id].(isUsed := true)]
      ensures osmNodes == old(osmNodes) && osmRelations == old(osmRelations)
      ensures nodeOrder == old(nodeOrder) && wayOrder == old(wayOrder) && relationOrder == old(relationOrder)
    {
      osmWays := osmWays[id := osmWays[id].(isUsed := true)];
    }

    /** Assigns fields of a relation held by the dataset (the object is shared, so its key stays). */
    method UpdateRelation(rel: Relation)
      requires Valid() && rel.id in osmRelations
      modifies this
      ensures Valid()
      ensures osmRelations == old(osmRelations)[rel.id := rel]
      ensures osmNodes == old(osmNodes) && osmWays == old(osmWays)
      ensures nodeOrder == old(nodeOrder) && wayOrder == old(wayOrder) && relationOrder == old(relationOrder)
    {
      osmRelations := osmRelations[rel.id := rel];
    }

    /** Replaces the way store by one holding the same ids, each way under its own id. */
    method SetWays(ws: map<int, Way>)
      requires Valid() && ws.Keys == osmWays.Keys && KeyedById(ws, WayId)
      modifies this
      ensures Valid() && osmWays == ws
      ensures osmNodes == old(osmNodes) && osmRelations == old(osmRelations)
      ensures nodeOrder == old(nodeOrder) && wayOrder == old(wayOrder) && relationOrder == old(relationOrder)
    {
      osmWays := ws;
    }

    /** `ResetUsedFlag`: clears IsUsed on every node and every way; nothing else changes. */
    method ResetUsedFlag()
      requires Valid()
      modifies this
      ensures Valid()
      ensures osmNodes.Keys == old(osmNodes).Keys && osmWays.Keys == old(osmWays).Keys
      ensures forall id | id in osmNodes :: osmNodes[id] == old(osmNodes)[id].(isUsed := false)
      ensures forall id | id in osmWays :: osmWays[id] == old(osmWays)[id].(isUsed := false)
      ensures osmRelations == old(osmRelations)
      ensures nodeOrder == old(nodeOrder) && wayOrder == old(wayOrder) && relationOrder == old(relationOrder)
    {
      osmNodes := ClearNodeFlags(osmNodes, nodeOrder);
      osmWays := ClearWayFlags(osmWays, wayOrder);
    }

    /**
     * `HandleNodeRead` over an already-parsed `<node>` element: a node with the
     * given id, position, XML attributes and tags, added under its id.
     */
    method HandleNodeRead(id: int, lat: real, lon: real, attrs: map<string, string>, tags: map<string, string>)
      returns (r: Result<(), DuplicateId>)
      requires Valid()
      modifies this
      ensures Valid()
      ensures r.Ok? <==> id !in old(osmNodes)
      ensures r.Ok? ==> osmNodes == old(osmNodes)[id := NewNode(id, lat, lon).(attrs := attrs, tags := tags)]
      ensures r.Err? ==> r.error == DuplicateNode(id) && osmNodes == old(osmNodes)
      ensures r.Ok? ==> nodeOrder == old(nodeOrder) + [id]
      ensures r.Err? ==> nodeOrder == old(nodeOrder)
      ensures osmWays == old(osmWays) && osmRelations == old(osmRelations)
      ensures wayOrder == old(wayOrder) && relationOrder == old(relationOrder)
    {
      var n := NewNode(id, lat, lon).(attrs := attrs, tags := tags);
      r := AddNode(n);
    }

    /**
     * `HandleWayRead` over an already-parsed `<way>` element: the node list
     * keeps the refs that name a known node, the box grows over those nodes,
     * the way sits at the box centre, and it is added under its id.
     */
    method HandleWayRead(id: int, attrs: map<string, string>, refs: seq<int>, tags: map<string, string>)
      returns (r: Result<(), DuplicateId>)
      requires Valid()
      modifies this
      ensures Valid()
      ensures r.Ok? <==> id !in old(osmWays)
      ensures r.Ok? ==> osmWays == old(osmWays)[id := LinkWay(id, attrs, refs, tags, osmNodes)]
      ensures r.Err? ==> r.error == DuplicateWay(id) && osmWays == old(osmWays)
      ensures r.Ok? ==> wayOrder == old(wayOrder) + [id]
      ensures r.Err? ==> wayOrder == old(wayOrder)
      ensures old(Linked()) ==> Linked()
      ensures osmNodes == old(osmNodes) && osmRelations == old(osmRelations)
      ensures nodeOrder == old(nodeOrder) && relationOrder == old(relationOrder)
    {
      var w := NewWay(id).(attrs := attrs, tags := tags);
      var i := 0;
      while i < |refs|
        invariant 0 <= i <= |refs|
        invariant w == NewWay(id).(attrs := attrs, tags := tags, nodeList := PresentRefs(refs[..i], osmNodes))
      {
        assert refs[..i + 1][..i] == refs[..i];
        if refs[i] in osmNodes {
          w := w.(nodeList := w.nodeList + [refs[i]]);
        }
        i := i + 1;
      }
      assert refs[..i] == refs;
      w := SetBboxFor(w, osmNodes);
      w := w.SetCenter();
      r := AddWay(w);
    }

    /**
     * `HandlRelationRead` over an already-parsed `<relation>` element: every
     * member is kept, the ways list links the "way" members that are known,
     * the box is the union of those ways' boxes, and the relation sits at
     * the box centre.
     */
    method HandleRelationRead(id: int, attrs: map<string, string>, members: seq<Member>, tags: map<string, string>)
      returns (r: Result<(), DuplicateId>)
      requires Valid()
      modifies this
      ensures Valid()
      ensures r.Ok? <==> id !in old(osmRelations)
      ensures r.Ok? ==> osmRelations == old(osmRelations)[id := LinkRelation(id, attrs, members, tags, osmWays)]
      ensures r.Err? ==> r.error == DuplicateRelation(id) && osmRelations == old(osmRelations)
      ensures r.Ok? ==> relationOrder == old(relationOrder) + [id]
      ensures r.Err? ==> relationOrder == old(relationOrder)
      ensures old(Linked()) ==> Linked()
      ensures osmNodes == old(osmNodes) && osmWays == old(osmWays)
      ensures nodeOrder == old(nodeOrder) && wayOrder == old(wayOrder)
    {
      var kept, ids := LinkMembers(members, osmWays);
      var box := UnionWayBoxes(ids, osmWays);
      var rel := NewRelation(id).(attrs := attrs, tags := tags, members := kept, ways := ids, bbox := box).SetCenter();
      r := AddRelation(rel);
    }
  }

  // ------------------------------------------------------- combining datasets

  /** Left-to-right union of maps. */
  function UnionAll<T>(ms: seq<map<int, T>>): map<int, T>
  {
    if ms == [] then map[] else UnionAll(ms[..|ms| - 1]) + ms[|ms| - 1]
  }

  function Flatten(ss: seq<seq<int>>): seq<int>
  {
    if ss == [] then [] else Flatten(ss[..|ss| - 1]) + ss[|ss| - 1]
  }

  predicate PairwiseDisjoint<T>(ms: seq<map<int, T>>)
  {
    forall i, j | 0 <= i < j < |ms| :: ms[i].Keys !! ms[j].Keys
  }

  lemma {:induction false} UnionAllKeys<T>(ms: seq<map<int, T>>, id: int)
    ensures id in UnionAll(ms) <==> exists k | 0 <= k < |ms| :: id in ms[k]
  {
    if ms != [] {
      var init := ms[..|ms| - 1];
      UnionAllKeys(init, id);
      if exists k | 0 <= k < |init| :: id in init[k] {
        var k :| 0 <= k < |init| && id in init[k];
        assert id in ms[k];
      }
      if exists k | 0 <= k < |ms| :: id in ms[k] {
        var k :| 0 <= k < |ms| && id in ms[k];
        if k < |ms| - 1 { assert id in init[k]; }
      }
    }
  }

  /** Adding a map to a pairwise-disjoint list keeps it so iff it misses the union so far. */
  lemma PairwiseDisjointSnoc<T>(ms: seq<map<int, T>>, m: map<int, T>)
    requires PairwiseDisjoint(ms)
    ensures PairwiseDisjoint(ms + [m]) <==> UnionAll(ms).Keys !! m.Keys
  {
    var ext := ms + [m];
    if UnionAll(ms).Keys !! m.Keys {
      forall i, j | 0 <= i < j < |ext| ensures ext[i].Keys !! ext[j].Keys {
        if j == |ms| {
          forall id | id in ext[i] ensures id !in m {
            UnionAllKeys(ms, id);
          }
        }
      }
    }
    if PairwiseDisjoint(ext) {
      forall id | id in UnionAll(ms) ensures id !in m {
        UnionAllKeys(ms, id);
        var k :| 0 <= k < |ms| && id in ms[k];
        assert ext[k].Keys !! ext[|ms|].Keys;
      }
    }
  }

  lemma PairwiseDisjointPrefix<T>(ms: seq<map<int, T>>, n: nat)
    requires n <= |ms| && !PairwiseDisjoint(ms[..n])
    ensures !PairwiseDisjoint(ms)
  {
    var i, j :| 0 <= i < j < n && !(ms[..n][i].Keys !! ms[..n][j].Keys);
    assert ms[..n][i] == ms[i] && ms[..n][j] == ms[j];
  }

  /**
   * One `foreach ... TryAdd` loop of `CombineDatasets`: adds the entries of
   * `m`, in its enumeration order, to `acc`; the first key already present is
   * returned as the error.
   */
  method TryAddAll<T>(acc: map<int, T>, accOrder: seq<int>, m: map<int, T>, order: seq<int>)
    returns (r: Result<(map<int, T>, seq<int>), int>)
    requires Enumerates(accOrder, acc) && Enumerates(order, m)
    ensures r.Ok? <==> acc.Keys !! m.Keys
    ensures r.Ok? ==> r.value.0 == acc + m && r.value.1 == accOrder + order
    ensures r.Ok? ==> Enumerates(r.value.1, r.value.0)
    ensures r.Err? ==> r.error in acc && r.error in m
  {
    var cur, curOrder := acc, accOrder;
    var i := 0;
    while i < |order|
      invariant 0 <= i <= |order|
      invariant forall k :: k in cur <==> k in acc || k in order[..i]
      invariant forall k | k in cur :: cur[k] == if k in acc then acc[k] else m[k]
      invariant curOrder == accOrder + order[..i]
      invariant forall k | k in order[..i] :: k !in acc
      invariant Enumerates(curOrder, cur)
    {
      var id := order[i];
      assert order[..i + 1] == order[..i] + [id];
      if id in cur {
        return Err(id);
      }
      AppendEnumerates(curOrder, cur, id, m[id]);
      cur := cur[id := m[id]];
      curOrder := curOrder + [id];
      i := i + 1;
    }
    assert order[..i] == order;
    LoopUnion(acc, m, order, cur);
    r := Ok((cur, curOrder));
  }

  /** The map the loop of `TryAddAll` builds is the disjoint union. */
  lemma LoopUnion<T>(acc: map<int, T>, m: map<int, T>, order: seq<int>, cur: map<int, T>)
    requires Enumerates(order, m)
    requires forall k :: k in cur <==> k in acc || k in order
    requires forall k | k in cur :: cur[k] == if k in acc then acc[k] else m[k]
    requires forall k | k in order :: k !in acc
    ensures cur == acc + m && acc.Keys !! m.Keys
  {
    forall k ensures k in order <==> k in m {
      if k in order { var j :| 0 <= j < |order| && order[j] == k; }
    }
    forall k | k in cur ensures k in acc + m && cur[k] == (acc + m)[k] {
    }
  }

  /** `acc` and `accOrder` hold the first `n` maps of one kind, combined without a clash. */
  ghost predicate Combined<T>(ms: seq<map<int, T>>, os: seq<seq<int>>, n: nat,
                              acc: map<int, T>, accOrder: seq<int>, idOf: T -> int)
    requires n <= |ms| == |os|
  {
    acc == UnionAll(ms[..n]) && accOrder == Flatten(os[..n]) && PairwiseDisjoint(ms[..n]) &&
    Enumerates(accOrder, acc) && KeyedById(acc, idOf)
  }

  /**
   * One of the `TryAdd` loops of `CombineDatasets`, for one kind and the
   * dataset at position `i`, stated against the whole list of that kind's
   * maps `ms` and enumeration orders `os`.
   */
  method AddDataset<T>(ghost ms: seq<map<int, T>>, ghost os: seq<seq<int>>, i: nat,
                       acc: map<int, T>, accOrder: seq<int>, m: map<int, T>, order: seq<int>, idOf: T -> int)
    returns (r: Result<(map<int, T>, seq<int>), int>)
    requires i < |ms| == |os| && ms[i] == m && os[i] == order
    requires Combined(ms, os, i, acc, accOrder, idOf)
    requires Enumerates(order, m) && KeyedById(m, idOf)
    ensures r.Err? ==> !PairwiseDisjoint(ms)
    ensures r.Err? ==> r.error in ms[i] && exists k | 0 <= k < i :: r.error in ms[k]
    ensures r.Ok? ==> Combined(ms, os, i + 1, r.value.0, r.value.1, idOf)
  {
    assert ms[..i + 1] == ms[..i] + [m] && os[..i + 1][..i] == os[..i];
    PairwiseDisjointSnoc(ms[..i], m);
    r := TryAddAll(acc, accOrder, m, order);
    if r.Err? {
      PairwiseDisjointPrefix(ms, i + 1);
      UnionAllKeys(ms[..i], r.error);
      ghost var k :| 0 <= k < i && r.error in ms[..i][k];
      assert ms[..i][k] == ms[k];
    }
  }

  /** The dictionaries of each listed dataset, as values. */
  function Snapshots(list: seq<OSMDataset>): (ts: seq<Tables>)
    reads list
    ensures |ts| == |list|
    ensures forall k | 0 <= k < |list| :: ts[k] == list[k].Snapshot()
  {
    if list == [] then [] else Snapshots(list[..|list| - 1]) + [list[|list| - 1].Snapshot()]
  }

  function NodeMaps(ts: seq<Tables>): (r: seq<map<int, Node>>)
    ensures |r| == |ts| && forall k | 0 <= k < |ts| :: r[k] == ts[k].nodes
  {
    seq(|ts|, k requires 0 <= k < |ts| => ts[k].nodes)
  }

  function WayMaps(ts: seq<Tables>): (r: seq<map<int, Way>>)
    ensures |r| == |ts| && forall k | 0 <= k < |ts| :: r[k] == ts[k].ways
  {
    seq(|ts|, k requires 0 <= k < |ts| => ts[k].ways)
  }

  function RelationMaps(ts: seq<Tables>): (r: seq<map<int, Relation>>)
    ensures |r| == |ts| && forall k | 0 <= k < |ts| :: r[k] == ts[k].relations
  {
    seq(|ts|, k requires 0 <= k < |ts| => ts[k].relations)
  }

  function NodeOrders(ts: seq<Tables>): (r: seq<seq<int>>)
    ensures |r| == |ts| && forall k | 0 <= k < |ts| :: r[k] == ts[k].nodeOrder
  {
    seq(|ts|, k requires 0 <= k < |ts| => ts[k].nodeOrder)
  }

  function WayOrders(ts: seq<Tables>): (r: seq<seq<int>>)
    ensures |r| == |ts| && forall k | 0 <= k < |ts| :: r[k] == ts[k].wayOrder
  {
    seq(|ts|, k requires 0 <= k < |ts| => ts[k].wayOrder)
  }

  function RelationOrders(ts: seq<Tables>): (r: seq<seq<int>>)
    ensures |r| == |ts| && forall k | 0 <= k < |ts| :: r[k] == ts[k].relationOrder
  {
    seq(|ts|, k requires 0 <= k < |ts| => ts[k].relationOrder)
  }

  /** No node id, way id or relation id is held by two of the datasets. */
  ghost predicate IdsDisjoint(ts: seq<Tables>)
  {
    PairwiseDisjoint(NodeMaps(ts)) && PairwiseDisjoint(WayMaps(ts)) && PairwiseDisjoint(RelationMaps(ts))
  }

  /** The union of the tables' dictionaries and the concatenation of their orders. */
  function UnionOfTables(ts: seq<Tables>): Tables
  {
    Tables(UnionAll(NodeMaps(ts)), UnionAll(WayMaps(ts)), UnionAll(RelationMaps(ts)),
           Flatten(NodeOrders(ts)), Flatten(WayOrders(ts)), Flatten(RelationOrders(ts)))
  }

  /** A dataset's three dictionaries with their enumeration orders, as a value. */
  datatype Tables = Tables(nodes: map<int, Node>, ways: map<int, Way>, relations: map<int, Relation>,
                           nodeOrder: seq<int>, wayOrder: seq<int>, relationOrder: seq<int>)
  {
    ghost predicate Valid()
    {
      Enumerates(nodeOrder, nodes) && Enumerates(wayOrder, ways) && Enumerates(relationOrder, relations) &&
      KeyedById(nodes, NodeId) && KeyedById(ways, WayId) && KeyedById(relations, RelationId)
    }

    /** Every way's nodes and every relation's ways are present. */
    ghost predicate Linked()
    {
      (forall id | id in ways :: AllIn(ways[id].nodeList, nodes)) &&
      (forall id | id in relations :: AllIn(relations[id].ways, ways))
    }
  }

  /** `t` holds the first `n` datasets of `list`, combined kind by kind without a clash. */
  ghost predicate CombinedPrefix(list: seq<Tables>, n: nat, t: Tables)
    requires n <= |list|
  {
    Combined(NodeMaps(list), NodeOrders(list), n, t.nodes, t.nodeOrder, NodeId) &&
    Combined(WayMaps(list), WayOrders(list), n, t.ways, t.wayOrder, WayId) &&
    Combined(RelationMaps(list), RelationOrders(list), n, t.relations, t.relationOrder, RelationId)
  }

  /** The id the error names is held, in its kind, by two of the datasets. */
  ghost predicate HeldTwice(list: seq<Tables>, e: DuplicateId)
  {
    match e
    case DuplicateNode(x) => exists i, j | 0 <= i < j < |list| :: x in list[i].nodes && x in list[j].nodes
    case DuplicateWay(x) => exists i, j | 0 <= i < j < |list| :: x in list[i].ways && x in list[j].ways
    case DuplicateRelation(x) => exists i, j | 0 <= i < j < |list| :: x in list[i].relations && x in list[j].relations
  }

  /** One pass of the loop of `CombineDatasets`: adds the dataset at position `i`. */
  method AddTables(list: seq<Tables>, i: nat, t: Tables) returns (r: Result<Tables, DuplicateId>)
    requires i < |list| && list[i].Valid() && CombinedPrefix(list, i, t)
    ensures r.Err? ==> !IdsDisjoint(list) && HeldTwice(list, r.error)
    ensures r.Ok? ==> CombinedPrefix(list, i + 1, r.value)
  {
    var d := list[i];
    var rn := AddDataset(NodeMaps(list), NodeOrders(list), i, t.nodes, t.nodeOrder, d.nodes, d.nodeOrder, NodeId);
    if rn.Err? {
      return Err(DuplicateNode(rn.error));
    }
    var rw := AddDataset(WayMaps(list), WayOrders(list), i, t.ways, t.wayOrder, d.ways, d.wayOrder, WayId);
    if rw.Err? {
      return Err(DuplicateWay(rw.error));
    }
    var rr := AddDataset(RelationMaps(list), RelationOrders(list), i, t.relations, t.relationOrder,
                         d.relations, d.relationOrder, RelationId);
    if rr.Err? {
      return Err(DuplicateRelation(rr.error));
    }
    r := Ok(Tables(rn.value.0, rw.value.0, rr.value.0, rn.value.1, rw.value.1, rr.value.1));
  }

  /**
   * The loops of `CombineDatasets`: the union of the datasets' dictionaries.
   * Any id of one kind held by two of the datasets is an error, although the
   * program's doc-comment says there is no check.
   */
  method CombineTables(list: seq<Tables>) returns (r: Result<Tables, DuplicateId>)
    requires forall k | 0 <= k < |list| :: list[k].Valid()
    ensures r.Ok? <==> IdsDisjoint(list)
    ensures r.Err? ==> HeldTwice(list, r.error)
    ensures r.Ok? ==> r.value.Valid()
    ensures r.Ok? ==> r.value.nodes == UnionAll(NodeMaps(list)) && r.value.nodeOrder == Flatten(NodeOrders(list))
    ensures r.Ok? ==> r.value.ways == UnionAll(WayMaps(list)) && r.value.wayOrder == Flatten(WayOrders(list))
    ensures r.Ok? ==> r.value.relations == UnionAll(RelationMaps(list))
    ensures r.Ok? ==> r.value.relationOrder == Flatten(RelationOrders(list))
  {
    var t := Tables(map[], map[], map[], [], [], []);
    var i := 0;
    while i < |list|
      invariant 0 <= i <= |list|
      invariant CombinedPrefix(list, i, t)
    {
      var step := AddTables(list, i, t);
      if step.Err? {
        return Err(step.error);
      }
      t := step.value;
      i := i + 1;
    }
    assert NodeMaps(list)[..i] == NodeMaps(list) && WayMaps(list)[..i] == WayMaps(list);
    assert RelationMaps(list)[..i] == RelationMaps(list) && NodeOrders(list)[..i] == NodeOrders(list);
    assert WayOrders(list)[..i] == WayOrders(list) && RelationOrders(list)[..i] == RelationOrders(list);
    r := Ok(t);
  }

  /** `CombineDatasets`: a new dataset holding the union of the datasets' dictionaries. */
  method CombineDatasets(list: seq<OSMDataset>) returns (r: Result<OSMDataset, DuplicateId>)
    requires forall k | 0 <= k < |list| :: list[k].Valid()
    ensures r.Ok? <==> IdsDisjoint(Snapshots(list))
    ensures r.Err? ==> HeldTwice(Snapshots(list), r.error)
    ensures r.Ok? ==> fresh(r.value) && r.value.Valid()
    ensures r.Ok? ==> r.value.Snapshot() == UnionOfTables(Snapshots(list))
  {
    var ts := Snapshots(list);
    var t := CombineTables(ts);
    if t.Err? {
      return Err(t.error);
    }
    var merged := new OSMDataset.FromParts(t.value);
    r := Ok(merged);
    assert Snapshots(list) == ts;
  }

  // ---------------------------------------------------------------- lemmas

  /** A linked way keeps exactly the refs that name a known node. */
  lemma {:induction false} PresentRefsMembers(refs: seq<int>, nodes: map<int, Node>, x: int)
    ensures x in PresentRefs(refs, nodes) <==> x in refs && x in nodes
  {
    if refs != [] {
      var init := refs[..|refs| - 1];
      PresentRefsMembers(init, nodes, x);
      assert refs == init + [refs[|refs| - 1]];
    }
  }

  /** Skipping unknown refs keeps the order of the rest: it distributes over concatenation. */
  lemma {:induction false} PresentRefsAppend(a: seq<int>, b: seq<int>, nodes: map<int, Node>)
    ensures PresentRefs(a + b, nodes) == PresentRefs(a, nodes) + PresentRefs(b, nodes)
    decreases |b|
  {
    if b == [] {
      assert a + b == a;
    } else {
      var bi := b[..|b| - 1];
      PresentRefsAppend(a, bi, nodes);
      assert (a + b)[..|a + b| - 1] == a + bi;
    }
  }

  /** When every ref is known, the node list is the ref list. */
  lemma {:induction false} PresentRefsAllKnown(refs: seq<int>, nodes: map<int, Node>)
    requires AllIn(refs, nodes)
    ensures PresentRefs(refs, nodes) == refs
  {
    if refs != [] {
      var init := refs[..|refs| - 1];
      assert AllIn(init, nodes) by {
        forall k | 0 <= k < |init| ensures init[k] in nodes { assert init[k] == refs[k]; }
      }
      PresentRefsAllKnown(init, nodes);
      assert refs == init + [refs[|refs| - 1]];
    }
  }

  /** A relation links exactly the "way" members whose way is known. */
  lemma {:induction false} PresentWaysMembers(members: seq<Member>, ways: map<int, Way>, x: int)
    ensures x in PresentWays(members, ways) <==>
            x in ways && exists k | 0 <= k < |members| :: members[k].memberType == "way" && members[k].ref == x
  {
    if members != [] {
      var init := members[..|members| - 1];
      PresentWaysMembers(init, ways, x);
      if exists k | 0 <= k < |init| :: init[k].memberType == "way" && init[k].ref == x {
        var k :| 0 <= k < |init| && init[k].memberType == "way" && init[k].ref == x;
        assert members[k] == init[k];
      }
      if exists k | 0 <= k < |members| :: members[k].memberType == "way" && members[k].ref == x {
        var k :| 0 <= k < |members| && members[k].memberType == "way" && members[k].ref == x;
        if k < |members| - 1 { assert init[k] == members[k]; }
      }
    }
  }

  /** The box of a relation covers the box of every way it links. */
  lemma {:induction false} WaysBoxCovers(ids: seq<int>, ways: map<int, Way>)
    requires AllIn(ids, ways)
    ensures forall k | 0 <= k < |ids| :: WaysBox(ids, ways).Covers(ways[ids[k]].bbox)
  {
    if ids != [] {
      var init := ids[..|ids| - 1];
      assert AllIn(init, ways) by {
        forall k | 0 <= k < |init| ensures init[k] in ways { assert init[k] == ids[k]; }
      }
      WaysBoxCovers(init, ways);
      forall k | 0 <= k < |ids| ensures WaysBox(ids, ways).Covers(ways[ids[k]].bbox) {
        if k < |ids| - 1 { assert ids[k] == init[k]; }
      }
    }
  }

  /** A linked relation sits at the centre of a box covering all of its linked ways' boxes. */
  lemma LinkRelationBox(id: int, attrs: map<string, string>, members: seq<Member>, tags: map<string, string>,
                        ways: map<int, Way>, w: int)
    requires w in LinkRelation(id, attrs, members, tags, ways).ways
    ensures w in ways
    ensures LinkRelation(id, attrs, members, tags, ways).bbox.Covers(ways[w].bbox)
  {
    var ids := PresentWays(members, ways);
    var k :| 0 <= k < |ids| && ids[k] == w;
    WaysBoxCovers(ids, ways);
  }

  /** A linked way holds only known nodes, and its box covers each of them. */
  lemma LinkWayCovers(id: int, attrs: map<string, string>, refs: seq<int>, tags: map<string, string>,
                      nodes: map<int, Node>, k: int)
    requires 0 <= k < |LinkWay(id, attrs, refs, tags, nodes).nodeList|
    ensures LinkWay(id, attrs, refs, tags, nodes).nodeList[k] in nodes
    ensures var w := LinkWay(id, attrs, refs, tags, nodes);
      w.bbox.ClosedContains(nodes[w.nodeList[k]].lat, nodes[w.nodeList[k]].lon)
  {
    var w := NewWay(id).(attrs := attrs, tags := tags, nodeList := PresentRefs(refs, nodes));
    SetBboxForCovers(w, nodes);
  }

  /**
   * When no id is held twice, every entity of every input sits unchanged in
   * the combined dataset, and the combined dataset holds nothing else.
   */
  lemma {:induction false} UnionAllPick<T>(ms: seq<map<int, T>>, k: int, id: int)
    requires PairwiseDisjoint(ms) && 0 <= k < |ms| && id in ms[k]
    ensures id in UnionAll(ms) && UnionAll(ms)[id] == ms[k][id]
  {
    var n := |ms| - 1;
    var init := ms[..n];
    assert PairwiseDisjoint(init) by {
      forall i, j | 0 <= i < j < |init| ensures init[i].Keys !! init[j].Keys {
        assert init[i] == ms[i] && init[j] == ms[j];
      }
    }
    if k < n {
      assert init[k] == ms[k];
      UnionAllPick(init, k, id);
      assert ms[k].Keys !! ms[n].Keys;
    }
  }

  // ------------------------------------------------------------ removal

  /** The values of `m` listed by `order`: a dictionary's `Values`. */
  function InOrder<T>(order: seq<int>, m: map<int, T>): (vs: seq<T>)
    requires AllIn(order, m)
    ensures |vs| == |order| && forall i | 0 <= i < |order| :: order[i] in m && vs[i] == m[order[i]]
  {
    seq(|order|, i requires 0 <= i < |order| => m[order[i]])
  }

  function IdsOf(ns: seq<Node>): set<int>
  {
    set n | n in ns :: n.id
  }

  /** `osmNodes.Remove` of each id. */
  function WithoutNodes(t: Tables, ids: set<int>): Tables
  {
    t.(nodes := t.nodes - ids, nodeOrder := Except(t.nodeOrder, ids))
  }

  lemma WithoutNodesNothing(t: Tables)
    ensures WithoutNodes(t, {}) == t
  {
    ExceptNothing(t.nodeOrder);
  }

  /** Removing two sets of nodes one after the other removes their union. */
  lemma WithoutNodesTwice(t: Tables, a: set<int>, c: set<int>)
    ensures WithoutNodes(WithoutNodes(t, a), c) == WithoutNodes(t, a + c)
  {
    ExceptTwice(t.nodeOrder, a, c);
    assert t.nodes - a - c == t.nodes - (a + c);
  }

  lemma WithoutNodesValid(t: Tables, ids: set<int>)
    requires t.Valid()
    ensures WithoutNodes(t, ids).Valid()
  {
    ExceptEnumerates(t.nodeOrder, t.nodes, ids);
    assert t.nodes - ids == map k | k in t.nodes && k !in ids :: t.nodes[k];
  }

  /** `osmWays.Remove` of each id. */
  function WithoutWays(t: Tables, ids: set<int>): Tables
  {
    t.(ways := t.ways - ids, wayOrder := Except(t.wayOrder, ids))
  }

  lemma WithoutWaysNothing(t: Tables)
    ensures WithoutWays(t, {}) == t
  {
    ExceptNothing(t.wayOrder);
  }

  /** Removing two sets of ways one after the other removes their union. */
  lemma WithoutWaysTwice(t: Tables, a: set<int>, c: set<int>)
    ensures WithoutWays(WithoutWays(t, a), c) == WithoutWays(t, a + c)
  {
    ExceptTwice(t.wayOrder, a, c);
    assert t.ways - a - c == t.ways - (a + c);
  }

  /**
   * The first relation of `order` that lists a way `ways` does not hold;
   * none exactly when every relation of `order` has all its ways present.
   */
  function FirstUnlinked(order: seq<int>, relations: map<int, Relation>, ways: map<int, Way>): (r: Option<int>)
    requires AllIn(order, relations)
    ensures r.None? <==> forall k | 0 <= k < |order| :: AllIn(relations[order[k]].ways, ways)
    ensures r.Some? ==> r.value in order && !AllIn(relations[r.value].ways, ways)
  {
    if order == [] then None
    else if !AllIn(relations[order[0]].ways, ways) then Some(order[0])
    else
      var r := FirstUnlinked(order[1..], relations, ways);
      assert forall k | 1 <= k < |order| :: order[k] == order[1..][k - 1];
      r
  }

  /** In a well-formed dataset, checking the relations in order checks them all. */
  lemma RelationsLinkedIff(t: Tables, ways: map<int, Way>)
    requires t.Valid()
    ensures FirstUnlinked(t.relationOrder, t.relations, ways).None? <==>
            forall id | id in t.relations :: AllIn(t.relations[id].ways, ways)
  {
    if FirstUnlinked(t.relationOrder, t.relations, ways).None? {
      forall id | id in t.relations ensures AllIn(t.relations[id].ways, ways) {
        var k :| 0 <= k < |t.relationOrder| && t.relationOrder[k] == id;
      }
    }
  }

  /** `osmRelations.Remove` of each id. */
  function WithoutRelations(t: Tables, ids: set<int>): Tables
  {
    t.(relations := t.relations - ids, relationOrder := Except(t.relationOrder, ids))
  }

  lemma WithoutRelationsNothing(t: Tables)
    ensures WithoutRelations(t, {}) == t
  {
    ExceptNothing(t.relationOrder);
  }

  /** Removing two sets of relations one after the other removes their union. */
  lemma WithoutRelationsTwice(t: Tables, a: set<int>, c: set<int>)
    ensures WithoutRelations(WithoutRelations(t, a), c) == WithoutRelations(t, a + c)
  {
    ExceptTwice(t.relationOrder, a, c);
    assert t.relations - a - c == t.relations - (a + c);
  }

  lemma WithoutWaysValid(t: Tables, ids: set<int>)
    requires t.Valid()
    ensures WithoutWays(t, ids).Valid()
  {
    ExceptEnumerates(t.wayOrder, t.ways, ids);
    assert t.ways - ids == map k | k in t.ways && k !in ids :: t.ways[k];
  }

  lemma WithoutRelationsValid(t: Tables, ids: set<int>)
    requires t.Valid()
    ensures WithoutRelations(t, ids).Valid()
  {
    ExceptEnumerates(t.relationOrder, t.relations, ids);
    assert t.relations - ids == map k | k in t.relations && k !in ids :: t.relations[k];
  }
}

=== FILE: osm_type.dfy ===
/**
 * The OSM entity records: nodes, ways, relations and their bounding boxes.
 *
 * Entities are values here. A way refers to its nodes and a relation to its
 * ways by id, and a dataset (module OSMDataset) stores each entity once under
 * its id, so two ways that share a node object in the program share a node id
 * in the model, and moving that node is seen through both.
 */
module OSMType {

  /** Tag and attribute keys the merge reads and writes. */
  const HouseNumber := "addr:housenumber"
  const Street := "addr:street"
  const Unit := "addr:unit"
  const Action := "action"

  function Abs(x: real): real { if x < 0.0 then -x else x }

  /** Every id of the list is a key of the map. */
  predicate AllIn<T>(ids: seq<int>, m: map<int, T>)
  {
    forall k | 0 <= k < |ids| :: ids[k] in m
  }

  /** A latitude/longitude pair. */
  datatype Coord = Coord(lat: real, lon: real)

  /**
   * `Coordinate.GreatCircleDistance`, which `GreatCircleDistance` on an
   * entity calls with its own position first: metres from the first
   * position to the second. Its trigonometry is not part of this model.
   */
  type ArcFn = (Coord, Coord) -> real

  /**
   * An axis-aligned latitude/longitude box. A fresh box is "inverted": its
   * minimum is above its maximum, so that the first union with a point or
   * box replaces it.
   */
  datatype BBox = BBox(minLat: real, maxLat: real, minLon: real, maxLon: real)
  {
    /** Min above max on both axes: the box holds no point. */
    predicate IsInverted() { minLat > maxLat && minLon > maxLon }

    /** Min not above max on both axes. */
    predicate IsProper() { minLat <= maxLat && minLon <= maxLon }

    /** Closed containment of a point (both edges included). */
    predicate ClosedContains(lat: real, lon: real)
    {
      minLat <= lat <= maxLat && minLon <= lon <= maxLon
    }

    /** Closed containment of a box. */
    predicate Covers(other: BBox)
    {
      minLat <= other.minLat && other.maxLat <= maxLat &&
      minLon <= other.minLon && other.maxLon <= maxLon
    }
  }

  /** `new BBox()`: the sentinel box 999 / -999. */
  function EmptyBBox(): (b: BBox)
    ensures b.IsInverted()
    ensures b.minLat == b.minLon == 999.0 && b.maxLat == b.maxLon == -999.0
    ensures forall lat: real, lon: real :: !b.ClosedContains(lat, lon)
  {
    BBox(999.0, -999.0, 999.0, -999.0)
  }

  /** A relation member: type ("way", "node", ...), referenced id and role. */
  datatype Member = Member(memberType: string, ref: int, role: string)

  datatype Node = Node(id: int, lat: real, lon: real,
                       tags: map<string, string>, attrs: map<string, string>,
                       isUsed: bool)
  {
    function Position(): Coord { Coord(lat, lon) }
  }

  /** A way lists its nodes by id, in order. */
  datatype Way = Way(id: int, lat: real, lon: real,
                     tags: map<string, string>, attrs: map<string, string>,
                     nodeList: seq<int>, bbox: BBox, isUsed: bool)
  {
    /** Puts the way's position at the midpoint of its box. */
    function SetCenter(): (r: Way)
      ensures r == this.(lat := r.lat, lon := r.lon)
      ensures r.lat - bbox.minLat == bbox.maxLat - r.lat
      ensures r.lon - bbox.minLon == bbox.maxLon - r.lon
      ensures bbox.IsProper() ==> bbox.ClosedContains(r.lat, r.lon)
    {
      this.(lat := (bbox.maxLat + bbox.minLat) / 2.0,
            lon := (bbox.maxLon + bbox.minLon) / 2.0)
    }
  }

  /** A relation lists its linked member ways by id, in order. */
  datatype Relation = Relation(id: int, lat: real, lon: real,
                               tags: map<string, string>, attrs: map<string, string>,
                               ways: seq<int>, members: seq<Member>, bbox: BBox)
  {
    /** Puts the relation's position at the midpoint of its box. */
    function SetCenter(): (r: Relation)
      ensures r == this.(lat := r.lat, lon := r.lon)
      ensures r.lat - bbox.minLat == bbox.maxLat - r.lat
      ensures r.lon - bbox.minLon == bbox.maxLon - r.lon
      ensures bbox.IsProper() ==> bbox.ClosedContains(r.lat, r.lon)
    {
      this.(lat := (bbox.maxLat + bbox.minLat) / 2.0,
            lon := (bbox.maxLon + bbox.minLon) / 2.0)
    }
  }

  /** `new OSMNode(id, lat, lon)`. */
  function NewNode(id: int, lat: real, lon: real): (n: Node)
    ensures n.id == id && n.Position() == Coord(lat, lon)
    ensures n.tags == map[] && n.attrs == map[] && !n.isUsed
  {
    Node(id, lat, lon, map[], map[], false)
  }

  /** `new OSMWay()` followed by setting its ID. */
  function NewWay(id: int): (w: Way)
    ensures w.id == id && w.nodeList == [] && w.bbox.IsInverted()
    ensures w.tags == map[] && w.attrs == map[] && !w.isUsed
  {
    Way(id, 0.0, 0.0, map[], map[], [], EmptyBBox(), false)
  }

  /** `new OSMRelation()` followed by setting its ID; its box is assigned later. */
  function NewRelation(id: int): (r: Relation)
    ensures r.id == id && r.ways == [] && r.members == []
    ensures r.tags == map[] && r.attrs == map[]
  {
    Relation(id, 0.0, 0.0, map[], map[], [], [], EmptyBBox())
  }

  /** Two positions coincide to within 1e-9 degrees on both axes. */
  predicate LocatedAt(a: Coord, b: Coord)
  {
    Abs(a.lat - b.lat) < 0.000000001 && Abs(a.lon - b.lon) < 0.000000001
  }

  lemma LocatedAtSymmetric(a: Coord, b: Coord)
    ensures LocatedAt(a, b) <==> LocatedAt(b, a)
  {
  }

  lemma LocatedAtReflexive(a: Coord)
    ensures LocatedAt(a, a)
  {
  }
}

=== FILE: read_ms_buildings.dfy ===
/**
 * Reading Microsoft building footprints (`ReadMSBuildings.ReadGeoJSON`).
 *
 * Every feature of the GeoJSON file becomes a way tagged building=yes over
 * fresh nodes; the way and its nodes enter the new dataset when the way's
 * first node lies inside the clip boundary. Way ids and node ids are issued
 * downward from -2000000, one node id per position read, so buildings never
 * collide with ids from the OSM server.
 *
 * The JSON stream is not modelled: a feature arrives as its polygon's rings,
 * a ring as its positions, a position as its list of numbers.
 */
module MSBuildings {
  import opened Wrappers
  import opened OSMType
  import opened SpatialUtilities
  import opened Datasets
  import opened ClipBoundaries

  /** A GeoJSON position: longitude first, then latitude (section 3.1.1 of RFC 7946). */
  type Position = seq<real>

  /** A polygon feature's coordinates: its rings, each a list of positions. */
  type Feature = seq<seq<Position>>

  /** The boundary test applied to a way's first node. */
  type Inside = Coord -> bool

  /** `ToString()` of an id and of a coordinate, as written into the attributes. */
  datatype Format = Format(ofId: int -> string, ofReal: real -> string)

  datatype ReadError =
    | ShortPosition              // a position with fewer than two numbers: indexing it throws
    | EmptyGeometry              // a feature without positions: `way.NodeList[0]` throws
    | Boundary(error: RingError) // the clip boundary could not be built

  /** The first way id and the first node id issued. */
  const FirstId: int := -2000000

  /** How close, in degrees on both axes, a position must be to the first node to be taken for it. */
  const Epsilon: real := 0.0000000001

  /** The positions of all rings, ring after ring. */
  function Flat(f: Feature): seq<Position>
    decreases |f|
  {
    if f == [] then [] else Flat(f[..|f| - 1]) + f[|f| - 1]
  }

  /** The node ids a sequence of features consumes: one per position. */
  function Count(fs: seq<Feature>): nat
    decreases |fs|
  {
    if fs == [] then 0 else |Flat(fs[0])| + Count(fs[1..])
  }

  /** The node ids the first i features consume. */
  function Skipped(fs: seq<Feature>, i: nat): nat
    requires i <= |fs|
    decreases i
  {
    if i == 0 then 0 else |Flat(fs[0])| + Skipped(fs[1..], i - 1)
  }

  /** Every position holds a longitude and a latitude. */
  predicate Readable(ps: seq<Position>)
  {
    forall k | 0 <= k < |ps| :: |ps[k]| >= 2
  }

  /** The coordinates of the positions. */
  function Coords(ps: seq<Position>): (cs: seq<Coord>)
    requires Readable(ps)
    ensures |cs| == |ps| && forall k | 0 <= k < |ps| :: cs[k] == Coord(ps[k][1], ps[k][0])
  {
    seq(|ps|, k requires 0 <= k < |ps| => Coord(ps[k][1], ps[k][0]))
  }

  /** Position `b` lies within Epsilon of `a` on both axes. */
  predicate Near(a: Coord, b: Coord)
  {
    Abs(b.lat - a.lat) < Epsilon && Abs(b.lon - a.lon) < Epsilon
  }

  /** The attributes a read node carries: its id, lat and lon written out, and visible. */
  function WithAttributes(n: Node, fmt: Format): (a: Node)
    ensures a.id == n.id && a.Position() == n.Position() && a.tags == n.tags && a.isUsed == n.isUsed
    ensures a.attrs.Keys == {"id", "lat", "lon", "visible"} && a.attrs["visible"] == "true"
  {
    n.(attrs := map["id" := fmt.ofId(n.id), "lat" := fmt.ofReal(n.lat), "lon" := fmt.ofReal(n.lon), "visible" := "true"])
  }

  /** `DuplicateNode`: the list has a first node and `n` lies within Epsilon of it. */
  function DuplicateNode(n: Node, list: seq<int>, nodes: map<int, Node>): bool
    requires |list| > 0 ==> list[0] in nodes
  {
    |list| > 0 && Abs(n.lat - nodes[list[0]].lat) < Epsilon && Abs(n.lon - nodes[list[0]].lon) < Epsilon
  }

  /** A way's node list under construction, with the nodes it created. */
  datatype Built = Built(list: seq<int>, nodes: map<int, Node>)

  /** Position k of `pts` is read as a node of its own: it is the first one, or not near the first one. */
  predicate Own(pts: seq<Coord>, k: int)
    requires 0 <= k < |pts|
  {
    k == 0 || !Near(pts[0], pts[k])
  }

  /**
   * The node list the reading loop builds from the positions `pts`, position
   * k under node id `first - k`: a position that `DuplicateNode` finds near
   * the first node appends the first node again, every other position
   * appends a node of its own.
   */
  function Build(pts: seq<Coord>, first: int): (b: Built)
    ensures |b.list| == |pts| && (|pts| > 0 ==> b.list[0] == first && first in b.nodes)
    decreases |pts|
  {
    if pts == [] then Built([], map[])
    else
      var b := Build(pts[..|pts| - 1], first);
      var n := NewNode(first - (|pts| - 1), pts[|pts| - 1].lat, pts[|pts| - 1].lon);
      if DuplicateNode(n, b.list, b.nodes) then Built(b.list + [b.list[0]], b.nodes)
      else Built(b.list + [n.id], b.nodes[n.id := n])
  }

  /** `Build` unfolded on one more position. */
  lemma BuildSnoc(pts: seq<Coord>, c: Coord, first: int)
    ensures var b := Build(pts, first); var n := NewNode(first - |pts|, c.lat, c.lon);
      Build(pts + [c], first) ==
        if DuplicateNode(n, b.list, b.nodes) then Built(b.list + [b.list[0]], b.nodes)
        else Built(b.list + [n.id], b.nodes[n.id := n])
  {
    assert (pts + [c])[..|pts|] == pts;
  }

  /**
   * Every node of the list is one of the nodes built with it, and every
   * node built sits under its own id, one of the ids issued to `pts`.
   */
  lemma {:induction false} BuildAllIn(pts: seq<Coord>, first: int)
    ensures AllIn(Build(pts, first).list, Build(pts, first).nodes)
    ensures forall id | id in Build(pts, first).nodes :: first - |pts| < id <= first && Build(pts, first).nodes[id].id == id
    decreases |pts|
  {
    if pts != [] {
      var q := pts[..|pts| - 1];
      BuildAllIn(q, first);
      assert pts == q + [pts[|q|]];
      BuildSnoc(q, pts[|q|], first);
    }
  }

  /**
   * The list in closed form: position k is node `first - k` when it is a
   * node of its own and the first node otherwise; the first node sits at
   * the first position.
   */
  lemma {:induction false} BuildIds(pts: seq<Coord>, first: int)
    ensures var b := Build(pts, first);
      (|pts| > 0 ==> first in b.nodes && b.nodes[first].Position() == pts[0]) &&
      (forall k | 0 <= k < |pts| :: b.list[k] == if Own(pts, k) then first - k else first)
    decreases |pts|
  {
    if pts != [] {
      var q := pts[..|pts| - 1];
      var b := Build(q, first);
      BuildIds(q, first);
      var n := NewNode(first - |q|, pts[|q|].lat, pts[|q|].lon);
      assert pts == q + [pts[|q|]];
      BuildSnoc(q, pts[|q|], first);
      if q != [] {
        assert q[0] == pts[0] && b.list[0] == first;
        assert DuplicateNode(n, b.list, b.nodes) <==> !Own(pts, |q|);
      }
    }
  }

  /**
   * A closing position that repeats the first one reuses the first node, and
   * no other node appears twice in the list.
   */
  lemma BuildShape(pts: seq<Coord>, first: int)
    ensures var b := Build(pts, first);
      (|pts| > 0 ==> b.list[0] == first && b.nodes[first].Position() == pts[0]) &&
      (|pts| >= 2 && Near(pts[0], pts[|pts| - 1]) ==> b.list[|pts| - 1] == b.list[0]) &&
      (forall i, j | 0 <= i < j < |b.list| && b.list[i] == b.list[j] :: b.list[j] == first)
  {
    BuildIds(pts, first);
  }

  /**
   * The loop adding a kept way's nodes: each listed node not yet in the
   * dataset is added, in list order.
   */
  function AddNodes(t: Tables, list: seq<int>, nodes: map<int, Node>, fmt: Format): (r: Tables)
    requires AllIn(list, nodes)
    ensures r.ways == t.ways && r.relations == t.relations
    ensures r.wayOrder == t.wayOrder && r.relationOrder == t.relationOrder
    decreases |list|
  {
    if list == [] then t
    else
      var id := list[0];
      var t' := if id in t.nodes then t else t.(nodes := t.nodes[id := WithAttributes(nodes[id], fmt)], nodeOrder := t.nodeOrder + [id]);
      AddNodes(t', list[1..], nodes, fmt)
  }

  /**
   * After adding, every listed node is present; the dataset's own nodes are
   * untouched and every other node is a listed one, with its attributes.
   */
  lemma {:induction false} AddNodesNodes(t: Tables, list: seq<int>, nodes: map<int, Node>, fmt: Format)
    requires AllIn(list, nodes)
    ensures AllIn(list, AddNodes(t, list, nodes, fmt).nodes)
    ensures forall id | id in t.nodes ::
      id in AddNodes(t, list, nodes, fmt).nodes && AddNodes(t, list, nodes, fmt).nodes[id] == t.nodes[id]
    ensures forall id | id in AddNodes(t, list, nodes, fmt).nodes && id !in t.nodes ::
      id in list && id in nodes && AddNodes(t, list, nodes, fmt).nodes[id] == WithAttributes(nodes[id], fmt)
    decreases |list|
  {
    if list != [] {
      var id := list[0];
      var t' := if id in t.nodes then t else t.(nodes := t.nodes[id := WithAttributes(nodes[id], fmt)], nodeOrder := t.nodeOrder + [id]);
      AddNodesNodes(t', list[1..], nodes, fmt);
      var r := AddNodes(t', list[1..], nodes, fmt);
      forall k | 0 <= k < |list| ensures list[k] in r.nodes {
        if k > 0 { assert list[k] == list[1..][k - 1]; }
      }
      forall n | n in r.nodes && n !in t.nodes ensures n in list {
        if n in list[1..] {
          var k :| 0 <= k < |list[1..]| && list[1..][k] == n;
          assert list[k + 1] == n;
        }
      }
    }
  }

  /** Adding the nodes keeps each order enumerating its map and each node under its id. */
  lemma {:induction false} AddNodesValid(t: Tables, list: seq<int>, nodes: map<int, Node>, fmt: Format)
    requires t.Valid() && AllIn(list, nodes)
    requires forall id | id in nodes :: nodes[id].id == id
    ensures AddNodes(t, list, nodes, fmt).Valid()
    decreases |list|
  {
    if list != [] {
      var id := list[0];
      if id !in t.nodes {
        AppendEnumerates(t.nodeOrder, t.nodes, id, WithAttributes(nodes[id], fmt));
      }
      var t' := if id in t.nodes then t else t.(nodes := t.nodes[id := WithAttributes(nodes[id], fmt)], nodeOrder := t.nodeOrder + [id]);
      AddNodesValid(t', list[1..], nodes, fmt);
    }
  }

  /** The way read for a feature: tagged building=yes, its box grown over its nodes, placed at the box centre. */
  function Building(id: int, b: Built, fmt: Format): (w: Way)
    requires AllIn(b.list, b.nodes)
    ensures w.id == id && w.nodeList == b.list && !w.isUsed
  {
    var w := NewWay(id).(tags := map["building" := "yes"], attrs := map["id" := fmt.ofId(id), "visible" := "true"],
                         nodeList := b.list);
    w.(bbox := ExtendAll(w.bbox, Positions(w.nodeList, b.nodes))).SetCenter()
  }

  /** The building's box holds every one of its nodes, and it carries building=yes and its id. */
  lemma BuildingCovers(id: int, b: Built, fmt: Format)
    requires AllIn(b.list, b.nodes)
    ensures var w := Building(id, b, fmt);
      w.tags == map["building" := "yes"] && w.attrs == map["id" := fmt.ofId(id), "visible" := "true"] &&
      forall k | 0 <= k < |b.list| :: w.bbox.ClosedContains(b.nodes[b.list[k]].lat, b.nodes[b.list[k]].lon)
  {
    var w := NewWay(id).(tags := map["building" := "yes"], attrs := map["id" := fmt.ofId(id), "visible" := "true"],
                         nodeList := b.list);
    SetBboxForCovers(w, b.nodes);
  }

  /** The way read from feature `f` under way id `id`, its nodes numbered from `first` down. */
  function WayOf(f: Feature, id: int, first: int, fmt: Format): (w: Way)
    requires Readable(Flat(f))
  {
    BuildAllIn(Coords(Flat(f)), first);
    Building(id, Build(Coords(Flat(f)), first), fmt)
  }

  /**
   * One feature read into `t` under way id `wayId` and node ids from
   * `nodeId` down; `inside` tells whether a position lies within the clip
   * boundary.
   */
  function Step(inside: Inside, t: Tables, f: Feature, wayId: int, nodeId: int, fmt: Format): Result<Tables, ReadError>
  {
    var ps := Flat(f);
    if !Readable(ps) then Err(ShortPosition)
    else
      var b := Build(Coords(ps), nodeId);
      if b.list == [] then Err(EmptyGeometry)
      else if !inside(b.nodes[b.list[0]].Position()) then Ok(t)
      else
        BuildAllIn(Coords(ps), nodeId);
        Ok(AddNodes(t.(ways := t.ways[wayId := WayOf(f, wayId, nodeId, fmt)], wayOrder := t.wayOrder + [wayId]),
                    b.list, b.nodes, fmt))
  }

  /** The features read in order into `t`, way ids from `wayId` down and node ids from `nodeId` down. */
  function ReadFrom(inside: Inside, t: Tables, fs: seq<Feature>, wayId: int, nodeId: int, fmt: Format)
    : Result<Tables, ReadError>
    decreases |fs|
  {
    if fs == [] then Ok(t)
    else
      match Step(inside, t, fs[0], wayId, nodeId, fmt)
      case Err(e) => Err(e)
      case Ok(t') => ReadFrom(inside, t', fs[1..], wayId - 1, nodeId - |Flat(fs[0])|, fmt)
  }

  /** The boundary test of a clip boundary ring, as a predicate on positions: `InRing` under another name. */
  function InBoundary(ring: seq<Coord>): Inside
  {
    p => InRing(ring, p)
  }

  /** An empty dataset. */
  const NoTables := Tables(map[], map[], map[], [], [], [])

  /** The dataset read from the features, starting from an empty one. */
  function Read(inside: Inside, fs: seq<Feature>, fmt: Format): Result<Tables, ReadError>
  {
    ReadFrom(inside, NoTables, fs, FirstId, FirstId, fmt)
  }

  // ---------------------------------------------------------------- lemmas

  /** `ReadFrom` reads feature `i`, then the rest from the dataset that step leaves. */
  lemma ReadFromNext(inside: Inside, t: Tables, fs: seq<Feature>, i: int, wayId: int, nodeId: int, fmt: Format)
    requires 0 <= i < |fs|
    ensures var s := Step(inside, t, fs[i], wayId, nodeId, fmt);
      ReadFrom(inside, t, fs[i..], wayId, nodeId, fmt) ==
        if s.Err? then Err(s.error) else ReadFrom(inside, s.value, fs[i + 1..], wayId - 1, nodeId - |Flat(fs[i])|, fmt)
  {
    assert fs[i..][0] == fs[i] && fs[i..][1..] == fs[i + 1..];
  }

  /**
   * A dataset of read buildings: valid and linked, with no relations, every
   * way id above `wayId` and every node id above `nodeId`.
   */
  ghost predicate Fit(t: Tables, wayId: int, nodeId: int)
  {
    t.Valid() && t.Linked() && t.relations == map[] &&
    (forall id | id in t.ways :: wayId < id) && (forall id | id in t.nodes :: nodeId < id)
  }

  /** Adding a way under a fresh id, at the end of the way order, keeps the dataset valid. */
  lemma AddWayValid(t: Tables, w: Way)
    requires t.Valid() && w.id !in t.ways
    ensures t.(ways := t.ways[w.id := w], wayOrder := t.wayOrder + [w.id]).Valid()
  {
    AppendEnumerates(t.wayOrder, t.ways, w.id, w);
  }

  /** A list whose ids are all in `m` still has them all in a map holding every key of `m`. */
  lemma AllInGrows(ids: seq<int>, m: map<int, Node>, grown: map<int, Node>)
    requires AllIn(ids, m) && forall id | id in m :: id in grown
    ensures AllIn(ids, grown)
  {
    forall k | 0 <= k < |ids|
      ensures ids[k] in grown
    {
      var id := ids[k];
      assert id in m;
    }
  }

  /** Reading one feature keeps the dataset fit, with both id bounds moved down past the ids it issued. */
  lemma StepFit(inside: Inside, t: Tables, f: Feature, wayId: int, nodeId: int, fmt: Format)
    requires Fit(t, wayId, nodeId) && Step(inside, t, f, wayId, nodeId, fmt).Ok?
    ensures Fit(Step(inside, t, f, wayId, nodeId, fmt).value, wayId - 1, nodeId - |Flat(f)|)
  {
    var ps := Flat(f);
    var b := Build(Coords(ps), nodeId);
    BuildAllIn(Coords(ps), nodeId);
    if inside(b.nodes[b.list[0]].Position()) {
      var w := WayOf(f, wayId, nodeId, fmt);
      var t1 := t.(ways := t.ways[wayId := w], wayOrder := t.wayOrder + [wayId]);
      AddWayValid(t, w);
      AddNodesValid(t1, b.list, b.nodes, fmt);
      AddNodesNodes(t1, b.list, b.nodes, fmt);
      var r := AddNodes(t1, b.list, b.nodes, fmt);
      forall id | id in r.ways
        ensures AllIn(r.ways[id].nodeList, r.nodes)
      {
        if id != wayId {
          AllInGrows(t.ways[id].nodeList, t.nodes, r.nodes);
        }
      }
    }
  }

  /** Reading any number of features keeps the dataset fit. */
  lemma {:induction false} ReadFromFit(inside: Inside, t: Tables, fs: seq<Feature>, wayId: int, nodeId: int,
                                       fmt: Format)
    requires Fit(t, wayId, nodeId) && ReadFrom(inside, t, fs, wayId, nodeId, fmt).Ok?
    ensures Fit(ReadFrom(inside, t, fs, wayId, nodeId, fmt).value, wayId - |fs|, nodeId - Count(fs))
    decreases |fs|
  {
    if fs != [] {
      StepFit(inside, t, fs[0], wayId, nodeId, fmt);
      var t' := Step(inside, t, fs[0], wayId, nodeId, fmt).value;
      ReadFromFit(inside, t', fs[1..], wayId - 1, nodeId - |Flat(fs[0])|, fmt);
    }
  }

  /**
   * Every node of `t` is listed by one of its ways: the nodes of a way left
   * outside the boundary are never added.
   */
  ghost predicate NoStray(t: Tables)
  {
    forall id | id in t.nodes :: exists w | w in t.ways :: id in t.ways[w].nodeList
  }

  /** Reading one feature adds nodes only together with the way that lists them. */
  lemma StepNoStray(inside: Inside, t: Tables, f: Feature, wayId: int, nodeId: int, fmt: Format)
    requires Step(inside, t, f, wayId, nodeId, fmt).Ok? && wayId !in t.ways && NoStray(t)
    ensures NoStray(Step(inside, t, f, wayId, nodeId, fmt).value)
  {
    var ps := Flat(f);
    var b := Build(Coords(ps), nodeId);
    if inside(b.nodes[b.list[0]].Position()) {
      BuildAllIn(Coords(ps), nodeId);
      var t1 := t.(ways := t.ways[wayId := WayOf(f, wayId, nodeId, fmt)], wayOrder := t.wayOrder + [wayId]);
      AddNodesNodes(t1, b.list, b.nodes, fmt);
      var r := AddNodes(t1, b.list, b.nodes, fmt);
      forall id | id in r.nodes
        ensures exists w | w in r.ways :: id in r.ways[w].nodeList
      {
        if id in t.nodes {
          var w :| w in t.ways && id in t.ways[w].nodeList;
          assert r.ways[w] == t.ways[w];
        } else {
          assert r.ways[wayId].nodeList == b.list;
        }
      }
    }
  }

  /** Reading any number of features keeps every node on a way. */
  lemma {:induction false} ReadFromNoStray(inside: Inside, t: Tables, fs: seq<Feature>, wayId: int, nodeId: int,
                                           fmt: Format)
    requires Fit(t, wayId, nodeId) && NoStray(t) && ReadFrom(inside, t, fs, wayId, nodeId, fmt).Ok?
    ensures NoStray(ReadFrom(inside, t, fs, wayId, nodeId, fmt).value)
    decreases |fs|
  {
    if fs != [] {
      StepFit(inside, t, fs[0], wayId, nodeId, fmt);
      StepNoStray(inside, t, fs[0], wayId, nodeId, fmt);
      var t' := Step(inside, t, fs[0], wayId, nodeId, fmt).value;
      ReadFromNoStray(inside, t', fs[1..], wayId - 1, nodeId - |Flat(fs[0])|, fmt);
    }
  }

  /**
   * The read dataset is valid and linked, holds no relation, holds no node
   * that none of its ways lists, and issues way ids and node ids at or below
   * -2000000, one node id per position.
   */
  lemma ReadSound(inside: Inside, fs: seq<Feature>, fmt: Format)
    requires Read(inside, fs, fmt).Ok?
    ensures var t := Read(inside, fs, fmt).value;
      t.Valid() && t.Linked() && t.relations == map[] && NoStray(t) &&
      (forall id | id in t.ways :: FirstId - |fs| < id <= FirstId) &&
      (forall id | id in t.nodes :: FirstId - Count(fs) < id <= FirstId)
  {
    var t := ReadFrom(inside, NoTables, fs, FirstId, FirstId, fmt).value;
    ReadFromFit(inside, NoTables, fs, FirstId, FirstId, fmt);
    ReadFromNoStray(inside, NoTables, fs, FirstId, FirstId, fmt);
    ReadFromIds(inside, NoTables, fs, FirstId, FirstId, fmt);
    IdsInRange(t, |fs|, Count(fs));
  }

  /** A fit dataset grown from the empty one holds only the ids issued since. */
  lemma IdsInRange(t: Tables, ways: int, nodes: int)
    requires Fit(t, FirstId - ways, FirstId - nodes) && Grows(NoTables, t, FirstId, FirstId)
    ensures forall id | id in t.ways :: FirstId - ways < id <= FirstId
    ensures forall id | id in t.nodes :: FirstId - nodes < id <= FirstId
  {
  }

  /**
   * `r` holds every way and node of `t` unchanged, and adds ways only at or
   * below `wayId` and nodes only at or below `nodeId`.
   */
  ghost predicate Grows(t: Tables, r: Tables, wayId: int, nodeId: int)
  {
    (forall id | id in t.ways :: id in r.ways && r.ways[id] == t.ways[id]) &&
    (forall id | id in r.ways && id !in t.ways :: id <= wayId) &&
    (forall id | id in t.nodes :: id in r.nodes && r.nodes[id] == t.nodes[id]) &&
    (forall id | id in r.nodes && id !in t.nodes :: id <= nodeId)
  }

  lemma GrowsTrans(a: Tables, b: Tables, c: Tables, wayId: int, nodeId: int, wayId': int, nodeId': int)
    requires Grows(a, b, wayId, nodeId) && Grows(b, c, wayId', nodeId') && wayId' <= wayId && nodeId' <= nodeId
    ensures Grows(a, c, wayId, nodeId)
  {
  }

  /** Reading one feature adds at most way `wayId` and nodes at or below `nodeId`, and changes nothing else. */
  lemma StepIds(inside: Inside, t: Tables, f: Feature, wayId: int, nodeId: int, fmt: Format)
    requires Step(inside, t, f, wayId, nodeId, fmt).Ok? && wayId !in t.ways
    ensures var r := Step(inside, t, f, wayId, nodeId, fmt).value;
      Grows(t, r, wayId, nodeId) && forall id | id in r.ways && id !in t.ways :: id == wayId
  {
    var ps := Flat(f);
    var b := Build(Coords(ps), nodeId);
    if inside(b.nodes[b.list[0]].Position()) {
      var t1 := t.(ways := t.ways[wayId := WayOf(f, wayId, nodeId, fmt)], wayOrder := t.wayOrder + [wayId]);
      BuildAllIn(Coords(ps), nodeId);
      AddNodesNodes(t1, b.list, b.nodes, fmt);
      assert Grows(t, t1, wayId, nodeId);
    }
  }

  /** Reading one feature adds no way above `wayId - 1` beyond those above `wayId`. */
  lemma StepWays(inside: Inside, t: Tables, f: Feature, wayId: int, nodeId: int, fmt: Format)
    requires Step(inside, t, f, wayId, nodeId, fmt).Ok? && forall id | id in t.ways :: wayId < id
    ensures forall id | id in Step(inside, t, f, wayId, nodeId, fmt).value.ways :: wayId - 1 < id
  {
  }

  /** Reading only adds ways and nodes at or below the next ids, and leaves the earlier ones alone. */
  lemma {:induction false} ReadFromIds(inside: Inside, t: Tables, fs: seq<Feature>, wayId: int, nodeId: int,
                                       fmt: Format)
    requires ReadFrom(inside, t, fs, wayId, nodeId, fmt).Ok?
    requires forall id | id in t.ways :: wayId < id
    ensures Grows(t, ReadFrom(inside, t, fs, wayId, nodeId, fmt).value, wayId, nodeId)
    decreases |fs|
  {
    if fs != [] {
      var t' := Step(inside, t, fs[0], wayId, nodeId, fmt).value;
      StepIds(inside, t, fs[0], wayId, nodeId, fmt);
      ReadFromIds(inside, t', fs[1..], wayId - 1, nodeId - |Flat(fs[0])|, fmt);
      GrowsTrans(t, t', ReadFrom(inside, t', fs[1..], wayId - 1, nodeId - |Flat(fs[0])|, fmt).value,
                 wayId, nodeId, wayId - 1, nodeId - |Flat(fs[0])|);
    }
  }

  /**
   * Reading a feature succeeds only on a readable, non-empty one; its way is
   * kept exactly when its first position is inside the boundary, and is then
   * the way read from the feature.
   */
  lemma StepKeeps(inside: Inside, t: Tables, f: Feature, wayId: int, nodeId: int, fmt: Format)
    requires Step(inside, t, f, wayId, nodeId, fmt).Ok? && wayId !in t.ways
    ensures Readable(Flat(f)) && Flat(f) != []
    ensures var r := Step(inside, t, f, wayId, nodeId, fmt).value;
      (wayId in r.ways <==> inside(Coords(Flat(f))[0])) &&
      (wayId in r.ways ==> r.ways[wayId] == WayOf(f, wayId, nodeId, fmt))
  {
    BuildShape(Coords(Flat(f)), nodeId);
  }

  /** The first feature's way is kept exactly when its first position is inside, and stays as read. */
  lemma KeepsFirst(inside: Inside, t: Tables, fs: seq<Feature>, wayId: int, nodeId: int, fmt: Format)
    requires ReadFrom(inside, t, fs, wayId, nodeId, fmt).Ok? && fs != []
    requires forall id | id in t.ways :: wayId < id
    ensures Readable(Flat(fs[0])) && Flat(fs[0]) != []
    ensures var r := ReadFrom(inside, t, fs, wayId, nodeId, fmt).value;
      (wayId in r.ways <==> inside(Coords(Flat(fs[0]))[0])) &&
      (wayId in r.ways ==> r.ways[wayId] == WayOf(fs[0], wayId, nodeId, fmt))
  {
    var t' := Step(inside, t, fs[0], wayId, nodeId, fmt).value;
    var next := nodeId - |Flat(fs[0])|;
    StepKeeps(inside, t, fs[0], wayId, nodeId, fmt);
    StepIds(inside, t, fs[0], wayId, nodeId, fmt);
    ReadFromIds(inside, t', fs[1..], wayId - 1, next, fmt);
  }

  /**
   * The i-th feature `f` becomes way `w == wayId - i`, kept exactly when its
   * first position is inside the boundary, and the kept way is the one read
   * from it with node ids counted on from `n`, past the earlier features.
   */
  lemma {:induction false} ReadFromKeeps(inside: Inside, t: Tables, fs: seq<Feature>, wayId: int, nodeId: int,
                                         fmt: Format, i: nat, f: Feature, w: int, n: int)
    requires ReadFrom(inside, t, fs, wayId, nodeId, fmt).Ok? && i < |fs|
    requires forall id | id in t.ways :: wayId < id
    requires f == fs[i] && w == wayId - i && n == nodeId - Skipped(fs, i)
    ensures Readable(Flat(f)) && Flat(f) != []
    ensures var r := ReadFrom(inside, t, fs, wayId, nodeId, fmt).value;
      (w in r.ways <==> inside(Coords(Flat(f))[0])) && (w in r.ways ==> r.ways[w] == WayOf(f, w, n, fmt))
    decreases i
  {
    if i == 0 {
      KeepsFirst(inside, t, fs, wayId, nodeId, fmt);
    } else {
      var t' := Step(inside, t, fs[0], wayId, nodeId, fmt).value;
      StepWays(inside, t, fs[0], wayId, nodeId, fmt);
      ReadFromKeeps(inside, t', fs[1..], wayId - 1, nodeId - |Flat(fs[0])|, fmt, i - 1, f, w, n);
    }
  }

  /** `ReadFromKeeps` from the start: feature i becomes way -2000000 - i. */
  lemma ReadKeeps(inside: Inside, fs: seq<Feature>, fmt: Format, i: nat)
    requires Read(inside, fs, fmt).Ok? && i < |fs|
    ensures Readable(Flat(fs[i])) && Flat(fs[i]) != []
    ensures var r := Read(inside, fs, fmt).value;
      (FirstId - i in r.ways <==> inside(Coords(Flat(fs[i]))[0])) &&
      (FirstId - i in r.ways ==> r.ways[FirstId - i] == WayOf(fs[i], FirstId - i, FirstId - Skipped(fs, i), fmt))
  {
    ReadFromKeeps(inside, NoTables, fs, FirstId, FirstId, fmt, i, fs[i], FirstId - i, FirstId - Skipped(fs, i));
  }

  /** Position k of ring r is position |Flat(f[..r])| + k of the feature. */
  lemma {:induction false} FlatIndex(f: Feature, r: nat, k: nat)
    requires r < |f| && k < |f[r]|
    ensures |Flat(f[..r])| + k < |Flat(f)| && Flat(f)[|Flat(f[..r])| + k] == f[r][k]
    decreases |f|
  {
    var init := f[..|f| - 1];
    if r == |f| - 1 {
      assert f[..r] == init;
    } else {
      FlatIndex(init, r, k);
      assert init[..r] == f[..r];
    }
  }

  // --------------------------------------------------------------- methods

  /** Reading one more position extends the node list as `Build` does for one more coordinate. */
  lemma PositionSnoc(ps: seq<Position>, p: Position, first: int)
    requires Readable(ps) && |p| >= 2
    ensures Readable(ps + [p])
    ensures var b := Build(Coords(ps), first); var n := NewNode(first - |ps|, p[1], p[0]);
      Build(Coords(ps + [p]), first) ==
        if DuplicateNode(n, b.list, b.nodes) then Built(b.list + [b.list[0]], b.nodes)
        else Built(b.list + [n.id], b.nodes[n.id := n])
  {
    assert Coords(ps + [p]) == Coords(ps) + [Coord(p[1], p[0])];
    BuildSnoc(Coords(ps), Coord(p[1], p[0]), first);
  }

  /** One more element of `s` read after `seen`. */
  lemma AppendNext<T>(seen: seq<T>, s: seq<T>, j: int)
    requires 0 <= j < |s|
    ensures seen + s[..j + 1] == (seen + s[..j]) + [s[j]]
  {
    assert s[..j + 1] == s[..j] + [s[j]];
  }

  /**
   * The body of the inner loop for a position with two numbers: a node under
   * the next id, appended to the list unless it is near the first node, whose
   * id is then repeated instead.
   */
  method ReadPosition(p: Position, ghost done: seq<Position>, first: int, list0: seq<int>, nodes0: map<int, Node>,
                      next0: int)
    returns (list: seq<int>, nodes: map<int, Node>, next: int)
    requires |p| >= 2 && Readable(done) && next0 == first - |done| && Built(list0, nodes0) == Build(Coords(done), first)
    ensures Readable(done + [p]) && next == first - |done + [p]|
    ensures Built(list, nodes) == Build(Coords(done + [p]), first)
  {
    var node := NewNode(next0, p[1], p[0]);
    next := next0 - 1;
    PositionSnoc(done, p, first);
    if !DuplicateNode(node, list0, nodes0) {
      list := list0 + [node.id];
      nodes := nodes0[node.id := node];
    } else {
      list := list0 + [list0[0]];
      nodes := nodes0;
    }
  }

  /**
   * The inner loop over one ring's positions: a node per position, continuing
   * the node list built from the positions `seen` so far. On a position
   * without two numbers, `bad` is its index in the ring.
   */
  method ReadRing(ring: seq<Position>, ghost seen: seq<Position>, first: int, list0: seq<int>, nodes0: map<int, Node>,
                  next0: int)
    returns (ok: bool, bad: int, list: seq<int>, nodes: map<int, Node>, next: int)
    requires Readable(seen) && next0 == first - |seen| && Built(list0, nodes0) == Build(Coords(seen), first)
    ensures !ok ==> 0 <= bad < |ring| && |ring[bad]| < 2
    ensures ok ==> Readable(seen + ring) && next == first - |seen + ring| &&
                   Built(list, nodes) == Build(Coords(seen + ring), first)
  {
    list, nodes, next := list0, nodes0, next0;
    bad := 0;
    ghost var done := seen;
    var j := 0;
    while j < |ring|
      invariant 0 <= j <= |ring| && done == seen + ring[..j]
      invariant Readable(done) && next == first - |done|
      invariant Built(list, nodes) == Build(Coords(done), first)
    {
      var p := ring[j];
      if |p| < 2 {
        return false, j, list, nodes, next;
      }
      list, nodes, next := ReadPosition(p, done, first, list, nodes, next);
      AppendNext(seen, ring, j);
      done := done + [p];
      j := j + 1;
    }
    assert ring[..j] == ring;
    ok := true;
  }

  /**
   * The two loops over a feature's rings and positions: a node per position,
   * ids issued from `first` down, and `next` the id after the last one.
   */
  method BuildNodeList(f: Feature, first: int) returns (r: Result<Built, ReadError>, next: int)
    ensures Readable(Flat(f)) ==> r == Ok(Build(Coords(Flat(f)), first)) && next == first - |Flat(f)|
    ensures !Readable(Flat(f)) ==> r == Err(ShortPosition)
  {
    var list: seq<int> := [];
    var nodes: map<int, Node> := map[];
    next := first;
    var i := 0;
    while i < |f|
      invariant 0 <= i <= |f|
      invariant Readable(Flat(f[..i])) && next == first - |Flat(f[..i])|
      invariant Built(list, nodes) == Build(Coords(Flat(f[..i])), first)
    {
      var ok, bad;
      ok, bad, list, nodes, next := ReadRing(f[i], Flat(f[..i]), first, list, nodes, next);
      if !ok {
        FlatIndex(f, i, bad);
        return Err(ShortPosition), next;
      }
      assert f[..i + 1][..i] == f[..i];
      i := i + 1;
    }
    assert f[..i] == f;
    r := Ok(Built(list, nodes));
  }

  /** `osmDataset.osmNodes.Add` for each listed node the dataset does not hold yet. */
  method AddWayNodes(ds: OSMDataset, list: seq<int>, nodes: map<int, Node>, fmt: Format)
    requires ds.Valid() && AllIn(list, nodes) && forall id | id in nodes :: nodes[id].id == id
    modifies ds
    ensures ds.Valid() && ds.Snapshot() == AddNodes(old(ds.Snapshot()), list, nodes, fmt)
  {
    var k := 0;
    while k < |list|
      invariant 0 <= k <= |list| && ds.Valid()
      invariant AddNodes(ds.Snapshot(), list[k..], nodes, fmt) == AddNodes(old(ds.Snapshot()), list, nodes, fmt)
    {
      var id := list[k];
      assert list[k..][0] == id && list[k..][1..] == list[k + 1..];
      if id !in ds.osmNodes {
        var added := ds.AddNode(WithAttributes(nodes[id], fmt));
      }
      k := k + 1;
    }
  }

  /**
   * The body of the reading loop for one feature: its way and nodes are
   * built, and the way with its nodes is added when its first node lies
   * inside the clip boundary.
   */
  method ReadFeature(clip: ClipBoundary, ds: OSMDataset, f: Feature, wayId: int, nodeId: int, fmt: Format)
    returns (r: Result<(), ReadError>, next: int)
    requires ds.Valid() && wayId !in ds.osmWays
    modifies ds
    ensures ds.Valid()
    ensures var s := Step(InBoundary(clip.boundaryCoordinates), old(ds.Snapshot()), f, wayId, nodeId, fmt);
      (r.Ok? <==> s.Ok?) && (r.Err? ==> r.error == s.error) &&
      (r.Ok? ==> ds.Snapshot() == s.value && next == nodeId - |Flat(f)|)
  {
    var b;
    b, next := BuildNodeList(f, nodeId);
    if b.Err? {
      return Err(b.error), next;
    }
    var built := b.value;
    BuildAllIn(Coords(Flat(f)), nodeId);
    var way := NewWay(wayId).(tags := map["building" := "yes"], attrs := map["id" := fmt.ofId(wayId), "visible" := "true"],
                              nodeList := built.list);
    way := SetBboxFor(way, built.nodes);
    way := way.SetCenter();
    assert way == Building(wayId, built, fmt) == WayOf(f, wayId, nodeId, fmt);
    if |way.nodeList| == 0 {
      return Err(EmptyGeometry), next;
    }
    var kept := clip.IsInBoundary(built.nodes[way.nodeList[0]].Position());
    if kept {
      var added := ds.AddWay(way);
      AddWayNodes(ds, way.nodeList, built.nodes, fmt);
    }
    r := Ok(());
  }

  /** After feature `i` is read into `r`, `r` is fit and the rest reads on from it as from the start. */
  lemma NextFit(inside: Inside, t: Tables, fs: seq<Feature>, i: int, wayId: int, nodeId: int, fmt: Format, r: Tables)
    requires 0 <= i < |fs| && Fit(t, wayId, nodeId) && Step(inside, t, fs[i], wayId, nodeId, fmt) == Ok(r)
    ensures Fit(r, wayId - 1, nodeId - |Flat(fs[i])|)
    ensures ReadFrom(inside, t, fs[i..], wayId, nodeId, fmt) ==
            ReadFrom(inside, r, fs[i + 1..], wayId - 1, nodeId - |Flat(fs[i])|, fmt)
  {
    ReadFromNext(inside, t, fs, i, wayId, nodeId, fmt);
    StepFit(inside, t, fs[i], wayId, nodeId, fmt);
  }

  /**
   * One turn of the reading loop of `ReadGeoJSON`: feature `i` is read into
   * `ds`, and what is left to read gives the same result from the new
   * dataset as it did from the old one.
   */
  method ReadNext(clip: ClipBoundary, ds: OSMDataset, features: seq<Feature>, i: int, wayId: int, nodeId: int, fmt: Format)
    returns (r: Result<(), ReadError>, next: int)
    requires 0 <= i < |features| && ds.Valid() && Fit(ds.Snapshot(), wayId, nodeId)
    modifies ds
    ensures var spec := ReadFrom(InBoundary(clip.boundaryCoordinates), old(ds.Snapshot()), features[i..], wayId, nodeId, fmt);
      (r.Err? ==> spec == Err(r.error)) &&
      (r.Ok? ==> ds.Valid() && Fit(ds.Snapshot(), wayId - 1, next) &&
                 spec == ReadFrom(InBoundary(clip.boundaryCoordinates), ds.Snapshot(), features[i + 1..], wayId - 1, next, fmt))
  {
    ghost var inside := InBoundary(clip.boundaryCoordinates);
    ghost var t := ds.Snapshot();
    r, next := ReadFeature(clip, ds, features[i], wayId, nodeId, fmt);
    if r.Ok? {
      NextFit(inside, t, features, i, wayId, nodeId, fmt, ds.Snapshot());
    } else {
      ReadFromNext(inside, t, features, i, wayId, nodeId, fmt);
    }
  }

  /**
   * The reading loop of `ReadGeoJSON`: every feature is read in order into a
   * fresh dataset, clipped by `clip`.
   */
  method ReadAll(clip: ClipBoundary, features: seq<Feature>, fmt: Format) returns (r: Result<OSMDataset, ReadError>)
    ensures var s := Read(InBoundary(clip.boundaryCoordinates), features, fmt);
      (r.Ok? <==> s.Ok?) && (r.Err? ==> r.error == s.error) && (r.Ok? ==> fresh(r.value) && r.value.Snapshot() == s.value)
    ensures r.Ok? ==> r.value.Valid() && r.value.Linked() && r.value.osmRelations == map[] && NoStray(r.value.Snapshot())
  {
    ghost var inside := InBoundary(clip.boundaryCoordinates);
    ghost var spec := Read(inside, features, fmt);
    var ds := new OSMDataset();
    var wayId, nodeId := FirstId, FirstId;
    var i := 0;
    while i < |features|
      invariant 0 <= i <= |features|
      invariant ds.Valid() && Fit(ds.Snapshot(), wayId, nodeId)
      invariant ReadFrom(inside, ds.Snapshot(), features[i..], wayId, nodeId, fmt) == spec
      modifies ds
    {
      var s, next := ReadNext(clip, ds, features, i, wayId, nodeId, fmt);
      if s.Err? {
        return Err(s.error);
      }
      wayId, nodeId := wayId - 1, next;
      i := i + 1;
    }
    assert features[i..] == [];
    ReadSound(inside, features, fmt);
    r := Ok(ds);
  }

  /**
   * `ReadGeoJSON`: the clip boundary is built from the boundary dataset's
   * relation (reversing the ways its walk reverses), then every feature is
   * read in order into a fresh dataset.
   */
  method ReadGeoJSON(boundary: OSMDataset, features: seq<Feature>, fmt: Format) returns (r: Result<OSMDataset, ReadError>)
    requires boundary.Valid() && boundary.Linked()
    modifies boundary
    ensures boundary.Valid() && boundary.Linked()
    ensures var o := RelationBoundary(old(boundary.relationOrder), old(boundary.osmRelations),
                                      old(boundary.osmWays), old(boundary.osmNodes));
      boundary.osmWays == o.ways &&
      (o.result.Err? ==> r == Err(Boundary(o.result.error))) &&
      (o.result.Ok? ==> var s := Read(InBoundary(o.result.value.0), features, fmt);
         (r.Ok? <==> s.Ok?) && (r.Err? ==> r.error == s.error) &&
         (r.Ok? ==> fresh(r.value) && r.value.Snapshot() == s.value))
    ensures r.Ok? ==> r.value.Valid() && r.value.Linked() && r.value.osmRelations == map[] && NoStray(r.value.Snapshot())
  {
    var cb := ClipBoundary.FromRelations(boundary);
    if cb.Err? {
      return Err(Boundary(cb.error));
    }
    r := ReadAll(cb.value, features, fmt);
  }
}

=== FILE: spatial_utilities.dfy ===
/**
 * Box algebra: union, intersection test, half-open containment, growing a
 * way's box over its nodes, and the open-interval test.
 *
 * The metric helpers (flat-earth distance and great-circle distance) are
 * trigonometric; the model takes them as function parameters of type
 * DistanceFn wherever the program calls them and proves nothing numeric
 * about them.
 */
module SpatialUtilities {
  import opened OSMType

  /** `Distance(lat1, lat2, lon1, lon2)` or `GreatCircleDistance(lat1, lat2, lon1, lon2)`, in metres. */
  type DistanceFn = (real, real, real, real) -> real

  /** `BboxUnion(BBox, BBox)`: the smallest box covering both boxes. */
  function BboxUnion(b1: BBox, b2: BBox): (b: BBox)
    ensures b.Covers(b1) && b.Covers(b2)
    ensures b.minLat in {b1.minLat, b2.minLat} && b.maxLat in {b1.maxLat, b2.maxLat}
    ensures b.minLon in {b1.minLon, b2.minLon} && b.maxLon in {b1.maxLon, b2.maxLon}
  {
    BBox(if b1.minLat < b2.minLat then b1.minLat else b2.minLat,
         if b1.maxLat > b2.maxLat then b1.maxLat else b2.maxLat,
         if b1.minLon < b2.minLon then b1.minLon else b2.minLon,
         if b1.maxLon > b2.maxLon then b1.maxLon else b2.maxLon)
  }

  /** `BboxUnion(BBox, OSMNode)`: the smallest box covering the box and the point. */
  function BboxUnionPoint(b1: BBox, p: Coord): (b: BBox)
    ensures b.Covers(b1) && b.ClosedContains(p.lat, p.lon)
    ensures b.minLat in {b1.minLat, p.lat} && b.maxLat in {b1.maxLat, p.lat}
    ensures b.minLon in {b1.minLon, p.lon} && b.maxLon in {b1.maxLon, p.lon}
  {
    BBox(if b1.minLat < p.lat then b1.minLat else p.lat,
         if b1.maxLat > p.lat then b1.maxLat else p.lat,
         if b1.minLon < p.lon then b1.minLon else p.lon,
         if b1.maxLon > p.lon then b1.maxLon else p.lon)
  }

  /** `BBoxIntersects`: the boxes are not separated on either axis; touching counts. */
  predicate BBoxIntersects(b1: BBox, b2: BBox)
  {
    !(b1.maxLat < b2.minLat || b1.maxLon < b2.minLon ||
      b1.minLon > b2.maxLon || b1.minLat > b2.maxLat)
  }

  /** `BBoxContains`: half-open, minimum edges inside and maximum edges outside. */
  predicate BBoxContains(b: BBox, p: Coord)
  {
    p.lat >= b.minLat && p.lon >= b.minLon && p.lat < b.maxLat && p.lon < b.maxLon
  }

  /** `IsBetween(x, a, b)`: the sign test `(x - a) * (x - b) < 0`. */
  predicate IsBetween(x: real, a: real, b: real)
  {
    (x - a) * (x - b) < 0.0
  }

  /** The box a sequence of points grows `box` into, point by point in order. */
  function ExtendAll(box: BBox, pts: seq<Coord>): BBox
    decreases |pts|
  {
    if pts == [] then box else ExtendAll(BboxUnionPoint(box, pts[0]), pts[1..])
  }

  /** The positions of the listed nodes, in list order. */
  function Positions(ids: seq<int>, nodes: map<int, Node>): (ps: seq<Coord>)
    requires AllIn(ids, nodes)
    ensures |ps| == |ids|
    ensures forall k | 0 <= k < |ids| :: ids[k] in nodes && ps[k] == nodes[ids[k]].Position()
  {
    if ids == [] then [] else [nodes[ids[0]].Position()] + Positions(ids[1..], nodes)
  }

  /**
   * `SetBboxFor`: grows the way's box over each of its nodes. The box is not
   * reset first, so it only grows from its previous value.
   */
  method SetBboxFor(w: Way, nodes: map<int, Node>) returns (r: Way)
    requires AllIn(w.nodeList, nodes)
    ensures r == w.(bbox := ExtendAll(w.bbox, Positions(w.nodeList, nodes)))
  {
    ghost var pts := Positions(w.nodeList, nodes);
    var box := w.bbox;
    var i := 0;
    while i < |w.nodeList|
      invariant 0 <= i <= |w.nodeList|
      invariant ExtendAll(box, pts[i..]) == ExtendAll(w.bbox, pts)
    {
      var n := nodes[w.nodeList[i]];
      assert pts[i..] == [pts[i]] + pts[i + 1..];
      if n.lat < box.minLat { box := box.(minLat := n.lat); }
      if n.lat > box.maxLat { box := box.(maxLat := n.lat); }
      if n.lon < box.minLon { box := box.(minLon := n.lon); }
      if n.lon > box.maxLon { box := box.(maxLon := n.lon); }
      i := i + 1;
    }
    assert pts[i..] == [];
    r := w.(bbox := box);
  }

  // ---------------------------------------------------------------- lemmas

  lemma BboxUnionCommutes(b1: BBox, b2: BBox)
    ensures BboxUnion(b1, b2) == BboxUnion(b2, b1)
  {
  }

  /** The sentinel box is a unit for union over boxes within +-999 degrees. */
  lemma BboxUnionWithEmpty(b: BBox)
    requires -999.0 <= b.minLat <= 999.0 && -999.0 <= b.maxLat <= 999.0
    requires -999.0 <= b.minLon <= 999.0 && -999.0 <= b.maxLon <= 999.0
    ensures BboxUnion(EmptyBBox(), b) == b && BboxUnion(b, EmptyBBox()) == b
  {
  }

  lemma BBoxIntersectsSymmetric(b1: BBox, b2: BBox)
    ensures BBoxIntersects(b1, b2) <==> BBoxIntersects(b2, b1)
  {
  }

  /** For proper boxes, the test agrees with "some point lies in both closed boxes". */
  lemma BBoxIntersectsIffCommonPoint(b1: BBox, b2: BBox)
    requires b1.IsProper() && b2.IsProper()
    ensures BBoxIntersects(b1, b2) <==>
            exists lat: real, lon: real :: b1.ClosedContains(lat, lon) && b2.ClosedContains(lat, lon)
  {
    if BBoxIntersects(b1, b2) {
      var lat := if b1.minLat < b2.minLat then b2.minLat else b1.minLat;
      var lon := if b1.minLon < b2.minLon then b2.minLon else b1.minLon;
      assert b1.ClosedContains(lat, lon) && b2.ClosedContains(lat, lon);
    }
  }

  /** Half-open containment: the minimum corner is in, the maximum edges are out. */
  lemma BBoxContainsHalfOpen(b: BBox, lat: real, lon: real)
    ensures !BBoxContains(b, Coord(b.maxLat, lon)) && !BBoxContains(b, Coord(lat, b.maxLon))
    ensures BBoxContains(b, Coord(b.minLat, b.minLon)) <==> b.minLat < b.maxLat && b.minLon < b.maxLon
    ensures BBoxContains(b, Coord(lat, lon)) ==> b.ClosedContains(lat, lon)
  {
  }

  /** `IsBetween` is the open interval between a and b, in either order. */
  lemma IsBetweenIffStrictlyBetween(x: real, a: real, b: real)
    ensures IsBetween(x, a, b) <==> (a < x < b || b < x < a)
  {
    var p, q := x - a, x - b;
    if p > 0.0 && q > 0.0 { assert p * q > 0.0; }
    if p < 0.0 && q < 0.0 { assert p * q == (-p) * (-q); assert (-p) * (-q) > 0.0; }
    if p > 0.0 && q < 0.0 { assert p * q == -(p * (-q)); assert p * (-q) > 0.0; }
    if p < 0.0 && q > 0.0 { assert p * q == -((-p) * q); assert (-p) * q > 0.0; }
  }

  /** The grown box covers the starting box and every point. */
  lemma {:induction false} ExtendAllCovers(box: BBox, pts: seq<Coord>)
    decreases |pts|
    ensures ExtendAll(box, pts).Covers(box)
    ensures forall k | 0 <= k < |pts| :: ExtendAll(box, pts).ClosedContains(pts[k].lat, pts[k].lon)
  {
    if pts != [] {
      var b1 := BboxUnionPoint(box, pts[0]);
      ExtendAllCovers(b1, pts[1..]);
      forall k | 0 <= k < |pts|
        ensures ExtendAll(box, pts).ClosedContains(pts[k].lat, pts[k].lon)
      {
        if k > 0 { assert pts[k] == pts[1..][k - 1]; }
      }
    }
  }

  /** Every bound of the grown box is the starting bound or some point's coordinate. */
  lemma {:induction false} ExtendAllTight(box: BBox, pts: seq<Coord>)
    decreases |pts|
    ensures var b := ExtendAll(box, pts);
      (b.minLat == box.minLat || exists k | 0 <= k < |pts| :: b.minLat == pts[k].lat) &&
      (b.maxLat == box.maxLat || exists k | 0 <= k < |pts| :: b.maxLat == pts[k].lat) &&
      (b.minLon == box.minLon || exists k | 0 <= k < |pts| :: b.minLon == pts[k].lon) &&
      (b.maxLon == box.maxLon || exists k | 0 <= k < |pts| :: b.maxLon == pts[k].lon)
  {
    if pts != [] {
      var b1 := BboxUnionPoint(box, pts[0]);
      ExtendAllTight(b1, pts[1..]);
      var b := ExtendAll(box, pts);
      assert b == ExtendAll(b1, pts[1..]);
      forall k | 0 <= k < |pts[1..]| ensures pts[1..][k] == pts[k + 1] { }
    }
  }

  /** After `SetBboxFor`, every node of the way lies in its closed box, and the box only grew. */
  lemma SetBboxForCovers(w: Way, nodes: map<int, Node>)
    requires AllIn(w.nodeList, nodes)
    ensures var b := ExtendAll(w.bbox, Positions(w.nodeList, nodes));
      b.Covers(w.bbox) &&
      forall k | 0 <= k < |w.nodeList| :: w.nodeList[k] in nodes && b.ClosedContains(nodes[w.nodeList[k]].lat, nodes[w.nodeList[k]].lon)
  {
    ExtendAllCovers(w.bbox, Positions(w.nodeList, nodes));
  }
}

=== FILE: task_sections.dfy ===
/**
 * Partitioning a dataset into task sections for the tasking manager.
 *
 * Task cells are numbered `x * NVertical + y` in an array of sections that
 * is filled lazily. Relations go to the cell of their centre, ways to the
 * cell of their centre unless a relation or a way sharing a node pulled
 * them in first, and leftover nodes to the cell of their position. The
 * IsUsed flags of the dataset's nodes and ways record what is placed.
 */
module TaskSections {
  import opened Wrappers
  import opened OSMType
  import opened Datasets
  import opened BucketIndex

  /**
   * A task section: the ids its three dictionaries hold, in insertion order.
   * The entities themselves stay in the dataset; a section only names them.
   */
  datatype Section = Section(nodes: seq<int>, ways: seq<int>, relations: seq<int>)

  /** The exceptions the placement can raise. */
  datatype TaskError =
    | NodeNotFound(wayId: int, nodeId: int)   // `connectedWays[node]` for a node the dataset lacks
    | CellOutOfRange(cell: int)               // `osmDataSections[cell]` outside the array

  // ------------------------------------------------------------------ cells

  /** `GetSectionData`'s numbering of cell (x, y). */
  function Cell(nv: int, x: int, y: int): int
  {
    x * nv + y
  }

  /** `GetXY`: the column and row of a cell, with the truncating `/` and `%` of the source. */
  function GetXY(nv: int, cell: int): (xy: (int, int))
    requires nv > 0
  {
    if cell >= 0 then (cell / nv, cell % nv) else (-((-cell) / nv), -((-cell) % nv))
  }

  lemma MulNonNegative(a: int, b: int)
    requires a >= 0 && b >= 0
    ensures a * b >= 0
  {
  }

  lemma DivUnique(c: int, nv: int, q: int, r: int)
    requires nv > 0 && 0 <= r < nv && c == q * nv + r
    ensures c / nv == q && c % nv == r
  {
    var q', r' := c / nv, c % nv;
    assert c == q' * nv + r';
    var d := q - q';
    assert d * nv == q * nv - q' * nv;
    assert d * nv == r' - r;
  }

  /** `GetXY` inverts the numbering for every cell of the grid's rows. */
  lemma GetXYInverts(nv: int, x: int, y: int)
    requires nv > 0 && x >= 0 && 0 <= y < nv
    ensures GetXY(nv, Cell(nv, x, y)) == (x, y)
  {
    MulNonNegative(x, nv);
    DivUnique(Cell(nv, x, y), nv, x, y);
  }

  /** Numbering back a cell `GetXY` decoded gives the cell; a non-negative cell has its row in range. */
  lemma CellOfGetXY(nv: int, cell: int)
    requires nv > 0
    ensures Cell(nv, GetXY(nv, cell).0, GetXY(nv, cell).1) == cell
    ensures cell >= 0 ==> GetXY(nv, cell).0 >= 0 && 0 <= GetXY(nv, cell).1 < nv
  {
    var c := if cell >= 0 then cell else -cell;
    assert c == (c / nv) * nv + c % nv;
  }

  /** A cell of the grid has an index inside the section array. */
  lemma CellInRange(nh: int, nv: int, x: int, y: int)
    requires 0 <= x < nh && 0 <= y < nv
    ensures 0 <= Cell(nv, x, y) < nh * nv
  {
    MulNonNegative(x, nv);
    MulNonNegative(nh - x - 1, nv);
    assert nh * nv == x * nv + nv + (nh - x - 1) * nv;
  }

  /** A cell at or before the last column and row is numbered below the grid's size. */
  lemma CellBelowEnd(nh: int, nv: int, x: int, y: int)
    requires nv >= 1 && x <= nh - 1 && y <= nv - 1
    ensures Cell(nv, x, y) < nh * nv
  {
    MulNonNegative(nh - 1 - x, nv);
    assert nh * nv == x * nv + nv + (nh - 1 - x) * nv;
  }

  /** A row below the grid in column x >= 1 is numbered as the top row of column x - 1. */
  lemma CellBelowGridAliases(nv: int, x: int)
    ensures Cell(nv, x, -1) == Cell(nv, x - 1, nv - 1)
  {
  }

  // --------------------------------------------------------- connected ways

  /** The first loop of `InitializeConnectedWays`: an empty list for every node. */
  function NoLinks(nodes: map<int, Node>): (cw: map<int, seq<int>>)
  {
    map n | n in nodes :: []
  }

  /** The inner loop for one way: the way listed once under each of its nodes; a node without a list throws. */
  function LinkNodes(cw: map<int, seq<int>>, wayId: int, list: seq<int>): Result<map<int, seq<int>>, TaskError>
  {
    if list == [] then Ok(cw)
    else
      var prev := LinkNodes(cw, wayId, list[..|list| - 1]);
      var n := list[|list| - 1];
      if prev.Err? then prev
      else if n !in prev.value then Err(NodeNotFound(wayId, n))
      else if wayId in prev.value[n] then prev
      else Ok(prev.value[n := prev.value[n] + [wayId]])
  }

  /** The second loop of `InitializeConnectedWays`, over the ways in enumeration order. */
  function LinkWays(cw: map<int, seq<int>>, ways: map<int, Way>, order: seq<int>): Result<map<int, seq<int>>, TaskError>
    requires AllIn(order, ways)
  {
    if order == [] then Ok(cw)
    else
      var prev := LinkWays(cw, ways, order[..|order| - 1]);
      var w := order[|order| - 1];
      if prev.Err? then prev else LinkNodes(prev.value, w, ways[w].nodeList)
  }

  /** One way's pass keeps the keys, appends the way once under each of its nodes, and fails exactly on a missing node. */
  lemma {:induction false} LinkNodesEffect(cw: map<int, seq<int>>, wayId: int, list: seq<int>)
    ensures LinkNodes(cw, wayId, list).Ok? <==> forall k | 0 <= k < |list| :: list[k] in cw
    ensures LinkNodes(cw, wayId, list).Err? ==>
              exists k | 0 <= k < |list| :: list[k] !in cw && LinkNodes(cw, wayId, list).error == NodeNotFound(wayId, list[k])
    ensures var r := LinkNodes(cw, wayId, list);
      r.Ok? ==> r.value.Keys == cw.Keys &&
                forall n | n in cw :: r.value[n] == cw[n] + (if n in list && wayId !in cw[n] then [wayId] else [])
  {
    if list != [] {
      var init := list[..|list| - 1];
      var n := list[|list| - 1];
      LinkNodesEffect(cw, wayId, init);
      assert forall k | 0 <= k < |init| :: init[k] == list[k];
      assert forall m :: m in list <==> m in init || m == n;
      var prev := LinkNodes(cw, wayId, init);
      if prev.Err? {
        var k :| 0 <= k < |init| && init[k] !in cw && prev.error == NodeNotFound(wayId, init[k]);
        assert list[k] == init[k];
      }
    }
  }

  /**
   * What `InitializeConnectedWays` promises after the ways of `order`: it
   * succeeded exactly when every way's nodes are in the dataset, a failure
   * names a way of `order` and its missing node, and a success lists under
   * each node the ways containing it, each once.
   */
  ghost predicate ConnectedIndex(nodes: map<int, Node>, ways: map<int, Way>, order: seq<int>,
                           r: Result<map<int, seq<int>>, TaskError>)
    requires AllIn(order, ways)
  {
    (r.Ok? <==> forall i | 0 <= i < |order| :: AllIn(ways[order[i]].nodeList, nodes)) &&
    (r.Err? ==> exists i | 0 <= i < |order| :: r.error.NodeNotFound? && r.error.wayId == order[i] &&
                  r.error.nodeId in ways[order[i]].nodeList && r.error.nodeId !in nodes) &&
    (r.Ok? ==> r.value.Keys == nodes.Keys &&
               forall n | n in nodes :: NoDup(r.value[n]) &&
                 forall w :: w in r.value[n] <==> w in order && n in ways[w].nodeList)
  }

  /** `InitializeConnectedWays` over the ways of `order` keeps `ConnectedIndex`. */
  lemma {:induction false} LinkWaysEffect(nodes: map<int, Node>, ways: map<int, Way>, order: seq<int>)
    requires AllIn(order, ways) && NoDup(order)
    ensures ConnectedIndex(nodes, ways, order, LinkWays(NoLinks(nodes), ways, order))
  {
    if order != [] {
      var init := order[..|order| - 1];
      assert forall i | 0 <= i < |init| :: init[i] == order[i];
      assert NoDup(init);
      LinkWaysEffect(nodes, ways, init);
      var prev := LinkWays(NoLinks(nodes), ways, init);
      if prev.Ok? {
        LinkWaysExtend(nodes, ways, order, prev.value);
      } else {
        LinkWaysStayFailed(nodes, ways, order, prev);
      }
    }
  }

  /** The last way's pass, after the earlier ways succeeded. */
  lemma LinkWaysExtend(nodes: map<int, Node>, ways: map<int, Way>, order: seq<int>, cw: map<int, seq<int>>)
    requires AllIn(order, ways) && NoDup(order) && order != []
    requires ConnectedIndex(nodes, ways, order[..|order| - 1], Ok(cw))
    ensures ConnectedIndex(nodes, ways, order, LinkNodes(cw, order[|order| - 1], ways[order[|order| - 1]].nodeList))
  {
    var init := order[..|order| - 1];
    var w := order[|order| - 1];
    assert forall i | 0 <= i < |init| :: init[i] == order[i];
    var r := LinkNodes(cw, w, ways[w].nodeList);
    LinkNodesEffect(cw, w, ways[w].nodeList);
    assert w !in init;
    if r.Ok? {
      forall n | n in nodes
        ensures NoDup(r.value[n]) && forall v :: v in r.value[n] <==> v in order && n in ways[v].nodeList
      {
        assert forall v :: v in order <==> v in init || v == w;
      }
      forall i | 0 <= i < |order| ensures AllIn(ways[order[i]].nodeList, nodes) {
        if i < |init| { assert order[i] == init[i]; }
      }
    } else {
      var k :| 0 <= k < |ways[w].nodeList| && ways[w].nodeList[k] !in cw &&
               r.error == NodeNotFound(w, ways[w].nodeList[k]);
      assert !AllIn(ways[order[|order| - 1]].nodeList, nodes);
    }
  }

  /** The last way's pass is skipped once an earlier way failed. */
  lemma LinkWaysStayFailed(nodes: map<int, Node>, ways: map<int, Way>, order: seq<int>,
                           prev: Result<map<int, seq<int>>, TaskError>)
    requires AllIn(order, ways) && order != [] && prev.Err?
    requires ConnectedIndex(nodes, ways, order[..|order| - 1], prev)
    ensures ConnectedIndex(nodes, ways, order, prev)
  {
    var init := order[..|order| - 1];
    var i :| 0 <= i < |init| && prev.error.NodeNotFound? && prev.error.wayId == init[i] &&
             prev.error.nodeId in ways[init[i]].nodeList && prev.error.nodeId !in nodes;
    assert order[i] == init[i];
  }

  /** A way's pass fails at its first missing node and the failure is final. */
  lemma {:induction false} LinkNodesFailed(cw: map<int, seq<int>>, wayId: int, list: seq<int>, i: nat)
    requires i <= |list| && LinkNodes(cw, wayId, list[..i]).Err?
    ensures LinkNodes(cw, wayId, list) == LinkNodes(cw, wayId, list[..i])
    decreases |list| - i
  {
    if i < |list| {
      assert list[..i + 1][..i] == list[..i];
      LinkNodesFailed(cw, wayId, list, i + 1);
    } else {
      assert list[..i] == list;
    }
  }

  lemma {:induction false} LinkWaysFailed(cw: map<int, seq<int>>, ways: map<int, Way>, order: seq<int>, i: nat)
    requires AllIn(order, ways) && i <= |order| && LinkWays(cw, ways, order[..i]).Err?
    ensures LinkWays(cw, ways, order) == LinkWays(cw, ways, order[..i])
    decreases |order| - i
  {
    if i < |order| {
      assert order[..i + 1][..i] == order[..i];
      LinkWaysFailed(cw, ways, order, i + 1);
    } else {
      assert order[..i] == order;
    }
  }

  /** `LinkWaysEffect` over a whole dataset: the index, or the way and node that throw. */
  lemma LinkedIndexes(nodes: map<int, Node>, ways: map<int, Way>, order: seq<int>)
    requires Enumerates(order, ways)
    ensures var r := LinkWays(NoLinks(nodes), ways, order);
      (r.Ok? <==> forall w | w in ways :: AllIn(ways[w].nodeList, nodes)) &&
      (r.Err? ==> r.error.NodeNotFound? && r.error.wayId in ways &&
                  r.error.nodeId in ways[r.error.wayId].nodeList && r.error.nodeId !in nodes) &&
      (r.Ok? ==> Indexes(r.value, nodes, ways) && forall n | n in r.value :: NoDup(r.value[n]))
  {
    LinkWaysEffect(nodes, ways, order);
    var r := LinkWays(NoLinks(nodes), ways, order);
    assert (forall w | w in ways :: AllIn(ways[w].nodeList, nodes)) <==>
           (forall i | 0 <= i < |order| :: AllIn(ways[order[i]].nodeList, nodes)) by {
      if forall i | 0 <= i < |order| :: AllIn(ways[order[i]].nodeList, nodes) {
        forall w | w in ways ensures AllIn(ways[w].nodeList, nodes) {
          var i :| 0 <= i < |order| && order[i] == w;
        }
      }
    }
    if r.Ok? {
      forall w, n | w in ways && n in ways[w].nodeList ensures n in nodes && n in r.value && w in r.value[n] {
        var i :| 0 <= i < |order| && order[i] == w;
        var k :| 0 <= k < |ways[w].nodeList| && ways[w].nodeList[k] == n;
        assert AllIn(ways[order[i]].nodeList, nodes);
      }
    }
  }

  /** The first loop of `InitializeConnectedWays`. */
  method EmptyLists(nodes: map<int, Node>, order: seq<int>) returns (cw: map<int, seq<int>>)
    requires Enumerates(order, nodes)
    ensures cw == NoLinks(nodes)
  {
    cw := map[];
    var i := 0;
    while i < |order|
      invariant 0 <= i <= |order|
      invariant cw == map n | n in order[..i] :: []
    {
      assert order[..i + 1] == order[..i] + [order[i]];
      cw := cw[order[i] := []];
      i := i + 1;
    }
    assert order[..i] == order;
    assert forall n :: n in order <==> n in nodes;
    assert cw.Keys == NoLinks(nodes).Keys;
  }

  /** The inner loop of `InitializeConnectedWays` for one way. */
  method LinkWayNodes(cw0: map<int, seq<int>>, wayId: int, list: seq<int>) returns (r: Result<map<int, seq<int>>, TaskError>)
    ensures r == LinkNodes(cw0, wayId, list)
  {
    var cw := cw0;
    var i := 0;
    while i < |list|
      invariant 0 <= i <= |list|
      invariant LinkNodes(cw0, wayId, list[..i]) == Ok(cw)
    {
      var n := list[i];
      assert list[..i + 1][..i] == list[..i];
      if n !in cw {
        LinkNodesFailed(cw0, wayId, list, i + 1);
        return Err(NodeNotFound(wayId, n));
      }
      if wayId !in cw[n] {
        cw := cw[n := cw[n] + [wayId]];
      }
      i := i + 1;
    }
    assert list[..i] == list;
    r := Ok(cw);
  }

  /** The second loop of `InitializeConnectedWays`. */
  method LinkAllWays(cw0: map<int, seq<int>>, ways: map<int, Way>, order: seq<int>) returns (r: Result<map<int, seq<int>>, TaskError>)
    requires AllIn(order, ways)
    ensures r == LinkWays(cw0, ways, order)
  {
    var cw := cw0;
    var i := 0;
    while i < |order|
      invariant 0 <= i <= |order|
      invariant LinkWays(cw0, ways, order[..i]) == Ok(cw)
    {
      assert order[..i + 1][..i] == order[..i];
      var step := LinkWayNodes(cw, order[i], ways[order[i]].nodeList);
      if step.Err? {
        LinkWaysFailed(cw0, ways, order, i + 1);
        return step;
      }
      cw := step.value;
      i := i + 1;
    }
    assert order[..i] == order;
    r := Ok(cw);
  }

  // -------------------------------------------------------------- placement

  datatype Kind = NodeKind | WayKind | RelationKind

  function Ids(s: Section, k: Kind): seq<int>
  {
    match k
    case NodeKind => s.nodes
    case WayKind => s.ways
    case RelationKind => s.relations
  }

  /** The ids of kind `k` an array slot holds; an unallocated section holds none. */
  function Held(o: Option<Section>, k: Kind): multiset<int>
  {
    if o.Some? then multiset(Ids(o.value, k)) else multiset{}
  }

  /** Every id of kind `k` the sections hold, counted with repetition. */
  function Placed(secs: seq<Option<Section>>, k: Kind): multiset<int>
  {
    if secs == [] then multiset{} else Placed(secs[..|secs| - 1], k) + Held(secs[|secs| - 1], k)
  }

  /** Replacing one slot adds what the new slot holds and drops what the old one held. */
  lemma {:induction false} PlacedUpdate(secs: seq<Option<Section>>, c: nat, o: Option<Section>, k: Kind, added: multiset<int>)
    requires c < |secs| && Held(o, k) == Held(secs[c], k) + added
    ensures Placed(secs[c := o], k) == Placed(secs, k) + added
  {
    var n := |secs| - 1;
    if c == n {
      PlacedUpdateLast(secs, o, k, added);
    } else {
      assert secs[..n][c] == secs[c];
      PlacedUpdate(secs[..n], c, o, k, added);
      PlacedUpdateInner(secs, c, o, k, added);
    }
  }

  lemma PlacedUpdateLast(secs: seq<Option<Section>>, o: Option<Section>, k: Kind, added: multiset<int>)
    requires secs != [] && Held(o, k) == Held(secs[|secs| - 1], k) + added
    ensures Placed(secs[|secs| - 1 := o], k) == Placed(secs, k) + added
  {
    var n := |secs| - 1;
    assert secs[n := o][..n] == secs[..n];
  }

  lemma PlacedUpdateInner(secs: seq<Option<Section>>, c: nat, o: Option<Section>, k: Kind, added: multiset<int>)
    requires c < |secs| - 1
    requires Placed(secs[..|secs| - 1][c := o], k) == Placed(secs[..|secs| - 1], k) + added
    ensures Placed(secs[c := o], k) == Placed(secs, k) + added
  {
    var n := |secs| - 1;
    var u := secs[c := o];
    assert u[..n] == secs[..n][c := o];
    assert u[n] == secs[n];
    calc {
      Placed(u, k);
      Placed(u[..n], k) + Held(u[n], k);
      Placed(secs[..n], k) + added + Held(secs[n], k);
      Placed(secs[..n], k) + Held(secs[n], k) + added;
      Placed(secs, k) + added;
    }
  }

  function UsedNodes(nodes: map<int, Node>): set<int>
  {
    set n | n in nodes && nodes[n].isUsed
  }

  function UsedWays(ways: map<int, Way>): set<int>
  {
    set w | w in ways && ways[w].isUsed
  }

  /** The ways still to place; `SaveWayTo`'s recursion shrinks this set. */
  function UnusedWays(ways: map<int, Way>): set<int>
  {
    set w | w in ways && !ways[w].isUsed
  }

  /** The sections hold each flagged node and way exactly once, and nothing else. */
  ghost predicate Tracks(secs: seq<Option<Section>>, nodes: map<int, Node>, ways: map<int, Way>)
  {
    Placed(secs, NodeKind) == multiset(UsedNodes(nodes)) && Placed(secs, WayKind) == multiset(UsedWays(ways))
  }

  /** Between the two states only IsUsed flags were set. */
  ghost predicate NodesFlagged(before: map<int, Node>, after: map<int, Node>)
  {
    after.Keys == before.Keys && forall n | n in after :: after[n] == before[n] || after[n] == before[n].(isUsed := true)
  }

  ghost predicate WaysFlagged(before: map<int, Way>, after: map<int, Way>)
  {
    after.Keys == before.Keys && forall w | w in after :: after[w] == before[w] || after[w] == before[w].(isUsed := true)
  }

  /** `connectedWays` indexes the dataset: every node has a list, lists name ways, and every way is listed under its nodes. */
  ghost predicate Indexes(cw: map<int, seq<int>>, nodes: map<int, Node>, ways: map<int, Way>)
  {
    (forall n | n in nodes :: n in cw) &&
    (forall n, w | n in cw && w in cw[n] :: w in ways) &&
    (forall w, n | w in ways && n in ways[w].nodeList :: n in nodes && n in cw && w in cw[n])
  }

  /**
   * What a placement step did to the section it fills: it set flags only,
   * appended exactly the nodes and ways it flagged, and left the relations.
   */
  ghost predicate Grew(nodes0: map<int, Node>, ways0: map<int, Way>, sec0: Section,
                       nodes: map<int, Node>, ways: map<int, Way>, sec: Section)
  {
    NodesFlagged(nodes0, nodes) && WaysFlagged(ways0, ways) &&
    multiset(sec.nodes) == multiset(sec0.nodes) + multiset(UsedNodes(nodes) - UsedNodes(nodes0)) &&
    multiset(sec.ways) == multiset(sec0.ways) + multiset(UsedWays(ways) - UsedWays(ways0)) &&
    sec.relations == sec0.relations
  }

  /** Every way through a node flagged since `nodes0` is flagged: shared nodes pull their ways along. */
  ghost predicate Closed(nodes0: map<int, Node>, nodes: map<int, Node>, ways: map<int, Way>)
  {
    forall n, w | n in nodes0 && n in nodes && w in ways && n in ways[w].nodeList && nodes[n].isUsed && !nodes0[n].isUsed ::
      ways[w].isUsed
  }

  /** Nothing but the node and way flags differs. */
  ghost predicate SameShape(a: Tables, b: Tables)
  {
    a.relations == b.relations && a.nodeOrder == b.nodeOrder && a.wayOrder == b.wayOrder && a.relationOrder == b.relationOrder
  }

  lemma SubsetCard(a: set<int>, b: set<int>)
    requires a <= b
    ensures |a| <= |b|
  {
    assert b == a + (b - a);
  }

  lemma SplitNew(a: set<int>, b: set<int>, c: set<int>)
    requires a <= b <= c
    ensures multiset(c - a) == multiset(b - a) + multiset(c - b)
  {
    assert c - a == (b - a) + (c - b);
    assert (b - a) !! (c - b);
  }

  /** Once every way is flagged, setting more flags keeps every way flagged. */
  lemma AllWaysStayUsed(ways0: map<int, Way>, ways: map<int, Way>)
    requires WaysFlagged(ways0, ways) && UsedWays(ways0) == ways0.Keys
    ensures UsedWays(ways) == ways.Keys
  {
    forall w | w in ways ensures w in UsedWays(ways) {
      assert w in UsedWays(ways0);
    }
  }

  lemma FlaggedMonotone(nodes0: map<int, Node>, nodes: map<int, Node>, ways0: map<int, Way>, ways: map<int, Way>)
    requires NodesFlagged(nodes0, nodes) && WaysFlagged(ways0, ways)
    ensures UsedNodes(nodes0) <= UsedNodes(nodes) && UsedWays(ways0) <= UsedWays(ways)
    ensures UnusedWays(ways) <= UnusedWays(ways0)
  {
    assert forall n | n in nodes :: nodes0[n].isUsed ==> nodes[n].isUsed;
    assert forall w | w in ways :: ways0[w].isUsed ==> ways[w].isUsed;
  }

  lemma IndexesFlagged(cw: map<int, seq<int>>, nodes: map<int, Node>, ways: map<int, Way>,
                       nodes': map<int, Node>, ways': map<int, Way>)
    requires Indexes(cw, nodes, ways) && NodesFlagged(nodes, nodes') && WaysFlagged(ways, ways')
    ensures Indexes(cw, nodes', ways')
  {
    forall w, n | w in ways' && n in ways'[w].nodeList
      ensures n in nodes' && n in cw && w in cw[n]
    {
      assert ways'[w].nodeList == ways[w].nodeList;
    }
  }

  lemma {:induction false} GrewTrans(nodes0: map<int, Node>, ways0: map<int, Way>, sec0: Section,
                                     nodes1: map<int, Node>, ways1: map<int, Way>, sec1: Section,
                                     nodes2: map<int, Node>, ways2: map<int, Way>, sec2: Section)
    requires Grew(nodes0, ways0, sec0, nodes1, ways1, sec1) && Grew(nodes1, ways1, sec1, nodes2, ways2, sec2)
    ensures Grew(nodes0, ways0, sec0, nodes2, ways2, sec2)
  {
    FlaggedMonotone(nodes0, nodes1, ways0, ways1);
    FlaggedMonotone(nodes1, nodes2, ways1, ways2);
    SplitNew(UsedNodes(nodes0), UsedNodes(nodes1), UsedNodes(nodes2));
    SplitNew(UsedWays(ways0), UsedWays(ways1), UsedWays(ways2));
    forall n | n in nodes2 ensures nodes2[n] == nodes0[n] || nodes2[n] == nodes0[n].(isUsed := true) {
    }
    forall w | w in ways2 ensures ways2[w] == ways0[w] || ways2[w] == ways0[w].(isUsed := true) {
    }
  }

  lemma {:induction false} ClosedTrans(nodes0: map<int, Node>, nodes1: map<int, Node>, ways1: map<int, Way>,
                                       nodes2: map<int, Node>, ways2: map<int, Way>)
    requires Closed(nodes0, nodes1, ways1) && Closed(nodes1, nodes2, ways2)
    requires NodesFlagged(nodes0, nodes1) && NodesFlagged(nodes1, nodes2) && WaysFlagged(ways1, ways2)
    ensures Closed(nodes0, nodes2, ways2)
  {
    forall n, w | n in nodes0 && n in nodes2 && w in ways2 && n in ways2[w].nodeList && nodes2[n].isUsed && !nodes0[n].isUsed
      ensures ways2[w].isUsed
    {
      assert ways2[w].nodeList == ways1[w].nodeList;
      if nodes1[n].isUsed {
        assert ways1[w].isUsed;
      }
    }
  }

  /**
   * A placement step into section `cell`: only flags were set, the section
   * gained exactly the newly flagged nodes and ways, every way through a
   * newly flagged node is flagged, and no other slot changed.
   */
  ghost predicate Step(nodes0: map<int, Node>, ways0: map<int, Way>, secs0: seq<Option<Section>>,
                       nodes: map<int, Node>, ways: map<int, Way>, secs: seq<Option<Section>>, cell: int)
  {
    0 <= cell < |secs0| == |secs| && secs0[cell].Some? && secs[cell].Some? &&
    Grew(nodes0, ways0, secs0[cell].value, nodes, ways, secs[cell].value) &&
    Closed(nodes0, nodes, ways) &&
    secs[cell := None] == secs0[cell := None]
  }

  lemma StepRefl(nodes: map<int, Node>, ways: map<int, Way>, secs: seq<Option<Section>>, cell: int)
    requires 0 <= cell < |secs| && secs[cell].Some?
    ensures Step(nodes, ways, secs, nodes, ways, secs, cell)
  {
    assert UsedNodes(nodes) - UsedNodes(nodes) == {};
    assert UsedWays(ways) - UsedWays(ways) == {};
  }

  lemma {:induction false} StepTrans(nodes0: map<int, Node>, ways0: map<int, Way>, secs0: seq<Option<Section>>,
                                     nodes1: map<int, Node>, ways1: map<int, Way>, secs1: seq<Option<Section>>,
                                     nodes2: map<int, Node>, ways2: map<int, Way>, secs2: seq<Option<Section>>, cell: int)
    requires Step(nodes0, ways0, secs0, nodes1, ways1, secs1, cell) && Step(nodes1, ways1, secs1, nodes2, ways2, secs2, cell)
    ensures Step(nodes0, ways0, secs0, nodes2, ways2, secs2, cell)
  {
    GrewTrans(nodes0, ways0, secs0[cell].value, nodes1, ways1, secs1[cell].value, nodes2, ways2, secs2[cell].value);
    ClosedTrans(nodes0, nodes1, ways1, nodes2, ways2);
  }

  /** Changing only slot `cell` changes the placed ids by what that slot gained. */
  lemma PlacedReplace(secs0: seq<Option<Section>>, secs: seq<Option<Section>>, cell: int, k: Kind, added: multiset<int>)
    requires 0 <= cell < |secs0| == |secs| && secs[cell := None] == secs0[cell := None]
    requires Held(secs[cell], k) == Held(secs0[cell], k) + added
    ensures Placed(secs, k) == Placed(secs0, k) + added
  {
    assert secs == secs0[cell := secs[cell]] by {
      assert forall i | 0 <= i < |secs| && i != cell :: secs[i] == secs[cell := None][i];
    }
    PlacedUpdate(secs0, cell, secs[cell], k, added);
  }

  /** The ids flagged by the end are those flagged at the start and those flagged since. */
  lemma UsedSplit(nodes0: map<int, Node>, nodes: map<int, Node>, ways0: map<int, Way>, ways: map<int, Way>)
    requires NodesFlagged(nodes0, nodes) && WaysFlagged(ways0, ways)
    ensures multiset(UsedNodes(nodes)) == multiset(UsedNodes(nodes0)) + multiset(UsedNodes(nodes) - UsedNodes(nodes0))
    ensures multiset(UsedWays(ways)) == multiset(UsedWays(ways0)) + multiset(UsedWays(ways) - UsedWays(ways0))
  {
    FlaggedMonotone(nodes0, nodes, ways0, ways);
    SplitNew({}, UsedNodes(nodes0), UsedNodes(nodes));
    SplitNew({}, UsedWays(ways0), UsedWays(ways));
    assert UsedNodes(nodes) - {} == UsedNodes(nodes) && UsedNodes(nodes0) - {} == UsedNodes(nodes0);
    assert UsedWays(ways) - {} == UsedWays(ways) && UsedWays(ways0) - {} == UsedWays(ways0);
  }

  /**
   * Growing one section keeps the flags' record: the sections still hold each
   * flagged node and way once, and the relations they held.
   */
  lemma GrewTracks(nodes0: map<int, Node>, ways0: map<int, Way>, secs0: seq<Option<Section>>,
                   nodes: map<int, Node>, ways: map<int, Way>, secs: seq<Option<Section>>, cell: int)
    requires 0 <= cell < |secs0| == |secs| && secs0[cell].Some? && secs[cell].Some?
    requires secs[cell := None] == secs0[cell := None]
    requires Grew(nodes0, ways0, secs0[cell].value, nodes, ways, secs[cell].value) && Tracks(secs0, nodes0, ways0)
    ensures Tracks(secs, nodes, ways) && Kept(secs0, secs)
    ensures Placed(secs, RelationKind) == Placed(secs0, RelationKind)
  {
    PlacedReplace(secs0, secs, cell, NodeKind, multiset(UsedNodes(nodes) - UsedNodes(nodes0)));
    PlacedReplace(secs0, secs, cell, WayKind, multiset(UsedWays(ways) - UsedWays(ways0)));
    assert Held(secs[cell], RelationKind) == Held(secs0[cell], RelationKind) + multiset{};
    PlacedReplace(secs0, secs, cell, RelationKind, multiset{});
    UsedSplit(nodes0, nodes, ways0, ways);
    OneSlotKept(secs0, secs, cell);
  }

  /** Slots once allocated stay allocated, and their relation lists only grow at the end. */
  ghost predicate Kept(secs0: seq<Option<Section>>, secs: seq<Option<Section>>)
  {
    |secs0| == |secs| &&
    forall c | 0 <= c < |secs| && secs0[c].Some? :: secs[c].Some? && secs0[c].value.relations <= secs[c].value.relations
  }

  lemma KeptTrans(a: seq<Option<Section>>, b: seq<Option<Section>>, c: seq<Option<Section>>)
    requires Kept(a, b) && Kept(b, c)
    ensures Kept(a, c)
  {
  }

  /** Replacing one slot by an allocated section at least as far along in relations keeps the array. */
  lemma OneSlotKept(secs0: seq<Option<Section>>, secs: seq<Option<Section>>, cell: int)
    requires 0 <= cell < |secs0| == |secs| && secs[cell].Some? && secs[cell := None] == secs0[cell := None]
    requires secs0[cell].Some? ==> secs0[cell].value.relations <= secs[cell].value.relations
    ensures Kept(secs0, secs)
  {
    forall c | 0 <= c < |secs| && c != cell ensures secs[c] == secs0[c] {
      assert secs[c] == secs[cell := None][c];
    }
  }

  /** Relation `id` sits in the section of slot `cell`. */
  ghost predicate InCell(secs: seq<Option<Section>>, cell: int, id: int)
  {
    0 <= cell < |secs| && secs[cell].Some? && id in secs[cell].value.relations
  }

  lemma KeptInCell(secs0: seq<Option<Section>>, secs: seq<Option<Section>>, cell: int, id: int)
    requires Kept(secs0, secs) && InCell(secs0, cell, id)
    ensures InCell(secs, cell, id)
  {
    var rs0, rs := secs0[cell].value.relations, secs[cell].value.relations;
    var i :| 0 <= i < |rs0| && rs0[i] == id;
    assert rs[i] == id;
  }

  /** Allocating an empty section in a free slot places nothing. */
  lemma AllocKeeps(secs0: seq<Option<Section>>, cell: int)
    requires 0 <= cell < |secs0|
    ensures var secs := secs0[cell := if secs0[cell].Some? then secs0[cell] else Some(Section([], [], []))];
      Kept(secs0, secs) && secs[cell].Some? &&
      forall k :: Placed(secs, k) == Placed(secs0, k)
  {
    var secs := secs0[cell := if secs0[cell].Some? then secs0[cell] else Some(Section([], [], []))];
    assert secs[cell := None] == secs0[cell := None];
    forall k ensures Placed(secs, k) == Placed(secs0, k) {
      assert Held(secs[cell], k) == Held(secs0[cell], k) + multiset{};
      PlacedReplace(secs0, secs, cell, k, multiset{});
    }
    OneSlotKept(secs0, secs, cell);
  }

  /** Appending relation `id` to an allocated section places it there, once more. */
  lemma RelationAdded(secs0: seq<Option<Section>>, cell: int, id: int)
    requires 0 <= cell < |secs0| && secs0[cell].Some?
    ensures var sec := secs0[cell].value;
      var secs := secs0[cell := Some(sec.(relations := sec.relations + [id]))];
      Kept(secs0, secs) && InCell(secs, cell, id) &&
      Placed(secs, NodeKind) == Placed(secs0, NodeKind) && Placed(secs, WayKind) == Placed(secs0, WayKind) &&
      Placed(secs, RelationKind) == Placed(secs0, RelationKind) + multiset{id}
  {
    var sec := secs0[cell].value;
    var secs := secs0[cell := Some(sec.(relations := sec.relations + [id]))];
    assert secs[cell := None] == secs0[cell := None];
    assert Held(secs[cell], NodeKind) == Held(secs0[cell], NodeKind) + multiset{};
    assert Held(secs[cell], WayKind) == Held(secs0[cell], WayKind) + multiset{};
    assert Held(secs[cell], RelationKind) == Held(secs0[cell], RelationKind) + multiset{id};
    PlacedReplace(secs0, secs, cell, NodeKind, multiset{});
    PlacedReplace(secs0, secs, cell, WayKind, multiset{});
    PlacedReplace(secs0, secs, cell, RelationKind, multiset{id});
    OneSlotKept(secs0, secs, cell);
  }

  /** An array of unallocated slots places nothing. */
  lemma {:induction false} PlacedNone(secs: seq<Option<Section>>, k: Kind)
    requires forall i | 0 <= i < |secs| :: secs[i].None?
    ensures Placed(secs, k) == multiset{}
  {
    if secs != [] {
      PlacedNone(secs[..|secs| - 1], k);
    }
  }

  /** Each id of a list without duplicates is counted once. */
  lemma {:induction false} NoDupCounts(s: seq<int>)
    requires NoDup(s)
    ensures forall x | x in s :: multiset(s)[x] == 1
  {
    if s != [] {
      var init := s[..|s| - 1];
      assert NoDup(init);
      NoDupCounts(init);
      assert s == init + [s[|s| - 1]];
      assert s[|s| - 1] !in init;
    }
  }

  /** The dataset and the section array as they stood when the placement loops began. */
  datatype Origin = Origin(t: Tables, secs: seq<Option<Section>>)

  /**
   * What the placement loops of `WriteTasks` leave between two of their
   * states: only flags set, the dataset's orders and relations as they were,
   * and allocated sections kept.
   */
  ghost predicate Moved(t0: Tables, secs0: seq<Option<Section>>, t: Tables, secs: seq<Option<Section>>)
  {
    NodesFlagged(t0.nodes, t.nodes) && WaysFlagged(t0.ways, t.ways) && SameShape(t0, t) && Kept(secs0, secs)
  }

  lemma MovedTrans(t0: Tables, secs0: seq<Option<Section>>, t1: Tables, secs1: seq<Option<Section>>,
                   t2: Tables, secs2: seq<Option<Section>>)
    requires Moved(t0, secs0, t1, secs1) && Moved(t1, secs1, t2, secs2)
    ensures Moved(t0, secs0, t2, secs2)
  {
    KeptTrans(secs0, secs1, secs2);
    forall n | n in t2.nodes ensures t2.nodes[n] == t0.nodes[n] || t2.nodes[n] == t0.nodes[n].(isUsed := true) {
    }
    forall w | w in t2.ways ensures t2.ways[w] == t0.ways[w] || t2.ways[w] == t0.ways[w].(isUsed := true) {
    }
  }

  /**
   * Relation `id` is filed: it sits in the section of its centre's cell and
   * every way it lists is flagged.
   */
  ghost predicate Filed(t: Tables, secs: seq<Option<Section>>, tb: Buckets, id: int)
    requires tb.Valid()
  {
    id in t.relations && InCell(secs, CellAt(tb, t.relations[id].lat, t.relations[id].lon), id) &&
    forall w | w in t.relations[id].ways :: w in UsedWays(t.ways)
  }

  lemma FiledMoved(t0: Tables, secs0: seq<Option<Section>>, t: Tables, secs: seq<Option<Section>>, tb: Buckets, id: int)
    requires tb.Valid() && Moved(t0, secs0, t, secs) && Filed(t0, secs0, tb, id)
    ensures Filed(t, secs, tb, id)
  {
    FlaggedMonotone(t0.nodes, t.nodes, t0.ways, t.ways);
    KeptInCell(secs0, secs, CellAt(tb, t0.relations[id].lat, t0.relations[id].lon), id);
  }

  lemma AllFiledMoved(t0: Tables, secs0: seq<Option<Section>>, t: Tables, secs: seq<Option<Section>>, tb: Buckets,
                      order: seq<int>, i: int)
    requires tb.Valid() && Moved(t0, secs0, t, secs) && 0 <= i <= |order|
    requires forall k | 0 <= k < i :: Filed(t0, secs0, tb, order[k])
    ensures forall k | 0 <= k < i :: Filed(t, secs, tb, order[k])
  {
    forall k | 0 <= k < i ensures Filed(t, secs, tb, order[k]) {
      FiledMoved(t0, secs0, t, secs, tb, order[k]);
    }
  }

  /** The first `i` relations of the enumeration are filed, and the sections hold exactly those. */
  ghost predicate FiledUpTo(t: Tables, secs: seq<Option<Section>>, tb: Buckets, i: int)
    requires tb.Valid()
  {
    0 <= i <= |t.relationOrder| && Enumerates(t.relationOrder, t.relations) &&
    Placed(secs, RelationKind) == multiset(t.relationOrder[..i]) &&
    forall id | id in t.relationOrder[..i] :: Filed(t, secs, tb, id)
  }

  /** Every relation of the dataset is filed. */
  ghost predicate AllFiled(t: Tables, secs: seq<Option<Section>>, tb: Buckets)
    requires tb.Valid()
  {
    forall id | id in t.relations :: Filed(t, secs, tb, id)
  }

  /** With every relation filed and each enumerated once, each relation is held exactly once. */
  lemma FiledOnce(t: Tables, secs: seq<Option<Section>>, tb: Buckets)
    requires tb.Valid() && Enumerates(t.relationOrder, t.relations) && AllFiled(t, secs, tb)
    requires Placed(secs, RelationKind) == multiset(t.relationOrder)
    ensures forall id | id in t.relations :: Placed(secs, RelationKind)[id] == 1 && Filed(t, secs, tb, id)
  {
    NoDupCounts(t.relationOrder);
  }

  /** What clearing the flags leaves: the same dataset with every node and way unused. */
  ghost predicate Cleared(before: Tables, t: Tables)
  {
    SameShape(before, t) && t.nodes.Keys == before.nodes.Keys && t.ways.Keys == before.ways.Keys &&
    (forall id | id in t.nodes :: t.nodes[id] == before.nodes[id].(isUsed := false)) &&
    (forall id | id in t.ways :: t.ways[id] == before.ways[id].(isUsed := false))
  }

  /** After clearing, nothing is used, and positions, way members and relation members are as before. */
  lemma ClearedFacts(before: Tables, t: Tables)
    requires Cleared(before, t)
    ensures SamePositions(before, t) && UsedNodes(t.nodes) == {} && UsedWays(t.ways) == {}
    ensures forall w | w in t.ways :: t.ways[w].nodeList == before.ways[w].nodeList
    ensures MembersPresent(before) ==> MembersPresent(t)
  {
    assert forall n | n in t.nodes :: !t.nodes[n].isUsed;
    assert forall w | w in t.ways :: !t.ways[w].isUsed;
  }

  /** Every way a relation lists is in the dataset. */
  ghost predicate MembersPresent(t: Tables)
  {
    forall id | id in t.relations :: AllIn(t.relations[id].ways, t.ways)
  }

  /** Setting flags neither adds nor removes ways, so the relations' ways stay present. */
  lemma MembersPresentMoved(t0: Tables, secs0: seq<Option<Section>>, t: Tables, secs: seq<Option<Section>>)
    requires Moved(t0, secs0, t, secs) && MembersPresent(t0)
    ensures MembersPresent(t)
  {
  }

  /** Filing the next relation, with nothing else filed and nothing unfiled, extends the prefix by one. */
  lemma FiledStep(t0: Tables, secs0: seq<Option<Section>>, t: Tables, secs: seq<Option<Section>>, tb: Buckets, i: int)
    requires tb.Valid() && FiledUpTo(t0, secs0, tb, i) && i < |t0.relationOrder|
    requires Moved(t0, secs0, t, secs)
    requires Placed(secs, RelationKind) == Placed(secs0, RelationKind) + multiset{t0.relationOrder[i]}
    requires Filed(t, secs, tb, t0.relationOrder[i])
    ensures FiledUpTo(t, secs, tb, i + 1)
  {
    PrefixGrows(t0.relationOrder, i);
    forall id | id in t.relationOrder[..i + 1] ensures Filed(t, secs, tb, id) {
      if id != t.relationOrder[i] {
        FiledMoved(t0, secs0, t, secs, tb, id);
      }
    }
  }

  /** The whole enumeration filed: each relation is filed, and the sections hold each exactly once. */
  lemma FiledAll(t: Tables, secs: seq<Option<Section>>, tb: Buckets)
    requires tb.Valid() && FiledUpTo(t, secs, tb, |t.relationOrder|)
    ensures Placed(secs, RelationKind) == multiset(t.relationOrder)
    ensures AllFiled(t, secs, tb)
  {
    assert t.relationOrder[..|t.relationOrder|] == t.relationOrder;
  }

  /**
   * Every relation, way and node lies in a cell whose number is a valid index
   * of the section array. This says only that the numbers are not negative:
   * a cell at row -1 still numbers into the array, as the top row of the
   * column to its left (`CellBelowGridAliases`).
   */
  ghost predicate InGrid(tb: Buckets, t: Tables)
    requires tb.Valid()
  {
    (forall id | id in t.relations :: CellAt(tb, t.relations[id].lat, t.relations[id].lon) >= 0) &&
    (forall id | id in t.ways :: CellAt(tb, t.ways[id].lat, t.ways[id].lon) >= 0) &&
    (forall id | id in t.nodes :: CellAt(tb, t.nodes[id].lat, t.nodes[id].lon) >= 0)
  }

  /** A relation, way or node whose cell numbers below zero puts the dataset outside the grid. */
  lemma RelationOutside(tb: Buckets, t: Tables, id: int)
    requires tb.Valid() && id in t.relations && CellAt(tb, t.relations[id].lat, t.relations[id].lon) < 0
    ensures !InGrid(tb, t)
  {
  }

  lemma WayOutside(tb: Buckets, t: Tables, id: int)
    requires tb.Valid() && id in t.ways && CellAt(tb, t.ways[id].lat, t.ways[id].lon) < 0
    ensures !InGrid(tb, t)
  {
  }

  lemma NodeOutside(tb: Buckets, t: Tables, id: int)
    requires tb.Valid() && id in t.nodes && CellAt(tb, t.nodes[id].lat, t.nodes[id].lon) < 0
    ensures !InGrid(tb, t)
  {
  }

  /** The same relations, and the same nodes and ways at the same positions. */
  ghost predicate SamePositions(t0: Tables, t: Tables)
  {
    t.relations == t0.relations && t.nodes.Keys == t0.nodes.Keys && t.ways.Keys == t0.ways.Keys &&
    (forall id | id in t.nodes :: t.nodes[id].lat == t0.nodes[id].lat && t.nodes[id].lon == t0.nodes[id].lon) &&
    (forall id | id in t.ways :: t.ways[id].lat == t0.ways[id].lat && t.ways[id].lon == t0.ways[id].lon)
  }

  /** Setting flags moves nothing. */
  lemma FlaggedSamePositions(t0: Tables, t: Tables)
    requires NodesFlagged(t0.nodes, t.nodes) && WaysFlagged(t0.ways, t.ways) && SameShape(t0, t)
    ensures SamePositions(t0, t)
  {
    assert forall id | id in t.nodes :: t.nodes[id].lat == t0.nodes[id].lat && t.nodes[id].lon == t0.nodes[id].lon;
    assert forall id | id in t.ways :: t.ways[id].lat == t0.ways[id].lat && t.ways[id].lon == t0.ways[id].lon;
  }

  /** Whether everything lies inside the grid depends on the positions only. */
  lemma InGridSame(tb: Buckets, t0: Tables, t: Tables)
    requires tb.Valid() && SamePositions(t0, t)
    ensures InGrid(tb, t0) <==> InGrid(tb, t)
  {
  }

  /** Setting flags keeps a dataset consistent. */
  lemma FlaggedValid(t0: Tables, t: Tables)
    requires t0.Valid() && NodesFlagged(t0.nodes, t.nodes) && WaysFlagged(t0.ways, t.ways) && SameShape(t0, t)
    ensures t.Valid()
  {
    assert forall id | id in t.nodes :: t.nodes[id].id == t0.nodes[id].id;
    assert forall id | id in t.ways :: t.ways[id].id == t0.ways[id].id;
  }

  /**
   * After a reset and flag-only changes, a map whose every node is flagged
   * holds each node of `before` with its flag set.
   */
  lemma AllNodesFlagged(before: map<int, Node>, reset: map<int, Node>, nodes: map<int, Node>)
    requires reset.Keys == before.Keys && forall id | id in reset :: reset[id] == before[id].(isUsed := false)
    requires NodesFlagged(reset, nodes) && UsedNodes(nodes) == nodes.Keys
    ensures nodes.Keys == before.Keys && forall id | id in nodes :: nodes[id] == before[id].(isUsed := true)
  {
    forall id | id in nodes ensures nodes[id] == before[id].(isUsed := true) {
      assert id in UsedNodes(nodes);
    }
  }

  /** The same for ways. */
  lemma AllWaysFlagged(before: map<int, Way>, reset: map<int, Way>, ways: map<int, Way>)
    requires reset.Keys == before.Keys && forall id | id in reset :: reset[id] == before[id].(isUsed := false)
    requires WaysFlagged(reset, ways) && UsedWays(ways) == ways.Keys
    ensures ways.Keys == before.Keys && forall id | id in ways :: ways[id] == before[id].(isUsed := true)
  {
    forall id | id in ways ensures ways[id] == before[id].(isUsed := true) {
      assert id in UsedWays(ways);
    }
  }

  /** The cell `WriteTasks` files a position under: `ReturnBucket`, numbered by `GetSectionData`. */
  function CellAt(tb: Buckets, lat: real, lon: real): (c: int)
    requires tb.Valid()
    ensures c < tb.NHorizontal * tb.NVertical
  {
    var xy := tb.ReturnBucket(lat, lon);
    CellBelowEnd(tb.NHorizontal, tb.NVertical, xy.0, xy.1);
    Cell(tb.NVertical, xy.0, xy.1)
  }

  /** A whole enumeration inside `used` puts every key inside it. */
  lemma EnumeratedInto<T>(order: seq<int>, m0: map<int, T>, m: map<int, T>, used: set<int>)
    requires Enumerates(order, m0) && m.Keys == m0.Keys && used <= m.Keys && forall x | x in order[..|order|] :: x in used
    ensures used == m.Keys
  {
    assert order[..|order|] == order;
    forall x | x in m ensures x in used {
      assert x in m0.Keys;
    }
  }

  /** A prefix inside `a` extended by an element of `b`, for `a <= b`, lies inside `b`. */
  lemma PrefixInto(s: seq<int>, i: int, a: set<int>, b: set<int>)
    requires 0 <= i < |s| && a <= b && s[i] in b && forall x | x in s[..i] :: x in a
    ensures forall x | x in s[..i + 1] :: x in b
  {
    assert s[..i + 1] == s[..i] + [s[i]];
  }

  /** Membership in a prefix one longer. */
  lemma PrefixGrows(s: seq<int>, i: int)
    requires 0 <= i < |s|
    ensures forall x :: x in s[..i + 1] <==> x in s[..i] || x == s[i]
    ensures multiset(s[..i + 1]) == multiset(s[..i]) + multiset{s[i]}
    ensures s[..|s|] == s
  {
    assert s[..i + 1] == s[..i] + [s[i]];
  }
}

=== FILE: tasking_interface.dfy ===
/**
 * The task partitioner's state: the lazily filled array of task sections and
 * the index of the ways through each node, with the placement passes of
 * `WriteTasks` over them.
 */
module Tasking {
  import opened Wrappers
  import opened OSMType
  import opened Datasets
  import opened BucketIndex
  import opened TaskSections

  /** `Moved` between two recorded states. */
  ghost predicate Since(a: Origin, b: Origin)
  {
    Moved(a.t, a.secs, b.t, b.secs)
  }

  lemma SinceTrans(a: Origin, b: Origin, c: Origin)
    requires Since(a, b) && Since(b, c)
    ensures Since(a, c)
  {
    MovedTrans(a.t, a.secs, b.t, b.secs, c.t, c.secs);
  }

  /** Allocating sections, and nothing else, is a move. */
  lemma SinceKept(a: Origin, secs: seq<Option<Section>>)
    requires Kept(a.secs, secs)
    ensures Since(a, Origin(a.t, secs))
  {
  }

  /** Relations filed at `a` are filed at every later state. */
  lemma AllFiledSince(tb: Buckets, a: Origin, b: Origin)
    requires tb.Valid() && Since(a, b) && AllFiled(a.t, a.secs, tb)
    ensures AllFiled(b.t, b.secs, tb)
  {
    forall id | id in b.t.relations ensures Filed(b.t, b.secs, tb, id) {
      FiledMoved(a.t, a.secs, b.t, b.secs, tb, id);
    }
  }

  /** Whether everything lies inside the grid does not change between two recorded states. */
  lemma InGridSince(tb: Buckets, a: Origin, b: Origin)
    requires tb.Valid() && Since(a, b)
    ensures InGrid(tb, a.t) <==> InGrid(tb, b.t)
  {
    FlaggedSamePositions(a.t, b.t);
    InGridSame(tb, a.t, b.t);
  }

  class TaskingInterface {
    /** One slot per task cell; `None` until `GetSectionData` first asks for it. */
    var osmDataSections: array<Option<Section>>
    /** For each node, the ways through it. */
    var connectedWays: map<int, seq<int>>

    constructor ()
      ensures osmDataSections.Length == 0 && connectedWays == map[]
    {
      osmDataSections := new Option<Section>[0](_ => None);
      connectedWays := map[];
    }

    /** What the placement steps need: the index of the dataset's ways, and an allocated section. */
    ghost predicate Ready(osmData: OSMDataset, cell: int)
      reads this, osmData, osmDataSections
    {
      Indexes(connectedWays, osmData.osmNodes, osmData.osmWays) &&
      0 <= cell < osmDataSections.Length && osmDataSections[cell].Some?
    }

    /** `osmDataSection.osmWays.Add(way.ID, way); way.IsUsed = true`. */
    method AddWayTo(osmData: OSMDataset, cell: int, wayId: int)
      requires Ready(osmData, cell) && wayId in osmData.osmWays && !osmData.osmWays[wayId].isUsed
      modifies osmData, osmDataSections
      ensures Ready(osmData, cell) && SameShape(old(osmData.Snapshot()), osmData.Snapshot())
      ensures osmData.osmWays == old(osmData.osmWays)[wayId := old(osmData.osmWays)[wayId].(isUsed := true)]
      ensures osmData.osmNodes == old(osmData.osmNodes)
      ensures UnusedWays(osmData.osmWays) == UnusedWays(old(osmData.osmWays)) - {wayId}
      ensures Step(old(osmData.osmNodes), old(osmData.osmWays), old(osmDataSections[..]),
                   osmData.osmNodes, osmData.osmWays, osmDataSections[..], cell)
    {
      ghost var nodes0, ways0, secs0 := osmData.osmNodes, osmData.osmWays, osmDataSections[..];
      var sec := osmDataSections[cell].value;
      osmDataSections[cell] := Some(sec.(ways := sec.ways + [wayId]));
      osmData.SetWayUsed(wayId);
      assert UsedWays(osmData.osmWays) - UsedWays(ways0) == {wayId};
      assert UsedNodes(nodes0) - UsedNodes(nodes0) == {};
      IndexesFlagged(connectedWays, nodes0, ways0, nodes0, osmData.osmWays);
      assert osmDataSections[..] == secs0[cell := osmDataSections[cell]];
    }

    /** `osmDataSection.osmNodes.Add(node.ID, node); node.IsUsed = true`. */
    method AddNodeTo(osmData: OSMDataset, cell: int, nodeId: int)
      requires Ready(osmData, cell) && nodeId in osmData.osmNodes && !osmData.osmNodes[nodeId].isUsed
      modifies osmData, osmDataSections
      ensures Ready(osmData, cell) && SameShape(old(osmData.Snapshot()), osmData.Snapshot())
      ensures osmData.osmNodes == old(osmData.osmNodes)[nodeId := old(osmData.osmNodes)[nodeId].(isUsed := true)]
      ensures osmData.osmWays == old(osmData.osmWays)
      ensures osmDataSections[..][cell := None] == old(osmDataSections[..])[cell := None]
      ensures Grew(old(osmData.osmNodes), old(osmData.osmWays), old(osmDataSections[cell].value),
                   osmData.osmNodes, osmData.osmWays, osmDataSections[cell].value)
    {
      ghost var nodes0, ways0, secs0 := osmData.osmNodes, osmData.osmWays, osmDataSections[..];
      var sec := osmDataSections[cell].value;
      osmDataSections[cell] := Some(sec.(nodes := sec.nodes + [nodeId]));
      osmData.SetNodeUsed(nodeId);
      assert UsedNodes(osmData.osmNodes) - UsedNodes(nodes0) == {nodeId};
      assert UsedWays(ways0) - UsedWays(ways0) == {};
      IndexesFlagged(connectedWays, nodes0, ways0, osmData.osmNodes, ways0);
      assert osmDataSections[..] == secs0[cell := osmDataSections[cell]];
    }

    /**
     * `SaveWayTo(section, way)`: an unused way goes into the section with
     * every not yet used node of it; each such node pulls in its unused ways.
     */
    method SaveWayTo(osmData: OSMDataset, cell: int, wayId: int)
      requires Ready(osmData, cell) && wayId in osmData.osmWays
      modifies osmData, osmDataSections
      decreases |UnusedWays(osmData.osmWays)|, 1
      ensures Ready(osmData, cell) && SameShape(old(osmData.Snapshot()), osmData.Snapshot())
      ensures Step(old(osmData.osmNodes), old(osmData.osmWays), old(osmDataSections[..]),
                   osmData.osmNodes, osmData.osmWays, osmDataSections[..], cell)
      ensures osmData.osmWays[wayId].isUsed
      ensures !old(osmData.osmWays[wayId].isUsed) ==>
                forall n | n in osmData.osmWays[wayId].nodeList :: n in UsedNodes(osmData.osmNodes)
    {
      var way := osmData.osmWays[wayId];
      if way.isUsed {
        StepRefl(osmData.osmNodes, osmData.osmWays, osmDataSections[..], cell);
        return;
      }
      ghost var nodes0, ways0, secs0 := osmData.osmNodes, osmData.osmWays, osmDataSections[..];
      AddWayTo(osmData, cell, wayId);
      ghost var ways1, secs1 := osmData.osmWays, osmDataSections[..];
      assert |UnusedWays(ways1)| < |UnusedWays(ways0)| by {
        assert wayId in UnusedWays(ways0);
      }
      assert osmData.osmWays[wayId].nodeList == way.nodeList;
      assert forall n | n in way.nodeList :: n in osmData.osmWays[wayId].nodeList;
      SaveNodes(osmData, cell, way.nodeList);
      StepTrans(nodes0, ways0, secs0, nodes0, ways1, secs1, osmData.osmNodes, osmData.osmWays, osmDataSections[..], cell);
      FlaggedMonotone(nodes0, osmData.osmNodes, ways1, osmData.osmWays);
      assert osmData.osmWays[wayId].nodeList == way.nodeList;
    }

    /** The loop of `SaveWayTo` over the way's nodes. */
    method SaveNodes(osmData: OSMDataset, cell: int, list: seq<int>)
      requires Ready(osmData, cell) && forall n | n in list :: n in osmData.osmNodes
      modifies osmData, osmDataSections
      decreases |UnusedWays(osmData.osmWays)|, 4
      ensures Ready(osmData, cell) && SameShape(old(osmData.Snapshot()), osmData.Snapshot())
      ensures forall n | n in list :: n in UsedNodes(osmData.osmNodes)
      ensures Step(old(osmData.osmNodes), old(osmData.osmWays), old(osmDataSections[..]),
                   osmData.osmNodes, osmData.osmWays, osmDataSections[..], cell)
    {
      ghost var nodes0, ways0, secs0 := osmData.osmNodes, osmData.osmWays, osmDataSections[..];
      StepRefl(nodes0, ways0, secs0, cell);
      var i := 0;
      while i < |list|
        invariant 0 <= i <= |list|
        invariant Ready(osmData, cell) && SameShape(old(osmData.Snapshot()), osmData.Snapshot())
        invariant Step(nodes0, ways0, secs0, osmData.osmNodes, osmData.osmWays, osmDataSections[..], cell)
        invariant forall n | n in list[..i] :: n in UsedNodes(osmData.osmNodes)
      {
        ghost var nodesI, waysI, secsI := osmData.osmNodes, osmData.osmWays, osmDataSections[..];
        FlaggedMonotone(nodes0, nodesI, ways0, waysI);
        SubsetCard(UnusedWays(waysI), UnusedWays(ways0));
        SaveNode(osmData, cell, list[i]);
        StepTrans(nodes0, ways0, secs0, nodesI, waysI, secsI, osmData.osmNodes, osmData.osmWays, osmDataSections[..], cell);
        FlaggedMonotone(nodesI, osmData.osmNodes, waysI, osmData.osmWays);
        PrefixInto(list, i, UsedNodes(nodesI), UsedNodes(osmData.osmNodes));
        i := i + 1;
      }
      assert list[..i] == list;
    }

    /**
     * The node step of `SaveWayTo`: an unused node goes into the section and
     * every unused way through it is saved there too.
     */
    method SaveNode(osmData: OSMDataset, cell: int, nodeId: int)
      requires Ready(osmData, cell) && nodeId in osmData.osmNodes
      modifies osmData, osmDataSections
      decreases |UnusedWays(osmData.osmWays)|, 3
      ensures Ready(osmData, cell) && SameShape(old(osmData.Snapshot()), osmData.Snapshot())
      ensures Step(old(osmData.osmNodes), old(osmData.osmWays), old(osmDataSections[..]),
                   osmData.osmNodes, osmData.osmWays, osmDataSections[..], cell)
      ensures osmData.osmNodes[nodeId].isUsed
    {
      if osmData.osmNodes[nodeId].isUsed {
        StepRefl(osmData.osmNodes, osmData.osmWays, osmDataSections[..], cell);
        return;
      }
      ghost var nodes0, ways0, secs0 := osmData.osmNodes, osmData.osmWays, osmDataSections[..];
      AddNodeTo(osmData, cell, nodeId);
      ghost var nodes1, secs1 := osmData.osmNodes, osmDataSections[..];
      var ws := connectedWays[nodeId];
      assert forall w | w in ws :: w in osmData.osmWays;
      SaveConnected(osmData, cell, ws);
      GrewTrans(nodes0, ways0, secs0[cell].value, nodes1, ways0, secs1[cell].value,
                osmData.osmNodes, osmData.osmWays, osmDataSections[cell].value);
      FlaggedMonotone(nodes1, osmData.osmNodes, ways0, osmData.osmWays);
      forall n, w | n in nodes0 && n in osmData.osmNodes && w in osmData.osmWays && n in osmData.osmWays[w].nodeList &&
                    osmData.osmNodes[n].isUsed && !nodes0[n].isUsed
        ensures osmData.osmWays[w].isUsed
      {
        if n == nodeId {
          assert w in ws;
        } else {
          assert !nodes1[n].isUsed;
        }
      }
      assert osmDataSections[..][cell := None] == secs0[cell := None];
    }

    /** The loop of `SaveWayTo` over the ways through a newly placed node. */
    method SaveConnected(osmData: OSMDataset, cell: int, ws: seq<int>)
      requires Ready(osmData, cell) && forall w | w in ws :: w in osmData.osmWays
      modifies osmData, osmDataSections
      decreases |UnusedWays(osmData.osmWays)|, 2
      ensures Ready(osmData, cell) && SameShape(old(osmData.Snapshot()), osmData.Snapshot())
      ensures forall w | w in ws :: w in UsedWays(osmData.osmWays)
      ensures Step(old(osmData.osmNodes), old(osmData.osmWays), old(osmDataSections[..]),
                   osmData.osmNodes, osmData.osmWays, osmDataSections[..], cell)
    {
      ghost var nodes0, ways0, secs0 := osmData.osmNodes, osmData.osmWays, osmDataSections[..];
      StepRefl(nodes0, ways0, secs0, cell);
      assert forall w | w in ws :: w in ways0;
      var j := 0;
      while j < |ws|
        invariant 0 <= j <= |ws|
        invariant Ready(osmData, cell) && SameShape(old(osmData.Snapshot()), osmData.Snapshot())
        invariant Step(nodes0, ways0, secs0, osmData.osmNodes, osmData.osmWays, osmDataSections[..], cell)
        invariant forall w | w in ws[..j] :: w in UsedWays(osmData.osmWays)
      {
        ghost var nodesJ, waysJ, secsJ := osmData.osmNodes, osmData.osmWays, osmDataSections[..];
        FlaggedMonotone(nodes0, nodesJ, ways0, waysJ);
        SubsetCard(UnusedWays(waysJ), UnusedWays(ways0));
        assert ws[j] in ws;
        if !osmData.osmWays[ws[j]].isUsed {
          SaveWayTo(osmData, cell, ws[j]);
          StepTrans(nodes0, ways0, secs0, nodesJ, waysJ, secsJ, osmData.osmNodes, osmData.osmWays, osmDataSections[..], cell);
          FlaggedMonotone(nodesJ, osmData.osmNodes, waysJ, osmData.osmWays);
        }
        PrefixInto(ws, j, UsedWays(waysJ), UsedWays(osmData.osmWays));
        j := j + 1;
      }
      assert ws[..j] == ws;
    }

    /**
     * `GetSectionData(taskBuckets, x, y)`: the section of cell x * NVertical + y,
     * created empty on first use and the same one afterwards; an index outside
     * the array throws.
     */
    method GetSectionData(tb: Buckets, x: int, y: int) returns (r: Result<int, TaskError>)
      modifies osmDataSections
      ensures r.Ok? <==> 0 <= Cell(tb.NVertical, x, y) < osmDataSections.Length
      ensures r.Err? ==> r.error == CellOutOfRange(Cell(tb.NVertical, x, y)) && osmDataSections[..] == old(osmDataSections[..])
      ensures r.Ok? ==> r.value == Cell(tb.NVertical, x, y)
      ensures r.Ok? ==> osmDataSections[..] == old(osmDataSections[..])[r.value :=
        if old(osmDataSections[r.value]).Some? then old(osmDataSections[r.value]) else Some(Section([], [], []))]
    {
      var cell := x * tb.NVertical + y;
      if !(0 <= cell < osmDataSections.Length) {
        return Err(CellOutOfRange(cell));
      }
      if osmDataSections[cell].None? {
        osmDataSections[cell] := Some(Section([], [], []));
      }
      r := Ok(cell);
    }

    /**
     * `InitializeConnectedWays`: under each node, the ways containing it, each
     * once; a way naming a node the dataset lacks throws.
     */
    method InitializeConnectedWays(osmData: OSMDataset) returns (r: Result<(), TaskError>)
      requires osmData.Valid()
      modifies this`connectedWays
      ensures r.Ok? <==> forall w | w in osmData.osmWays :: AllIn(osmData.osmWays[w].nodeList, osmData.osmNodes)
      ensures r.Err? ==> r.error.NodeNotFound? && r.error.wayId in osmData.osmWays &&
                         r.error.nodeId in osmData.osmWays[r.error.wayId].nodeList && r.error.nodeId !in osmData.osmNodes
      ensures r.Ok? ==> Indexes(connectedWays, osmData.osmNodes, osmData.osmWays) &&
                        forall n | n in connectedWays :: NoDup(connectedWays[n])
    {
      var cw := EmptyLists(osmData.osmNodes, osmData.nodeOrder);
      var linked := LinkAllWays(cw, osmData.osmWays, osmData.wayOrder);
      LinkedIndexes(osmData.osmNodes, osmData.osmWays, osmData.wayOrder);
      if linked.Err? {
        return Err(linked.error);
      }
      connectedWays := linked.value;
      r := Ok(());
    }

    /** What the placement loops rely on: the index of the dataset's ways, and the record of flags. */
    ghost predicate Placing(osmData: OSMDataset, tb: Buckets)
      reads this, osmData, osmDataSections
    {
      Indexes(connectedWays, osmData.osmNodes, osmData.osmWays) && tb.Valid() &&
      Tracks(osmDataSections[..], osmData.osmNodes, osmData.osmWays)
    }

    /** Since `o`, only flags were set and allocated sections kept. */
    ghost predicate MovedSince(osmData: OSMDataset, o: Origin)
      reads this, osmData, osmDataSections
    {
      Since(o, Now(osmData))
    }

    /** The dataset and the section array as they stand. */
    ghost function Now(osmData: OSMDataset): Origin
      reads this, osmData, osmDataSections
    {
      Origin(osmData.Snapshot(), osmDataSections[..])
    }

    /** One pass of the relation loop of `WriteTasks`: the relation into its centre's cell, then its ways. */
    method PlaceRelation(osmData: OSMDataset, tb: Buckets, id: int) returns (r: Result<(), TaskError>)
      requires Placing(osmData, tb) && id in osmData.osmRelations
      requires AllIn(osmData.osmRelations[id].ways, osmData.osmWays)
      modifies osmData, osmDataSections
      ensures Placing(osmData, tb)
      ensures MovedSince(osmData, old(Origin(osmData.Snapshot(), osmDataSections[..])))
      ensures var rel := osmData.osmRelations[id];
        (r.Ok? <==> 0 <= CellAt(tb, rel.lat, rel.lon) < osmDataSections.Length) &&
        (r.Err? ==> r.error == CellOutOfRange(CellAt(tb, rel.lat, rel.lon)) &&
                    Placed(osmDataSections[..], RelationKind) == old(Placed(osmDataSections[..], RelationKind))) &&
        (r.Ok? ==> Placed(osmDataSections[..], RelationKind) == old(Placed(osmDataSections[..], RelationKind)) + multiset{id} &&
                   Filed(osmData.Snapshot(), osmDataSections[..], tb, id))
    {
      var rel := osmData.osmRelations[id];
      var xy := tb.ReturnBucket(rel.lat, rel.lon);
      ghost var o := Now(osmData);
      var c := GetSectionData(tb, xy.0, xy.1);
      if c.Err? {
        SinceKept(o, osmDataSections[..]);
        r := Err(c.error);
      } else {
        var cell := c.value;
        assert cell == CellAt(tb, rel.lat, rel.lon);
        AllocKeeps(o.secs, cell);
        FileRelation(osmData, tb, cell, id, o);
        r := Ok(());
      }
    }

    /**
     * The relation appended to the allocated section of `cell`, then its ways
     * saved there; `o` is the state before the section was allocated.
     */
    method FileRelation(osmData: OSMDataset, tb: Buckets, cell: int, id: int, ghost o: Origin)
      requires Placing(osmData, tb) && id in osmData.osmRelations
      requires AllIn(osmData.osmRelations[id].ways, osmData.osmWays)
      requires 0 <= cell < osmDataSections.Length && osmDataSections[cell].Some?
      requires o.t == osmData.Snapshot() && Kept(o.secs, osmDataSections[..])
      requires cell == CellAt(tb, osmData.osmRelations[id].lat, osmData.osmRelations[id].lon)
      modifies osmData, osmDataSections
      ensures Placing(osmData, tb)
      ensures MovedSince(osmData, o)
      ensures Placed(osmDataSections[..], RelationKind) == old(Placed(osmDataSections[..], RelationKind)) + multiset{id}
      ensures Filed(osmData.Snapshot(), osmDataSections[..], tb, id)
    {
      ghost var secs1 := osmDataSections[..];
      var rel := osmData.osmRelations[id];
      var sec := osmDataSections[cell].value;
      osmDataSections[cell] := Some(sec.(relations := sec.relations + [id]));
      RelationAdded(secs1, cell, id);
      ghost var nodes2, ways2, secs2 := osmData.osmNodes, osmData.osmWays, osmDataSections[..];
      assert forall w | w in rel.ways :: w in osmData.osmWays;
      SaveConnected(osmData, cell, rel.ways);
      GrewTracks(nodes2, ways2, secs2, osmData.osmNodes, osmData.osmWays, osmDataSections[..], cell);
      KeptTrans(o.secs, secs1, secs2);
      KeptTrans(o.secs, secs2, osmDataSections[..]);
      KeptInCell(secs2, osmDataSections[..], cell, id);
    }

    /** One pass of the way loop of `WriteTasks`: an unused way into its centre's cell. */
    method PlaceWay(osmData: OSMDataset, tb: Buckets, id: int) returns (r: Result<(), TaskError>)
      requires Placing(osmData, tb) && id in osmData.osmWays
      modifies osmData, osmDataSections
      ensures Placing(osmData, tb)
      ensures MovedSince(osmData, old(Origin(osmData.Snapshot(), osmDataSections[..])))
      ensures Placed(osmDataSections[..], RelationKind) == old(Placed(osmDataSections[..], RelationKind))
      ensures r.Err? ==> osmData.osmWays == old(osmData.osmWays)
      ensures var way := old(osmData.osmWays[id]);
        (r.Ok? <==> way.isUsed || 0 <= CellAt(tb, way.lat, way.lon) < osmDataSections.Length) &&
        (r.Err? ==> r.error == CellOutOfRange(CellAt(tb, way.lat, way.lon))) &&
        (r.Ok? ==> id in UsedWays(osmData.osmWays))
    {
      var way := osmData.osmWays[id];
      if way.isUsed {
        return Ok(());
      }
      var xy := tb.ReturnBucket(way.lat, way.lon);
      ghost var secs0 := osmDataSections[..];
      var c := GetSectionData(tb, xy.0, xy.1);
      if c.Err? {
        return Err(c.error);
      }
      var cell := c.value;
      AllocKeeps(secs0, cell);
      ghost var nodes1, ways1, secs1 := osmData.osmNodes, osmData.osmWays, osmDataSections[..];
      SaveWayTo(osmData, cell, id);
      GrewTracks(nodes1, ways1, secs1, osmData.osmNodes, osmData.osmWays, osmDataSections[..], cell);
      KeptTrans(secs0, secs1, osmDataSections[..]);
      r := Ok(());
    }

    /** One pass of the node loop of `WriteTasks`: an unused node into the cell of its position. */
    method PlaceNode(osmData: OSMDataset, tb: Buckets, id: int) returns (r: Result<(), TaskError>)
      requires Placing(osmData, tb) && id in osmData.osmNodes
      modifies osmData, osmDataSections
      ensures Placing(osmData, tb)
      ensures MovedSince(osmData, old(Origin(osmData.Snapshot(), osmDataSections[..])))
      ensures Placed(osmDataSections[..], RelationKind) == old(Placed(osmDataSections[..], RelationKind))
      ensures r.Err? ==> osmData.osmNodes == old(osmData.osmNodes)
      ensures var node := old(osmData.osmNodes[id]);
        (r.Ok? <==> node.isUsed || 0 <= CellAt(tb, node.lat, node.lon) < osmDataSections.Length) &&
        (r.Err? ==> r.error == CellOutOfRange(CellAt(tb, node.lat, node.lon))) &&
        (r.Ok? ==> id in UsedNodes(osmData.osmNodes))
    {
      var node := osmData.osmNodes[id];
      if node.isUsed {
        return Ok(());
      }
      var xy := tb.ReturnBucket(node.lat, node.lon);
      ghost var secs0 := osmDataSections[..];
      var c := GetSectionData(tb, xy.0, xy.1);
      if c.Err? {
        return Err(c.error);
      }
      var cell := c.value;
      AllocKeeps(secs0, cell);
      ghost var nodes1, ways1, secs1 := osmData.osmNodes, osmData.osmWays, osmDataSections[..];
      AddNodeTo(osmData, cell, id);
      GrewTracks(nodes1, ways1, secs1, osmData.osmNodes, osmData.osmWays, osmDataSections[..], cell);
      KeptTrans(secs0, secs1, osmDataSections[..]);
      r := Ok(());
    }

    /**
     * What the placement loops keep from their start `o` on: the index of the
     * ways, the record of flags, and only flags set and sections kept since.
     */
    ghost predicate Progress(osmData: OSMDataset, tb: Buckets, o: Origin)
      reads this, osmData, osmDataSections
    {
      Placing(osmData, tb) && MovedSince(osmData, o)
    }

    /** The invariant of the relation loop after `i` relations. */
    ghost predicate RelationsFiled(osmData: OSMDataset, tb: Buckets, o: Origin, i: int)
      reads this, osmData, osmDataSections
    {
      Progress(osmData, tb, o) && FiledUpTo(osmData.Snapshot(), osmDataSections[..], tb, i)
    }

    /** One turn of the relation loop. */
    method RelationStep(osmData: OSMDataset, tb: Buckets, ghost o: Origin, i: int) returns (r: Result<(), TaskError>)
      requires RelationsFiled(osmData, tb, o, i) && i < |osmData.relationOrder|
      requires MembersPresent(o.t)
      modifies osmData, osmDataSections
      ensures osmData.relationOrder == old(osmData.relationOrder) && osmData.osmRelations == old(osmData.osmRelations)
      ensures r.Ok? ==> RelationsFiled(osmData, tb, o, i + 1)
      ensures r.Err? ==> Progress(osmData, tb, o)
      ensures var rel := osmData.osmRelations[osmData.relationOrder[i]];
        r.Err? <==> !(0 <= CellAt(tb, rel.lat, rel.lon) < osmDataSections.Length)
      ensures var rel := osmData.osmRelations[osmData.relationOrder[i]];
        r.Err? ==> r.error == CellOutOfRange(CellAt(tb, rel.lat, rel.lon))
    {
      ghost var tI, secsI := osmData.Snapshot(), osmDataSections[..];
      MembersPresentMoved(o.t, o.secs, tI, secsI);
      var id := osmData.relationOrder[i];
      r := PlaceRelation(osmData, tb, id);
      MovedTrans(o.t, o.secs, tI, secsI, osmData.Snapshot(), osmDataSections[..]);
      if r.Ok? {
        FiledStep(tI, secsI, osmData.Snapshot(), osmDataSections[..], tb, i);
      }
    }

    /**
     * The relation loop of `WriteTasks`, in the dataset's enumeration order; on
     * an error, `i` is the relation whose cell lies outside the array.
     */
    method PlaceRelations(osmData: OSMDataset, tb: Buckets, ghost o: Origin) returns (r: Result<(), TaskError>, ghost i: int)
      requires RelationsFiled(osmData, tb, o, 0)
      requires MembersPresent(o.t)
      modifies osmData, osmDataSections
      ensures osmData.relationOrder == old(osmData.relationOrder) && osmData.osmRelations == old(osmData.osmRelations)
      ensures r.Ok? ==> i == |osmData.relationOrder| && RelationsFiled(osmData, tb, o, i)
      ensures r.Err? ==> Progress(osmData, tb, o) && 0 <= i < |osmData.relationOrder|
      ensures r.Err? ==> (var rel := osmData.osmRelations[osmData.relationOrder[i]];
        !(0 <= CellAt(tb, rel.lat, rel.lon) < osmDataSections.Length) && r.error == CellOutOfRange(CellAt(tb, rel.lat, rel.lon)))
    {
      var j := 0;
      while j < |osmData.relationOrder|
        invariant 0 <= j <= |osmData.relationOrder| && RelationsFiled(osmData, tb, o, j)
        invariant osmData.relationOrder == old(osmData.relationOrder) && osmData.osmRelations == old(osmData.osmRelations)
      {
        r := RelationStep(osmData, tb, o, j);
        if r.Err? {
          i := j;
          return;
        }
        j := j + 1;
      }
      i := j;
      r := Ok(());
    }

    /** The invariant of the way loop after `i` ways. */
    ghost predicate WaysPlaced(osmData: OSMDataset, tb: Buckets, o: Origin, i: int)
      reads this, osmData, osmDataSections
    {
      0 <= i <= |osmData.wayOrder| &&
      Placing(osmData, tb) && MovedSince(osmData, o) &&
      Placed(osmDataSections[..], RelationKind) == Placed(o.secs, RelationKind) &&
      forall w | w in osmData.wayOrder[..i] :: w in UsedWays(osmData.osmWays)
    }

    /** One turn of the way loop. */
    method WayStep(osmData: OSMDataset, tb: Buckets, ghost o: Origin, i: int) returns (r: Result<(), TaskError>)
      requires WaysPlaced(osmData, tb, o, i) && i < |osmData.wayOrder| && osmData.wayOrder[i] in osmData.osmWays
      modifies osmData, osmDataSections
      ensures osmData.wayOrder == old(osmData.wayOrder) && osmData.osmWays.Keys == old(osmData.osmWays).Keys
      ensures r.Ok? ==> WaysPlaced(osmData, tb, o, i + 1)
      ensures r.Err? ==> Progress(osmData, tb, o) && osmData.osmWays == old(osmData.osmWays)
      ensures var way := osmData.osmWays[osmData.wayOrder[i]];
        r.Err? ==> !way.isUsed && !(0 <= CellAt(tb, way.lat, way.lon) < osmDataSections.Length)
      ensures var way := old(osmData.osmWays[osmData.wayOrder[i]]);
        !way.isUsed && !(0 <= CellAt(tb, way.lat, way.lon) < osmDataSections.Length) ==> r.Err?
      ensures var way := osmData.osmWays[osmData.wayOrder[i]];
        r.Err? ==> r.error == CellOutOfRange(CellAt(tb, way.lat, way.lon))
    {
      ghost var tI, secsI := osmData.Snapshot(), osmDataSections[..];
      var id := osmData.wayOrder[i];
      r := PlaceWay(osmData, tb, id);
      MovedTrans(o.t, o.secs, tI, secsI, osmData.Snapshot(), osmDataSections[..]);
      if r.Ok? {
        FlaggedMonotone(tI.nodes, osmData.osmNodes, tI.ways, osmData.osmWays);
        PrefixInto(osmData.wayOrder, i, UsedWays(tI.ways), UsedWays(osmData.osmWays));
      }
    }

    /**
     * The way loop of `WriteTasks`: every way not yet placed, into its centre's
     * cell; on an error, `i` is the way whose cell lies outside the array.
     */
    method PlaceWays(osmData: OSMDataset, tb: Buckets, ghost o: Origin) returns (r: Result<(), TaskError>, ghost i: int)
      requires WaysPlaced(osmData, tb, o, 0) && Enumerates(osmData.wayOrder, osmData.osmWays)
      modifies osmData, osmDataSections
      ensures osmData.wayOrder == old(osmData.wayOrder) && osmData.osmWays.Keys == old(osmData.osmWays).Keys
      ensures r.Ok? ==> i == |osmData.wayOrder| && WaysPlaced(osmData, tb, o, i)
      ensures r.Err? ==> Progress(osmData, tb, o) && 0 <= i < |osmData.wayOrder|
      ensures r.Err? ==> (var way := osmData.osmWays[osmData.wayOrder[i]];
        !(0 <= CellAt(tb, way.lat, way.lon) < osmDataSections.Length) && r.error == CellOutOfRange(CellAt(tb, way.lat, way.lon)))
    {
      var j := 0;
      while j < |osmData.wayOrder|
        invariant 0 <= j <= |osmData.wayOrder| && WaysPlaced(osmData, tb, o, j)
        invariant osmData.wayOrder == old(osmData.wayOrder) && osmData.osmWays.Keys == old(osmData.osmWays).Keys
      {
        assert osmData.wayOrder[j] in old(osmData.osmWays);
        r := WayStep(osmData, tb, o, j);
        if r.Err? {
          i := j;
          return;
        }
        j := j + 1;
      }
      i := j;
      r := Ok(());
    }

    /** The invariant of the node loop after `i` nodes. */
    ghost predicate NodesPlaced(osmData: OSMDataset, tb: Buckets, o: Origin, i: int)
      reads this, osmData, osmDataSections
    {
      0 <= i <= |osmData.nodeOrder| &&
      Placing(osmData, tb) && MovedSince(osmData, o) &&
      Placed(osmDataSections[..], RelationKind) == Placed(o.secs, RelationKind) &&
      forall n | n in osmData.nodeOrder[..i] :: n in UsedNodes(osmData.osmNodes)
    }

    /** One turn of the node loop. */
    method NodeStep(osmData: OSMDataset, tb: Buckets, ghost o: Origin, i: int) returns (r: Result<(), TaskError>)
      requires NodesPlaced(osmData, tb, o, i) && i < |osmData.nodeOrder| && osmData.nodeOrder[i] in osmData.osmNodes
      modifies osmData, osmDataSections
      ensures osmData.nodeOrder == old(osmData.nodeOrder) && osmData.osmNodes.Keys == old(osmData.osmNodes).Keys
      ensures r.Ok? ==> NodesPlaced(osmData, tb, o, i + 1)
      ensures r.Err? ==> Progress(osmData, tb, o) && osmData.osmNodes == old(osmData.osmNodes)
      ensures var node := osmData.osmNodes[osmData.nodeOrder[i]];
        r.Err? ==> !node.isUsed && !(0 <= CellAt(tb, node.lat, node.lon) < osmDataSections.Length)
      ensures var node := old(osmData.osmNodes[osmData.nodeOrder[i]]);
        !node.isUsed && !(0 <= CellAt(tb, node.lat, node.lon) < osmDataSections.Length) ==> r.Err?
      ensures var node := osmData.osmNodes[osmData.nodeOrder[i]];
        r.Err? ==> r.error == CellOutOfRange(CellAt(tb, node.lat, node.lon))
    {
      ghost var tI, secsI := osmData.Snapshot(), osmDataSections[..];
      var id := osmData.nodeOrder[i];
      r := PlaceNode(osmData, tb, id);
      MovedTrans(o.t, o.secs, tI, secsI, osmData.Snapshot(), osmDataSections[..]);
      if r.Ok? {
        FlaggedMonotone(tI.nodes, osmData.osmNodes, tI.ways, osmData.osmWays);
        PrefixInto(osmData.nodeOrder, i, UsedNodes(tI.nodes), UsedNodes(osmData.osmNodes));
      }
    }

    /**
     * The node loop of `WriteTasks`: every node not yet placed, into the cell
     * of its position; on an error, `i` is the node whose cell lies outside the array.
     */
    method PlaceNodes(osmData: OSMDataset, tb: Buckets, ghost o: Origin) returns (r: Result<(), TaskError>, ghost i: int)
      requires NodesPlaced(osmData, tb, o, 0) && Enumerates(osmData.nodeOrder, osmData.osmNodes)
      modifies osmData, osmDataSections
      ensures osmData.nodeOrder == old(osmData.nodeOrder) && osmData.osmNodes.Keys == old(osmData.osmNodes).Keys
      ensures r.Ok? ==> i == |osmData.nodeOrder| && NodesPlaced(osmData, tb, o, i)
      ensures r.Err? ==> Progress(osmData, tb, o) && 0 <= i < |osmData.nodeOrder|
      ensures r.Err? ==> (var node := osmData.osmNodes[osmData.nodeOrder[i]];
        !(0 <= CellAt(tb, node.lat, node.lon) < osmDataSections.Length) && r.error == CellOutOfRange(CellAt(tb, node.lat, node.lon)))
    {
      var j := 0;
      while j < |osmData.nodeOrder|
        invariant 0 <= j <= |osmData.nodeOrder| && NodesPlaced(osmData, tb, o, j)
        invariant osmData.nodeOrder == old(osmData.nodeOrder) && osmData.osmNodes.Keys == old(osmData.osmNodes).Keys
      {
        assert osmData.nodeOrder[j] in old(osmData.osmNodes);
        r := NodeStep(osmData, tb, o, j);
        if r.Err? {
          i := j;
          return;
        }
        j := j + 1;
      }
      i := j;
      r := Ok(());
    }

    /** The relation loop from an empty array: every relation filed once, or a relation outside the grid. */
    method RelationPhase(osmData: OSMDataset, tb: Buckets) returns (r: Result<(), TaskError>)
      requires Placing(osmData, tb) && osmData.Valid()
      requires osmDataSections.Length == tb.NHorizontal * tb.NVertical
      requires Placed(osmDataSections[..], RelationKind) == multiset{}
      requires MembersPresent(osmData.Snapshot())
      modifies osmData, osmDataSections
      ensures Placing(osmData, tb) && MovedSince(osmData, old(Origin(osmData.Snapshot(), osmDataSections[..])))
      ensures r.Err? ==> r.error.CellOutOfRange? && r.error.cell < 0 && !InGrid(tb, old(osmData.Snapshot()))
      ensures r.Ok? ==> Placed(osmDataSections[..], RelationKind) == multiset(osmData.relationOrder)
      ensures r.Ok? ==> AllFiled(osmData.Snapshot(), osmDataSections[..], tb)
    {
      ghost var o := Origin(osmData.Snapshot(), osmDataSections[..]);
      assert osmData.relationOrder[..0] == [];
      ghost var i;
      r, i := PlaceRelations(osmData, tb, o);
      if r.Err? {
        RelationOutside(tb, o.t, osmData.relationOrder[i]);
        return;
      }
      FiledAll(osmData.Snapshot(), osmDataSections[..], tb);
    }

    /** The way loop: afterwards every way is flagged, or a way to place lies outside the grid. */
    method WayPhase(osmData: OSMDataset, tb: Buckets) returns (r: Result<(), TaskError>)
      requires Placing(osmData, tb) && Enumerates(osmData.wayOrder, osmData.osmWays)
      requires osmDataSections.Length == tb.NHorizontal * tb.NVertical
      modifies osmData, osmDataSections
      ensures Placing(osmData, tb) && MovedSince(osmData, old(Origin(osmData.Snapshot(), osmDataSections[..])))
      ensures r.Ok? ==> Placed(osmDataSections[..], RelationKind) == old(Placed(osmDataSections[..], RelationKind))
      ensures r.Err? ==> r.error.CellOutOfRange? && r.error.cell < 0 && !InGrid(tb, old(osmData.Snapshot()))
      ensures r.Ok? ==> UsedWays(osmData.osmWays) == osmData.osmWays.Keys
    {
      ghost var o := Origin(osmData.Snapshot(), osmDataSections[..]);
      ghost var i;
      r, i := PlaceWays(osmData, tb, o);
      if r.Err? {
        ghost var w := osmData.wayOrder[i];
        assert o.t.ways[w].lat == osmData.osmWays[w].lat && o.t.ways[w].lon == osmData.osmWays[w].lon;
        WayOutside(tb, o.t, w);
        return;
      }
      EnumeratedInto(osmData.wayOrder, o.t.ways, osmData.osmWays, UsedWays(osmData.osmWays));
    }

    /** The node loop: afterwards every node is flagged, or a node to place lies outside the grid. */
    method NodePhase(osmData: OSMDataset, tb: Buckets) returns (r: Result<(), TaskError>)
      requires Placing(osmData, tb) && Enumerates(osmData.nodeOrder, osmData.osmNodes)
      requires osmDataSections.Length == tb.NHorizontal * tb.NVertical
      modifies osmData, osmDataSections
      ensures Placing(osmData, tb) && MovedSince(osmData, old(Origin(osmData.Snapshot(), osmDataSections[..])))
      ensures r.Ok? ==> Placed(osmDataSections[..], RelationKind) == old(Placed(osmDataSections[..], RelationKind))
      ensures r.Err? ==> r.error.CellOutOfRange? && r.error.cell < 0 && !InGrid(tb, old(osmData.Snapshot()))
      ensures r.Ok? ==> UsedNodes(osmData.osmNodes) == osmData.osmNodes.Keys
    {
      ghost var o := Origin(osmData.Snapshot(), osmDataSections[..]);
      ghost var i;
      r, i := PlaceNodes(osmData, tb, o);
      if r.Err? {
        ghost var n := osmData.nodeOrder[i];
        assert o.t.nodes[n].lat == osmData.osmNodes[n].lat && o.t.nodes[n].lon == osmData.osmNodes[n].lon;
        NodeOutside(tb, o.t, n);
        return;
      }
      EnumeratedInto(osmData.nodeOrder, o.t.nodes, osmData.osmNodes, UsedNodes(osmData.osmNodes));
    }

    /**
     * The three placement loops of `WriteTasks`, from the state the reset and
     * `InitializeConnectedWays` leave: relations, then the ways not yet
     * placed, then the nodes not yet placed.
     */
    method PlaceAll(osmData: OSMDataset, tb: Buckets) returns (r: Result<(), TaskError>)
      requires Placing(osmData, tb) && osmData.Valid()
      requires osmDataSections.Length == tb.NHorizontal * tb.NVertical
      requires Placed(osmDataSections[..], RelationKind) == multiset{}
      requires MembersPresent(osmData.Snapshot())
      modifies osmData, osmDataSections
      ensures Placing(osmData, tb) && MovedSince(osmData, old(Origin(osmData.Snapshot(), osmDataSections[..])))
      ensures r.Err? ==> r.error.CellOutOfRange? && r.error.cell < 0 && !InGrid(tb, old(osmData.Snapshot()))
      ensures r.Ok? ==> UsedNodes(osmData.osmNodes) == osmData.osmNodes.Keys && UsedWays(osmData.osmWays) == osmData.osmWays.Keys
      ensures r.Ok? ==> Placed(osmDataSections[..], RelationKind) == multiset(osmData.relationOrder)
      ensures r.Ok? ==> AllFiled(osmData.Snapshot(), osmDataSections[..], tb)
    {
      ghost var o1 := Now(osmData);
      r := RelationPhase(osmData, tb);
      if r.Err? {
        return;
      }
      ghost var o2 := Now(osmData);
      assert osmData.wayOrder == o1.t.wayOrder && osmData.osmWays.Keys == o1.t.ways.Keys;
      assert osmData.nodeOrder == o1.t.nodeOrder && osmData.osmNodes.Keys == o1.t.nodes.Keys;
      r := WayAndNodePhases(osmData, tb);
      SinceTrans(o1, o2, Now(osmData));
      if r.Err? {
        InGridSince(tb, o1, o2);
        return;
      }
      AllFiledSince(tb, o2, Now(osmData));
    }

    /** The way loop, then the node loop, of `WriteTasks`. */
    method WayAndNodePhases(osmData: OSMDataset, tb: Buckets) returns (r: Result<(), TaskError>)
      requires Placing(osmData, tb)
      requires Enumerates(osmData.wayOrder, osmData.osmWays) && Enumerates(osmData.nodeOrder, osmData.osmNodes)
      requires osmDataSections.Length == tb.NHorizontal * tb.NVertical
      modifies osmData, osmDataSections
      ensures Placing(osmData, tb) && MovedSince(osmData, old(Origin(osmData.Snapshot(), osmDataSections[..])))
      ensures r.Ok? ==> Placed(osmDataSections[..], RelationKind) == old(Placed(osmDataSections[..], RelationKind))
      ensures r.Err? ==> r.error.CellOutOfRange? && r.error.cell < 0 && !InGrid(tb, old(osmData.Snapshot()))
      ensures r.Ok? ==> UsedNodes(osmData.osmNodes) == osmData.osmNodes.Keys && UsedWays(osmData.osmWays) == osmData.osmWays.Keys
    {
      ghost var o1 := Now(osmData);
      r := WayPhase(osmData, tb);
      if r.Err? {
        return;
      }
      ghost var o2 := Now(osmData);
      assert osmData.nodeOrder == o1.t.nodeOrder && osmData.osmNodes.Keys == o1.t.nodes.Keys;
      r := NodePhase(osmData, tb);
      SinceTrans(o1, o2, Now(osmData));
      if r.Err? {
        InGridSince(tb, o1, o2);
        return;
      }
      AllWaysStayUsed(o2.t.ways, osmData.osmWays);
    }

    /**
     * `WriteTasks` up to the writing of the files: the flags reset, one
     * unallocated slot per task cell, the index of the ways built, and every
     * relation, way and node placed in a section.
     */
    method WriteTasks(osmData: OSMDataset, tb: Buckets) returns (r: Result<(), TaskError>)
      requires osmData.Valid() && tb.Valid()
      requires forall id | id in osmData.osmRelations :: AllIn(osmData.osmRelations[id].ways, osmData.osmWays)
      modifies this, osmData
      ensures fresh(osmDataSections) && osmDataSections.Length == tb.NHorizontal * tb.NVertical
      ensures osmData.Valid() && SameShape(old(osmData.Snapshot()), osmData.Snapshot())
      ensures osmData.osmNodes.Keys == old(osmData.osmNodes).Keys && osmData.osmWays.Keys == old(osmData.osmWays).Keys
      ensures (r.Err? && r.error.NodeNotFound?) <==>
              !forall w | w in old(osmData.osmWays) :: AllIn(old(osmData.osmWays)[w].nodeList, old(osmData.osmNodes))
      ensures r.Err? && r.error.NodeNotFound? ==>
                r.error.wayId in old(osmData.osmWays) && r.error.nodeId !in old(osmData.osmNodes) &&
                r.error.nodeId in old(osmData.osmWays)[r.error.wayId].nodeList
      ensures r.Err? && r.error.CellOutOfRange? ==> r.error.cell < 0 && !InGrid(tb, old(osmData.Snapshot()))
      ensures ((forall w | w in old(osmData.osmWays) :: AllIn(old(osmData.osmWays)[w].nodeList, old(osmData.osmNodes))) &&
               InGrid(tb, old(osmData.Snapshot()))) ==> r.Ok?
      ensures r.Ok? ==> forall id | id in osmData.osmNodes :: osmData.osmNodes[id] == old(osmData.osmNodes)[id].(isUsed := true)
      ensures r.Ok? ==> forall id | id in osmData.osmWays :: osmData.osmWays[id] == old(osmData.osmWays)[id].(isUsed := true)
      ensures r.Ok? ==> Placed(osmDataSections[..], NodeKind) == multiset(osmData.osmNodes.Keys)
      ensures r.Ok? ==> Placed(osmDataSections[..], WayKind) == multiset(osmData.osmWays.Keys)
      ensures r.Ok? ==> Placed(osmDataSections[..], RelationKind) == multiset(osmData.relationOrder)
      ensures r.Ok? ==> forall id | id in osmData.osmRelations ::
                          Placed(osmDataSections[..], RelationKind)[id] == 1 && Filed(osmData.Snapshot(), osmDataSections[..], tb, id)
    {
      ghost var before := osmData.Snapshot();
      osmData.ResetUsedFlag();
      ghost var t0 := osmData.Snapshot();
      assert Cleared(before, t0);
      ClearedFacts(before, t0);
      assert MembersPresent(before);
      MulNonNegative(tb.NHorizontal, tb.NVertical);
      osmDataSections := new Option<Section>[tb.NHorizontal * tb.NVertical](_ => None);
      PlacedNone(osmDataSections[..], NodeKind);
      PlacedNone(osmDataSections[..], WayKind);
      PlacedNone(osmDataSections[..], RelationKind);
      r := InitializeConnectedWays(osmData);
      if r.Ok? {
        r := PlaceAll(osmData, tb);
        FlaggedValid(t0, osmData.Snapshot());
        InGridSame(tb, before, t0);
        if r.Ok? {
          AllNodesFlagged(before.nodes, t0.nodes, osmData.osmNodes);
          AllWaysFlagged(before.ways, t0.ways, osmData.osmWays);
          FiledOnce(osmData.Snapshot(), osmDataSections[..], tb);
        }
      }
    }
  }
}

=== FILE: trim_osm_data.dfy ===
/**
 * Pruning of a dataset before it is written out: nodes no way uses
 * (`RemoveOrphanNodes`), and entities nobody edited that no edited entity
 * needs (`RemoveUneditedData`).
 *
 * Both passes work by setting IsUsed flags and then removing what is left
 * unflagged; the flags they set stay set on what they keep. A way lists
 * node ids and a relation way ids; an id the dataset does not hold names
 * an object outside it, whose flag is not seen here.
 */
module Trimming {
  import opened OSMType
  import opened Datasets

  /** `WasEdited`: the entity carries the "action" attribute an editor adds. */
  predicate WasEdited(attrs: map<string, string>)
  {
    Action in attrs
  }

  /** The ids a list holds. */
  function ListSet(s: seq<int>): set<int>
  {
    set x | x in s
  }

  lemma ListSetSnoc(s: seq<int>, x: int)
    ensures ListSet(s + [x]) == ListSet(s) + {x}
  {
    assert forall y | y in s + [x] :: y in s || y == x;
  }

  /** One step of a loop that lists, in `order`, the ids in `keep`. */
  lemma SiftStep(keep: set<int>, order: seq<int>, i: nat, ids: seq<int>)
    requires i < |order| && ListSet(ids) == keep * ListSet(order[..i])
    ensures order[i] in keep ==> ListSet(ids + [order[i]]) == keep * ListSet(order[..i + 1])
    ensures order[i] !in keep ==> ListSet(ids) == keep * ListSet(order[..i + 1])
  {
    assert order[..i + 1] == order[..i] + [order[i]];
    ListSetSnoc(order[..i], order[i]);
    ListSetSnoc(ids, order[i]);
  }

  // ------------------------------------------------------------- references

  /** The nodes listed by those of the ways named in `ids` that `ways` holds. */
  function RefsOf(ways: map<int, Way>, ids: seq<int>): set<int>
  {
    if ids == [] then {}
    else
      var w := ids[|ids| - 1];
      RefsOf(ways, ids[..|ids| - 1]) + (if w in ways then ListSet(ways[w].nodeList) else {})
  }

  /** The ways listed by those of the relations named in `ids` that `rels` holds. */
  function MembersOf(rels: map<int, Relation>, ids: seq<int>): set<int>
  {
    if ids == [] then {}
    else
      var r := ids[|ids| - 1];
      MembersOf(rels, ids[..|ids| - 1]) + (if r in rels then ListSet(rels[r].ways) else {})
  }

  /** Some way of `ways` lists node `id`. */
  predicate Referenced(ways: map<int, Way>, id: int)
  {
    exists w | w in ways :: id in ways[w].nodeList
  }

  /** Some relation of `rels` lists way `id`. */
  predicate Member(rels: map<int, Relation>, id: int)
  {
    exists r | r in rels :: id in rels[r].ways
  }

  lemma {:induction false} RefsOfMember(ways: map<int, Way>, ids: seq<int>, x: int)
    ensures x in RefsOf(ways, ids) <==> exists k | 0 <= k < |ids| :: ids[k] in ways && x in ways[ids[k]].nodeList
  {
    if ids != [] {
      var init := ids[..|ids| - 1];
      RefsOfMember(ways, init, x);
      if exists k | 0 <= k < |init| :: init[k] in ways && x in ways[init[k]].nodeList {
        var k :| 0 <= k < |init| && init[k] in ways && x in ways[init[k]].nodeList;
        assert ids[k] == init[k];
      }
      if exists k | 0 <= k < |ids| :: ids[k] in ways && x in ways[ids[k]].nodeList {
        var k :| 0 <= k < |ids| && ids[k] in ways && x in ways[ids[k]].nodeList;
        if k < |init| { assert init[k] == ids[k]; }
      }
    }
  }

  /** Over every way of the dictionary, the nodes listed are those some way references. */
  lemma RefsOfAll(ways: map<int, Way>, order: seq<int>, x: int)
    requires Enumerates(order, ways)
    ensures x in RefsOf(ways, order) <==> Referenced(ways, x)
  {
    RefsOfMember(ways, order, x);
    if Referenced(ways, x) {
      var w :| w in ways && x in ways[w].nodeList;
      var k :| 0 <= k < |order| && order[k] == w;
    }
  }

  lemma {:induction false} MembersOfMember(rels: map<int, Relation>, ids: seq<int>, x: int)
    ensures x in MembersOf(rels, ids) <==> exists k | 0 <= k < |ids| :: ids[k] in rels && x in rels[ids[k]].ways
  {
    if ids != [] {
      var init := ids[..|ids| - 1];
      MembersOfMember(rels, init, x);
      if exists k | 0 <= k < |init| :: init[k] in rels && x in rels[init[k]].ways {
        var k :| 0 <= k < |init| && init[k] in rels && x in rels[init[k]].ways;
        assert ids[k] == init[k];
      }
      if exists k | 0 <= k < |ids| :: ids[k] in rels && x in rels[ids[k]].ways {
        var k :| 0 <= k < |ids| && ids[k] in rels && x in rels[ids[k]].ways;
        if k < |init| { assert init[k] == ids[k]; }
      }
    }
  }

  /** Over relations enumerated by `order` (and perhaps more), the ways listed are those some of them lists. */
  lemma MembersOfAll(rels: map<int, Relation>, order: seq<int>, x: int)
    requires forall id | id in rels :: id in order
    ensures x in MembersOf(rels, order) <==> Member(rels, x)
  {
    MembersOfMember(rels, order, x);
    if Member(rels, x) {
      var r :| r in rels && x in rels[r].ways;
      assert r in order;
      var k :| 0 <= k < |order| && order[k] == r;
      assert order[k] in rels && x in rels[order[k]].ways;
    }
    if x in MembersOf(rels, order) {
      var k :| 0 <= k < |order| && order[k] in rels && x in rels[order[k]].ways;
      var r := order[k];
      assert r in rels && x in rels[r].ways;
    }
  }

  // ------------------------------------------------------------------ flags

  /** IsUsed set on the nodes named in `ids`. */
  function MarkNodes(nodes: map<int, Node>, ids: set<int>): (r: map<int, Node>)
    ensures r.Keys == nodes.Keys
  {
    map id | id in nodes :: if id in ids then nodes[id].(isUsed := true) else nodes[id]
  }

  /** IsUsed set on the ways named in `ids`. */
  function MarkWays(ways: map<int, Way>, ids: set<int>): (r: map<int, Way>)
    ensures r.Keys == ways.Keys
  {
    map id | id in ways :: if id in ids then ways[id].(isUsed := true) else ways[id]
  }

  /** Flagging in two rounds flags the union, whatever the order. */
  lemma MarkNodesTwice(nodes: map<int, Node>, a: set<int>, b: set<int>)
    ensures MarkNodes(MarkNodes(nodes, a), b) == MarkNodes(nodes, a + b)
    ensures MarkNodes(nodes, {}) == nodes
  {
  }

  lemma MarkWaysTwice(ways: map<int, Way>, a: set<int>, b: set<int>)
    ensures MarkWays(MarkWays(ways, a), b) == MarkWays(ways, a + b)
    ensures MarkWays(ways, {}) == ways
  {
  }

  /** A flagged dictionary still stores each entity under its own id. */
  lemma MarkedValid(t: Tables, a: set<int>, b: set<int>)
    requires t.Valid()
    ensures t.(nodes := MarkNodes(t.nodes, a), ways := MarkWays(t.ways, b)).Valid()
  {
  }

  // -------------------------------------------------------- orphan nodes

  /** The nodes whose flag is still clear. */
  function Unused(nodes: map<int, Node>): set<int>
  {
    set id | id in nodes && !nodes[id].isUsed
  }

  /** `RemoveOrphanNodes`: flag the nodes of every way, then drop every node left unflagged. */
  function WithoutOrphans(t: Tables): Tables
  {
    var marked := MarkNodes(t.nodes, RefsOf(t.ways, t.wayOrder));
    WithoutNodes(t.(nodes := marked), Unused(marked))
  }

  /**
   * A node is kept exactly when a way references it or its flag was
   * already set on entry (the flags are not cleared first); a kept node
   * leaves flagged when a way references it, and is otherwise unchanged.
   * Ways and relations are not touched.
   */
  lemma OrphanSurvival(t: Tables, id: int)
    requires t.Valid() && id in t.nodes
    ensures var r := WithoutOrphans(t);
      (id in r.nodes <==> t.nodes[id].isUsed || Referenced(t.ways, id)) &&
      (id in r.nodes ==> r.nodes[id] == t.nodes[id].(isUsed := true)) &&
      r.ways == t.ways && r.relations == t.relations
  {
    RefsOfAll(t.ways, t.wayOrder, id);
  }

  /** After the orphan pass every node any way lists is still there, when it was there before. */
  lemma OrphansKeepLinks(t: Tables)
    requires t.Valid()
    ensures WithoutOrphans(t).Valid()
    ensures t.Linked() ==> WithoutOrphans(t).Linked()
  {
    var marked := MarkNodes(t.nodes, RefsOf(t.ways, t.wayOrder));
    MarkedValid(t, RefsOf(t.ways, t.wayOrder), {});
    assert MarkWays(t.ways, {}) == t.ways;
    WithoutNodesValid(t.(nodes := marked), Unused(marked));
    if t.Linked() {
      forall w, k | w in t.ways && 0 <= k < |t.ways[w].nodeList| ensures t.ways[w].nodeList[k] in WithoutOrphans(t).nodes {
        var x := t.ways[w].nodeList[k];
        RefsOfAll(t.ways, t.wayOrder, x);
      }
    }
  }

  // ------------------------------------------------------ unedited data

  /** The relations nobody edited. */
  function UneditedRelations(rels: map<int, Relation>): set<int>
  {
    set r | r in rels && !WasEdited(rels[r].attrs)
  }

  /** The ways neither flagged nor edited. */
  function DroppedWays(ways: map<int, Way>): set<int>
  {
    set w | w in ways && !ways[w].isUsed && !WasEdited(ways[w].attrs)
  }

  /** The nodes neither flagged nor edited. */
  function DroppedNodes(nodes: map<int, Node>): set<int>
  {
    set n | n in nodes && !nodes[n].isUsed && !WasEdited(nodes[n].attrs)
  }

  /** The first loop of `RemoveUneditedData`: the ways of every edited relation are flagged. */
  function WaysFlagged(t: Tables): map<int, Way>
  {
    MarkWays(t.ways, MembersOf(t.relations - UneditedRelations(t.relations), t.relationOrder))
  }

  /** The second loop: the nodes of every flagged or edited way are flagged. */
  function NodesFlagged(t: Tables): map<int, Node>
  {
    var ways := WaysFlagged(t);
    MarkNodes(t.nodes, RefsOf(ways - DroppedWays(ways), t.wayOrder))
  }

  /** `RemoveUneditedData`: the flags, then the removal of relations, ways and nodes in that order. */
  function WithoutUnedited(t: Tables): Tables
  {
    var ways := WaysFlagged(t);
    var nodes := NodesFlagged(t);
    var t1 := t.(ways := ways, nodes := nodes);
    WithoutNodes(WithoutWays(WithoutRelations(t1, UneditedRelations(t.relations)), DroppedWays(ways)), DroppedNodes(nodes))
  }

  /** A relation is kept exactly when it was edited; it is kept unchanged. */
  lemma RelationSurvival(t: Tables, id: int)
    requires id in t.relations
    ensures var r := WithoutUnedited(t);
      (id in r.relations <==> WasEdited(t.relations[id].attrs)) &&
      (id in r.relations ==> r.relations[id] == t.relations[id])
  {
  }

  /**
   * A way is kept exactly when an edited relation lists it, it was edited,
   * or its flag was already set; a kept way leaves flagged when an edited
   * relation lists it, and is otherwise unchanged.
   */
  lemma WaySurvival(t: Tables, id: int)
    requires t.Valid() && id in t.ways
    ensures var r := WithoutUnedited(t);
      var listed := Member(t.relations - UneditedRelations(t.relations), id);
      (id in r.ways <==> listed || WasEdited(t.ways[id].attrs) || t.ways[id].isUsed) &&
      (id in r.ways ==> r.ways[id] == if listed then t.ways[id].(isUsed := true) else t.ways[id])
  {
    MembersOfAll(t.relations - UneditedRelations(t.relations), t.relationOrder, id);
  }

  /**
   * A node is kept exactly when a kept way lists it, it was edited, or its
   * flag was already set.
   */
  lemma NodeSurvival(t: Tables, id: int)
    requires t.Valid() && id in t.nodes
    ensures var r := WithoutUnedited(t);
      id in r.nodes <==> Referenced(r.ways, id) || WasEdited(t.nodes[id].attrs) || t.nodes[id].isUsed
  {
    var ways := WaysFlagged(t);
    var kept := ways - DroppedWays(ways);
    RefsOfMember(kept, t.wayOrder, id);
    var r := WithoutUnedited(t);
    assert r.ways == kept;
    if Referenced(kept, id) {
      var w :| w in kept && id in kept[w].nodeList;
      var k :| 0 <= k < |t.wayOrder| && t.wayOrder[k] == w;
    }
  }

  /** After the pass every way any kept relation lists, and every node any kept way lists, is still there. */
  lemma UneditedKeepsLinks(t: Tables)
    requires t.Valid()
    ensures WithoutUnedited(t).Valid()
    ensures t.Linked() ==> WithoutUnedited(t).Linked()
  {
    var ways := WaysFlagged(t);
    var nodes := NodesFlagged(t);
    var t1 := t.(ways := ways, nodes := nodes);
    MarkedValid(t, RefsOf(ways - DroppedWays(ways), t.wayOrder),
                MembersOf(t.relations - UneditedRelations(t.relations), t.relationOrder));
    var t2 := WithoutRelations(t1, UneditedRelations(t.relations));
    var t3 := WithoutWays(t2, DroppedWays(ways));
    WithoutRelationsValid(t1, UneditedRelations(t.relations));
    WithoutWaysValid(t2, DroppedWays(ways));
    WithoutNodesValid(t3, DroppedNodes(nodes));
    var r := WithoutUnedited(t);
    if t.Linked() {
      forall w, k | w in r.ways && 0 <= k < |r.ways[w].nodeList| ensures r.ways[w].nodeList[k] in r.nodes {
        var x := r.ways[w].nodeList[k];
        assert x in t.nodes;
        var i :| 0 <= i < |t.wayOrder| && t.wayOrder[i] == w;
        RefsOfMember(ways - DroppedWays(ways), t.wayOrder, x);
      }
      forall rel, k | rel in r.relations && 0 <= k < |r.relations[rel].ways| ensures r.relations[rel].ways[k] in r.ways {
        var y := r.relations[rel].ways[k];
        assert y in t.ways;
        var i :| 0 <= i < |t.relationOrder| && t.relationOrder[i] == rel;
        MembersOfMember(t.relations - UneditedRelations(t.relations), t.relationOrder, y);
      }
    }
  }

  // -------------------------------------------------------- the passes

  /** Flags the listed nodes the dataset holds. */
  method FlagNodes(osmData: OSMDataset, refs: seq<int>)
    requires osmData.Valid()
    modifies osmData
    ensures osmData.Valid()
    ensures osmData.Snapshot() == old(osmData.Snapshot()).(nodes := MarkNodes(old(osmData.osmNodes), ListSet(refs)))
  {
    ghost var t0 := osmData.Snapshot();
    MarkNodesTwice(t0.nodes, {}, {});
    assert ListSet(refs[..0]) == {};
    var j := 0;
    while j < |refs|
      invariant 0 <= j <= |refs| && osmData.Valid()
      invariant osmData.Snapshot() == t0.(nodes := MarkNodes(t0.nodes, ListSet(refs[..j])))
    {
      var id := refs[j];
      assert refs[..j + 1] == refs[..j] + [id];
      ListSetSnoc(refs[..j], id);
      MarkNodesTwice(t0.nodes, ListSet(refs[..j]), {id});
      ghost var cur := osmData.osmNodes;
      if id in osmData.osmNodes {
        assert cur[id].id == id;
        osmData.UpdateNode(osmData.osmNodes[id].(isUsed := true));
        assert osmData.osmNodes == MarkNodes(cur, {id});
      } else {
        assert cur == MarkNodes(cur, {id});
      }
      j := j + 1;
    }
    assert refs[..j] == refs;
  }

  /** Flags the listed ways the dataset holds. */
  method FlagWays(osmData: OSMDataset, refs: seq<int>)
    requires osmData.Valid()
    modifies osmData
    ensures osmData.Valid()
    ensures osmData.Snapshot() == old(osmData.Snapshot()).(ways := MarkWays(old(osmData.osmWays), ListSet(refs)))
  {
    ghost var t0 := osmData.Snapshot();
    MarkWaysTwice(t0.ways, {}, {});
    assert ListSet(refs[..0]) == {};
    var j := 0;
    while j < |refs|
      invariant 0 <= j <= |refs| && osmData.Valid()
      invariant osmData.Snapshot() == t0.(ways := MarkWays(t0.ways, ListSet(refs[..j])))
    {
      var id := refs[j];
      assert refs[..j + 1] == refs[..j] + [id];
      ListSetSnoc(refs[..j], id);
      MarkWaysTwice(t0.ways, ListSet(refs[..j]), {id});
      ghost var cur := osmData.osmWays;
      if id in osmData.osmWays {
        assert cur[id].id == id;
        osmData.UpdateWay(osmData.osmWays[id].(isUsed := true));
        assert osmData.osmWays == MarkWays(cur, {id});
      } else {
        assert cur == MarkWays(cur, {id});
      }
      j := j + 1;
    }
    assert refs[..j] == refs;
  }

  /** The ids, in enumeration order, of the nodes whose flag is clear. */
  method CollectUnused(nodes: map<int, Node>, order: seq<int>) returns (ids: seq<int>)
    requires Enumerates(order, nodes)
    ensures ListSet(ids) == Unused(nodes)
  {
    ids := [];
    var i := 0;
    while i < |order|
      invariant 0 <= i <= |order|
      invariant ListSet(ids) == Unused(nodes) * ListSet(order[..i])
    {
      var id := order[i];
      SiftStep(Unused(nodes), order, i, ids);
      if !nodes[id].isUsed {
        ids := ids + [id];
      }
      i := i + 1;
    }
    assert order[..i] == order;
    assert forall id | id in nodes :: id in ListSet(order);
  }

  /** The ids, in enumeration order, of the nodes neither flagged nor edited. */
  method CollectDropped(nodes: map<int, Node>, order: seq<int>) returns (ids: seq<int>)
    requires Enumerates(order, nodes)
    ensures ListSet(ids) == DroppedNodes(nodes)
  {
    ids := [];
    var i := 0;
    while i < |order|
      invariant 0 <= i <= |order|
      invariant ListSet(ids) == DroppedNodes(nodes) * ListSet(order[..i])
    {
      var id := order[i];
      SiftStep(DroppedNodes(nodes), order, i, ids);
      if !nodes[id].isUsed && !WasEdited(nodes[id].attrs) {
        ids := ids + [id];
      }
      i := i + 1;
    }
    assert order[..i] == order;
    assert forall id | id in nodes :: id in ListSet(order);
  }

  method RemoveNodeIds(osmData: OSMDataset, ids: seq<int>)
    requires osmData.Valid()
    modifies osmData
    ensures osmData.Valid()
    ensures osmData.Snapshot() == WithoutNodes(old(osmData.Snapshot()), ListSet(ids))
  {
    ghost var t0 := osmData.Snapshot();
    WithoutNodesNothing(t0);
    assert ListSet(ids[..0]) == {};
    var i := 0;
    while i < |ids|
      invariant 0 <= i <= |ids| && osmData.Valid()
      invariant osmData.Snapshot() == WithoutNodes(t0, ListSet(ids[..i]))
    {
      assert ids[..i + 1] == ids[..i] + [ids[i]];
      ListSetSnoc(ids[..i], ids[i]);
      WithoutNodesTwice(t0, ListSet(ids[..i]), {ids[i]});
      osmData.RemoveNode(ids[i]);
      i := i + 1;
    }
    assert ids[..i] == ids;
  }

  method RemoveWayIds(osmData: OSMDataset, ids: seq<int>)
    requires osmData.Valid()
    modifies osmData
    ensures osmData.Valid()
    ensures osmData.Snapshot() == WithoutWays(old(osmData.Snapshot()), ListSet(ids))
  {
    ghost var t0 := osmData.Snapshot();
    WithoutWaysNothing(t0);
    assert ListSet(ids[..0]) == {};
    var i := 0;
    while i < |ids|
      invariant 0 <= i <= |ids| && osmData.Valid()
      invariant osmData.Snapshot() == WithoutWays(t0, ListSet(ids[..i]))
    {
      assert ids[..i + 1] == ids[..i] + [ids[i]];
      ListSetSnoc(ids[..i], ids[i]);
      WithoutWaysTwice(t0, ListSet(ids[..i]), {ids[i]});
      osmData.RemoveWay(ids[i]);
      i := i + 1;
    }
    assert ids[..i] == ids;
  }

  method RemoveRelationIds(osmData: OSMDataset, ids: seq<int>)
    requires osmData.Valid()
    modifies osmData
    ensures osmData.Valid()
    ensures osmData.Snapshot() == WithoutRelations(old(osmData.Snapshot()), ListSet(ids))
  {
    ghost var t0 := osmData.Snapshot();
    WithoutRelationsNothing(t0);
    assert ListSet(ids[..0]) == {};
    var i := 0;
    while i < |ids|
      invariant 0 <= i <= |ids| && osmData.Valid()
      invariant osmData.Snapshot() == WithoutRelations(t0, ListSet(ids[..i]))
    {
      assert ids[..i + 1] == ids[..i] + [ids[i]];
      ListSetSnoc(ids[..i], ids[i]);
      WithoutRelationsTwice(t0, ListSet(ids[..i]), {ids[i]});
      osmData.RemoveRelation(ids[i]);
      i := i + 1;
    }
    assert ids[..i] == ids;
  }

  /** The first loop of `RemoveOrphanNodes`: every way's nodes flagged, ways in order. */
  method FlagWayNodes(osmData: OSMDataset)
    requires osmData.Valid()
    modifies osmData
    ensures osmData.Valid()
    ensures osmData.Snapshot() ==
            old(osmData.Snapshot()).(nodes := MarkNodes(old(osmData.osmNodes), RefsOf(old(osmData.osmWays), old(osmData.wayOrder))))
  {
    ghost var t0 := osmData.Snapshot();
    MarkNodesTwice(t0.nodes, {}, {});
    var i := 0;
    while i < |osmData.wayOrder|
      invariant 0 <= i <= |osmData.wayOrder| && osmData.Valid() && osmData.wayOrder == t0.wayOrder
      invariant osmData.Snapshot() == t0.(nodes := MarkNodes(t0.nodes, RefsOf(t0.ways, t0.wayOrder[..i])))
    {
      var w := osmData.wayOrder[i];
      assert t0.wayOrder[..i + 1][..i] == t0.wayOrder[..i];
      MarkNodesTwice(t0.nodes, RefsOf(t0.ways, t0.wayOrder[..i]), ListSet(t0.ways[w].nodeList));
      FlagNodes(osmData, osmData.osmWays[w].nodeList);
      i := i + 1;
    }
    assert t0.wayOrder[..i] == t0.wayOrder;
  }

  /** `RemoveOrphanNodes`. */
  method RemoveOrphanNodes(osmData: OSMDataset)
    requires osmData.Valid()
    modifies osmData
    ensures osmData.Valid()
    ensures osmData.Snapshot() == WithoutOrphans(old(osmData.Snapshot()))
  {
    FlagWayNodes(osmData);
    var removeList := CollectUnused(osmData.osmNodes, osmData.nodeOrder);
    RemoveNodeIds(osmData, removeList);
  }

  /** The first loop of `RemoveUneditedData`: ways of edited relations flagged; the other relations listed. */
  method FlagRelationWays(osmData: OSMDataset) returns (relationRemoveList: seq<int>)
    requires osmData.Valid()
    modifies osmData
    ensures osmData.Valid()
    ensures osmData.Snapshot() == old(osmData.Snapshot()).(ways := WaysFlagged(old(osmData.Snapshot())))
    ensures ListSet(relationRemoveList) == UneditedRelations(old(osmData.osmRelations))
  {
    ghost var t0 := osmData.Snapshot();
    ghost var edited := t0.relations - UneditedRelations(t0.relations);
    MarkWaysTwice(t0.ways, {}, {});
    relationRemoveList := [];
    var i := 0;
    while i < |osmData.relationOrder|
      invariant 0 <= i <= |osmData.relationOrder| && osmData.Valid() && osmData.relationOrder == t0.relationOrder
      invariant osmData.Snapshot() == t0.(ways := MarkWays(t0.ways, MembersOf(edited, t0.relationOrder[..i])))
      invariant ListSet(relationRemoveList) == UneditedRelations(t0.relations) * ListSet(t0.relationOrder[..i])
    {
      var id := osmData.relationOrder[i];
      var relation := osmData.osmRelations[id];
      assert t0.relationOrder[..i + 1][..i] == t0.relationOrder[..i];
      SiftStep(UneditedRelations(t0.relations), t0.relationOrder, i, relationRemoveList);
      if WasEdited(relation.attrs) {
        assert id in edited;
        MarkWaysTwice(t0.ways, MembersOf(edited, t0.relationOrder[..i]), ListSet(relation.ways));
        FlagWays(osmData, relation.ways);
      } else {
        assert relation.id == id && id !in edited;
        relationRemoveList := relationRemoveList + [relation.id];
      }
      i := i + 1;
    }
    assert t0.relationOrder[..i] == t0.relationOrder;
    assert forall id | id in t0.relations :: id in ListSet(t0.relationOrder);
  }

  /** The second loop of `RemoveUneditedData`: nodes of flagged or edited ways flagged; the other ways listed. */
  method FlagKeptWayNodes(osmData: OSMDataset) returns (wayRemoveList: seq<int>)
    requires osmData.Valid()
    modifies osmData
    ensures osmData.Valid()
    ensures var t0 := old(osmData.Snapshot());
      osmData.Snapshot() == t0.(nodes := MarkNodes(t0.nodes, RefsOf(t0.ways - DroppedWays(t0.ways), t0.wayOrder)))
    ensures ListSet(wayRemoveList) == DroppedWays(old(osmData.osmWays))
  {
    ghost var t0 := osmData.Snapshot();
    ghost var kept := t0.ways - DroppedWays(t0.ways);
    MarkNodesTwice(t0.nodes, {}, {});
    wayRemoveList := [];
    var i := 0;
    while i < |osmData.wayOrder|
      invariant 0 <= i <= |osmData.wayOrder| && osmData.Valid() && osmData.wayOrder == t0.wayOrder
      invariant osmData.Snapshot() == t0.(nodes := MarkNodes(t0.nodes, RefsOf(kept, t0.wayOrder[..i])))
      invariant ListSet(wayRemoveList) == DroppedWays(t0.ways) * ListSet(t0.wayOrder[..i])
    {
      var id := osmData.wayOrder[i];
      var way := osmData.osmWays[id];
      assert t0.wayOrder[..i + 1][..i] == t0.wayOrder[..i];
      SiftStep(DroppedWays(t0.ways), t0.wayOrder, i, wayRemoveList);
      if way.isUsed || WasEdited(way.attrs) {
        assert id in kept;
        MarkNodesTwice(t0.nodes, RefsOf(kept, t0.wayOrder[..i]), ListSet(way.nodeList));
        FlagNodes(osmData, way.nodeList);
      } else {
        assert way.id == id && id !in kept;
        wayRemoveList := wayRemoveList + [way.id];
      }
      i := i + 1;
    }
    assert t0.wayOrder[..i] == t0.wayOrder;
    assert forall id | id in t0.ways :: id in ListSet(t0.wayOrder);
  }

  /** `RemoveUneditedData`. */
  method RemoveUneditedData(osmData: OSMDataset)
    requires osmData.Valid()
    modifies osmData
    ensures osmData.Valid()
    ensures osmData.Snapshot() == WithoutUnedited(old(osmData.Snapshot()))
  {
    var relationRemoveList := FlagRelationWays(osmData);
    var wayRemoveList := FlagKeptWayNodes(osmData);
    var nodeRemoveList := CollectDropped(osmData.osmNodes, osmData.nodeOrder);
    RemoveRelationIds(osmData, relationRemoveList);
    RemoveWayIds(osmData, wayRemoveList);
    RemoveNodeIds(osmData, nodeRemoveList);
  }
}

=== FILE: wrappers.dfy ===
/** Option and Result types standing in for C# nulls and exceptions. */
module Wrappers {

  datatype Option<T> = None | Some(value: T)
  {
    predicate IsSome() { Some? }
  }

  datatype Result<T, E> = Ok(value: T) | Err(error: E)
  {
    predicate IsOk() { Ok? }
  }
}
